=== FILE: README.md ===
# Nurse rostering by evolutionary search — a Dafny model of the engine

The engine searches for a shift roster: for every day of a scheduling period, which
employee works which shift type. A candidate roster (an *individual*) is a sequence of
day rosters, each a map from shift type to employee. Hard constraints decide
feasibility: on every day each planned shift type has exactly the demanded number of
distinct employees, and each employee holds the shift type's required skills. Soft
constraints from each employee's contract give a penalty, the *fitness*, where lower is
better. It covers the number of assignments, consecutive working and free days, and
working weekends. A generational loop evolves a *population* of feasible individuals:

1. construction heuristics build the initial individuals;
2. mating selection picks parents;
3. recombination makes children;
4. mutation swaps nurses and reverts when the result is infeasible;
5. environment selection cuts the enlarged population back.

The model covers:

- **Rosters and statistics.** Day rosters, the individual with its memoized fitness and
  per-employee statistic caches, and the scans behind those statistics: assignment
  counts, run lengths of working and free days, and the weekend scan with its three flags.
- **Constraints.** The feasibility check and the default fitness calculator.
- **Population.** Feasibility-gated insertion, benchmark and overall fitness, the stable
  sort by fitness, the best individual, and copies.
- **Operators.** Both construction heuristics, every mating selection (first half,
  good/bad pairing, the two tournaments, stochastic universal sampling,
  fitness-proportional selection), the three recombinations, the swapping-nurses
  mutation, and the environment selections. The environment selections are the three
  truncations and the two win-count tournaments.
- **The loop.** Its termination test with the 32-bit iteration counter, its step order,
  and initialisation.
- **Small utilities.** The time-unit numberings of Burke et al. (2001), time-unit
  interning, cover lookup, id lookups of the scheduling period, day-name parsing, the
  array helpers, and the per-employee counters of the constraint layer.

The model is functional. Individuals, populations and day rosters are immutable values.
An operation that changes an object in place returns the changed value, together with
what it returns in the engine. Maps are association lists of `Entry` values in insertion
order.

An exception becomes a `Failure` of `Wrappers.Result`, whose error kind names the Java
exception: an infeasible individual, a null dereference, an index out of range, a
`nextInt` bound that is not positive, a parse failure, or a division by zero.

Random numbers are a supplied stream of draws. A retry loop that needs more draws than
the stream holds ends in `DrawsExhausted`, which stands for a loop that keeps drawing.
`RandomDraws.DrawsBelow` states that each draw is a value the generator can return.

Services whose code is not part of this model are arbitrary functions in
`Collaborators.Env`, and every property holds whatever they compute:

- the skill check;
- the night-shift test;
- the two weekend tests;
- the period's demanded counts and covers by date;
- the calendar helpers: number of days, date by number, list of dates and weekday of a date;
- `resetRosters`.

Some behaviours of the code are easy to miss; the model keeps each of them as written:

- **Tournament direction.** `TournamentSelectionOperator` (in
  `TournamentMatingSelection.java`) keeps the challenger with the lower fitness.
  `TournamentSelection` keeps the one with the higher fitness. Both win-count
  tournaments score a win for a strictly greater fitness.
- **Fitness sign.** The maximum penalties for consecutive days are measured against the
  contract's minimum target, and the assignment-count attributes serve as targets. A
  penalty can therefore be negative (`Fitness.ConsecutiveDeviation`).
- **Run lengths.** A run of k working or free days counts as k - 1. A run still open on
  the last day is never recorded (`Runs`).
- **Pairwise-win tournaments.** The picks are made from partial scores inside the
  scoring loop, so an individual that has not fought yet can be picked
  (`DuelSelection`). An enemy index can be one past the pool.
- **Sampling.** The fitness-proportional selection adds pool[i] once per step of its
  scan, so the number of parents depends on the draws and not on numberOfParents
  (`Sampling`).
- **Feasibility.** Only the shift types that appear on a day are checked. A shift type
  with positive demand that no day roster mentions is never checked (`Feasibility`).
- **Cache invalidation.** `addDayRoster` clears none of the statistic caches.
- **Sequential recombination.** Its second loop writes into the first child, so the
  crossover is lost (`Recombination.SequentialChildIsParent`).

## Model

| member | source | states |
|---|---|---|
| ArrayHelper.Contains | src/helper/ArrayHelper.java:32-40 | true exactly when some element equals the needle |
| ArrayHelper.Reversed | src/helper/ArrayHelper.java:47-55 | the reversal: same length, element i is the element at the mirrored position |
| ArrayHelper.ReversedInvolutive | src/helper/ArrayHelper.java:47-55 | reversing twice gives the original sequence back |
| ArrayHelper.Reverse | src/helper/ArrayHelper.java:47-55 | the in-place swap loop returns the same array, now holding the mirror image of its old contents |
| ArrayHelper.JoinedSnoc | src/helper/ArrayHelper.java:63-74 | appending one more item to the joined string adds exactly one separator and the item |
| ArrayHelper.JoinedLength | src/helper/ArrayHelper.java:63-74 | the joined string is as long as all items plus one separator between each neighbouring pair |
| ArrayHelper.GetString | src/helper/ArrayHelper.java:63-74 | the StringBuilder loop produces the items joined by the separator, with no separator before the first; no items give the empty string |
| Covers.AddCover | src/model/schedule/Cover.java:44-46 | after the put the shift type maps to the new count, every other shift type keeps its count, the weekday is unchanged and distinct keys stay distinct |
| Covers.GetPreferredEmployeeCount | src/model/schedule/Cover.java:75-83 | the count the cover holds for the shift type when the date falls on the cover's weekday, and null (None) on any other weekday or for a shift type not covered |
| Covers.Scan | src/model/schedule/Cover.java:76-82 | the loop returns the count of the first entry for the shift type when the weekday matches, and null otherwise, also when no entry is for it |
| Covers.AddThenGet | src/model/schedule/Cover.java:44-83 | a count just added is read back for any date on the cover's weekday |
| TimeUnits.AddEmployee | src/model/schedule/TimeUnit.java:86-90 | the employee is afterwards in the unit; membership grows by exactly that employee, existing order is kept, at most one element is added and a duplicate-free list stays duplicate-free |
| TimeUnits.AddEmployeeIdempotent | src/model/schedule/TimeUnit.java:86-90 | adding the same employee twice is adding it once |
| TimeUnits.Find | src/model/schedule/TimeUnit.java:99-104 | the index of the first registered unit with the date and shift type, or none exactly when no unit matches |
| TimeUnits.GetTimeUnit | src/model/schedule/TimeUnit.java:98-110 | returns a unit with the requested date and shift type: the first matching one with the registry unchanged, or, when none matches, a new empty unit appended at the end |
| TimeUnits.GetTimeUnitInterns | src/model/schedule/TimeUnit.java:98-110 | asking again with the same date and shift type returns the same unit and leaves the registry as it is |
| TimeUnits.GetTimeUnitKeepsInterned | src/model/schedule/TimeUnit.java:98-110 | a registry with no two units for the same date and shift type keeps that property |
| DayRosters.PlannedIn | src/model/schedule/DayRoster.java:65-71 | the loop over the map's values finds the employee exactly when some slot holds them |
| DayRosters.IsEmployeePlanned | src/model/schedule/DayRoster.java:64-72 | true exactly when the employee is on duty for some shift type that day |
| DayRosters.AddToDayRoster | src/model/schedule/DayRoster.java:121-123 | Map.put: the shift type now holds the employee, every other shift type is unchanged, the key set grows by that shift type only, and distinct keys stay distinct |
| DayRosters.AllSkilled | src/model/schedule/DayRoster.java:88-96 | true exactly when every slot's employee has the skills for the slot's shift type |
| DayRosters.IsDemandedShiftAssignedToNurse | src/model/schedule/DayRoster.java:87-99 | true exactly when every assigned employee has the skills for their shift type; an empty day passes |
| DayRosters.PutAllFresh | src/model/schedule/DayRoster.java:30-37 | putting entries with distinct keys into a map one by one yields exactly those entries in order |
| DayRosters.PutAllKeys | src/model/schedule/DayRoster.java:30-37 | the copy loop's key set is the union of both key sets and has no duplicate key |
| DayRosters.PutAll | src/model/schedule/DayRoster.java:30-37 | after the copy loop each shift type holds the employee of the last entry for it, and a shift type no entry mentions keeps what it held before |
| DayRosters.Copy | src/model/schedule/DayRoster.java:25-41 | the copy has the same date and the same shift types, one employee each, and reproduces a roster with distinct shift types exactly |
| DayRosters.ShiftTypeOf | src/model/ea/Individual.java:387-388 | the shift type of the first slot holding the employee, or none exactly when the employee is free that day |
| DayRosters.FirstHolder | src/model/schedule/DayRoster.java:64-72 | none exactly when no slot holds the employee; otherwise the key of the first slot that does |
| DayHelper.Trim | src/helper/DayHelper.java:38 | String.trim: the result is one contiguous piece of the input, and everything cut from either end is a character at or below the space; when non-empty it starts and ends above the space |
| DayHelper.TrimStart | src/helper/DayHelper.java:38 | a suffix of the input, empty or starting above the space, and every character cut from the front is at or below the space |
| DayHelper.TrimEnd | src/helper/DayHelper.java:38 | a prefix of the input, empty or ending above the space, and every character cut from the back is at or below the space |
| DayHelper.ToLower | src/helper/DayHelper.java:38 | same length, each character lowered on its own (ASCII letters only) |
| DayHelper.TrimKeeps | src/helper/DayHelper.java:38 | a string with no surrounding blanks is left as it is by trim |
| DayHelper.LowerOfCapital | src/helper/DayHelper.java:38-51 | lowering a capitalised day name gives the lower-case name the parser compares with |
| DayHelper.LowerOfWord | src/helper/DayHelper.java:38-51 | a word whose first letter lowers to the target's first letter and whose remaining lower-case letters match lowers to the target |
| DayHelper.FirstNamed | src/helper/DayHelper.java:38-54 | the first day whose lower-case name equals the key, or none exactly when no day's name equals it |
| DayHelper.GetDayByName | src/helper/DayHelper.java:37-55 | a day whose lower-case name equals the trimmed, lowered input; a ParseException (ParseFailure) exactly when no day's name matches |
| DayHelper.LowerNamesDistinct | src/helper/DayHelper.java:38-51 | no two days share a lower-case name, so the branch taken is determined by the input |
| DayHelper.ParsesCapitalName | src/helper/DayHelper.java:37-55 | parsing a capitalised day name gives that day back |
| DayHelper.ParsesName | src/helper/DayHelper.java:37-55 | any string that trims and lowers to a day's name parses to that day |
| DayHelper.AllDaysComplete | src/helper/DayHelper.java:62-94 | every day appears in the Monday-to-Sunday list at its ordinal |
| DayHelper.NamedIn | src/helper/DayHelper.java:65-91 | keeps exactly the listed days whose capitalised name occurs in the string, drawn from the list |
| DayHelper.NamedInOrdered | src/helper/DayHelper.java:65-91 | the days kept from an ordered list stay in the same order |
| DayHelper.GetDayListFromString | src/helper/DayHelper.java:62-94 | a day is in the list exactly when its capitalised name occurs as a substring; the list runs Monday to Sunday without repetition |
| SchedulingPeriod.FirstIndex | src/model/SchedulingPeriod.java:77-115 | the first position satisfying the test, or none exactly when no position does |
| SchedulingPeriod.GetContractById | src/model/SchedulingPeriod.java:77-85 | the first contract with the id, or null (None) exactly when no contract has it |
| SchedulingPeriod.GetShiftTypeById | src/model/SchedulingPeriod.java:92-100 | the first shift type with the id, or null (None) exactly when no shift type has it |
| SchedulingPeriod.FindEmployee | src/model/SchedulingPeriod.java:108-114 | the first employee with the number, or none exactly when none has it |
| SchedulingPeriod.ParseInt | src/model/SchedulingPeriod.java:109 | Integer.parseInt on ASCII input: it succeeds exactly on a numeral (an optional sign and at least one digit) whose value lies in the 32-bit range, and then returns that value; every other string, the empty one included, is a NumberFormatException (ParseFailure) |
| SchedulingPeriod.ParseIntDigits | src/model/SchedulingPeriod.java:109 | no sign, a plus or a minus followed by one to nine decimal digits always parses, to the signed decimal value |
| SchedulingPeriod.SignedNumeral | src/model/SchedulingPeriod.java:109 | a sign and at least one digit form a numeral whose value is the digits' value, negated exactly for a minus |
| SchedulingPeriod.ParsedNumeral | src/model/SchedulingPeriod.java:109 | every numeral inside the 32-bit range parses to its value |
| SchedulingPeriod.Digits | src/model/SchedulingPeriod.java:109 | the decimal digits of a natural number: never empty and all ASCII digits |
| SchedulingPeriod.Render | src/model/SchedulingPeriod.java:109 | the decimal rendering of an int is always a numeral |
| SchedulingPeriod.DigitsValueOf | src/model/SchedulingPeriod.java:109 | the digits of n denote n |
| SchedulingPeriod.ParseRendered | src/model/SchedulingPeriod.java:109 | parsing the rendering of any 32-bit int gives that int back |
| SchedulingPeriod.GetEmployeeById | src/model/SchedulingPeriod.java:107-115 | with employees present it fails exactly when the id does not parse, and otherwise returns the first employee whose id equals the parsed number, or none when no employee has it; the string is parsed inside the loop, so an empty list gives null even for a malformed id |
| SchedulingPeriod.LookupByNumber | src/model/SchedulingPeriod.java:107-115 | the lookup of the decimal rendering of a number n is the search for the first employee numbered n (none for an empty list) |
| SchedulingPeriod.AddEmployee | src/model/SchedulingPeriod.java:121-123 | appends the employee at the end; the other employees and every other field are unchanged |
| SchedulingPeriod.AddShiftType | src/model/SchedulingPeriod.java:129-131 | appends the shift type at the end; the other shift types and every other field are unchanged |
| SchedulingPeriod.AddedEmployeeFound | src/model/SchedulingPeriod.java:107-123 | an employee added with a new id is found by that id |
| Numbering.NumberAppends | src/model/schedule/Numbering.java:79-90 | looking up a time unit that is not registered yet registers it at the end and appends exactly one row, under the new unit's index, to each of the four numberings |
| Numbering.InnerStep | src/model/schedule/Numbering.java:78-91 | one pass of the inner loop over distinct dates and shift types turns the numbering built so far into the one that also holds unit (date d, shift type s) |
| Numbering.AdvanceAt | src/model/schedule/Numbering.java:81-87 | after a shift type the assignment value has advanced by one, and the night value by one exactly for a night shift |
| Numbering.NextDateAt | src/model/schedule/Numbering.java:94-97 | after a date the day value has advanced by one, and the weekend value by one exactly for a weekend date |
| Numbering.InnerRows | src/model/schedule/Numbering.java:78-91 | the inner loop for one date numbers every shift type of that date, in order, and leaves the counters at the start of the next date |
| Numbering.OuterRows | src/model/schedule/Numbering.java:77-98 | the outer loop from any date on numbers every remaining date |
| Numbering.Number | src/model/schedule/Numbering.java:79-90 | the unit for the date and shift type is looked up or appended (the registry grows by at most one, at its end); that unit then carries the four current values, and every other unit keeps its values in all four numberings |
| Numbering.SetupShiftTypes | src/model/schedule/Numbering.java:78-91 | after the inner loop every shift type of the period has a unit for the date, and the registry has only grown at its end |
| Numbering.ShiftTypesCounters | src/model/schedule/Numbering.java:78-91 | the inner loop advances the assignment value once per shift type and the night value once per night shift type, and leaves the day and weekend values alone |
| Numbering.SetupDates | src/model/schedule/Numbering.java:77-98 | after the outer loop every pair of a listed date and a shift type has a unit, and the registry has only grown at its end |
| Numbering.SetupNumberings | src/model/schedule/Numbering.java:72-99 | every (date, shift type) pair of the period is registered, and units registered before keep their place |
| Numbering.FreshRows | src/model/schedule/Numbering.java:72-99 | setupNumberings from an empty registry produces the numbering defined position by position |
| Numbering.NightNumberValue | src/model/schedule/Numbering.java:87 | a night unit's number counts the night units before it: all night shift types of the earlier dates and those before it on its own date; other units are undefined |
| Numbering.FreshNumberings | src/model/schedule/Numbering.java:72-99 | over distinct dates and shift types, unit (date d, shift type s) is registered at k = d*S + s with assignment number k, day number d, the night number above (defined only for night shifts) and the number of weekend dates before d as weekend number (defined only on weekend dates); there are exactly dates*S units |
| Numbering.SameDateSameValues | src/model/schedule/Numbering.java:83-90 | all shift types of one date share its day number and its weekend number |
| Counters.Nulls | src/model/ea/constraints/Counter.java:82-88 | a freshly allocated Integer array: n cells, all null |
| Counters.Write | src/model/ea/constraints/Counter.java:99-118 | writing cell t after the first t cells extends the described counter by exactly that cell |
| Counters.CalculatePerEmployee | src/model/ea/constraints/Counter.java:73-123 | with the event bookkeeping commented out, the counter has days*shift-type cells, the first roster-days*shift-types of them holding their own number and zero last, total and consecutive counts, all events and per-time-unit tables null; an ArrayIndexOutOfBoundsException (OutOfRange) exactly when the roster has more days than the period and there is a shift type |
| Counters.Calculate | src/model/ea/constraints/Counter.java:55-64 | one such counter per employee of the period, in order, and the same out-of-range failure whenever there is an employee |
| Individuals.SetSchedulingPeriod | src/model/ea/Individual.java:191-193 | the individual now has the period; nothing else changes |
| Individuals.IsFeasible | src/model/ea/Individual.java:126-172 | with a period, true exactly when every day passes the hard constraints; without a period, true exactly when no day has a slot (a day with a slot dereferences the null period); the only exception is NullPointerException, and it cannot occur when the period and every needed demanded count exist |
| Individuals.GetFitness | src/model/ea/Individual.java:178-185 | a cached fitness is returned without consulting the calculator; otherwise the calculator's value is returned and cached; only an uncached individual without a period fails, with NullPointerException |
| Individuals.GetFitnessMemo | src/model/ea/Individual.java:178-185 | the fitness is computed at most once: a second call returns the first value and changes nothing |
| Individuals.Copy | src/model/ea/Individual.java:199-210 | the copy keeps period and cached fitness, copies every day roster in order (same date and shift types, identical for well-formed days) and starts with every statistic cache empty |
| Individuals.AddDayRoster | src/model/ea/Individual.java:217-219 | appends the day; nothing else changes, so no cache and not even the fitness is cleared |
| Individuals.PlannedFlags | src/model/ea/Individual.java:258-260 | per day, in order, whether the employee is planned on it |
| Individuals.CountAssignments | src/model/ea/Individual.java:233-238 | the number of days on which the employee is planned, between 0 and the number of days |
| Individuals.AssignmentsFor | src/model/ea/Individual.java:257-260 | the LinkedHashMap of getAssignments: every day roster in order, paired with whether the employee is planned on it |
| Individuals.Flags | src/model/ea/Individual.java:277-278 | the worked flags of an assignment map, in its order |
| Individuals.GetNumAssignments | src/model/ea/Individual.java:226-242 | returns the cached count when there is one, else the count over the roster; afterwards that value is cached for the employee and every other cache entry is as before |
| Individuals.GetAssignments | src/model/ea/Individual.java:250-265 | returns the cached map when there is one, else the map built from the roster; afterwards it is cached for the employee and every other cache entry is as before |
| Individuals.GetNumConsecutiveDays | src/model/ea/Individual.java:330-347 | returns the cached run statistic the (max, free) pair selects, after calculateConsecutiveDays has filled all four run caches from getAssignments' map when they were empty; a cached employee leaves the individual untouched and other employees' entries never change |
| Individuals.OptionNamed | src/model/ea/Individual.java:423-430 | a key found in the option table names an option whose key is that string |
| Individuals.OptionNamesRoundTrip | src/model/ea/Individual.java:423-430 | each of the six options is found under its own key |
| Individuals.GetWeekendInformation | src/model/ea/Individual.java:436-446 | returns the cached weekend value the option selects, after calculateWeekends has filled all six weekend caches from getAssignments' map when they were empty; a cached employee leaves the individual untouched and other employees' entries never change |
| Individuals.FreshObserved | src/model/ea/Individual.java:226-446 | when every cached value is the one the current roster gives, each getter reports the statistic of the roster itself |
| Individuals.GettersKeepObserved | src/model/ea/Individual.java:226-446 | no getter call changes what any getter would report for any employee |
| Individuals.AssignmentsKeepObserved | src/model/ea/Individual.java:250-265 | caching the assignment map changes no getter's answer |
| Individuals.ConsecutiveKeepsObserved | src/model/ea/Individual.java:330-347 | filling the run caches changes no getter's answer |
| Individuals.WeekendsKeepObserved | src/model/ea/Individual.java:436-446 | filling the weekend caches changes no getter's answer |
| Individuals.GettersKeepFresh | src/model/ea/Individual.java:226-446 | getter calls keep every cached value equal to the one the roster gives |
| Individuals.NumKeepsFresh | src/model/ea/Individual.java:226-242 | getNumAssignments keeps the caches truthful |
| Individuals.AssignmentsKeepFresh | src/model/ea/Individual.java:250-265 | getAssignments keeps the caches truthful |
| Individuals.ConsecutiveKeepsFresh | src/model/ea/Individual.java:330-347 | getNumConsecutiveDays keeps the caches truthful |
| Individuals.CacheConsecutive | src/model/ea/Individual.java:317-320 | storing the runs computed from the roster keeps the caches truthful |
| Individuals.WeekendsKeepFresh | src/model/ea/Individual.java:436-446 | getWeekendInformation keeps the caches truthful |
| Individuals.CacheWeekends | src/model/ea/Individual.java:412-417 | storing the weekend summary computed from the roster keeps the caches truthful |
| Individuals.GettersUndisturbed | src/model/ea/Individual.java:226-446 | every getter touches only the caches: roster, period and fitness are kept, every answer stays the same and truthful caches stay truthful |
| Individuals.NumAssignmentsUndisturbed | src/model/ea/Individual.java:226-242 | getNumAssignments touches only the caches and changes no answer |
| Individuals.ConsecutiveUndisturbed | src/model/ea/Individual.java:330-347 | getNumConsecutiveDays touches only the caches and changes no answer |
| Individuals.WeekendUndisturbed | src/model/ea/Individual.java:436-446 | getWeekendInformation touches only the caches and changes no answer |
| Individuals.UndisturbedTrans | src/model/ea/Individual.java:226-446 | a sequence of getter calls touches only the caches |
| Individuals.GettersIdempotent | src/model/ea/Individual.java:226-446 | asking the same getter twice gives the same answer, and the second call leaves the individual as the first left it |
| Individuals.FreshConsecutive | src/model/ea/Individual.java:271-347 | with truthful caches, getNumConsecutiveDays reports the smallest or largest flushed work or free streak of the employee's planned days |
| Individuals.FreshWeekends | src/model/ea/Individual.java:353-446 | with truthful caches, getWeekendInformation reports the summary of the employee's weekend days |
| Individuals.CopyIsFresh | src/model/ea/Individual.java:199-210 | a copy starts with empty caches, so all its getters are truthful |
| Individuals.CountAppend | src/model/ea/Individual.java:233-238 | appending a day adds one assignment exactly when the employee is planned on it |
| Individuals.PlannedDaysAppend | src/model/ea/Individual.java:233-238 | the planned days of an extended roster are the old ones plus the new day when the employee is on it |
| Individuals.StaleCountAfterAdd | src/model/ea/Individual.java:217-242 | since addDayRoster clears no cache, once a count is cached, adding a day on which the employee is planned leaves getNumAssignments one short |
| Individuals.AddWithoutCachesIsFresh | src/model/ea/Individual.java:217-219 | with nothing cached, adding a day keeps every getter truthful |
| Runs.Advance | src/model/ea/Individual.java:278-314 | one day of the scan for one kind: a day of the kind never lowers the open counter and records nothing; a day of the other kind resets the counter, never lowers the maximum and makes it at least the counter, and a positive counter puts the minimum between 1 and that counter |
| Runs.ScanTo | src/model/ea/Individual.java:277-315 | after n days every counter lies between 0 and n, and the yesterday flag holds exactly when the last day scanned was of the kind |
| Runs.RunBefore | src/model/ea/Individual.java:271-321 | the length of the streak of one kind ending just before a position, never more than the position |
| Runs.ScanDescribes | src/model/ea/Individual.java:277-315 | after any number of days the scan state means: the current counter is the open streak less one, and the recorded minimum and maximum are the smallest positive and the largest value flushed so far |
| Runs.ExtendDescribes | src/model/ea/Individual.java:280-282 | a day of the same kind as yesterday extends the open streak by one and records nothing |
| Runs.FlushDescribes | src/model/ea/Individual.java:285-293 | a day of the other kind records the open streak (less one) as candidate minimum and maximum and resets the counter |
| Runs.ScanPrefix | src/model/ea/Individual.java:277-315 | the scan up to a day depends only on the days before it |
| Runs.CalculateConsecutiveDays | src/model/ea/Individual.java:271-321 | the four results are the smallest positive and the largest flushed work streak and free streak, each 0 when there is none; min <= max; a roster of only work days, or of only free days, records 0 for that kind |
| Runs.StreakContributes | src/model/ea/Individual.java:278-314 | a streak of k days followed by a day of the other kind is flushed with value k - 1 |
| Runs.RunLength | src/model/ea/Individual.java:278-314 | a streak of k days that starts after a day of the other kind has length k |
| Runs.TrailingWorkIgnored | src/model/ea/Individual.java:277-320 | a working streak still open at the last day is never recorded: appending a work day changes neither work result |
| Runs.TrailingFreeIgnored | src/model/ea/Individual.java:277-320 | a free streak still open at the last day is never recorded: appending a free day changes neither free result |
| Runs.CountTrue | src/model/ea/Individual.java:233-238 | the number of set flags among the first n, at most n |
| Runs.CountIsCardinality | src/model/ea/Individual.java:233-238 | the counting loop yields the number of positions whose flag is set |
| Weekends.WeekendStep | src/model/ea/Individual.java:374-409 | one weekend day: the streak takes the run step on the worked flag, a worked day adds one to the total, the complete flag survives only worked days, the two flags are only ever cleared, and a remembered shift type stays |
| Weekends.ScanDays | src/model/ea/Individual.java:374-409 | after n weekend days the total lies between 0 and n, the complete flag holds exactly when all n were worked, and both flags still hold while no shift type is remembered |
| Weekends.WeekendDaysUpTo | src/model/ea/Individual.java:365-372 | the weekend days (under the employee's contract) among the first n cache entries, at most n of them |
| Weekends.ScanDaysPrefix | src/model/ea/Individual.java:365-410 | appending a weekend day does not change the scan of the days before it |
| Weekends.EntriesAreWeekendDays | src/model/ea/Individual.java:365-410 | skipping the non-weekend days with continue is the same as scanning the weekend days alone |
| Weekends.WorkedFlags | src/model/ea/Individual.java:367 | the worked flag of each weekend day, in order |
| Weekends.AnchorUnique | src/model/ea/Individual.java:386-391 | there is at most one first worked weekend day with a known shift type |
| Weekends.LastShiftOfDays | src/model/ea/Individual.java:386-391 | the remembered shift type is set once, by the first worked weekend day whose shift type is known, and is never changed afterwards |
| Weekends.AnchorStep | src/model/ea/Individual.java:386-391 | a day before the end is the anchor of a longer prefix exactly when it is the anchor of the shorter one |
| Weekends.AnchorShift | src/model/ea/Individual.java:386-391 | the remembered shift type is the anchor day's shift type |
| Weekends.BreaksStep | src/model/ea/Individual.java:386-391 | a worked day on another shift type than the anchor's is a break; other days add none |
| Weekends.NightStep | src/model/ea/Individual.java:401-404 | a free day after an anchor on a night shift is a night break; other days add none |
| Weekends.IdenticalOfDays | src/model/ea/Individual.java:385-391 | the identical-shift-type flag holds exactly when no worked weekend day after the anchor has another shift type |
| Weekends.NoNightOfDays | src/model/ea/Individual.java:401-404 | the no-night flag holds exactly when no free weekend day follows an anchor on a night shift |
| Weekends.CountsOfDays | src/model/ea/Individual.java:374-409 | the weekend streaks are the run scan over the worked flags, the total is the number of worked weekend days, and the complete flag holds exactly when every weekend day is worked |
| Weekends.CalculateWeekends | src/model/ea/Individual.java:353-418 | the six results summarize the employee's weekend days: worked count (at most the number of weekend days), smallest and largest flushed weekend streak, all worked, no shift-type break after the anchor, no free day after a night anchor; with no worked weekend day both shift-type flags hold |
| Feasibility.PlanUpTo | src/model/ea/Individual.java:132-152 | plannedEmployees after n slots has one entry per shift type, exactly for the shift types of those slots |
| Feasibility.CountsUpTo | src/model/ea/Individual.java:148-150 | preferredCounts after n slots has one entry per shift type, each holding the period's demanded count (possibly null) for its shift type on the day's date |
| Feasibility.CheckPlanned | src/model/ea/Individual.java:155-162 | the size loop throws only NullPointerException, and when it passes every gathered shift type has exactly its demanded number of employees |
| Feasibility.CheckDay | src/model/ea/Individual.java:128-167 | the check of one day throws only NullPointerException; without a period it passes an empty day and throws on any other; a passing day has a skilled employee in every slot |
| Feasibility.CheckDays | src/model/ea/Individual.java:126-172 | the loop over the days passes exactly when the check of every day passes |
| Feasibility.AddPlanned | src/model/ea/Individual.java:137-146 | the slot's employee joins its shift type's list unless already in it, a new shift type starts a one-element list, every other shift type's list is unchanged, and distinct keys stay distinct |
| Feasibility.PlanUpToDescribes | src/model/ea/Individual.java:132-152 | after any number of slots, plannedEmployees has an entry exactly for the shift types seen so far, each holding, without repetition, exactly the distinct employees planned on it |
| Feasibility.AppearsStep | src/model/ea/Individual.java:132-152 | the shift types seen after one more slot are the earlier ones plus that slot's |
| Feasibility.AddPlannedDescribes | src/model/ea/Individual.java:137-146 | one step of the gathering loop keeps plannedEmployees describing the slots seen so far |
| Feasibility.AddPlannedNoDuplicates | src/model/ea/Individual.java:139-141 | the contains test keeps every list free of duplicates |
| Feasibility.AddPlannedHolders | src/model/ea/Individual.java:137-146 | after a step each list holds exactly the distinct employees planned on its shift type so far |
| Feasibility.AddNewHolder | src/model/ea/Individual.java:139-141 | appending an employee not yet in a duplicate-free list keeps it duplicate-free |
| Feasibility.HoldersStep | src/model/ea/Individual.java:132-152 | one more slot adds its employee to its own shift type's holders and changes no other shift type's |
| Feasibility.CountsUpToDescribe | src/model/ea/Individual.java:148-150 | preferredCounts has an entry exactly for the shift types seen so far, each the period's demanded count for the day (possibly null) |
| Feasibility.CheckPlannedMeaning | src/model/ea/Individual.java:155-162 | the size loop passes exactly when every gathered shift type has exactly its demanded number of employees; it can only throw NullPointerException (a null count is unboxed), and cannot throw when every count exists |
| Feasibility.GatheredCount | src/model/ea/Individual.java:155-162 | each gathered entry is for a shift type that appears, and its list is as long as the number of distinct employees on it |
| Feasibility.DistinctCardinality | src/model/ea/Individual.java:155-159 | a list without duplicates has as many elements as its set of elements |
| Feasibility.GatheredEntry | src/model/ea/Individual.java:132-162 | every slot's shift type has an entry among the gathered ones |
| Feasibility.CheckDayMeaning | src/model/ea/Individual.java:128-167 | with a period, one day passes exactly when every shift type appearing on it has exactly its demanded number of distinct employees and every assigned employee has the skills; it can only throw NullPointerException, and does not throw when every appearing shift type has a count |
| Feasibility.CheckDayPasses | src/model/ea/Individual.java:128-167 | a day passes exactly when it meets the hard constraints |
| Feasibility.CheckDayThrows | src/model/ea/Individual.java:149-159 | a day's check throws only NullPointerException, and not when every appearing shift type has a demanded count |
| Feasibility.DefinedCountsPresent | src/model/ea/Individual.java:148-159 | when every appearing shift type has a demanded count, every gathered entry finds a non-null count |
| Feasibility.SizesMeaning | src/model/ea/Individual.java:155-162 | the size loop over the gathered entries is the count condition stated slot by slot |
| Feasibility.CheckEachMeaning | src/model/ea/Individual.java:128-171 | the loop over the days returns true exactly when every day returns true, throws only what some day throws, and cannot throw when no day does |
| Feasibility.CheckDaysMeaning | src/model/ea/Individual.java:126-172 | with a period, true exactly when every day meets the hard constraints; without one, true exactly when no day has a slot; only NullPointerException is thrown, it is the exception of some day's check, and it is never thrown when the period and every needed count exist |
| Fitness.NumAssignmentsDeviation | src/model/ea/constraints/DefaultFitnessCalculator.java:47-61 | zero when the number of assignments lies within the contract's minimum and maximum; never negative with non-negative weights; with positive weights zero exactly when within bounds |
| Fitness.Shortfall | src/model/ea/constraints/DefaultFitnessCalculator.java:56-58 | the weighted amount by which a value falls below its target: zero when at or above it, and with a positive weight zero only then |
| Fitness.Excess | src/model/ea/constraints/DefaultFitnessCalculator.java:59-61 | the weighted amount by which a value exceeds its target: zero when at or below it, and with a positive weight zero only then |
| Fitness.Mismatch | src/model/ea/constraints/DefaultFitnessCalculator.java:162-173 | a flag's weight when the flag differs from the contract's value: zero when they agree, and with a positive weight zero only then |
| Fitness.ConsecutiveDeviation | src/model/ea/constraints/DefaultFitnessCalculator.java:76-108 | zero when the run results sit exactly at the targets the code compares with (the minimum assignment count for work streaks, the minimum free-day target for free streaks); non-negative with non-negative weights unless a longest streak lies strictly between the minimum and maximum targets |
| Fitness.ConsecutiveQuirk | src/model/ea/constraints/DefaultFitnessCalculator.java:100-102 | the maximum-streak penalty fires above the MINIMUM target but subtracts the MAXIMUM target: with targets 2 and 5, a longest work streak of 3 makes the deviation -2 |
| Fitness.WeekendDeviation | src/model/ea/constraints/DefaultFitnessCalculator.java:123-173 | zero when the worked weekend days equal the maximum-working-weekends value (deviations in both directions are charged), the weekend streaks are within bounds and the three flags agree with the contract; never negative with non-negative weights; with positive weights zero exactly then |
| Fitness.NumSumObserved | src/model/ea/constraints/DefaultFitnessCalculator.java:42-65 | the assignment-count sum depends only on what the getters report |
| Fitness.NumAssignmentsPass | src/model/ea/constraints/DefaultFitnessCalculator.java:42-65 | the first pass sums each employee's assignment-count deviation and touches only the individual's caches |
| Fitness.ConsecutiveCalls | src/model/ea/constraints/DefaultFitnessCalculator.java:91-108 | the four run getter calls for one employee give that employee's consecutive deviation and touch only the caches |
| Fitness.ConsecutiveSumObserved | src/model/ea/constraints/DefaultFitnessCalculator.java:71-112 | the consecutive-days sum depends only on what the getters report |
| Fitness.ConsecutivePass | src/model/ea/constraints/DefaultFitnessCalculator.java:71-112 | the second pass sums each employee's consecutive deviation and touches only the caches |
| Fitness.WeekendCall | src/model/ea/constraints/DefaultFitnessCalculator.java:145-171 | one weekend getter call returns the value its option selects and touches only the caches |
| Fitness.WeekendCountCalls | src/model/ea/constraints/DefaultFitnessCalculator.java:145-147 | the three integer weekend calls return the total and the two streak results |
| Fitness.WeekendFlagCalls | src/model/ea/constraints/DefaultFitnessCalculator.java:162-172 | the three boolean weekend calls return the complete, identical and no-night flags |
| Fitness.WeekendCalls | src/model/ea/constraints/DefaultFitnessCalculator.java:122-173 | all weekend calls for one employee give that employee's weekend deviation |
| Fitness.WeekendSumObserved | src/model/ea/constraints/DefaultFitnessCalculator.java:118-177 | the weekend sum depends only on what the getters report |
| Fitness.WeekendPass | src/model/ea/constraints/DefaultFitnessCalculator.java:118-177 | the third pass sums each employee's weekend deviation and touches only the caches |
| Fitness.DefaultCalculate | src/model/ea/constraints/DefaultFitnessCalculator.java:25-36 | the fitness is the sum of the three passes over the period's employees; the individual is touched only in its caches |
| Fitness.DefaultCalculator | src/model/ea/constraints/DefaultFitnessCalculator.java:25-36 | on an individual with truthful caches the calculator yields the fitness computed directly from the roster, and it never disturbs the individual |
| Fitness.FreshSums | src/model/ea/constraints/DefaultFitnessCalculator.java:25-177 | with truthful caches the three passes add up to the fitness computed directly from the roster, employee by employee |
| Fitness.DefaultGetFitness | src/model/ea/Individual.java:178-185 | with truthful caches, no cached fitness and a period, getFitness with the default calculator succeeds with the roster's directly computed fitness, caches it, keeps roster and period and leaves the caches truthful |
| Fitness.FitnessCacheKeepsFresh | src/model/ea/Individual.java:180-182 | caching the fitness does not affect the statistic caches |
| Populations.NewPopulation | src/model/ea/Population.java:40 | an empty pool with no overall fitness |
| Populations.CopyPopulation | src/model/ea/Population.java:47-54 | the copy holds a copy of each individual, in order, and no overall fitness |
| Populations.AddIndividualToPool | src/model/ea/Population.java:82-87 | the individual is appended exactly when it is feasible; an infeasible one raises IndividualNotFeasibleException (NotFeasible), and an exception of isFeasible itself passes through |
| Populations.Feasibles | src/model/ea/Population.java:93-101 | the individuals kept by the catching loop, never more than offered |
| Populations.FeasiblesMembers | src/model/ea/Population.java:93-101 | an individual is kept exactly when it is offered and feasible |
| Populations.AddIndividualsToPool | src/model/ea/Population.java:93-101 | appends the feasible individuals in order and skips the infeasible ones; it fails exactly when some isFeasible call throws, with that exception (never NotFeasible, which is caught) |
| Populations.AddEach | src/model/ea/Population.java:82-87 | addIndividualToPool called for each individual with nothing caught: all are appended exactly when all are feasible; otherwise the first refused one ends the loop with its exception |
| Populations.Benchmark | src/model/ea/Population.java:106-111 | the overall fitness becomes the sum of the pool's fitness values; the pool is unchanged |
| Populations.GetOverallFitness | src/model/ea/Population.java:68-75 | the memoized overall fitness when there is one, else the benchmarked sum, which is then memoized |
| Populations.OverallFitnessGoesStale | src/model/ea/Population.java:68-87 | the overall fitness is not reset when an individual joins: after a benchmark, adding a feasible individual of nonzero fitness leaves getOverallFitness reporting a value that is not the pool's sum |
| Populations.SumAppend | src/model/ea/Population.java:106-111 | one more individual adds its fitness to the sum |
| Populations.Insert | src/model/ea/Population.java:117-127 | one insertion step of the stable sort adds exactly the element |
| Populations.Sort | src/model/ea/Population.java:117-127 | the sorted pool is a permutation of the pool |
| Populations.InsertSorted | src/model/ea/Population.java:117-127 | inserting into a sorted pool keeps it sorted by fitness |
| Populations.NoneWithFitness | src/model/ea/Population.java:117-127 | a sorted pool whose first fitness exceeds k holds nothing of fitness k |
| Populations.InsertWithFitness | src/model/ea/Population.java:117-127 | the insertion places the new element after every element of equal fitness |
| Populations.WithFitnessAppend | src/model/ea/Population.java:117-127 | the elements of one fitness in an extended sequence are the old ones, then the new element if it has that fitness |
| Populations.SortIsStable | src/model/ea/Population.java:117-127 | the sort orders by fitness, and for every fitness value the individuals of that fitness keep their relative order |
| Populations.SortKeepsSum | src/model/ea/Population.java:117-127 | sorting does not change the sum of the fitness values |
| Populations.InsertSum | src/model/ea/Population.java:117-127 | inserting adds the element's fitness to the sum |
| Populations.SortByFitness | src/model/ea/Population.java:117-127 | Collections.sort with the fitness comparator: the pool is sorted by fitness (lower first), a permutation of the old pool, stable for equal fitness, and the overall fitness is kept |
| Populations.FirstWithFitness | src/model/ea/Population.java:117-135 | the first individual of some fitness leads the individuals of that fitness |
| Populations.GetBestIndividual | src/model/ea/Population.java:133-135 | the population is left sorted, and the individual returned is the first individual of least fitness in the pool as it was; an empty pool throws IndexOutOfBoundsException |
| Populations.BestIsFirstBest | src/model/ea/Population.java:133-135 | the head of the sorted pool is the first individual of least fitness in the original order |
| Populations.FirstOf | src/model/ea/Population.java:117-135 | for any individual of fitness k there is a first one of fitness k at or before it |
| EvolutionaryCycle.Inc32 | src/model/ea/EvolutionaryCycle.java:115 | Java's ++ on an int: stays in the 32-bit range, adds one below the largest int and wraps the largest int to the smallest |
| EvolutionaryCycle.IsTerminationCondition | src/model/ea/EvolutionaryCycle.java:113-116 | progress is reported with the counter as it was; the counter is incremented; below the largest int the verdict is true exactly when the old counter is at least maxIterations |
| EvolutionaryCycle.NeverTerminatesAtIntMax | src/model/ea/EvolutionaryCycle.java:113-116 | with maxIterations at the largest int the test never holds, since the counter wraps around before it can exceed it |
| EvolutionaryCycle.Step | src/model/ea/EvolutionaryCycle.java:82-103 | one pass succeeds exactly when mating selection, recombination (when on), mutation (when on), adding the feasible children and environment selection all succeed. Then the parents are the mating selection's, the recombined population is the recombination of the parents (the empty population when recombination is off), the children are the mutation of the recombined population (the recombined population itself when mutation is off), the merged population is the current pool, as the pass received it, plus the feasible children, benchmarked, and the next population is the environment selection of it; with both operators off the pass is selection of the benchmarked population alone |
| EvolutionaryCycle.Upto | src/model/ea/EvolutionaryCycle.java:114 | the values 0 to n - 1 in order |
| EvolutionaryCycle.Run | src/model/ea/EvolutionaryCycle.java:82-103 | from counter i the loop body runs maxIterations - i times (none when the counter is already past it), and progress is reported with i, i + 1, and so on, once more than the body runs |
| EvolutionaryCycle.RunCounts | src/model/ea/EvolutionaryCycle.java:74-116 | from counter 0 the body runs maxIterations times (none for a negative bound) and progress is reported with 0, 1, ..., maxIterations |
| EvolutionaryCycle.Initialize | src/model/ea/EvolutionaryCycle.java:123-132 | succeeds exactly when every constructed individual exists and is feasible; then the pool is the old one followed by the constructed individuals in order, and the overall fitness is untouched |
| EvolutionaryCycle.Evolutionize | src/model/ea/EvolutionaryCycle.java:74-107 | the initial population holds the configured number of constructed individuals in order and is benchmarked; the loop runs maxIterations passes; it fails when some constructed individual is infeasible; with maxIterations at the largest int the first pass's failure ends the run, and otherwise the run never ends (NoTermination) |
| EvolutionaryCycle.MutationWithoutRecombinationFails | src/model/ea/EvolutionaryCycle.java:85-95 | with recombination off and SwappingNursesMutation on, every pass fails: the mutation reads the first individual of the empty children population |
| EvolutionaryCycle.MutatePopulation | src/model/ea/operators/SwappingNursesMutation.java:21-48 | an empty population throws; a successful mutation keeps the overall fitness and relates every individual to its mutated version under the first two draws and its own slot draw |
| EvolutionaryCycle.SwappingNurses | src/model/ea/EvolutionaryCycle.java:92-95 | the mutation operator of the cycle, in every generation: an empty population throws, and a success keeps the overall fitness and relates every individual to its mutated version |
| EnvironmentSelection.SortedPrefixTruncates | src/model/ea/operators/SimpleEnvironmentSelectionOperator.java:28-31 | cutting a sorted pool back to a prefix keeps individuals drawn from the pool, none of higher fitness than any dropped one |
| EnvironmentSelection.TruncationOfPermutation | src/model/ea/operators/SimpleEnvironmentSelectionOperator.java:28-31 | a truncation of the sorted pool is a truncation of the pool itself |
| EnvironmentSelection.SortedPrefix | src/model/ea/operators/SimpleEnvironmentSelectionOperator.java:28-31 | exactly t individuals, sorted, none of higher fitness than any dropped one, overall fitness kept |
| EnvironmentSelection.SimpleSelect | src/model/ea/operators/SimpleEnvironmentSelectionOperator.java:20-32 | a pool no larger than the target is left as it is, unsorted; a larger one is sorted and cut back to exactly the target, keeping the lowest fitness values; a negative target makes the removal loop reach remove(-1) |
| EnvironmentSelection.SimpleSelectIdempotent | src/model/ea/operators/SimpleEnvironmentSelectionOperator.java:20-32 | selecting twice is selecting once |
| EnvironmentSelection.BestSelect | src/model/ea/operators/BestEnvironmentSelection.java:16-22 | always sorts first; keeps min(size, target) individuals of lowest fitness; a pool no larger than the target is only sorted; a negative target reaches remove(-1) |
| EnvironmentSelection.SelectBest | src/model/ea/operators/SelectionOfTheBest.java:26-34 | the first `count` of the sorted pool become the pool; get(i) past the end throws exactly when the pool is smaller than the count; a count of zero or less empties the pool |
| EnvironmentSelection.TruncationsAgree | src/model/ea/operators/SimpleEnvironmentSelectionOperator.java:20-32 | when the pool is larger than a non-negative target, the three selections keep the same individuals in the same order |
| DuelSelection.IndexOfMinFrom | src/model/ea/operators/qStepwiseTournamentSelection.java:64-74 | the scan from any position, with the first minimum so far, ends at the first index of the smallest score |
| DuelSelection.IndexOfMin | src/model/ea/operators/qStepwiseTournamentSelection.java:64-74 | the first index of the smallest score: no earlier score is as small, no later one smaller |
| DuelSelection.FirstMinUnique | src/model/ea/operators/qStepwiseTournamentSelection.java:64-74 | an index is the first of the minimum exactly when getIndexOfMin returns it |
| DuelSelection.Negated | src/model/ea/operators/EnvironmentSelectionOperators.java:61-71 | each score negated, position by position, so that the maximum search is the minimum search mirrored |
| DuelSelection.IndexOfMax | src/model/ea/operators/EnvironmentSelectionOperators.java:61-71 | the first index of the highest score: no earlier score is as high, no later one higher |
| DuelSelection.FirstMaxUnique | src/model/ea/operators/EnvironmentSelectionOperators.java:61-71 | an index is the first of the maximum exactly when getIndexOfMax returns it |
| DuelSelection.DrawEnemy | src/model/ea/operators/qStepwiseTournamentSelection.java:39-42 | the enemy is the first draw plus one that differs from the duel number j; every skipped draw equalled j; it fails exactly when every remaining draw equals j |
| DuelSelection.EnemyRange | src/model/ea/operators/qStepwiseTournamentSelection.java:39-42 | with draws below the pool size the enemy lies in 1..size, so size itself is one past the pool and index 0 is never an enemy |
| DuelSelection.CountWins | src/model/ea/operators/qStepwiseTournamentSelection.java:43-47 | a win is a strictly greater fitness value; the count is at most the number of duels, equals it exactly when every duel is won and is 0 exactly when none is |
| DuelSelection.DuelsFrom | src/model/ea/operators/qStepwiseTournamentSelection.java:37-48 | one enemy per remaining duel, each inside the pool and never the duel's own number; an enemy past the pool fails with an index error |
| DuelSelection.TournamentFrom | src/model/ea/operators/qStepwiseTournamentSelection.java:35-48 | one list of enemies per remaining individual, each fitting the duel rules; failures are exhausted draws or an index error |
| DuelSelection.TournamentReachesPastPool | src/model/ea/operators/qStepwiseTournamentSelection.java:40-44 | a valid draw of size - 1 for the first duel names enemy size, and get(size) fails: the tournament can read past the pool |
| DuelSelection.Wins | src/model/ea/operators/qStepwiseTournamentSelection.java:43-47 | each individual's score is its number of wins, between 0 and the number of duels |
| DuelSelection.Snapshot | src/model/ea/operators/qStepwiseTournamentSelection.java:47-52 | the scores seen by the picks of step i: the individuals up to i carry their wins, the later ones are still 0 |
| DuelSelection.Pick | src/model/ea/operators/qStepwiseTournamentSelection.java:50-52 | removal picks the first lowest score, selection the first highest |
| DuelSelection.Repeat | src/model/ea/operators/qStepwiseTournamentSelection.java:50-52 | the same pick, once per iteration of the inner loop, none for a non-positive count |
| DuelSelection.Picks | src/model/ea/operators/qStepwiseTournamentSelection.java:35-53 | outer step i contributes a block of `times` picks, and each pick in block i is the pick from the scores as they stand after individual i has fought (later individuals still at 0) |
| DuelSelection.BlocksCons | src/model/ea/operators/qStepwiseTournamentSelection.java:35-53 | the block of step i in front of the blocks of the later steps gives the blocks from step i on |
| DuelSelection.PicksStartWithStepZero | src/model/ea/operators/qStepwiseTournamentSelection.java:35-53 | the first block of picks is the pick made after individual 0 alone has been scored |
| DuelSelection.FirstSelectionIsFirstIndividual | src/model/ea/operators/EnvironmentSelectionOperators.java:44-49 | selection by the highest score always starts with individual 0, since the others are still at 0 |
| DuelSelection.RemovalPicksUnscored | src/model/ea/operators/qStepwiseTournamentSelection.java:47-52 | once individuals 0..i have each won, removal picks individual i + 1, which has not fought yet |
| DuelSelection.RemoveAll | src/model/ea/operators/qStepwiseTournamentSelection.java:54 | List.removeAll: the survivors are the pool members equal to no removed individual, in their pool order and with their multiplicity; nothing else remains |
| DuelSelection.CountsCons | src/model/ea/operators/qStepwiseTournamentSelection.java:54 | the survivor multiplicities of the tail extend to the whole pool |
| DuelSelection.OrderCons | src/model/ea/operators/qStepwiseTournamentSelection.java:54 | the survivor order of the tail extends to the whole pool |
| DuelSelection.SurvivorsCons | src/model/ea/operators/qStepwiseTournamentSelection.java:54 | only survivors remain after the head, given that only survivors remain after the tail |
| DuelSelection.Chosen | src/model/ea/operators/qStepwiseTournamentSelection.java:54 | the individuals at the picked positions, in pick order |
| DuelSelection.RemoveAllSurvivors | src/model/ea/operators/qStepwiseTournamentSelection.java:50-54 | after the removal every remaining individual differs from each picked one, and every individual equal to none of them remains |
| DuelSelection.QStepwiseRemove | src/model/ea/operators/qStepwiseTournamentSelection.java:28-56 | fails exactly when the tournament runs out of draws or meets an index error. On success the enemies are those the draws name and the scores are each individual's win counts against them, bounded by the duels; outer step i makes size - selections removal picks, each from the scores after individual i has fought; the new pool is the old one with every individual equal to a picked one removed, order and multiplicity kept |
| DuelSelection.AddedFromPool | src/model/ea/operators/EnvironmentSelectionOperators.java:47-51 | everything added to the new population came from the old pool and is feasible |
| DuelSelection.QStepwiseSelect | src/model/ea/operators/EnvironmentSelectionOperators.java:25-53 | a failing tournament makes it fail. On success the enemies are those the draws name and the scores are each individual's win counts against them, bounded by the duels; outer step i makes `selections` picks, each from the scores after individual i has fought; the new population is the picked individuals in pick order, the infeasible ones skipped, with no overall fitness |
| MatingSelection.SimpleSelect | src/model/ea/operators/SimpleMatingSelectionOperator.java:19-27 | the first half of the pool, rounded up, in pool order |
| MatingSelection.SimpleSelectDistinct | src/model/ea/operators/SimpleMatingSelectionOperator.java:19-27 | a pool without repeats gives a selection without repeats |
| MatingSelection.GoodBadOrder | src/model/ea/operators/GoodBadMatingSelection.java:16-19 | k pairs, the i-th pairing the i-th first with the i-th last individual |
| MatingSelection.GoodBeforeBad | src/model/ea/operators/GoodBadMatingSelection.java:13-19 | over the sorted pool, the first member of each pair has a fitness no higher than the second |
| MatingSelection.GoodBadOrderFeasible | src/model/ea/operators/GoodBadMatingSelection.java:16-19 | pairs drawn from feasible individuals are feasible |
| MatingSelection.GoodBadSelect | src/model/ea/operators/GoodBadMatingSelection.java:12-21 | the population is sorted in place; it succeeds exactly when numberOfParents / 2 pairs fit in the pool and all are feasible; the selection is the best/worst pairs of the sorted pool; with a feasible pool the only failure is running off the pool |
| MatingSelection.PicksFeasible | src/model/ea/operators/GoodBadMatingSelection.java:13-19 | a feasible pool gives feasible best/worst pairs |
| MatingSelection.SortedFeasible | src/model/ea/operators/GoodBadMatingSelection.java:13 | sorting keeps every individual, so it keeps the pool feasible |
| MatingSelection.RemoveValue | src/model/ea/operators/TournamentMatingSelection.java:35 | the used list without the value and nothing else removed; distinct indices stay distinct |
| MatingSelection.DistinctBelow | src/model/ea/operators/TournamentMatingSelection.java:23-25 | distinct pool positions are at most as many as the pool has, which bounds how many indices can be in use |
| MatingSelection.DrawUnused | src/model/ea/operators/TournamentMatingSelection.java:23-25 | the first drawn index not used yet, every skipped draw being a used one; nextInt(0) throws for an empty pool |
| MatingSelection.LowDuel | src/model/ea/operators/TournamentMatingSelection.java:29-40 | a duel draws the first challenger u not in use and records it as a pick; the winner is u when its fitness is strictly lower than the index's and the index otherwise, so it is never worse; the winner is recorded as used and appended to the selection; the used indices stay distinct pool positions and their number is unchanged, so a duel needs an unused position left in the pool |
| MatingSelection.LowDuels | src/model/ea/operators/TournamentMatingSelection.java:28-41 | one member added per duel, earlier members untouched, the added fitness values never increase from the slot's first index, and the number of used indices stays the same |
| MatingSelection.Replace | src/model/ea/operators/TournamentMatingSelection.java:35-37 | the beaten index leaves the used list and the challenger joins it; the list stays distinct and inside the pool |
| MatingSelection.DuelAppended | src/model/ea/operators/TournamentMatingSelection.java:34-40 | one duel's winner before the later duels' additions keeps the slot's additions non-increasing in fitness and drawn from the pool |
| MatingSelection.SlotsOrderedAt | src/model/ea/operators/TournamentMatingSelection.java:28-41 | inside every slot of the selection, a later member is ordered after an earlier one by fitness |
| MatingSelection.SlotsOrderedCons | src/model/ea/operators/TournamentMatingSelection.java:21-42 | an ordered slot in front of ordered slots keeps every slot ordered |
| MatingSelection.SlotAppended | src/model/ea/operators/TournamentMatingSelection.java:21-42 | a slot appended to the selection, followed by the later slots, keeps the earlier members and every slot ordered and from the pool |
| MatingSelection.LowSlots | src/model/ea/operators/TournamentMatingSelection.java:21-42 | Times(slots, duels) members (slots * duels, by TimesIsProduct) are appended after the earlier ones, each from the pool, with fitness non-increasing inside every slot; each slot adds one used index, so there must be more unused positions than slots; an empty pool with a slot to fill throws |
| MatingSelection.TournamentMatingSelect | src/model/ea/operators/TournamentMatingSelection.java:17-45 | numberOfParents times max(0, numberOfDirectDuels - 2) members, each from the pool, in a population without overall fitness; within each slot the fitness never increases; a success needs more pool members than parents; an empty pool throws |
| MatingSelection.HighDuels | src/model/ea/operators/TournamentSelection.java:27-33 | count members, each from the pool, none below the slot's first pick in fitness and non-decreasing across the slot; the only failure is running out of draws |
| MatingSelection.HighSlots | src/model/ea/operators/TournamentSelection.java:25-34 | Times(slots, duels) members, each from the pool, with fitness non-decreasing inside every slot; an empty pool with a slot to fill throws; the only other failure is running out of draws |
| MatingSelection.TournamentSelect | src/model/ea/operators/TournamentSelection.java:23-36 | numberOfParents times max(0, numberOfDirectDuels - 2) members, each from the pool, with fitness non-decreasing inside every slot; an empty pool with a parent to pick throws |
| MatingSelection.ChampionsBelow | src/model/ea/operators/TournamentMatingSelection.java:34-37 | every running winner of a slot is its start or one of its challengers, hence a pool position |
| MatingSelection.ChampionsStep | src/model/ea/operators/TournamentMatingSelection.java:34-38 | in the reference tournament, duel k keeps the previous winner unless challenger k strictly beats it (lower fitness for the mating tournament, higher for TournamentSelection) |
| MatingSelection.FirstBestSnoc | src/model/ea/operators/TournamentMatingSelection.java:34-37 | one more contender becomes the first best exactly when it strictly beats the current first best; otherwise the first best stays where it was |
| MatingSelection.ChampionIsFirstBest | src/model/ea/operators/TournamentMatingSelection.java:28-40 | the winner after duel k is the earliest of the start and challengers 0..k whose fitness none of them beats, so a tie keeps the earlier index |
| MatingSelection.TimesIsProduct | src/model/ea/operators/TournamentMatingSelection.java:21-28 | laying out b slots of w picks each by repeated addition gives b * w |
| MatingSelection.SlotsChampionsAt | src/model/ea/operators/TournamentMatingSelection.java:21-41 | member i of slot b of the reference selection is the winner after duel i of that slot, whose picks start at Times(b, duels + 1) |
| MatingSelection.SlotMemberIsFirstBest | src/model/ea/operators/TournamentMatingSelection.java:21-41 | in a selection fielded from the reference tournament, member i of slot b is the pool member at the first of that slot's start and challengers 0..i that none of them beats |
| MatingSelection.LowDuelsChampions | src/model/ea/operators/TournamentMatingSelection.java:28-41 | one slot's duels append count accepted challengers to the picks; the members added are exactly the reference running winners over the start and those challengers (lower fitness wins), and no challenger is the index it meets |
| MatingSelection.LowSlotsChampions | src/model/ea/operators/TournamentMatingSelection.java:21-42 | the slots append Times(slots, duels + 1) picks, a start and its challengers per slot, and the members added are the reference tournament's winners over them, slot by slot |
| MatingSelection.TournamentMatingSelectChampions | src/model/ea/operators/TournamentMatingSelection.java:17-45 | a successful selection is the reference tournament (lower fitness wins) over numberOfParents * (max(0, numberOfDirectDuels - 2) + 1) indices taken from the stream, in order |
| MatingSelection.HighDuelsSucceed | src/model/ea/operators/TournamentSelection.java:27-33 | the duels succeed exactly when count draws remain, and they consume exactly count draws |
| MatingSelection.HighDuelsChampions | src/model/ea/operators/TournamentSelection.java:27-33 | the members added are the reference running winners over the start and the next count draws: a draw replaces the index only when its fitness is strictly higher |
| MatingSelection.HighSlotsSucceed | src/model/ea/operators/TournamentSelection.java:25-34 | the slots succeed exactly when there is no slot, or the pool is non-empty and Times(slots, duels + 1) draws remain |
| MatingSelection.HighSlotsChampions | src/model/ea/operators/TournamentSelection.java:25-34 | the selected members are the reference tournament's winners (higher fitness wins) over the draws from position at on, slot by slot |
| MatingSelection.TournamentSelectSucceeds | src/model/ea/operators/TournamentSelection.java:23-36 | select succeeds exactly when numberOfParents is not positive, or the pool is non-empty and the stream holds numberOfParents * (max(0, numberOfDirectDuels - 2) + 1) draws |
| MatingSelection.TournamentSelectChampions | src/model/ea/operators/TournamentSelection.java:23-36 | a successful selection is the reference tournament (higher fitness wins) over the front of the stream, one start and max(0, numberOfDirectDuels - 2) challengers per parent |
| Sampling.PrefixSums | src/model/ea/operators/StochasticUniversalSampling.java:25-31 | cell j of cumulatedFitness holds the fitness of pool[0..j] summed |
| Sampling.LastPrefixIsTotal | src/model/ea/operators/StochasticUniversalSampling.java:32 | the last prefix sum is the fitness of the whole pool |
| Sampling.Cumulate | src/model/ea/operators/FitnessProportionalSelection.java:27-32 | the prefix sums of the pool; an empty pool fails with an index error because the first cell is written before the loop |
| Sampling.JavaDiv | src/model/ea/operators/StochasticUniversalSampling.java:32 | Java's int division: Euclidean on non-negative operands, and never negative when the signs agree |
| Sampling.Reach | src/model/ea/operators/StochasticUniversalSampling.java:36-38 | the first position from j on whose prefix sum reaches u; it runs off the array exactly when none does |
| Sampling.PointerSteps | src/model/ea/operators/StochasticUniversalSampling.java:32-39 | with a non-negative total and draw, pointer k is the draw plus k times total / numberOfParents: the pointers are evenly spaced |
| Sampling.SusPicksAppend | src/model/ea/operators/StochasticUniversalSampling.java:35-41 | a position found by the scan from where the last selection stopped extends the selections |
| Sampling.SusPicksAscend | src/model/ea/operators/StochasticUniversalSampling.java:33-41 | the selected positions lie inside the pool and never go back |
| Sampling.StochasticUniversalSampling | src/model/ea/operators/StochasticUniversalSampling.java:22-43 | an empty pool, zero parents and a non-positive draw bound each throw; otherwise numberOfParents selections, pointers starting at the draw and advancing by total / numberOfParents, each selection the first position from the previous one whose prefix sum reaches its pointer |
| Sampling.ProportionalSlot | src/model/ea/operators/FitnessProportionalSelection.java:35-40 | the scan from position 1 adds pool[i] once per step, so pool[i] appears (end - 1) times; it fails when the scan runs off the array, or when it steps and i is not a pool position |
| Sampling.ProportionalFrom | src/model/ea/operators/FitnessProportionalSelection.java:34-41 | the selection is the concatenation, over the iterations i from the current one below numberOfParents, of pool[i] repeated once per step of that iteration's scan; a non-positive draw bound throws |
| Sampling.FitnessProportional | src/model/ea/operators/FitnessProportionalSelection.java:26-43 | an empty pool and a non-positive draw bound throw; otherwise the selection is, for each iteration i in order, pool[i] repeated once per step of the scan of draw i, and not the individual whose prefix sum the draw reached |
| Sampling.ProportionalNoStep | src/model/ea/operators/FitnessProportionalSelection.java:35-40 | when no draw exceeds the prefix sum at position 1, the scans never step and nothing is selected |
| Recombination.AddFeasible | src/model/ea/Population.java:82-87 | a child joins the children exactly when it is feasible, appended with nothing else changed; otherwise the feasibility failure surfaces |
| Recombination.SingleDay | src/model/ea/operators/SingleDayRecombination.java:21-44 | it fails exactly when there are fewer than two parents, fewer than two days (nextInt(0) throws) or parent 2 has no day r; otherwise day r is drawn below numberOfDays - 1 and parents 0 and 1 swap their day-r rosters in place, nothing else changing, and the children are those two parents |
| Recombination.SingleDayTwice | src/model/ea/operators/SingleDayRecombination.java:30-41 | recombining the children again with the same day gives the two parents back: the swap is its own inverse |
| Recombination.Crossover | src/model/ea/operators/SequentialRecombination.java:28-31 | a copy of parent 1 whose days before numberOfDays / 2 are its own and whose later days are parent 2's; every other field is the copy's |
| Recombination.Sequential | src/model/ea/operators/SequentialRecombination.java:19-41 | fewer than two parents throws; it succeeds exactly when parent 2 has enough days and both added children are feasible; the children are a copy of the parents followed by child 1, as the second loop leaves it, and a copy of parent 2 |
| Recombination.AddBoth | src/model/ea/operators/SequentialRecombination.java:32-38 | both additions succeed exactly when both children are feasible; the first refusal surfaces; on success the first child's slot holds the value the later writes leave in it |
| Recombination.SequentialChildIsParent | src/model/ea/operators/SequentialRecombination.java:34-37 | the second loop writes parent 1's days back into child 1, so the child 1 the pool keeps has exactly parent 1's days: the crossover is lost |
| Recombination.DrawPair | src/model/ea/operators/RandomRecombination.java:21-24 | the first pair of consecutive draws that differ; getInt(size - 1) throws for fewer than two parents |
| Recombination.DrawPairOfTwo | src/model/ea/operators/RandomRecombination.java:21-24 | with two parents getInt(1) only returns 0, so the retry loop never ends: every finite supply of valid draws runs out |
| Recombination.CoinDays | src/model/ea/operators/RandomRecombination.java:32-38 | one coin per day of the first parent, 0 taking its day and anything else the second parent's day at the same position; with a second parent at least as long it succeeds exactly when enough draws remain |
| Recombination.BreedPair | src/model/ea/operators/RandomRecombination.java:29-42 | the child is the first parent's copy, reset, followed by one coin-chosen day per day; it is feasible and appended to the children |
| Recombination.CoinChild | src/model/ea/operators/RandomRecombination.java:29-38 | the child built from the coins is an offspring of the two parents |
| Recombination.BreedOne | src/model/ea/operators/RandomRecombination.java:19-42 | one iteration adds exactly one child, bred from two distinct drawn parent positions; fewer than two parents throws |
| Recombination.AllBredCons | src/model/ea/operators/RandomRecombination.java:18-43 | a bred child in front of bred children gives bred children |
| Recombination.RandomChildren | src/model/ea/operators/RandomRecombination.java:18-43 | `count` iterations add `count` children after the earlier ones, each bred from its drawn pair |
| Recombination.ExtendBred | src/model/ea/operators/RandomRecombination.java:18-43 | one bred child followed by bred children extends the children by all of them |
| Recombination.OffspringOfCoins | src/model/ea/operators/RandomRecombination.java:29-38 | days chosen by the coins make the child an offspring of the two parents |
| Recombination.RandomRecombination | src/model/ea/operators/RandomRecombination.java:14-46 | no parents give no children; one parent throws; otherwise one child per parent, each bred from two distinct parent positions and a coin per day, in a population without overall fitness |
| Recombination.RandomRecombinationOfTwo | src/model/ea/operators/RandomRecombination.java:21-24 | with two parents the operator never finishes: every supply of valid draws runs out |
| Recombination.RandomRecombinationSkipsLast | src/model/ea/operators/RandomRecombination.java:22-23 | with valid draws the last parent is never chosen, since getInt(size - 1) stays below size - 1 |
| Construction.AddFitting | src/model/ea/construction/SimpleConstructionHeuristic.java:35-41 | adding a skilled employee not yet planned that day keeps the day well staffed: one slot per shift type, skilled holders, nobody twice |
| Construction.IdBound | src/model/ea/construction/SimpleConstructionHeuristic.java:35-38 | an id above every employee's id, which bounds the upward search |
| Construction.FoundBelowBound | src/model/ea/construction/SimpleConstructionHeuristic.java:35-38 | only ids below that bound name an employee |
| Construction.PassedExtends | src/model/ea/construction/SimpleConstructionHeuristic.java:35-38 | an id passed over in front of a passed run, or of a run into a missing id, extends it |
| Construction.FirstFit | src/model/ea/construction/SimpleConstructionHeuristic.java:35-38 | the first employee by id from `id` upwards that has the skills and is not yet planned, every id before it passed over; an id with no employee before that is a null dereference |
| Construction.FillCover | src/model/ea/construction/SimpleConstructionHeuristic.java:33-42 | the day stays well staffed and gains the shift type exactly when its demand is positive; the only failure is the null dereference |
| Construction.SimpleCovers | src/model/ea/construction/SimpleConstructionHeuristic.java:29-43 | the day gains exactly the shift types of the remaining covers with positive demand and stays well staffed |
| Construction.SimpleDay | src/model/ea/construction/SimpleConstructionHeuristic.java:24-43 | day d carries date d, is well staffed and holds exactly the covered shift types with positive demand |
| Construction.SimpleDays | src/model/ea/construction/SimpleConstructionHeuristic.java:23-46 | the days already built are kept, and every later day carries its date, is well staffed and holds its demanded shift types |
| Construction.SimpleIndividual | src/model/ea/construction/SimpleConstructionHeuristic.java:18-49 | one well-staffed day per day of the period, each holding exactly its demanded shift types, with the period set and nothing cached |
| Construction.RandomFit | src/model/ea/construction/RandomConstructionHeuristic.java:28-33 | the first drawn employee that has the skills and is not yet planned, every earlier draw passed over; no employees makes getInt(0) throw; with dense ids and valid draws no null is ever dereferenced |
| Construction.RandomCovers | src/model/ea/construction/RandomConstructionHeuristic.java:26-37 | the day gains exactly the covered shift types and stays well staffed |
| Construction.RandomDays | src/model/ea/construction/RandomConstructionHeuristic.java:22-40 | the days already built are kept, and every later day carries its date, is well staffed and holds exactly its covered shift types |
| Construction.RandomDayPrepended | src/model/ea/construction/RandomConstructionHeuristic.java:39 | the day built at d in front of the later days extends the property to day d |
| Construction.RandomIndividual | src/model/ea/construction/RandomConstructionHeuristic.java:17-43 | one well-staffed day per day of the period, each holding exactly its covered shift types; the period is left unset; with dense ids and valid draws no null is dereferenced |
| Construction.RandomIndividualFeasibility | src/model/ea/construction/RandomConstructionHeuristic.java:18-39 | since the period is never set, the individual is feasible exactly when no day of the period has any cover |
| Construction.SimpleDayFirstEmployee | src/model/ea/construction/SimpleConstructionHeuristic.java:27-41 | a day whose only cover demands one employee of a shift type goes to employee 0 when that employee is skilled for it, because the id scan restarts at 0 on every day |
| Construction.SimpleDaysFollow | src/model/ea/construction/SimpleConstructionHeuristic.java:23-46 | the day loop puts at every position the day built for that day number, in day order |
| Construction.SimpleSingleCoverPicksFirst | src/model/ea/construction/SimpleConstructionHeuristic.java:18-49 | with one shift type demanded once per day and employee 0 skilled for it, employee 0 holds that shift on every day |
| Mutation.Replace | src/model/ea/operators/SwappingNursesMutation.java:39-40 | Map.replace writes the employee only when the slot's shift type is the given one; other slots and the shift type itself never change |
| Mutation.ReplaceSame | src/model/ea/operators/SwappingNursesMutation.java:44-45 | replacing with the employee already there changes nothing |
| Mutation.ReplaceTwice | src/model/ea/operators/SwappingNursesMutation.java:39-45 | of two replacements of the same slot the second one wins |
| Mutation.SwapSlots | src/model/ea/operators/SwappingNursesMutation.java:39-40 | only days d1 and d2 can change, each keeping its date and number of slots |
| Mutation.SwapBackRestores | src/model/ea/operators/SwappingNursesMutation.java:42-46 | undoing with the two original nurses restores the roster exactly, whether or not the replacements matched and also when both days coincide |
| Mutation.SwapExchanges | src/model/ea/operators/SwappingNursesMutation.java:33-40 | on two different days whose slot carries the same shift type, the first shift type of nurse 1 being that one, the two nurses are exchanged |
| Mutation.Swapped | src/model/ea/operators/SwappingNursesMutation.java:33-40 | the two replacements change only the roster and only days d1 and d2; in the aligned case the two nurses are exchanged |
| Mutation.MutateOne | src/model/ea/operators/SwappingNursesMutation.java:29-46 | a day with fewer than two slots makes nextInt throw, draws outside the roster are index errors, and with valid draws only isFeasible can fail; then the result is the swapped individual when it is feasible and the individual unchanged when it is not, so only the two days change and feasibility is kept |
| Mutation.AllDrawableNext | src/model/ea/operators/SwappingNursesMutation.java:27-30 | the draws fit every individual from i on exactly when they fit individual i and every one after it |
| Mutation.MutationStep | src/model/ea/operators/SwappingNursesMutation.java:29-46 | the relation between an individual after and before the loop body: the draws index its roster, and the period, the fitness and the number of days stay |
| Mutation.MutationStepOfMutateOne | src/model/ea/operators/SwappingNursesMutation.java:29-46 | every individual the loop body returns is related to the one it started from; once the swap's feasibility is decided, an individual related to the original is the body's result |
| Mutation.AllMutatedAt | src/model/ea/operators/SwappingNursesMutation.java:27-47 | the pairwise mutation relation holds between the individuals at every index of the selection |
| Mutation.AllMutatedCons | src/model/ea/operators/SwappingNursesMutation.java:27-47 | a mutated individual in front of mutated individuals gives a mutated selection |
| Mutation.MutateFrom | src/model/ea/operators/SwappingNursesMutation.java:27-47 | every individual from i on is its swapped version when that is feasible and unchanged otherwise, with the day pair shared and the slot draw its own; with draws that fit, the only failure is the null dereference of the feasibility check |
| Mutation.Mutate | src/model/ea/operators/SwappingNursesMutation.java:21-49 | an empty selection and a first individual with fewer than two days throw; the result has the selection's length, and each individual is its swap on the two drawn days when that is feasible and itself otherwise |
| Mutation.MutateKeepsFeasibleSwaps | src/model/ea/operators/SwappingNursesMutation.java:39-46 | after a successful mutation, individual k is the swap on the drawn days with its own slot draw when that swap is feasible, and is unchanged when it is not |
| Mutation.MutationSkipsLastDay | src/model/ea/operators/SwappingNursesMutation.java:23-25 | the day draws stay below numberOfDays - 1 of the first individual, so no individual changes on that day or later: the last day is never mutated |

## Left out

- Floating point: fitness values, overall fitness and the prefix sums of the sampling selections are `int`. They agree with the engine's floats only while sums stay exactly representable.
- Object identity: individuals, day rosters and populations are values, so aliasing becomes equality with the aliased value, and a write through a shared reference reaches only the value the writing operation returns. `List.removeAll` removes every individual equal to a picked one.
- The random number generator: draws are supplied streams, and proofs about a loop that retries on a draw cover the supplied draws only. Termination of such loops is not claimed.
- Integer overflow: only the loop's iteration counter wraps around (`EvolutionaryCycle.Inc32`). Other sums and products, such as the counter's days times shift types, are unbounded.
- Configuration and plug-in loading: the configured operators, `IndividualsPerPopulation`, `MaxIterations`, `NumberOfParents`, `NumberOfDirectDuels` and the recombination and mutation switches are parameters.
- Progress display and timing: the loop returns the values it would report instead of printing them.
- Calendar arithmetic, the skill and night tests, `resetRosters` and the period's cover lookup are collaborators (`Collaborators.Env`), not code.
- The fitness an operator reads through `getFitness` is the supplied function `fit`. The calculator behind it is modelled separately (`Fitness`). A failure inside `getFitness` during a tournament or a sort is not modelled.
- The operators of the loop receive the generation number, which stands for the draws they consume in that generation.
- The qStepwise tournaments read `numberOfDirectDuels` and `numberOfSelections` from names the operator never defines. They are parameters here.
- Mutation.Swapped: `DayRoster` declares a map, while `Individual` and `SwappingNursesMutation` treat it as an indexed list of one-entry maps. Both are read as one sequence of slots, and `getDayRoster().get(randShift).get(0)` (SwappingNursesMutation.java lines 33 and 35) is read as the employee of slot `randShift`. Taken literally, on a one-entry map keyed by shift type, the inner `get(0)` would be `Map.get(Integer 0)` and return null.
- `getShiftTypeForEmployee` and `ArrayHelper.removeValue` are not defined in the source files. Both follow their names: the shift type of the first slot holding the employee, and the list without the value.
- `SchedulingPeriod.getPreferredEmployeeCount` is not defined in `SchedulingPeriod.java`, so it is the collaborator `preferredCount`.
- `generateInitializationPopulation` lets `IndividualNotFeasibleException` escape from `addIndividualToPool`. The model propagates it as a failure.
- DuelSelection.IndexOfMin and DuelSelection.IndexOfMax: both require a non-empty score array. On an empty array the engine would throw, but every call site has scored at least one individual.
- Mutation.Mutate: a failure part-way leaves the earlier individuals mutated in place in the engine. The model returns only the failure.
- Mutation.MutateOne: accepts any slot index inside both days. The engine's draw is below the number of shifts minus one, which is a special case.
- EvolutionaryCycle.Step: the current pool is passed to the pass unchanged by the operators, so three writes through shared references are not modelled. `GoodBadMatingSelection` sorts the current population in place, so the engine continues with the sorted order. `SimpleMatingSelectionOperator` and `GoodBadMatingSelection` hand out the pool's own objects, and `SingleDayRecombination` changes them with `set` and returns them as children, so the engine's pool then holds those changed individuals twice. `RandomRecombination` children share day rosters with their parents, and the mutation's `replace` writes into them, so pool members' days change as well.
- EvolutionaryCycle.Evolutionize: with maxIterations at the largest int only the first pass is run. A failure of a later pass, which ends the engine's run with that exception, is reported as NoTermination.
- Recombination.BreedPair: `getFitness(true)` names a method `Individual` does not declare, since `getFitness` takes no argument. The model reads the line as a call without effect on the stored value, so the child keeps the fitness `Individual.copy` took from parent 1. Reading it as a forced recalculation would instead store the child's own fitness.
- Recombination.RandomRecombination: under the reading of BreedPair, every child carries the cached fitness of its first parent.
- Construction.FirstFit: `getEmployeeById` is called with an int, while `SchedulingPeriod.getEmployeeById` takes a String. The model reads the call as the lookup by employee number, which is what passing the number's decimal rendering does (`SchedulingPeriod.LookupByNumber`).
- Construction.RandomFit: the same reading of `getEmployeeById` with an int as a lookup by employee number.
- SchedulingPeriod.ParseInt: digits are the ASCII digits '0' to '9'. `Integer.parseInt` also accepts the decimal digits of other scripts, which the model rejects.
- Feasibility.CheckPlanned: walks the gathered shift types in the order they first appear on the day. The engine walks `HashMap.entrySet()` in hash order (Individual.java lines 155-162). On a day where one shift type has a null demanded count and another has the wrong number of employees, the engine throws NullPointerException or returns false depending on that hash order, and so `Populations.AddIndividualsToPool` fails or skips the individual. The model always takes the first-appearance order.
- Construction.FillCover: does not state that the picks within a day come in increasing id order. Only the last pick per shift type stays in the day roster.
- `getWeekendInformation` with an option key it does not know calls itself forever. The model takes the option from a closed set.
- `ArrayHelper.contains` on an array with a null element throws in the engine. The model has no null elements.
- `getTimeString`, `getDateString`, the `toString` methods, plain getters and setters, and the static id counters are not modelled.
- The static registries of time units and numberings are explicit state passed in and out.
- The writers, the parser, the start-up code, the terminal helper and the file-system helper are not part of this model.
- The no-op operators `SimpleMutation`, `SimpleMutationOperator` and `SimpleRecombinationOperator` are not part of this model.

=== FILE: array_helper.dfy ===
/** The array utilities of the roster engine: membership, in-place reversal and joining. */
module ArrayHelper {

  /** True iff some element of `elements` equals `needle` (a linear scan). */
  function Contains<T(==)>(elements: seq<T>, needle: T): (r: bool)
    ensures r <==> exists i :: 0 <= i < |elements| && elements[i] == needle
  {
    if |elements| == 0 then false
    else if elements[0] == needle then true
    else Contains(elements[1..], needle)
  }

  /** The elements of `a` in the opposite order. */
  function Reversed<T>(a: seq<T>): (r: seq<T>)
    ensures |r| == |a|
    ensures forall i :: 0 <= i < |a| ==> r[i] == a[|a| - 1 - i]
  {
    if |a| == 0 then [] else Reversed(a[1..]) + [a[0]]
  }

  /** Reversing twice gives back the original sequence. */
  lemma {:induction false} ReversedInvolutive<T>(a: seq<T>)
    ensures Reversed(Reversed(a)) == a
  {
    var r := Reversed(a);
    assert forall i :: 0 <= i < |a| ==> Reversed(r)[i] == r[|a| - 1 - i] == a[i];
  }

  /** Reverses `elements` in place by swapping mirrored pairs and returns the same elements. */
  method Reverse<T>(elements: array<T>) returns (r: array<T>)
    modifies elements
    ensures r == elements
    ensures elements[..] == Reversed(old(elements[..]))
  {
    var n := elements.Length;
    var i := 0;
    while i < n / 2
      invariant 0 <= i <= n / 2
      invariant forall k :: 0 <= k < i ==> elements[k] == old(elements[n - 1 - k]) && elements[n - 1 - k] == old(elements[k])
      invariant forall k :: i <= k < n - i ==> elements[k] == old(elements[k])
    {
      var temp := elements[i];
      elements[i] := elements[n - i - 1];
      elements[n - i - 1] := temp;
      i := i + 1;
    }
    r := elements;
  }

  /** Reference definition of joining: e0 + sep + e1 + ... + e(n-1). */
  function Joined(items: seq<string>, separator: string): (r: string)
  {
    if |items| == 0 then ""
    else if |items| == 1 then items[0]
    else items[0] + separator + Joined(items[1..], separator)
  }

  /** Appending one more item to a non-empty join adds the separator and the item. */
  lemma {:induction false} JoinedSnoc(items: seq<string>, separator: string, x: string)
    requires |items| > 0
    ensures Joined(items + [x], separator) == Joined(items, separator) + separator + x
    decreases |items|
  {
    if |items| == 1 {
      assert items + [x] == [items[0], x];
      assert (items + [x])[1..] == [x];
    } else {
      assert (items + [x])[1..] == items[1..] + [x];
      JoinedSnoc(items[1..], separator, x);
    }
  }

  /** The length of a join: every item once and n-1 separators. */
  lemma {:induction false} JoinedLength(items: seq<string>, separator: string)
    requires |items| > 0
    ensures |Joined(items, separator)| == TotalLength(items) + (|items| - 1) * |separator|
    decreases |items|
  {
    if |items| > 1 {
      JoinedLength(items[1..], separator);
    }
  }

  /** The summed lengths of all items. */
  function TotalLength(items: seq<string>): nat
  {
    if |items| == 0 then 0 else |items[0]| + TotalLength(items[1..])
  }

  /** Appends each element, followed by the separator unless it is the last one. */
  method GetString(elements: seq<string>, separator: string) returns (out: string)
    ensures out == Joined(elements, separator)
    ensures |elements| == 0 ==> out == ""
  {
    out := "";
    var i := 0;
    while i < |elements|
      invariant 0 <= i <= |elements|
      invariant i == 0 ==> out == ""
      invariant i > 0 ==> out == Joined(elements[..i], separator) + (if i < |elements| then separator else "")
    {
      if i > 0 {
        JoinedSnoc(elements[..i], separator, elements[i]);
        assert elements[..i] + [elements[i]] == elements[..i + 1];
      } else {
        assert elements[..1] == [elements[0]];
      }
      out := out + elements[i];
      if i < |elements| - 1 {
        out := out + separator;
      }
      i := i + 1;
    }
    assert elements[..|elements|] == elements;
  }
}

=== FILE: collaborators.dfy ===
/**
 * The services the engine calls but whose code is not part of this model: calendar
 * arithmetic, the skill and night-shift judgements, the cover lookup of the scheduling
 * period, and the roster reset used by random recombination. Each is an arbitrary
 * (uninterpreted) function; every property proved here holds whatever they compute.
 */
module Collaborators {
  import opened Wrappers
  import opened Entities
  import opened Entries
  import opened SchedulingPeriod
  import opened DayRosters
  import opened DayHelper

  datatype Env = Env(
    /** Employee.hasRequiredSkillsForShiftType */
    hasRequiredSkills: (Employee, ShiftType) -> bool,
    /** ShiftType.isNight */
    isNight: ShiftType -> bool,
    /** DateTimeHelper.isWeekend(date, contract): the date is a weekend day under the contract */
    isWeekendFor: (Date, Contract) -> bool,
    /** DateTimeHelper.isWeekend(date) */
    isWeekend: Date -> bool,
    /** SchedulingPeriod.getPreferredEmployeeCount; None stands for a null count */
    preferredCount: (Period, ShiftType, Date) -> Option<int>,
    /** DateTimeHelper.getNumberOfDays */
    numberOfDays: Period -> nat,
    /** DateTimeHelper.getDateByNumber */
    dateByNumber: (Period, nat) -> Date,
    /** DateTimeHelper.getListOfDates */
    listOfDates: Period -> seq<Date>,
    /** SchedulingPeriod.getCoversByDate, in map iteration order */
    coversByDate: (Period, Date) -> seq<Entry<ShiftType, int>>,
    /** DateTimeHelper.getDayByDate */
    dayByDate: Date -> Day,
    /** Individual.resetRosters, applied to the copied roster list */
    resetRosters: seq<DayRoster> -> seq<DayRoster>)
}

=== FILE: construction.dfy ===
/**
 * The two construction heuristics that build the initial individuals: day by day, every
 * covered shift type of the day is given employees that have the required skills and
 * are not yet planned that day.
 *
 * The simple heuristic walks the employee ids upwards from 0 (restarting every day) and
 * takes the first employee that fits, once per demanded employee; since a day roster
 * keeps one employee per shift type, a demand above one leaves the last one picked. The
 * random heuristic draws ids uniformly until one fits, once per covered shift type, and
 * does not set the individual's scheduling period.
 *
 * An id that belongs to no employee yields null, which the skill check dereferences.
 */
module Construction {
  import opened Wrappers
  import opened Entities
  import opened Entries
  import opened SchedulingPeriod
  import opened DayRosters
  import opened Collaborators
  import opened Individuals
  import opened RandomDraws

  // ---------------------------------------------------------------------------------
  // What a constructed day guarantees.

  /** No employee holds two slots of the day. */
  predicate NoDoubleDuty(slots: seq<Slot>)
  {
    forall i, j :: 0 <= i < j < |slots| ==> slots[i].value != slots[j].value
  }

  /** A day as the heuristics build it: one slot per shift type, skilled employees, no double duty. */
  ghost predicate WellStaffed(day: DayRoster, env: Env)
  {
    && DistinctKeys(day.slots)
    && NoDoubleDuty(day.slots)
    && forall i :: 0 <= i < |day.slots| ==> env.hasRequiredSkills(day.slots[i].value, day.slots[i].key)
  }

  /** The employee may be given shift type st on the day: skilled and not yet planned. */
  predicate Fits(env: Env, day: DayRoster, st: ShiftType, e: Employee)
  {
    env.hasRequiredSkills(e, st) && !IsEmployeePlanned(day, e)
  }

  /** Adding an employee that fits keeps the day well staffed. */
  lemma {:induction false} AddFitting(day: DayRoster, env: Env, st: ShiftType, e: Employee)
    requires WellStaffed(day, env) && Fits(env, day, st, e)
    ensures WellStaffed(AddToDayRoster(day, st, e), env)
  {
    var r := AddToDayRoster(day, st, e).slots;
    PutShape(day.slots, st, e);
  }

  // ---------------------------------------------------------------------------------
  // The simple heuristic.

  /** An id above every employee's id. */
  function IdBound(es: seq<Employee>): (b: int)
    ensures forall i :: 0 <= i < |es| ==> es[i].id < b
  {
    if |es| == 0 then 0
    else
      var rest := IdBound(es[1..]);
      assert forall i :: 1 <= i < |es| ==> es[i] == es[1..][i - 1];
      if es[0].id + 1 > rest then es[0].id + 1 else rest
  }

  /** Id k belongs to an employee that does not fit, so the search moves past it. */
  ghost predicate Passed(p: Period, env: Env, day: DayRoster, st: ShiftType, k: int)
  {
    FindEmployee(p.employees, k).Some? && !Fits(env, day, st, FindEmployee(p.employees, k).value)
  }

  /** Every id in [lo, hi) is passed over. */
  ghost predicate PassedFrom(p: Period, env: Env, day: DayRoster, st: ShiftType, lo: int, hi: int)
  {
    forall k :: lo <= k < hi ==> Passed(p, env, day, st, k)
  }

  /** Searching from lo runs into an id that names no employee. */
  ghost predicate RunsOutFrom(p: Period, env: Env, day: DayRoster, st: ShiftType, lo: int)
  {
    exists k :: lo <= k && FindEmployee(p.employees, k).None? && PassedFrom(p, env, day, st, lo, k)
  }

  /** Only ids below IdBound name an employee, which bounds the search. */
  lemma FoundBelowBound(es: seq<Employee>, id: int)
    requires FindEmployee(es, id).Some?
    ensures id < IdBound(es)
  {
    var i :| 0 <= i < |es| && es[i] == FindEmployee(es, id).value;
  }

  /** A passed id in front of a passed run, or of a run that runs out, extends it. */
  lemma PassedExtends(p: Period, env: Env, day: DayRoster, st: ShiftType, id: int)
    requires Passed(p, env, day, st, id)
    ensures forall hi :: PassedFrom(p, env, day, st, id + 1, hi) ==> PassedFrom(p, env, day, st, id, hi)
    ensures RunsOutFrom(p, env, day, st, id + 1) ==> RunsOutFrom(p, env, day, st, id)
  {
    if RunsOutFrom(p, env, day, st, id + 1) {
      var k :| id + 1 <= k && FindEmployee(p.employees, k).None? && PassedFrom(p, env, day, st, id + 1, k);
      assert PassedFrom(p, env, day, st, id, k);
    }
  }

  /**
   * The do-while of the simple heuristic: employees by id from `id` upwards until one
   * fits; it returns that employee and the next id. An id with no employee throws.
   */
  function FirstFit(p: Period, env: Env, day: DayRoster, st: ShiftType, id: int): (r: Result<(Employee, int)>)
    ensures r.Success? ==> && id < r.value.1
                           && FindEmployee(p.employees, r.value.1 - 1) == Some(r.value.0)
                           && Fits(env, day, st, r.value.0)
                           && PassedFrom(p, env, day, st, id, r.value.1 - 1)
    ensures r.Failure? ==> r.error == NullDereference && RunsOutFrom(p, env, day, st, id)
    decreases IdBound(p.employees) - id
  {
    match FindEmployee(p.employees, id)
    case None =>
      assert PassedFrom(p, env, day, st, id, id);
      Failure(NullDereference)
    case Some(e) =>
      if Fits(env, day, st, e) then
        assert PassedFrom(p, env, day, st, id, id);
        Success((e, id + 1))
      else
        FoundBelowBound(p.employees, id);
        PassedExtends(p, env, day, st, id);
        FirstFit(p, env, day, st, id + 1)
  }

  /** The inner for-loop: `count` employees for shift type st, each by FirstFit. */
  function FillCover(p: Period, env: Env, day: DayRoster, st: ShiftType, count: int, id: int): (r: Result<(DayRoster, int)>)
    requires WellStaffed(day, env)
    ensures r.Failure? ==> r.error == NullDereference
    ensures r.Success? ==> && r.value.0.date == day.date
                           && WellStaffed(r.value.0, env)
                           && Keys(r.value.0.slots) == Keys(day.slots) + (if count > 0 then {st} else {})
    decreases count
  {
    if count <= 0 then Success((day, id))
    else
      match FirstFit(p, env, day, st, id)
      case Failure(e) => Failure(e)
      case Success(found) =>
        AddFitting(day, env, st, found.0);
        FillCover(p, env, AddToDayRoster(day, st, found.0), st, count - 1, found.1)
  }

  /** The shift types of the covers from position i on whose demand is positive. */
  function DemandedFrom(covers: seq<Entry<ShiftType, int>>, i: nat): set<ShiftType>
  {
    set j | i <= j < |covers| && covers[j].value > 0 :: covers[j].key
  }

  /** The loop over the day's covers, from cover i on. */
  function SimpleCovers(p: Period, env: Env, covers: seq<Entry<ShiftType, int>>, i: nat, day: DayRoster, id: int)
    : (r: Result<DayRoster>)
    requires i <= |covers| && WellStaffed(day, env)
    ensures r.Failure? ==> r.error == NullDereference
    ensures r.Success? ==> && r.value.date == day.date
                           && WellStaffed(r.value, env)
                           && Keys(r.value.slots) == Keys(day.slots) + DemandedFrom(covers, i)
    decreases |covers| - i
  {
    if i == |covers| then
      assert DemandedFrom(covers, i) == {};
      Success(day)
    else
      match FillCover(p, env, day, covers[i].key, covers[i].value, id)
      case Failure(e) => Failure(e)
      case Success(filled) =>
        assert DemandedFrom(covers, i) == (if covers[i].value > 0 then {covers[i].key} else {}) + DemandedFrom(covers, i + 1);
        SimpleCovers(p, env, covers, i + 1, filled.0, filled.1)
  }

  /** The day roster the simple heuristic builds for day number d. */
  function SimpleDay(p: Period, env: Env, d: nat): (r: Result<DayRoster>)
    ensures r.Failure? ==> r.error == NullDereference
    ensures r.Success? ==> && r.value.date == env.dateByNumber(p, d)
                           && WellStaffed(r.value, env)
                           && Keys(r.value.slots) == DemandedFrom(env.coversByDate(p, env.dateByNumber(p, d)), 0)
  {
    var date := env.dateByNumber(p, d);
    var covers := env.coversByDate(p, date);
    var empty := DayRoster(date, []);
    assert Keys(empty.slots) == {};
    SimpleCovers(p, env, covers, 0, empty, 0)
  }

  /** An individual as the heuristics build it: day d carries date d and is well staffed, nothing is cached. */
  ghost predicate Constructed(ind: Individual, env: Env, p: Period, days: nat)
  {
    && |ind.roster| == days
    && ind.fitness.None?
    && ind.assignments == [] && ind.numAssignments == [] && ind.consecutive == [] && ind.weekends == []
    && forall d :: 0 <= d < days ==> ind.roster[d].date == env.dateByNumber(p, d) && WellStaffed(ind.roster[d], env)
  }

  /** The day loop of the simple heuristic, from day d on. */
  function SimpleDays(p: Period, env: Env, d: nat, ind: Individual): (r: Result<Individual>)
    requires d <= env.numberOfDays(p) && Constructed(ind, env, p, d) && ind.period == Some(p)
    ensures r.Failure? ==> r.error == NullDereference
    ensures r.Success? ==> && Constructed(r.value, env, p, env.numberOfDays(p)) && r.value.period == Some(p)
                           && ind.roster == r.value.roster[..d]
                           && forall k :: d <= k < env.numberOfDays(p) ==>
                                Keys(r.value.roster[k].slots) == DemandedFrom(env.coversByDate(p, env.dateByNumber(p, k)), 0)
    decreases env.numberOfDays(p) - d
  {
    if d == env.numberOfDays(p) then Success(ind)
    else
      match SimpleDay(p, env, d)
      case Failure(e) => Failure(e)
      case Success(day) =>
        var next := AddDayRoster(ind, day);
        var r := SimpleDays(p, env, d + 1, next);
        if r.Success? then
          assert next.roster == r.value.roster[..d + 1];
          assert r.value.roster[d] == day;
          assert ind.roster == r.value.roster[..d];
          r
        else
          r
  }

  /**
   * SimpleConstructionHeuristic.getIndividual: every day of the period, each covered
   * shift type demanded at least once gets the first fitting employee by id; the
   * individual carries the period.
   */
  function SimpleIndividual(p: Period, env: Env): (r: Result<Individual>)
    ensures r.Failure? ==> r.error == NullDereference
    ensures r.Success? ==> && Constructed(r.value, env, p, env.numberOfDays(p)) && r.value.period == Some(p)
                           && forall d :: 0 <= d < env.numberOfDays(p) ==>
                                Keys(r.value.roster[d].slots) == DemandedFrom(env.coversByDate(p, env.dateByNumber(p, d)), 0)
  {
    SimpleDays(p, env, 0, SetSchedulingPeriod(NewIndividual, p))
  }

  /** A day whose only cover is one employee of shift type st goes to employee 0 when that one is skilled. */
  lemma SimpleDayFirstEmployee(p: Period, env: Env, d: nat, e0: Employee, st: ShiftType)
    requires FindEmployee(p.employees, 0) == Some(e0) && env.hasRequiredSkills(e0, st)
    requires env.coversByDate(p, env.dateByNumber(p, d)) == [Entry(st, 1)]
    ensures SimpleDay(p, env, d) == Success(DayRoster(env.dateByNumber(p, d), [Entry(st, e0)]))
  {
    var date := env.dateByNumber(p, d);
    var one := DayRoster(date, [Entry(st, e0)]);
    FillOneFirst(p, env, date, e0, st);
    assert SimpleCovers(p, env, [Entry(st, 1)], 1, one, 1) == Success(one);
  }

  /** One employee of shift type st on an empty day is employee 0 when that one is skilled. */
  lemma FillOneFirst(p: Period, env: Env, date: Date, e0: Employee, st: ShiftType)
    requires FindEmployee(p.employees, 0) == Some(e0) && env.hasRequiredSkills(e0, st)
    ensures WellStaffed(DayRoster(date, []), env)
    ensures FillCover(p, env, DayRoster(date, []), st, 1, 0) == Success((DayRoster(date, [Entry(st, e0)]), 1))
  {
    var empty := DayRoster(date, []);
    FirstFitOnEmpty(p, env, date, e0, st);
    var one := AddToDayRoster(empty, st, e0);
    assert one.slots == [Entry(st, e0)];
    assert FillCover(p, env, one, st, 0, 1) == Success((one, 1));
  }

  /** On an empty day the first fit for shift type st is employee 0 when that one is skilled. */
  lemma FirstFitOnEmpty(p: Period, env: Env, date: Date, e0: Employee, st: ShiftType)
    requires FindEmployee(p.employees, 0) == Some(e0) && env.hasRequiredSkills(e0, st)
    ensures FirstFit(p, env, DayRoster(date, []), st, 0) == Success((e0, 1))
  {
    assert !IsEmployeePlanned(DayRoster(date, []), e0);
  }

  /** The day loop puts at every position from d on the day SimpleDay builds for it. */
  lemma {:induction false} SimpleDaysFollow(p: Period, env: Env, d: nat, ind: Individual)
    requires d <= env.numberOfDays(p) && Constructed(ind, env, p, d) && ind.period == Some(p)
    requires forall k :: d <= k < env.numberOfDays(p) ==> SimpleDay(p, env, k).Success?
    ensures SimpleDays(p, env, d, ind).Success?
    ensures forall k :: d <= k < env.numberOfDays(p) ==> SimpleDay(p, env, k) == Success(SimpleDays(p, env, d, ind).value.roster[k])
    decreases env.numberOfDays(p) - d
  {
    if d < env.numberOfDays(p) {
      var day := SimpleDay(p, env, d).value;
      var next := AddDayRoster(ind, day);
      SimpleDaysFollow(p, env, d + 1, next);
      SimpleDaysNext(p, env, d, ind);
      var r := SimpleDays(p, env, d + 1, next).value;
      assert r.roster[d] == day by {
        assert next.roster == r.roster[..d + 1];
        assert next.roster[d] == day;
      }
      FollowsFrom(r.roster, (k: nat) => SimpleDay(p, env, k), d, env.numberOfDays(p));
    }
  }

  /** The day loop from day d goes on from day d + 1 with SimpleDay's day d added. */
  lemma SimpleDaysNext(p: Period, env: Env, d: nat, ind: Individual)
    requires d < env.numberOfDays(p) && Constructed(ind, env, p, d) && ind.period == Some(p)
    requires SimpleDay(p, env, d).Success?
    ensures Constructed(AddDayRoster(ind, SimpleDay(p, env, d).value), env, p, d + 1)
    ensures SimpleDays(p, env, d, ind) == SimpleDays(p, env, d + 1, AddDayRoster(ind, SimpleDay(p, env, d).value))
  {
  }

  /** Items d to n of a sequence are what `build` gives when item d and those after it are. */
  lemma FollowsFrom<T>(items: seq<T>, build: nat -> Result<T>, d: nat, n: nat)
    requires d < n <= |items|
    requires build(d) == Success(items[d])
    requires forall k :: d + 1 <= k < n ==> build(k) == Success(items[k])
    ensures forall k :: d <= k < n ==> build(k) == Success(items[k])
  {
  }

  /**
   * With one shift type demanded once on every day and employee 0 skilled for it, the
   * simple heuristic gives that shift to employee 0 on every day.
   */
  lemma SimpleSingleCoverPicksFirst(p: Period, env: Env, e0: Employee, st: ShiftType)
    requires FindEmployee(p.employees, 0) == Some(e0) && env.hasRequiredSkills(e0, st)
    requires forall d :: 0 <= d < env.numberOfDays(p) ==> env.coversByDate(p, env.dateByNumber(p, d)) == [Entry(st, 1)]
    ensures SimpleIndividual(p, env).Success?
    ensures forall d :: 0 <= d < env.numberOfDays(p) ==> SimpleIndividual(p, env).value.roster[d].slots == [Entry(st, e0)]
  {
    forall d | 0 <= d < env.numberOfDays(p)
      ensures SimpleDay(p, env, d) == Success(DayRoster(env.dateByNumber(p, d), [Entry(st, e0)]))
    {
      SimpleDayFirstEmployee(p, env, d, e0, st);
    }
    SimpleDaysFollow(p, env, 0, SetSchedulingPeriod(NewIndividual, p));
  }

  // ---------------------------------------------------------------------------------
  // The random heuristic.

  /** Every id getInt(|employees|) can return names an employee. */
  predicate DenseIds(p: Period)
  {
    forall k :: 0 <= k < |p.employees| ==> FindEmployee(p.employees, k).Some?
  }

  /** The draws at positions [lo, hi) all name employees that do not fit. */
  ghost predicate DrawsPassed(p: Period, env: Env, day: DayRoster, st: ShiftType, draws: seq<int>, lo: nat, hi: nat)
    requires hi <= |draws|
  {
    forall k :: lo <= k < hi ==> Passed(p, env, day, st, draws[k])
  }

  /**
   * The do-while of the random heuristic: ids drawn from position `at` of the stream
   * until one names an employee that fits; it returns that employee and the position
   * after its draw. getInt(0) throws, as does an id with no employee; running out of
   * draws stands for drawing forever.
   */
  function RandomFit(p: Period, env: Env, day: DayRoster, st: ShiftType, draws: seq<int>, at: nat)
    : (r: Result<(Employee, nat)>)
    requires at <= |draws|
    ensures |p.employees| == 0 ==> r == Failure(IllegalArgument)
    ensures r.Failure? ==> r.error in {IllegalArgument, NullDereference, DrawsExhausted}
    ensures DenseIds(p) && DrawsBelow(draws, |p.employees|) ==> r.Failure? ==> r.error != NullDereference
    ensures r.Success? ==> && at < r.value.1 <= |draws|
                           && FindEmployee(p.employees, draws[r.value.1 - 1]) == Some(r.value.0)
                           && Fits(env, day, st, r.value.0)
                           && DrawsPassed(p, env, day, st, draws, at, r.value.1 - 1)
    decreases |draws| - at
  {
    if |p.employees| == 0 then Failure(IllegalArgument)
    else if at == |draws| then Failure(DrawsExhausted)
    else
      match FindEmployee(p.employees, draws[at])
      case None =>
        Failure(NullDereference)
      case Some(e) =>
        if Fits(env, day, st, e) then Success((e, at + 1))
        else
          var r := RandomFit(p, env, day, st, draws, at + 1);
          assert r.Success? ==> DrawsPassed(p, env, day, st, draws, at, r.value.1 - 1);
          r
  }

  /** The shift types of the covers from position i on. */
  function CoveredFrom(covers: seq<Entry<ShiftType, int>>, i: nat): set<ShiftType>
  {
    set j | i <= j < |covers| :: covers[j].key
  }

  /** The loop over the day's covers: one randomly drawn employee per covered shift type. */
  function RandomCovers(p: Period, env: Env, covers: seq<Entry<ShiftType, int>>, i: nat, day: DayRoster, draws: seq<int>, at: nat)
    : (r: Result<(DayRoster, nat)>)
    requires i <= |covers| && WellStaffed(day, env) && at <= |draws|
    ensures r.Failure? ==> r.error in {IllegalArgument, NullDereference, DrawsExhausted}
    ensures DenseIds(p) && DrawsBelow(draws, |p.employees|) ==> r.Failure? ==> r.error != NullDereference
    ensures r.Success? ==> && r.value.0.date == day.date
                           && WellStaffed(r.value.0, env)
                           && Keys(r.value.0.slots) == Keys(day.slots) + CoveredFrom(covers, i)
                           && at <= r.value.1 <= |draws|
    decreases |covers| - i
  {
    if i == |covers| then
      assert CoveredFrom(covers, i) == {};
      Success((day, at))
    else
      match RandomFit(p, env, day, covers[i].key, draws, at)
      case Failure(e) => Failure(e)
      case Success(found) =>
        AddFitting(day, env, covers[i].key, found.0);
        assert CoveredFrom(covers, i) == {covers[i].key} + CoveredFrom(covers, i + 1);
        RandomCovers(p, env, covers, i + 1, AddToDayRoster(day, covers[i].key, found.0), draws, found.1)
  }

  /** The day loop of the random heuristic, from day d on. */
  function RandomDays(p: Period, env: Env, d: nat, ind: Individual, draws: seq<int>, at: nat): (r: Result<Individual>)
    requires d <= env.numberOfDays(p) && Constructed(ind, env, p, d) && ind.period.None?
    requires at <= |draws|
    ensures r.Failure? ==> r.error in {IllegalArgument, NullDereference, DrawsExhausted}
    ensures DenseIds(p) && DrawsBelow(draws, |p.employees|) ==> r.Failure? ==> r.error != NullDereference
    ensures r.Success? ==> && Constructed(r.value, env, p, env.numberOfDays(p)) && r.value.period.None?
                           && ind.roster == r.value.roster[..d]
                           && forall k :: d <= k < env.numberOfDays(p) ==>
                                Keys(r.value.roster[k].slots) == CoveredFrom(env.coversByDate(p, env.dateByNumber(p, k)), 0)
    decreases env.numberOfDays(p) - d
  {
    if d == env.numberOfDays(p) then Success(ind)
    else
      var date := env.dateByNumber(p, d);
      var covers := env.coversByDate(p, date);
      assert Keys(DayRoster(date, []).slots) == {};
      match RandomCovers(p, env, covers, 0, DayRoster(date, []), draws, at)
      case Failure(e) => Failure(e)
      case Success(built) =>
        var next := AddDayRoster(ind, built.0);
        var r := RandomDays(p, env, d + 1, next, draws, built.1);
        if r.Success? then
          RandomDayPrepended(p, env, d, ind.roster, built.0, r.value.roster);
          r
        else
          r
  }

  /** The day built at d in front of the later days: the days from d on cover what their covers name. */
  lemma RandomDayPrepended(p: Period, env: Env, d: nat, before: seq<DayRoster>, day: DayRoster, after: seq<DayRoster>)
    requires |before| == d < env.numberOfDays(p) == |after| && after[..d + 1] == before + [day]
    requires Keys(day.slots) == CoveredFrom(env.coversByDate(p, env.dateByNumber(p, d)), 0)
    requires forall k :: d + 1 <= k < |after| ==>
               Keys(after[k].slots) == CoveredFrom(env.coversByDate(p, env.dateByNumber(p, k)), 0)
    ensures before == after[..d]
    ensures forall k :: d <= k < |after| ==>
              Keys(after[k].slots) == CoveredFrom(env.coversByDate(p, env.dateByNumber(p, k)), 0)
  {
    assert after[..d] == after[..d + 1][..d];
    assert after[d] == after[..d + 1][d];
  }

  /**
   * RandomConstructionHeuristic.getIndividual: every day of the period, each covered
   * shift type gets one randomly drawn fitting employee. The individual has no period.
   */
  function RandomIndividual(p: Period, env: Env, draws: seq<int>): (r: Result<Individual>)
    ensures r.Failure? ==> r.error in {IllegalArgument, NullDereference, DrawsExhausted}
    ensures DenseIds(p) && DrawsBelow(draws, |p.employees|) ==> r.Failure? ==> r.error != NullDereference
    ensures r.Success? ==> && Constructed(r.value, env, p, env.numberOfDays(p)) && r.value.period.None?
                           && forall d :: 0 <= d < env.numberOfDays(p) ==>
                                Keys(r.value.roster[d].slots) == CoveredFrom(env.coversByDate(p, env.dateByNumber(p, d)), 0)
  {
    RandomDays(p, env, 0, NewIndividual, draws, 0)
  }

  /** A day without slots is one whose shift types form the empty set. */
  lemma NoSlotsNoKeys(day: DayRoster)
    ensures |day.slots| == 0 <==> Keys(day.slots) == {}
  {
    if |day.slots| > 0 {
      assert day.slots[0].key in Keys(day.slots);
    }
  }

  /**
   * Since the random heuristic leaves the period unset, isFeasible returns true exactly
   * when no day of the period has any cover: each covered shift type got an employee, and
   * without a period any planned employee makes isFeasible throw NullPointerException.
   */
  lemma RandomIndividualFeasibility(p: Period, env: Env, draws: seq<int>)
    requires RandomIndividual(p, env, draws).Success?
    ensures var ind := RandomIndividual(p, env, draws).value;
            IsFeasible(ind, env) == Success(true)
            <==> forall d :: 0 <= d < env.numberOfDays(p) ==> CoveredFrom(env.coversByDate(p, env.dateByNumber(p, d)), 0) == {}
  {
    var ind := RandomIndividual(p, env, draws).value;
    forall d | 0 <= d < |ind.roster| ensures |ind.roster[d].slots| == 0 <==> Keys(ind.roster[d].slots) == {} {
      NoSlotsNoKeys(ind.roster[d]);
    }
  }
}

=== FILE: counter.dfy ===
/**
 * The per-employee counters of the constraint layer. A counter has one cell per time
 * unit (a day of the period paired with a shift type, numbered day-major) and a
 * per-time-unit table for every day. The event bookkeeping is switched off in the
 * engine, so every cell the loop reaches gets its own time-unit number and zero for the
 * last, total and consecutive counts; cells it does not reach stay null, modelled as
 * None. A roster with more days than the period overruns the arrays.
 */
module Counters {
  import opened Wrappers
  import opened Entities
  import opened SchedulingPeriod
  import opened Collaborators
  import opened Individuals

  datatype Counter = Counter(
    employee: Employee,
    timeUnit: seq<Option<int>>,
    event: seq<Option<bool>>,
    last: seq<Option<int>>,
    total: seq<Option<int>>,
    consecutive: seq<Option<int>>,
    perts: seq<seq<Option<int>>>)

  /** A fresh array of n null cells. */
  function Nulls<T>(n: nat): (r: seq<Option<T>>)
    ensures |r| == n && forall t :: 0 <= t < n ==> r[t].None?
  {
    seq(n, _ => None)
  }

  /** The number of time units of the period: its days times its shift types. */
  function TimeUnits(env: Env, p: Period): nat
  {
    env.numberOfDays(p) * |p.shiftTypes|
  }

  /**
   * The counter the loop leaves behind when it wrote the first `written` time units:
   * written cells hold their number and zero counts, the rest and all events are null.
   */
  ghost predicate Describes(c: Counter, e: Employee, units: nat, days: nat, written: nat)
  {
    && c.employee == e
    && |c.timeUnit| == units && |c.event| == units && |c.last| == units
    && |c.total| == units && |c.consecutive| == units
    && (forall t :: 0 <= t < units ==> c.event[t].None?)
    && (forall t :: 0 <= t < units ==> c.timeUnit[t] == (if t < written then Some(t) else None))
    && (forall t :: 0 <= t < units ==> c.last[t] == (if t < written then Some(0) else None))
    && (forall t :: 0 <= t < units ==> c.total[t] == (if t < written then Some(0) else None))
    && (forall t :: 0 <= t < units ==> c.consecutive[t] == (if t < written then Some(0) else None))
    && |c.perts| == days
    && forall d :: 0 <= d < days ==> c.perts[d] == Nulls(units)
  }

  /** Writes time unit t: its number and zero last, total and consecutive counts. */
  function Write(c: Counter, t: nat): (r: Counter)
    requires t < |c.timeUnit| == |c.last| == |c.total| == |c.consecutive|
    ensures forall e, units, days :: Describes(c, e, units, days, t) ==> Describes(r, e, units, days, t + 1)
  {
    c.(timeUnit := c.timeUnit[t := Some(t)],
       last := c.last[t := Some(0)],
       total := c.total[t := Some(0)],
       consecutive := c.consecutive[t := Some(0)])
  }

  /** Row-major numbering: one row of `types` units further is `types` more. */
  lemma RowStep(i: nat, types: nat)
    ensures (i + 1) * types == i * types + types
  {
  }

  /** Row starts grow with the row when rows are not empty. */
  lemma RowMonotone(a: nat, b: nat, types: nat)
    requires a < b && types > 0
    ensures a * types + types <= b * types
  {
    calc {
      b * types - (a * types + types);
      (b - a - 1) * types;
    >= 0;
    }
  }

  /**
   * calculatePerEmployee: one pass over the rosters of the individual and the shift types
   * of the period. It overruns the arrays exactly when the individual has more days than
   * the period and the period has a shift type.
   */
  method CalculatePerEmployee(e: Employee, p: Period, env: Env, ind: Individual) returns (r: Result<Counter>)
    ensures r.Failure? <==> |ind.roster| > env.numberOfDays(p) && |p.shiftTypes| > 0
    ensures r.Failure? ==> r.error == OutOfRange
    ensures r.Success? ==> Describes(r.value, e, TimeUnits(env, p), env.numberOfDays(p), |ind.roster| * |p.shiftTypes|)
  {
    var days := env.numberOfDays(p);
    var types := |p.shiftTypes|;
    var units := days * types;
    var c := Counter(e, Nulls(units), Nulls(units), Nulls(units), Nulls(units), Nulls(units), seq(days, _ => Nulls(units)));
    var t := 0;
    var i := 0;
    while i < |ind.roster|
      invariant 0 <= i <= |ind.roster|
      invariant t == i * types
      invariant i <= days || types == 0
      invariant Describes(c, e, units, days, t)
    {
      if i >= days && types > 0 {
        return Failure(OutOfRange);
      }
      if types > 0 {
        RowMonotone(i, days, types);
      }
      var j := 0;
      while j < types
        invariant 0 <= j <= types
        invariant t == i * types + j && (types > 0 ==> i * types + types <= units)
        invariant Describes(c, e, units, days, t)
      {
        c := Write(c, t);
        t := t + 1;
        j := j + 1;
      }
      RowStep(i, types);
      i := i + 1;
    }
    return Success(c);
  }

  /**
   * calculate: one counter per employee of the period, in the period's order; the first
   * overrun is the result.
   */
  method Calculate(p: Period, env: Env, ind: Individual) returns (r: Result<seq<Counter>>)
    ensures r.Failure? <==> |p.employees| > 0 && |ind.roster| > env.numberOfDays(p) && |p.shiftTypes| > 0
    ensures r.Failure? ==> r.error == OutOfRange
    ensures r.Success? ==> && |r.value| == |p.employees|
                           && forall k :: 0 <= k < |p.employees| ==>
                                Describes(r.value[k], p.employees[k], TimeUnits(env, p), env.numberOfDays(p), |ind.roster| * |p.shiftTypes|)
  {
    var counters := [];
    var k := 0;
    while k < |p.employees|
      invariant 0 <= k <= |p.employees| && |counters| == k
      invariant k > 0 ==> !(|ind.roster| > env.numberOfDays(p) && |p.shiftTypes| > 0)
      invariant forall m :: 0 <= m < k ==>
                  Describes(counters[m], p.employees[m], TimeUnits(env, p), env.numberOfDays(p), |ind.roster| * |p.shiftTypes|)
    {
      var c := CalculatePerEmployee(p.employees[k], p, env, ind);
      if c.Failure? {
        return Failure(c.error);
      }
      counters := counters + [c.value];
      k := k + 1;
    }
    return Success(counters);
  }
}

=== FILE: cover.dfy ===
/** The demand of one weekday: how many employees each shift type wants. */
module Covers {
  import opened Wrappers
  import opened Entities
  import opened Entries
  import opened DayHelper

  datatype Cover = Cover(day: Day, covers: seq<Entry<ShiftType, int>>)

  /** addCover is Map.put: the shift type's count is set, overwriting an earlier one. */
  function AddCover(cover: Cover, st: ShiftType, preferred: int): (r: Cover)
    ensures r.day == cover.day
    ensures Get(r.covers, st) == Some(preferred)
    ensures forall st' :: st' != st ==> Get(r.covers, st') == Get(cover.covers, st')
    ensures DistinctKeys(cover.covers) ==> DistinctKeys(r.covers)
  {
    Cover(cover.day, Put(cover.covers, st, preferred))
  }

  /** The loop over the cover entries: the first one for `st`, provided the weekday matches. */
  function Scan(es: seq<Entry<ShiftType, int>>, st: ShiftType, dayMatches: bool): (r: Option<int>)
    ensures r == if dayMatches then Get(es, st) else None
  {
    if |es| == 0 then None
    else if st == es[0].key && dayMatches then Some(es[0].value)
    else Scan(es[1..], st, dayMatches)
  }

  /**
   * getPreferredEmployeeCount: the count stored for the shift type when the date falls on
   * this cover's weekday; null (None) when the weekday differs or the shift type has no
   * count. `dayByDate` is the calendar's weekday of a date.
   */
  function GetPreferredEmployeeCount(cover: Cover, st: ShiftType, date: Date, dayByDate: Date -> Day): (r: Option<int>)
    ensures dayByDate(date) == cover.day ==> r == Get(cover.covers, st)
    ensures dayByDate(date) != cover.day ==> r.None?
  {
    Scan(cover.covers, st, dayByDate(date) == cover.day)
  }

  /** A count just added is the one found on the cover's weekday. */
  lemma AddThenGet(cover: Cover, st: ShiftType, preferred: int, date: Date, dayByDate: Date -> Day)
    requires dayByDate(date) == cover.day
    ensures GetPreferredEmployeeCount(AddCover(cover, st, preferred), st, date, dayByDate) == Some(preferred)
  {
  }
}

=== FILE: day_helper.dfy ===
/** Day-of-week names: parsing one name, and scanning a string for the names it contains. */
module DayHelper {
  import opened Wrappers

  datatype Day = Monday | Tuesday | Wednesday | Thursday | Friday | Saturday | Sunday

  /** Position of a day in the week, Monday first. */
  function Ordinal(d: Day): nat
  {
    match d
    case Monday => 0
    case Tuesday => 1
    case Wednesday => 2
    case Thursday => 3
    case Friday => 4
    case Saturday => 5
    case Sunday => 6
  }

  /** The capitalised English name, as it appears in day lists ("Monday"). */
  function CapitalName(d: Day): string
  {
    match d
    case Monday => "Monday"
    case Tuesday => "Tuesday"
    case Wednesday => "Wednesday"
    case Thursday => "Thursday"
    case Friday => "Friday"
    case Saturday => "Saturday"
    case Sunday => "Sunday"
  }

  /** The lower-case English name ("monday"). */
  function LowerName(d: Day): string
  {
    match d
    case Monday => "monday"
    case Tuesday => "tuesday"
    case Wednesday => "wednesday"
    case Thursday => "thursday"
    case Friday => "friday"
    case Saturday => "saturday"
    case Sunday => "sunday"
  }

  /** r is s[a..a + |r|], and everything of s outside that slice is at or below U+0020. */
  predicate TrimmedAt(s: string, r: string, a: int)
  {
    && 0 <= a <= |s| - |r| && r == s[a..a + |r|]
    && (forall i :: 0 <= i < a ==> s[i] <= ' ')
    && (forall i :: a + |r| <= i < |s| ==> s[i] <= ' ')
  }

  /** Java's String.trim: drops every leading and trailing character at or below U+0020. */
  function Trim(s: string): (r: string)
    ensures |r| <= |s|
    ensures |r| > 0 ==> r[0] > ' ' && r[|r| - 1] > ' '
    ensures exists a :: TrimmedAt(s, r, a)
  {
    var t := TrimStart(s);
    var r := TrimEnd(t);
    TrimParts(s, t, r);
    r
  }

  /** The two halves of the trim together cut exactly the blank ends. */
  lemma TrimParts(s: string, t: string, r: string)
    requires |t| <= |s| && t == s[|s| - |t|..] && forall i :: 0 <= i < |s| - |t| ==> s[i] <= ' '
    requires |r| <= |t| && r == t[..|r|] && forall i :: |r| <= i < |t| ==> t[i] <= ' '
    ensures TrimmedAt(s, r, |s| - |t|)
  {
    var a := |s| - |t|;
    assert r == s[a..a + |r|];
    forall i | a + |r| <= i < |s| ensures s[i] <= ' ' {
      assert s[i] == t[i - a];
    }
  }

  /** The leading part of String.trim: drops the characters at or below U+0020 in front. */
  function TrimStart(s: string): (r: string)
    ensures |r| <= |s|
    ensures |r| > 0 ==> r[0] > ' '
    ensures r == s[|s| - |r|..]
    ensures forall i :: 0 <= i < |s| - |r| ==> s[i] <= ' '
  {
    if |s| > 0 && s[0] <= ' ' then TrimStart(s[1..]) else s
  }

  /** The trailing part of String.trim: drops the characters at or below U+0020 at the end. */
  function TrimEnd(s: string): (r: string)
    ensures |r| <= |s|
    ensures |r| > 0 ==> r[|r| - 1] > ' '
    ensures r == s[..|r|]
    ensures forall i :: |r| <= i < |s| ==> s[i] <= ' '
  {
    if |s| > 0 && s[|s| - 1] <= ' ' then TrimEnd(s[..|s| - 1]) else s
  }

  /** Lower-cases the ASCII letters A-Z and keeps every other character. */
  function ToLower(s: string): (r: string)
    ensures |r| == |s|
    ensures forall i :: 0 <= i < |s| ==> r[i] == LowerChar(s[i])
  {
    if |s| == 0 then "" else [LowerChar(s[0])] + ToLower(s[1..])
  }

  function LowerChar(c: char): char
  {
    if 'A' <= c <= 'Z' then (c as int + 32) as char else c
  }

  /** The seven days in week order. */
  const AllDays: seq<Day> := [Monday, Tuesday, Wednesday, Thursday, Friday, Saturday, Sunday]

  lemma AllDaysComplete(d: Day)
    ensures d in AllDays && AllDays[Ordinal(d)] == d
  {
  }

  /** Tries the names of `days` in order and returns the first one equal to `key`. */
  function FirstNamed(key: string, days: seq<Day>): (r: Option<Day>)
    ensures r.Some? ==> r.value in days && LowerName(r.value) == key
    ensures r.None? <==> forall d :: d in days ==> LowerName(d) != key
  {
    if |days| == 0 then None
    else if LowerName(days[0]) == key then Some(days[0])
    else FirstNamed(key, days[1..])
  }

  /**
   * The day whose lower-case name equals the trimmed, lower-cased input;
   * any other input is a parse failure.
   */
  function GetDayByName(dayName: string): (r: Result<Day>)
    ensures r.Success? ==> LowerName(r.value) == ToLower(Trim(dayName))
    ensures r.Failure? <==> forall d: Day :: LowerName(d) != ToLower(Trim(dayName))
    ensures r.Failure? ==> r.error == ParseFailure
  {
    match FirstNamed(ToLower(Trim(dayName)), AllDays)
    case Some(d) => Success(d)
    case None =>
      assert forall d: Day :: LowerName(d) != ToLower(Trim(dayName)) by {
        forall d: Day ensures LowerName(d) != ToLower(Trim(dayName)) {
          AllDaysComplete(d);
        }
      }
      Failure(ParseFailure)
  }

  /** The lower-case names are pairwise distinct, so a parsed name identifies one day. */
  lemma LowerNamesDistinct(d: Day, e: Day)
    requires LowerName(d) == LowerName(e)
    ensures d == e
  {
  }

  /** Lower-casing a capitalised name gives the lower-case name. */
  lemma LowerOfCapital(d: Day)
    ensures ToLower(CapitalName(d)) == LowerName(d)
  {
    match d
    case Monday => LowerOfWord("Monday", "monday");
    case Tuesday => LowerOfWord("Tuesday", "tuesday");
    case Wednesday => LowerOfWord("Wednesday", "wednesday");
    case Thursday => LowerOfWord("Thursday", "thursday");
    case Friday => LowerOfWord("Friday", "friday");
    case Saturday => LowerOfWord("Saturday", "saturday");
    case Sunday => LowerOfWord("Sunday", "sunday");
  }

  /** A word whose first letter lower-cases to l's and whose other letters are l's lower-case letters. */
  lemma LowerOfWord(c: string, l: string)
    requires |c| == |l| > 0 && LowerChar(c[0]) == l[0] && c[1..] == l[1..]
    requires forall i :: 1 <= i < |l| ==> 'a' <= l[i] <= 'z'
    ensures ToLower(c) == l
  {
    forall i | 1 <= i < |c| ensures LowerChar(c[i]) == l[i] {
      assert c[i] == c[1..][i - 1];
    }
  }

  /** Parsing the capitalised name of a day gives that day back. */
  lemma ParsesCapitalName(d: Day)
    ensures GetDayByName(CapitalName(d)) == Success(d)
  {
    var s := CapitalName(d);
    assert |s| > 0 && s[0] > ' ' && s[|s| - 1] > ' ';
    TrimKeeps(s);
    LowerOfCapital(d);
    ParsesName(s, d);
  }

  /** Any input whose trimmed lower-case form is a day's lower-case name parses to that day. */
  lemma ParsesName(s: string, d: Day)
    requires ToLower(Trim(s)) == LowerName(d)
    ensures GetDayByName(s) == Success(d)
  {
    var r := GetDayByName(s);
    if r.Success? {
      LowerNamesDistinct(r.value, d);
    }
  }

  /** A string that neither starts nor ends with a blank is its own trim. */
  lemma TrimKeeps(s: string)
    requires |s| > 0 && s[0] > ' ' && s[|s| - 1] > ' '
    ensures Trim(s) == s
  {
    assert TrimStart(s) == s;
  }

  /** Java's String.contains: `needle` occurs as a contiguous block of `s`. */
  predicate Occurs(needle: string, s: string)
  {
    exists i :: 0 <= i && i + |needle| <= |s| && OccursAt(needle, s, i)
  }

  predicate OccursAt(needle: string, s: string, i: nat)
    requires i + |needle| <= |s|
  {
    s[i..i + |needle|] == needle
  }

  /** The days of `days` whose capitalised name occurs in `dayNames`, keeping their order. */
  function NamedIn(dayNames: string, days: seq<Day>): (r: seq<Day>)
    ensures forall d :: d in r <==> d in days && Occurs(CapitalName(d), dayNames)
    ensures |r| <= |days|
    ensures forall i :: 0 <= i < |r| ==> exists j :: 0 <= j < |days| && days[j] == r[i]
  {
    if |days| == 0 then []
    else (if Occurs(CapitalName(days[0]), dayNames) then [days[0]] else []) + NamedIn(dayNames, days[1..])
  }

  /** Filtering a sequence whose ordinals strictly increase keeps them strictly increasing. */
  lemma {:induction false} NamedInOrdered(dayNames: string, days: seq<Day>)
    requires forall i, j :: 0 <= i < j < |days| ==> Ordinal(days[i]) < Ordinal(days[j])
    ensures forall i, j :: 0 <= i < j < |NamedIn(dayNames, days)| ==>
              Ordinal(NamedIn(dayNames, days)[i]) < Ordinal(NamedIn(dayNames, days)[j])
    decreases |days|
  {
    if |days| > 0 {
      NamedInOrdered(dayNames, days[1..]);
      var rest := NamedIn(dayNames, days[1..]);
      forall i | 0 <= i < |rest| ensures Ordinal(days[0]) < Ordinal(rest[i]) {
        var j :| 0 <= j < |days[1..]| && days[1..][j] == rest[i];
        assert days[j + 1] == rest[i];
      }
    }
  }

  /** The days whose capitalised name occurs (case-sensitively) in `dayNames`, Monday to Sunday. */
  function GetDayListFromString(dayNames: string): (r: seq<Day>)
    ensures forall d: Day :: d in r <==> Occurs(CapitalName(d), dayNames)
    ensures forall i, j :: 0 <= i < j < |r| ==> Ordinal(r[i]) < Ordinal(r[j])
    ensures |r| <= 7
  {
    NamedInOrdered(dayNames, AllDays);
    assert forall d: Day :: d in AllDays by {
      forall d: Day ensures d in AllDays { AllDaysComplete(d); }
    }
    NamedIn(dayNames, AllDays)
  }
}

=== FILE: day_roster.dfy ===
/**
 * One day of a roster: the date and, per shift type, the employee on duty.
 * The Java HashMap from shift type to employee is a sequence of slots in
 * iteration order; `Entries.Put` gives it Map.put semantics.
 */
module DayRosters {
  import opened Wrappers
  import opened Entities
  import opened Entries

  type Slot = Entry<ShiftType, Employee>

  datatype DayRoster = DayRoster(date: Date, slots: seq<Slot>)

  /** The reference meaning of "planned": some slot of the day holds `e`. */
  predicate Holds(day: DayRoster, e: Employee)
  {
    exists i :: 0 <= i < |day.slots| && day.slots[i].value == e
  }

  /** Linear search over the slot values, as the for-each over roster.values(). */
  function PlannedIn(slots: seq<Slot>, e: Employee): (r: bool)
    ensures r <==> exists i :: 0 <= i < |slots| && slots[i].value == e
  {
    if |slots| == 0 then false
    else if slots[0].value == e then true
    else
      var r := PlannedIn(slots[1..], e);
      assert forall i :: 1 <= i < |slots| ==> slots[i] == slots[1..][i - 1];
      r
  }

  /** isEmployeePlanned: true iff the employee holds some slot of the day. */
  function IsEmployeePlanned(day: DayRoster, e: Employee): (r: bool)
    ensures r <==> Holds(day, e)
  {
    PlannedIn(day.slots, e)
  }

  /**
   * addToDayRoster is Map.put: the shift type now maps to `e`, every other shift type
   * keeps its employee, and at most one employee per shift type is kept.
   */
  function AddToDayRoster(day: DayRoster, st: ShiftType, e: Employee): (r: DayRoster)
    ensures r.date == day.date
    ensures Get(r.slots, st) == Some(e)
    ensures forall st' :: st' != st ==> Get(r.slots, st') == Get(day.slots, st')
    ensures Keys(r.slots) == Keys(day.slots) + {st}
    ensures DistinctKeys(day.slots) ==> DistinctKeys(r.slots)
    ensures |day.slots| <= |r.slots| <= |day.slots| + 1
  {
    DayRoster(day.date, Put(day.slots, st, e))
  }

  /** Every slot's employee has the skills its shift type requires. */
  function AllSkilled(slots: seq<Slot>, hasSkills: (Employee, ShiftType) -> bool): (r: bool)
    ensures r <==> forall i :: 0 <= i < |slots| ==> hasSkills(slots[i].value, slots[i].key)
  {
    if |slots| == 0 then true
    else if !hasSkills(slots[0].value, slots[0].key) then false
    else
      var r := AllSkilled(slots[1..], hasSkills);
      assert forall i :: 1 <= i < |slots| ==> slots[i] == slots[1..][i - 1];
      r
  }

  /**
   * isDemandedShiftAssignedToNurse: every entry's employee has the skills for its
   * shift type; an empty day passes. `hasSkills` is Employee.hasRequiredSkillsForShiftType.
   */
  function IsDemandedShiftAssignedToNurse(day: DayRoster, hasSkills: (Employee, ShiftType) -> bool): (r: bool)
    ensures r <==> forall i :: 0 <= i < |day.slots| ==> hasSkills(day.slots[i].value, day.slots[i].key)
    ensures |day.slots| == 0 ==> r
  {
    AllSkilled(day.slots, hasSkills)
  }

  /**
   * The copy loop: every entry of `es` is put, in iteration order, into `acc`. A later
   * entry overwrites an earlier one, so each key ends with the value of its last entry
   * in `es`, and a key `es` does not mention keeps its value in `acc`.
   */
  function PutAll(acc: seq<Slot>, es: seq<Slot>): (r: seq<Slot>)
    ensures forall k :: Get(r, k) == if LastWith(es, k).Some? then LastWith(es, k) else Get(acc, k)
    decreases |es|
  {
    if |es| == 0 then acc else PutAll(Put(acc, es[0].key, es[0].value), es[1..])
  }

  /** The value of the last entry of `es` with key k, if any. */
  function LastWith(es: seq<Slot>, k: ShiftType): (r: Option<Employee>)
    ensures r.None? <==> forall i :: 0 <= i < |es| ==> es[i].key != k
    decreases |es|
  {
    if |es| == 0 then None
    else
      var rest := LastWith(es[1..], k);
      assert forall i :: 1 <= i < |es| ==> es[i] == es[1..][i - 1];
      if rest.Some? then rest else if es[0].key == k then Some(es[0].value) else None
  }

  /** With pairwise distinct keys, putting entries one by one into a map rebuilds them in order. */
  lemma {:induction false} PutAllFresh(acc: seq<Slot>, es: seq<Slot>)
    requires DistinctKeys(acc + es)
    ensures PutAll(acc, es) == acc + es
    decreases |es|
  {
    if |es| > 0 {
      assert forall i :: 0 <= i < |acc| ==> acc[i].key != es[0].key by {
        forall i | 0 <= i < |acc| ensures acc[i].key != es[0].key {
          assert (acc + es)[i] == acc[i] && (acc + es)[|acc|] == es[0];
        }
      }
      var acc' := Put(acc, es[0].key, es[0].value);
      assert acc' == acc + [es[0]];
      assert acc' + es[1..] == acc + es;
      PutAllFresh(acc', es[1..]);
    }
  }

  /** The keys of the copy are the keys of the original, whatever the original holds. */
  lemma {:induction false} PutAllKeys(acc: seq<Slot>, es: seq<Slot>)
    ensures Keys(PutAll(acc, es)) == Keys(acc) + Keys(es)
    ensures DistinctKeys(acc) ==> DistinctKeys(PutAll(acc, es))
    decreases |es|
  {
    if |es| > 0 {
      var acc' := Put(acc, es[0].key, es[0].value);
      PutAllKeys(acc', es[1..]);
      KeysCons(es);
    }
  }

  /** The keys of a non-empty slot list: the first key and the keys of the rest. */
  lemma KeysCons(es: seq<Slot>)
    requires |es| > 0
    ensures Keys(es) == {es[0].key} + Keys(es[1..])
  {
    forall k | k in Keys(es) ensures k in {es[0].key} + Keys(es[1..]) {
      var i :| 0 <= i < |es| && es[i].key == k;
      if i > 0 { assert es[1..][i - 1].key == k; }
    }
    forall k | k in Keys(es[1..]) ensures k in Keys(es) {
      var i :| 0 <= i < |es[1..]| && es[1..][i].key == k;
      assert es[i + 1].key == k;
    }
    assert es[0].key in Keys(es);
  }

  /**
   * DayRoster.copy: the same date and a fresh map filled entry by entry. A roster whose
   * shift types are distinct (every roster built by AddToDayRoster) is reproduced exactly;
   * in any case the copy has the same shift types, at most one employee each.
   */
  function Copy(day: DayRoster): (r: DayRoster)
    ensures r.date == day.date
    ensures DistinctKeys(day.slots) ==> r == day
    ensures Keys(r.slots) == Keys(day.slots)
    ensures DistinctKeys(r.slots)
  {
    var empty: seq<Slot> := [];
    PutAllKeys(empty, day.slots);
    assert Keys(empty) == {};
    if DistinctKeys(day.slots) then
      PutAllFresh([], day.slots);
      assert [] + day.slots == day.slots;
      DayRoster(day.date, PutAll([], day.slots))
    else
      DayRoster(day.date, PutAll([], day.slots))
  }

  /**
   * The shift type the employee is on duty for that day: the key of the first slot
   * holding `e`, or none when the employee is free.
   */
  function ShiftTypeOf(day: DayRoster, e: Employee): (r: Option<ShiftType>)
    ensures r.None? <==> !Holds(day, e)
    ensures r.Some? ==> exists i :: 0 <= i < |day.slots| && day.slots[i] == Entry(r.value, e) && forall j :: 0 <= j < i ==> day.slots[j].value != e
  {
    FirstHolder(day.slots, e)
  }

  function FirstHolder(slots: seq<Slot>, e: Employee): (r: Option<ShiftType>)
    ensures r.None? <==> forall i :: 0 <= i < |slots| ==> slots[i].value != e
    ensures r.Some? ==> exists i :: 0 <= i < |slots| && slots[i] == Entry(r.value, e) && forall j :: 0 <= j < i ==> slots[j].value != e
  {
    if |slots| == 0 then None
    else if slots[0].value == e then
      assert slots[0] == Entry(slots[0].key, e);
      Some(slots[0].key)
    else
      var r := FirstHolder(slots[1..], e);
      assert forall i :: 1 <= i < |slots| ==> slots[i] == slots[1..][i - 1];
      if r.Some? then
        var i :| 0 <= i < |slots[1..]| && slots[1..][i] == Entry(r.value, e) && forall j :: 0 <= j < i ==> slots[1..][j].value != e;
        assert slots[i + 1] == Entry(r.value, e);
        r
      else r
  }
}

=== FILE: draws.dfy ===
/**
 * Random numbers as a supplied stream. Every getInt(n) / nextInt(n) of the engine takes
 * the next value of a sequence of draws; a loop that needs more draws than supplied
 * ends with DrawsExhausted, which stands for drawing on and on.
 */
module RandomDraws {

  /** Every draw is a value nextInt(n) can return: in [0, n). */
  predicate DrawsBelow(draws: seq<int>, n: int)
  {
    forall i :: 0 <= i < |draws| ==> 0 <= draws[i] < n
  }
}

=== FILE: duel_selection.dfy ===
/**
 * The win-count tournaments of qStepwiseTournamentSelection (an environment selection
 * that removes) and of EnvironmentSelectionOperators.qStepwiseTournamentSelection (one
 * that builds a new population). Both score every individual by duels against enemies
 * drawn as nextInt(size) + 1 and redrawn while equal to the duel number j, a win being a
 * strictly greater fitness value; inside the same outer loop, right after individual i is
 * scored, they pick from the score array as it stands then (later individuals still at
 * 0): the first index of the lowest score for removal, or of the highest for selection.
 *
 * Enemy draws come from the stream `draws`, in the order the loops consume them.
 */
module DuelSelection {
  import opened Wrappers
  import opened Populations
  import opened RandomDraws
  import Sampling

  // ---------------------------------------------------------------------------------
  // getIndexOfMin / getIndexOfMax.

  /** j is the first index holding the smallest score. */
  predicate FirstMin(scores: seq<int>, j: int)
  {
    && 0 <= j < |scores|
    && (forall k :: 0 <= k < |scores| ==> scores[j] <= scores[k])
    && (forall k :: 0 <= k < j ==> scores[j] < scores[k])
  }

  /** j is the first index holding the largest score. */
  predicate FirstMax(scores: seq<int>, j: int)
  {
    && 0 <= j < |scores|
    && (forall k :: 0 <= k < |scores| ==> scores[k] <= scores[j])
    && (forall k :: 0 <= k < j ==> scores[k] < scores[j])
  }

  /** The loop of getIndexOfMin from position i on, `index` being the minimum's index so far. */
  function IndexOfMinFrom(scores: seq<int>, i: nat, index: nat): (r: nat)
    requires index < i <= |scores|
    requires forall k :: 0 <= k < i ==> scores[index] <= scores[k]
    requires forall k :: 0 <= k < index ==> scores[index] < scores[k]
    decreases |scores| - i
    ensures FirstMin(scores, r)
  {
    if i == |scores| then index
    else if scores[index] > scores[i] then IndexOfMinFrom(scores, i + 1, i)
    else IndexOfMinFrom(scores, i + 1, index)
  }

  /** getIndexOfMin: the first index of the lowest score (the array is never empty where it is called). */
  function IndexOfMin(scores: seq<int>): (r: nat)
    requires |scores| > 0
    ensures FirstMin(scores, r)
  {
    IndexOfMinFrom(scores, 1, 0)
  }

  /** At most one index is the first one of the minimum. */
  lemma FirstMinUnique(scores: seq<int>, j: int)
    requires |scores| > 0
    ensures FirstMin(scores, j) <==> j == IndexOfMin(scores)
  {
  }

  function Negated(scores: seq<int>): (r: seq<int>)
    ensures |r| == |scores| && forall k :: 0 <= k < |scores| ==> r[k] == -scores[k]
  {
    seq(|scores|, k requires 0 <= k < |scores| => -scores[k])
  }

  /**
   * getIndexOfMax: the first index of the highest score. Its loop is getIndexOfMin's loop
   * on the negated scores (`max < s` is `-max > -s`).
   */
  function IndexOfMax(scores: seq<int>): (r: nat)
    requires |scores| > 0
    ensures FirstMax(scores, r)
  {
    var r := IndexOfMin(Negated(scores));
    assert FirstMin(Negated(scores), r);
    r
  }

  // ---------------------------------------------------------------------------------
  // Duels.

  /**
   * The enemy loop: enemy starts at j and is redrawn as nextInt(size) + 1 while it equals
   * j. Returns the enemy and the position of the next unused draw.
   */
  function DrawEnemy(j: int, draws: seq<int>, at: nat): (r: Result<(int, nat)>)
    requires at <= |draws|
    decreases |draws| - at
    ensures r.Success? ==> at < r.value.1 <= |draws| && r.value.0 == draws[r.value.1 - 1] + 1 && r.value.0 != j
    ensures r.Success? ==> forall k :: at <= k < r.value.1 - 1 ==> draws[k] + 1 == j
    ensures r.Failure? <==> forall k :: at <= k < |draws| ==> draws[k] + 1 == j
    ensures r.Failure? ==> r.error == DrawsExhausted
  {
    if at == |draws| then Failure(DrawsExhausted)
    else if draws[at] + 1 == j then DrawEnemy(j, draws, at + 1)
    else Success((draws[at] + 1, at + 1))
  }

  /** A valid draw gives an enemy in [1, size]: size itself is one past the pool. */
  lemma EnemyRange(j: int, draws: seq<int>, at: nat, size: int)
    requires at <= |draws| && DrawsBelow(draws, size)
    requires DrawEnemy(j, draws, at).Success?
    ensures 1 <= DrawEnemy(j, draws, at).value.0 <= size
  {
    var next := DrawEnemy(j, draws, at).value.1;
    assert 0 <= draws[next - 1] < size;
  }

  /** Individual i wins the duel against e: its fitness value is strictly greater. */
  predicate Beats<T>(pool: seq<T>, fit: T -> int, i: int, e: int)
    requires 0 <= i < |pool| && 0 <= e < |pool|
  {
    fit(pool[i]) > fit(pool[e])
  }

  /** The enemies of one individual: one per duel, each in the pool and never the duel's own number. */
  predicate Opponents(enemies: seq<int>, size: int, duels: int)
  {
    && |enemies| == (if duels > 0 then duels else 0)
    && forall d :: 0 <= d < |enemies| ==> 0 <= enemies[d] < size && enemies[d] != d
  }

  /** The wins of individual i against its enemies. */
  function CountWins<T>(pool: seq<T>, fit: T -> int, i: int, enemies: seq<int>): (w: nat)
    requires 0 <= i < |pool| && forall d :: 0 <= d < |enemies| ==> 0 <= enemies[d] < |pool|
    ensures w <= |enemies|
    ensures w == |enemies| <==> forall d :: 0 <= d < |enemies| ==> Beats(pool, fit, i, enemies[d])
    ensures w == 0 <==> forall d :: 0 <= d < |enemies| ==> !Beats(pool, fit, i, enemies[d])
  {
    if |enemies| == 0 then 0
    else
      var rest := CountWins(pool, fit, i, enemies[1..]);
      assert forall d :: 1 <= d < |enemies| ==> enemies[1..][d - 1] == enemies[d];
      (if Beats(pool, fit, i, enemies[0]) then 1 else 0) + rest
  }

  /** The duels j, ..., duels - 1 of one individual: the enemies met and the next draw position. */
  function DuelsFrom(size: int, duels: int, j: nat, draws: seq<int>, at: nat): (r: Result<(seq<int>, nat)>)
    requires at <= |draws|
    decreases if duels > j then duels - j else 0
    ensures r.Success? ==> at <= r.value.1 <= |draws|
    ensures r.Success? ==> |r.value.0| == (if duels > j then duels - j else 0)
    ensures r.Success? ==> forall d :: 0 <= d < |r.value.0| ==> 0 <= r.value.0[d] < size && r.value.0[d] != j + d
    ensures r.Failure? ==> r.error in {DrawsExhausted, OutOfRange}
  {
    if j >= duels then Success(([], at))
    else
      match DrawEnemy(j, draws, at)
      case Failure(e) => Failure(e)
      case Success((enemy, next)) =>
        if enemy < 0 || enemy >= size then Failure(OutOfRange)
        else
          match DuelsFrom(size, duels, j + 1, draws, next)
          case Failure(e) => Failure(e)
          case Success((rest, last)) =>
            assert forall d :: 1 <= d < 1 + |rest| ==> ([enemy] + rest)[d] == rest[d - 1];
            Success(([enemy] + rest, last))
  }

  /** Every individual's enemies. */
  predicate AllOpponents(enemies: seq<seq<int>>, size: int, duels: int)
  {
    forall k :: 0 <= k < |enemies| ==> Opponents(enemies[k], size, duels)
  }

  /** The duels of individuals i, ..., size - 1, in the order the outer loop runs them. */
  function TournamentFrom(size: nat, duels: int, draws: seq<int>, at: nat, i: nat): (r: Result<seq<seq<int>>>)
    requires i <= size && at <= |draws|
    decreases size - i
    ensures r.Success? ==> |r.value| == size - i && AllOpponents(r.value, size, duels)
    ensures r.Failure? ==> r.error in {DrawsExhausted, OutOfRange}
  {
    if i == size then Success([])
    else
      match DuelsFrom(size, duels, 0, draws, at)
      case Failure(e) => Failure(e)
      case Success((enemies, next)) =>
        match TournamentFrom(size, duels, draws, next, i + 1)
        case Failure(e) => Failure(e)
        case Success(rest) =>
          assert Opponents(enemies, size, duels);
          assert forall k :: 1 <= k < 1 + |rest| ==> ([enemies] + rest)[k] == rest[k - 1];
          Success([enemies] + rest)
  }

  /**
   * With valid draws, an enemy of size is the only way out of the pool: the first duel of
   * the first individual fails when its draw is size - 1.
   */
  lemma TournamentReachesPastPool(size: nat, duels: int, draws: seq<int>)
    requires size > 0 && duels > 0 && |draws| > 0 && draws[0] == size - 1
    ensures TournamentFrom(size, duels, draws, 0, 0) == Failure(OutOfRange)
  {
    assert DrawEnemy(0, draws, 0) == Success((size, 1));
    assert DuelsFrom(size, duels, 0, draws, 0) == Failure(OutOfRange);
  }

  /** The score of every individual: its number of wins. */
  function Wins<T>(pool: seq<T>, fit: T -> int, duels: int, enemies: seq<seq<int>>): (w: seq<int>)
    requires |enemies| == |pool| && AllOpponents(enemies, |pool|, duels)
    ensures |w| == |pool|
    ensures forall k :: 0 <= k < |w| ==> 0 <= w[k] <= (if duels > 0 then duels else 0)
    ensures forall k :: 0 <= k < |w| ==> w[k] == CountWins(pool, fit, k, enemies[k])
  {
    seq(|pool|, k requires 0 <= k < |pool| => CountWins(pool, fit, k, enemies[k]))
  }

  // ---------------------------------------------------------------------------------
  // Picking from the partial scores.

  /** The score array right after individual i is scored: later entries are still 0. */
  function Snapshot(wins: seq<int>, i: int): (s: seq<int>)
    ensures |s| == |wins|
    ensures forall k :: 0 <= k < |wins| ==> s[k] == (if k <= i then wins[k] else 0)
  {
    seq(|wins|, k requires 0 <= k < |wins| => if k <= i then wins[k] else 0)
  }

  /** The index a step picks: the first lowest score (removal) or the first highest (selection). */
  function Pick(scores: seq<int>, lowest: bool): (r: nat)
    requires |scores| > 0
    ensures lowest ==> FirstMin(scores, r)
    ensures !lowest ==> FirstMax(scores, r)
  {
    if lowest then IndexOfMin(scores) else IndexOfMax(scores)
  }

  function Repeat(x: int, times: int): (r: seq<int>)
    ensures |r| == (if times > 0 then times else 0) && forall k :: 0 <= k < |r| ==> r[k] == x
    decreases times
  {
    if times <= 0 then [] else [x] + Repeat(x, times - 1)
  }

  /**
   * The picks come in blocks of `times`, one block per step from i on: pick k is made
   * from the scores as they stand right after individual i + k / times is scored.
   */
  predicate InBlocks(picks: seq<int>, wins: seq<int>, times: int, lowest: bool, i: nat)
  {
    times > 0 ==>
      forall k :: 0 <= k < |picks| ==>
        i + k / times < |wins| && picks[k] == Pick(Snapshot(wins, i + k / times), lowest)
  }

  /** Step i's block in front of the blocks of the later steps. */
  lemma BlocksCons(wins: seq<int>, times: int, lowest: bool, i: nat, rest: seq<int>)
    requires i < |wins| && |rest| == (|wins| - i - 1) * (if times > 0 then times else 0)
    requires InBlocks(rest, wins, times, lowest, i + 1)
    ensures InBlocks(Repeat(Pick(Snapshot(wins, i), lowest), times) + rest, wins, times, lowest, i)
  {
    var here := Repeat(Pick(Snapshot(wins, i), lowest), times);
    if times > 0 {
      forall k | 0 <= k < |here + rest|
        ensures i + k / times < |wins| && (here + rest)[k] == Pick(Snapshot(wins, i + k / times), lowest)
      {
        if k < times {
          Sampling.DivUnique(k, times, 0, k);
          assert (here + rest)[k] == here[k];
        } else {
          Sampling.DivShift(-1, k, times);
          assert (here + rest)[k] == rest[k - times];
          assert (k - times) / times == k / times - 1;
        }
      }
    }
  }

  /** The inner loop's picks over the outer loop's steps i, ..., |wins| - 1. */
  function Picks(wins: seq<int>, times: int, lowest: bool, i: nat): (r: seq<int>)
    requires i <= |wins|
    decreases |wins| - i
    ensures |r| == (|wins| - i) * (if times > 0 then times else 0)
    ensures forall k :: 0 <= k < |r| ==> 0 <= r[k] < |wins|
    ensures InBlocks(r, wins, times, lowest, i)
  {
    if i == |wins| then []
    else
      var here := Repeat(Pick(Snapshot(wins, i), lowest), times);
      var rest := Picks(wins, times, lowest, i + 1);
      BlocksCons(wins, times, lowest, i, rest);
      here + rest
  }

  /** The first `times` picks are step 0's. */
  lemma {:induction false} PicksStartWithStepZero(wins: seq<int>, times: int, lowest: bool)
    requires |wins| > 0
    ensures var t := if times > 0 then times else 0;
            |Picks(wins, times, lowest, 0)| >= t
            && Picks(wins, times, lowest, 0)[..t] == Repeat(Pick(Snapshot(wins, 0), lowest), times)
  {
    var here := Repeat(Pick(Snapshot(wins, 0), lowest), times);
    var rest := Picks(wins, times, lowest, 1);
    assert Picks(wins, times, lowest, 0) == here + rest;
    assert (here + rest)[..|here|] == here;
  }

  /**
   * Selection by the highest score always starts with individual 0: after its duels the
   * others are still at 0, and its own score is never below 0.
   */
  lemma FirstSelectionIsFirstIndividual(wins: seq<int>)
    requires |wins| > 0 && forall k :: 0 <= k < |wins| ==> wins[k] >= 0
    ensures Pick(Snapshot(wins, 0), false) == 0
  {
    assert FirstMax(Snapshot(wins, 0), 0);
    FirstMaxUnique(Snapshot(wins, 0), 0);
  }

  /**
   * Removal by the lowest score, after individual i won at least once and every earlier
   * one too, picks the next individual, which has not fought yet.
   */
  lemma RemovalPicksUnscored(wins: seq<int>, i: nat)
    requires i + 1 < |wins| && forall k :: 0 <= k <= i ==> wins[k] > 0
    ensures Pick(Snapshot(wins, i), true) == i + 1
  {
    var s := Snapshot(wins, i);
    assert FirstMin(s, i + 1);
    FirstMinUnique(s, i + 1);
  }

  /** At most one index is the first one of the maximum. */
  lemma FirstMaxUnique(scores: seq<int>, j: int)
    requires |scores| > 0
    ensures FirstMax(scores, j) <==> j == IndexOfMax(scores)
  {
  }

  // ---------------------------------------------------------------------------------
  // The two selections.

  /** How many members of s equal none of `gone`. */
  function KeptCount<T(==)>(s: seq<T>, gone: seq<T>): nat
  {
    if |s| == 0 then 0 else (if s[0] in gone then 0 else 1) + KeptCount(s[1..], gone)
  }

  /** Every survivor keeps its multiplicity; the others are gone. */
  predicate KeepsCounts<T(==)>(r: seq<T>, pool: seq<T>, gone: seq<T>)
  {
    forall x :: x in pool ==> multiset(r)[x] == (if x in gone then 0 else multiset(pool)[x])
  }

  /** The survivor at position k lands after the KeptCount(pool[..k], gone) survivors before it. */
  predicate KeepsOrder<T(==)>(r: seq<T>, pool: seq<T>, gone: seq<T>)
  {
    forall k :: 0 <= k < |pool| && pool[k] !in gone ==>
      KeptCount(pool[..k], gone) < |r| && r[KeptCount(pool[..k], gone)] == pool[k]
  }

  /** Everything in r is a member of the pool equal to none of `gone`. */
  predicate OnlySurvivors<T(==)>(r: seq<T>, pool: seq<T>, gone: seq<T>)
  {
    forall k :: 0 <= k < |r| ==> r[k] in pool && r[k] !in gone
  }

  /** r is the pool without the members equal to one of `gone`, in order and with multiplicity. */
  predicate RemovedAll<T(==)>(r: seq<T>, pool: seq<T>, gone: seq<T>)
  {
    && |r| == KeptCount(pool, gone) <= |pool|
    && KeepsCounts(r, pool, gone) && KeepsOrder(r, pool, gone) && OnlySurvivors(r, pool, gone)
  }

  lemma CountsCons<T>(pool: seq<T>, gone: seq<T>, rest: seq<T>)
    requires |pool| > 0 && KeepsCounts(rest, pool[1..], gone) && OnlySurvivors(rest, pool[1..], gone)
    ensures KeepsCounts((if pool[0] in gone then [] else [pool[0]]) + rest, pool, gone)
  {
    var head := if pool[0] in gone then [] else [pool[0]];
    var r := head + rest;
    assert pool == [pool[0]] + pool[1..];
    assert multiset(r) == multiset(head) + multiset(rest);
    assert multiset(pool) == multiset([pool[0]]) + multiset(pool[1..]);
    forall x | x in pool ensures multiset(r)[x] == (if x in gone then 0 else multiset(pool)[x]) {
      if x !in pool[1..] {
        assert multiset(pool[1..])[x] == 0;
        assert x !in rest by {
          forall j | 0 <= j < |rest| ensures rest[j] != x {
            assert rest[j] in pool[1..];
          }
        }
        assert multiset(rest)[x] == 0;
      }
    }
  }

  lemma OrderCons<T>(pool: seq<T>, gone: seq<T>, rest: seq<T>)
    requires |pool| > 0 && KeepsOrder(rest, pool[1..], gone)
    ensures KeepsOrder((if pool[0] in gone then [] else [pool[0]]) + rest, pool, gone)
  {
    var head := if pool[0] in gone then [] else [pool[0]];
    var r := head + rest;
    forall k | 0 <= k < |pool| && pool[k] !in gone
      ensures KeptCount(pool[..k], gone) < |r| && r[KeptCount(pool[..k], gone)] == pool[k]
    {
      if k > 0 {
        assert pool[..k][0] == pool[0] && pool[..k][1..] == pool[1..][..k - 1];
        assert pool[k] == pool[1..][k - 1];
        assert r[|head| + KeptCount(pool[1..][..k - 1], gone)] == rest[KeptCount(pool[1..][..k - 1], gone)];
      }
    }
  }

  lemma SurvivorsCons<T>(pool: seq<T>, gone: seq<T>, rest: seq<T>)
    requires |pool| > 0 && OnlySurvivors(rest, pool[1..], gone)
    ensures OnlySurvivors((if pool[0] in gone then [] else [pool[0]]) + rest, pool, gone)
  {
    var head := if pool[0] in gone then [] else [pool[0]];
    var r := head + rest;
    forall k | 0 <= k < |r| ensures r[k] in pool && r[k] !in gone {
      if k >= |head| {
        var j := k - |head|;
        assert r[k] == rest[j] && rest[j] in pool[1..];
      }
    }
  }

  /** The pool with every individual equal to one of `gone` removed (List.removeAll). */
  function RemoveAll<T(==)>(pool: seq<T>, gone: seq<T>): (r: seq<T>)
    ensures RemovedAll(r, pool, gone)
    ensures forall k :: 0 <= k < |pool| && pool[k] !in gone ==> pool[k] in r
  {
    if |pool| == 0 then []
    else
      var rest := RemoveAll(pool[1..], gone);
      CountsCons(pool, gone, rest);
      OrderCons(pool, gone, rest);
      SurvivorsCons(pool, gone, rest);
      (if pool[0] in gone then [] else [pool[0]]) + rest
  }

  /**
   * after holds the members of pool that no picked index points to, and each of them:
   * an individual leaves only when it equals one that was picked.
   */
  ghost predicate Survivors<T>(after: seq<T>, pool: seq<T>, picked: seq<int>)
    requires forall k :: 0 <= k < |picked| ==> 0 <= picked[k] < |pool|
  {
    && (forall k :: 0 <= k < |after| ==> after[k] in pool && forall p :: 0 <= p < |picked| ==> pool[picked[p]] != after[k])
    && (forall k :: 0 <= k < |pool| && (forall p :: 0 <= p < |picked| ==> pool[picked[p]] != pool[k]) ==> pool[k] in after)
  }

  lemma RemoveAllSurvivors<T>(pool: seq<T>, picked: seq<int>, gone: seq<T>)
    requires forall k :: 0 <= k < |picked| ==> 0 <= picked[k] < |pool|
    requires |gone| == |picked| && forall k :: 0 <= k < |picked| ==> gone[k] == pool[picked[k]]
    ensures Survivors(RemoveAll(pool, gone), pool, picked)
  {
    var after := RemoveAll(pool, gone);
    forall k | 0 <= k < |after|
      ensures after[k] in pool && forall p :: 0 <= p < |picked| ==> pool[picked[p]] != after[k]
    {
      assert after[k] !in gone;
    }
  }

  /** The individuals the picked indices point to, in pick order. */
  function Chosen<T>(pool: seq<T>, picked: seq<int>): (r: seq<T>)
    requires forall k :: 0 <= k < |picked| ==> 0 <= picked[k] < |pool|
    ensures |r| == |picked| && forall k :: 0 <= k < |picked| ==> r[k] == pool[picked[k]]
  {
    seq(|picked|, k requires 0 <= k < |picked| => pool[picked[k]])
  }

  /** What a tournament decided: the enemies met, the scores and the indices it picked, in order. */
  datatype Outcome<T> = Outcome(pop: Population<T>, enemies: seq<seq<int>>, wins: seq<int>, picked: seq<int>)

  /** The enemies are those the draws name, and the scores are the win counts against them. */
  predicate Scored<T>(o: Outcome<T>, pool: seq<T>, fit: T -> int, duels: int, draws: seq<int>)
  {
    && TournamentFrom(|pool|, duels, draws, 0, 0) == Success(o.enemies)
    && |o.enemies| == |pool| && AllOpponents(o.enemies, |pool|, duels)
    && o.wins == Wins(pool, fit, duels, o.enemies)
  }

  /**
   * qStepwiseTournamentSelection.select: every individual collects size - selections
   * removal picks (the first lowest score of the partial scores), and every individual
   * equal to one picked leaves the pool. The number of duels and of selections are
   * parameters (the operator reads them from names it never defines).
   */
  function QStepwiseRemove<T(==)>(pop: Population<T>, fit: T -> int, duels: int, selections: int, draws: seq<int>)
    : (r: Result<Outcome<T>>)
    ensures r.Failure? ==> r.error in {DrawsExhausted, OutOfRange}
    ensures r.Failure? <==> TournamentFrom(|pop.pool|, duels, draws, 0, 0).Failure?
    ensures r.Success? ==> Scored(r.value, pop.pool, fit, duels, draws)
    ensures r.Success? ==> && |r.value.wins| == |pop.pool|
                           && (forall k :: 0 <= k < |pop.pool| ==> 0 <= r.value.wins[k] <= (if duels > 0 then duels else 0))
                           && |r.value.picked| == |pop.pool| * (if |pop.pool| - selections > 0 then |pop.pool| - selections else 0)
                           && (forall k :: 0 <= k < |r.value.picked| ==> 0 <= r.value.picked[k] < |pop.pool|)
                           && InBlocks(r.value.picked, r.value.wins, |pop.pool| - selections, true, 0)
    ensures r.Success? ==> && r.value.pop.overallFitness == pop.overallFitness
                           && r.value.pop.pool == RemoveAll(pop.pool, Chosen(pop.pool, r.value.picked))
                           && Survivors(r.value.pop.pool, pop.pool, r.value.picked)
  {
    match TournamentFrom(|pop.pool|, duels, draws, 0, 0)
    case Failure(e) => Failure(e)
    case Success(enemies) =>
      var wins := Wins(pop.pool, fit, duels, enemies);
      var picked := Picks(wins, |pop.pool| - selections, true, 0);
      var gone := Chosen(pop.pool, picked);
      RemoveAllSurvivors(pop.pool, picked, gone);
      Success(Outcome(pop.(pool := RemoveAll(pop.pool, gone)), enemies, wins, picked))
  }

  lemma AddedFromPool<T>(pool: seq<T>, chosen: seq<T>, added: seq<T>, feasible: T -> Result<bool>)
    requires forall k :: 0 <= k < |chosen| ==> chosen[k] in pool
    requires added == [] + Feasibles(chosen, feasible)
    ensures forall x :: x in added ==> x in pool && feasible(x) == Success(true)
  {
    forall x | x in added ensures x in pool && feasible(x) == Success(true) {
      FeasiblesMembers(chosen, feasible, x);
    }
  }

  /**
   * EnvironmentSelectionOperators.qStepwiseTournamentSelection: every individual
   * collects `selections` picks (the first highest score of the partial scores), and the
   * picked individuals go into a new population through addIndividualsToPool. The input
   * population is left alone.
   */
  function QStepwiseSelect<T>(pop: Population<T>, fit: T -> int, duels: int, selections: int, draws: seq<int>,
                              feasible: T -> Result<bool>)
    : (r: Result<Outcome<T>>)
    ensures TournamentFrom(|pop.pool|, duels, draws, 0, 0).Failure? ==> r.Failure?
    ensures r.Success? ==> Scored(r.value, pop.pool, fit, duels, draws)
    ensures r.Success? ==> && |r.value.wins| == |pop.pool|
                           && (forall k :: 0 <= k < |pop.pool| ==> 0 <= r.value.wins[k] <= (if duels > 0 then duels else 0))
                           && |r.value.picked| == |pop.pool| * (if selections > 0 then selections else 0)
                           && (forall k :: 0 <= k < |r.value.picked| ==> 0 <= r.value.picked[k] < |pop.pool|)
                           && InBlocks(r.value.picked, r.value.wins, selections, false, 0)
    ensures r.Success? ==> r.value.pop.overallFitness.None?
                           && r.value.pop.pool == Feasibles(Chosen(pop.pool, r.value.picked), feasible)
                           && forall x :: x in r.value.pop.pool ==> x in pop.pool && feasible(x) == Success(true)
    ensures r.Failure? ==> r.error != NotFeasible
  {
    match TournamentFrom(|pop.pool|, duels, draws, 0, 0)
    case Failure(e) => Failure(e)
    case Success(enemies) =>
      var wins := Wins(pop.pool, fit, duels, enemies);
      var picked := Picks(wins, selections, false, 0);
      var chosen := Chosen(pop.pool, picked);
      match AddIndividualsToPool(NewPopulation(), chosen, feasible)
      case Failure(e) => Failure(e)
      case Success(next) =>
        AddedFromPool(pop.pool, chosen, next.pool, feasible);
        Success(Outcome(next, enemies, wins, picked))
  }
}

=== FILE: entities.dfy ===
/** The read-only problem entities: dates, contract attributes, contracts, employees, shift types. */
module Entities {

  /** A calendar date, abstracted to an integer stamp; calendar arithmetic is a collaborator. */
  type Date = int

  /** A numeric soft-constraint target with its penalty weight. */
  datatype Attribute = Attribute(value: int, weight: int)

  /** A boolean soft-constraint target with its penalty weight. */
  datatype Flag = Flag(value: bool, weight: int)

  /** The soft constraints an employee is hired under. */
  datatype Contract = Contract(
    id: int,
    minNumAssignments: Attribute,
    maxNumAssignments: Attribute,
    minConsecutiveWorkingDays: Attribute,
    maxConsecutiveWorkingDays: Attribute,
    minConsecutiveFreeDays: Attribute,
    maxConsecutiveFreeDays: Attribute,
    maxWorkingWeekendsInFourWeeks: Attribute,
    minConsecutiveWorkingWeekends: Attribute,
    maxConsecutiveWorkingWeekends: Attribute,
    completeWeekends: Flag,
    identicalShiftTypesDuringWeekend: Flag,
    noNightShiftBeforeFreeWeekend: Flag)

  datatype Employee = Employee(id: int, name: string, skills: seq<string>, contract: Contract)

  /** A shift type; whether it is a night shift is a collaborator's judgement. */
  datatype ShiftType = ShiftType(id: string, description: string, requiredSkills: seq<string>)
}

=== FILE: entries.dfy ===
/**
 * Association lists: the Java HashMaps of the engine (shift type -> employee,
 * shift type -> demanded count) as sequences of entries in iteration order.
 */
module Entries {
  import opened Wrappers

  datatype Entry<K, V> = Entry(key: K, value: V)

  /** The value of the first entry with key `k`, as Map.get does when keys are distinct. */
  function Get<K(==), V>(es: seq<Entry<K, V>>, k: K): (r: Option<V>)
    ensures r.None? <==> forall i :: 0 <= i < |es| ==> es[i].key != k
    ensures r.Some? ==> exists i :: 0 <= i < |es| && es[i] == Entry(k, r.value)
  {
    if |es| == 0 then None
    else if es[0].key == k then Some(es[0].value)
    else Get(es[1..], k)
  }

  /** No two entries share a key, as in a map. */
  predicate DistinctKeys<K(==), V>(es: seq<Entry<K, V>>)
  {
    forall i, j :: 0 <= i < j < |es| ==> es[i].key != es[j].key
  }

  function Keys<K, V>(es: seq<Entry<K, V>>): set<K>
  {
    set i | 0 <= i < |es| :: es[i].key
  }

  /** With distinct keys, the entry at position i is the one Get finds for its key. */
  lemma {:induction false} GetDistinct<K, V>(es: seq<Entry<K, V>>, i: nat)
    requires DistinctKeys(es) && i < |es|
    ensures Get(es, es[i].key) == Some(es[i].value)
    decreases i
  {
    if i > 0 {
      assert es[1..][i - 1] == es[i];
      GetDistinct(es[1..], i - 1);
    }
  }

  /**
   * Map.put: the value of every entry with key `k` is replaced by `v`; when there is
   * no such entry, one is appended. All other entries keep their place and value.
   */
  function Put<K(==,!new), V>(es: seq<Entry<K, V>>, k: K, v: V): (r: seq<Entry<K, V>>)
    ensures Get(r, k) == Some(v)
    ensures forall k' :: k' != k ==> Get(r, k') == Get(es, k')
    ensures Keys(r) == Keys(es) + {k}
    ensures (exists i :: 0 <= i < |es| && es[i].key == k) ==>
              |r| == |es| && forall i :: 0 <= i < |es| && es[i].key != k ==> r[i] == es[i]
    ensures (forall i :: 0 <= i < |es| ==> es[i].key != k) ==> r == es + [Entry(k, v)]
    ensures DistinctKeys(es) ==> DistinctKeys(r)
  {
    if exists i :: 0 <= i < |es| && es[i].key == k then
      var r := seq(|es|, i requires 0 <= i < |es| => if es[i].key == k then Entry(k, v) else es[i]);
      PutGet(es, k, v, r);
      r
    else
      var r := es + [Entry(k, v)];
      AppendGet(es, Entry(k, v));
      assert Keys(r) == Keys(es) + {k} by {
        assert r[|es|].key == k;
        forall x | x in Keys(r) ensures x in Keys(es) + {k} {
          var i :| 0 <= i < |r| && r[i].key == x;
          if i < |es| { assert es[i].key == x; }
        }
        forall x | x in Keys(es) + {k} ensures x in Keys(r) {
          if x == k {
            assert r[|es|].key == x;
          } else {
            var i :| 0 <= i < |es| && es[i].key == x;
            assert r[i].key == x;
          }
        }
      }
      r
  }

  lemma {:induction false} AppendGet<K, V>(es: seq<Entry<K, V>>, e: Entry<K, V>)
    ensures forall k :: k != e.key ==> Get(es + [e], k) == Get(es, k)
    ensures (forall i :: 0 <= i < |es| ==> es[i].key != e.key) ==> Get(es + [e], e.key) == Some(e.value)
    decreases |es|
  {
    if |es| > 0 {
      assert (es + [e])[1..] == es[1..] + [e];
      AppendGet(es[1..], e);
    }
  }

  lemma {:induction false} PutGet<K, V>(es: seq<Entry<K, V>>, k: K, v: V, r: seq<Entry<K, V>>)
    requires |r| == |es|
    requires forall i :: 0 <= i < |es| ==> r[i] == if es[i].key == k then Entry(k, v) else es[i]
    requires exists i :: 0 <= i < |es| && es[i].key == k
    ensures Get(r, k) == Some(v)
    ensures forall k' :: k' != k ==> Get(r, k') == Get(es, k')
    ensures Keys(r) == Keys(es) + {k}
    decreases |es|
  {
    PutGetOthers(es, k, v, r);
    if es[0].key != k {
      var i :| 0 <= i < |es| && es[i].key == k;
      assert es[1..][i - 1].key == k;
      PutGet(es[1..], k, v, r[1..]);
    }
    assert Keys(r) == Keys(es) + {k} by {
      forall x | x in Keys(r) ensures x in Keys(es) + {k} {
        var i :| 0 <= i < |r| && r[i].key == x;
      }
      forall x | x in Keys(es) + {k} ensures x in Keys(r) {
        if x == k {
          var i :| 0 <= i < |es| && es[i].key == k;
          assert r[i].key == k;
        } else {
          var i :| 0 <= i < |es| && es[i].key == x;
          assert r[i].key == x;
        }
      }
    }
  }

  lemma {:induction false} PutGetOthers<K, V>(es: seq<Entry<K, V>>, k: K, v: V, r: seq<Entry<K, V>>)
    requires |r| == |es|
    requires forall i :: 0 <= i < |es| ==> r[i] == if es[i].key == k then Entry(k, v) else es[i]
    ensures forall k' :: k' != k ==> Get(r, k') == Get(es, k')
    decreases |es|
  {
    if |es| > 0 {
      PutGetOthers(es[1..], k, v, r[1..]);
    }
  }

  /** Every entry of the result is the old entry, unless it carries key k, or the appended Entry(k, v). */
  lemma PutShape<K(!new), V>(es: seq<Entry<K, V>>, k: K, v: V)
    ensures var r := Put(es, k, v);
            forall i :: 0 <= i < |r| ==> r[i] == if i < |es| && es[i].key != k then es[i] else Entry(k, v)
  {
  }
}

=== FILE: environment_selection.dfy ===
/**
 * The truncating environment selections: SimpleEnvironmentSelectionOperator,
 * BestSelectionOperator and SelectionOfTheBest. Each sorts the pool by fitness (lower
 * is better) and keeps a prefix; they differ in when they sort and in what a target
 * outside [0, size] does. `target` is the configured IndividualsPerPopulation.
 */
module EnvironmentSelection {
  import opened Wrappers
  import opened Populations

  /**
   * kept is drawn from pool, and nothing kept has a higher fitness value than anything
   * dropped (what is dropped is the multiset difference).
   */
  ghost predicate Truncation<T>(kept: seq<T>, pool: seq<T>, fit: T -> int)
  {
    && multiset(kept) <= multiset(pool)
    && forall x, y :: x in multiset(kept) && y in multiset(pool) - multiset(kept) ==> fit(x) <= fit(y)
  }

  /** A prefix of a sorted pool is a truncation of it. */
  lemma SortedPrefixTruncates<T>(s: seq<T>, fit: T -> int, t: nat)
    requires Sorted(s, fit) && t <= |s|
    ensures Truncation(s[..t], s, fit)
  {
    assert s == s[..t] + s[t..];
    assert multiset(s) - multiset(s[..t]) == multiset(s[t..]);
    forall x, y | x in multiset(s[..t]) && y in multiset(s) - multiset(s[..t])
      ensures fit(x) <= fit(y)
    {
      assert x in s[..t] && y in s[t..];
      var i :| 0 <= i < t && s[i] == x;
      var j :| t <= j < |s| && s[j] == y;
    }
  }

  /** Truncation depends on the pool only through its multiset. */
  lemma TruncationOfPermutation<T>(kept: seq<T>, s: seq<T>, pool: seq<T>, fit: T -> int)
    requires multiset(s) == multiset(pool) && Truncation(kept, s, fit)
    ensures Truncation(kept, pool, fit)
  {
  }

  /** The first t of the pool sorted by fitness, as a truncation of the pool. */
  function SortedPrefix<T>(pop: Population<T>, fit: T -> int, t: nat): (r: Population<T>)
    requires t <= |pop.pool|
    ensures |r.pool| == t && Sorted(r.pool, fit) && Truncation(r.pool, pop.pool, fit)
    ensures r.overallFitness == pop.overallFitness
  {
    var sorted := SortByFitness(pop, fit);
    SortedPrefixTruncates(sorted.pool, fit, t);
    TruncationOfPermutation(sorted.pool[..t], sorted.pool, pop.pool, fit);
    sorted.(pool := sorted.pool[..t])
  }

  /**
   * SimpleEnvironmentSelectionOperator.select: a pool no larger than the target is left
   * as it is, unsorted; otherwise it is sorted and cut back to the target. A negative
   * target makes the removal loop reach remove(-1).
   */
  function SimpleSelect<T>(pop: Population<T>, fit: T -> int, target: int): (r: Result<Population<T>>)
    ensures |pop.pool| <= target ==> r == Success(pop)
    ensures |pop.pool| > target ==> (r.Success? <==> target >= 0)
    ensures r.Failure? ==> r.error == OutOfRange
    ensures r.Success? ==> |r.value.pool| <= target && r.value.overallFitness == pop.overallFitness
    ensures r.Success? && |pop.pool| > target ==>
              |r.value.pool| == target && Sorted(r.value.pool, fit) && Truncation(r.value.pool, pop.pool, fit)
  {
    if |pop.pool| <= target then Success(pop)
    else if target < 0 then Failure(OutOfRange)
    else Success(SortedPrefix(pop, fit, target))
  }

  /** Selecting twice is selecting once. */
  lemma SimpleSelectIdempotent<T>(pop: Population<T>, fit: T -> int, target: int)
    requires SimpleSelect(pop, fit, target).Success?
    ensures SimpleSelect(SimpleSelect(pop, fit, target).value, fit, target) == SimpleSelect(pop, fit, target)
  {
  }

  /**
   * BestSelectionOperator.select: always sorted first, then cut back to the target; a
   * pool no larger than the target is only permuted. A negative target makes the removal
   * loop reach remove(-1).
   */
  function BestSelect<T>(pop: Population<T>, fit: T -> int, target: int): (r: Result<Population<T>>)
    ensures r.Success? <==> target >= 0
    ensures r.Failure? ==> r.error == OutOfRange
    ensures r.Success? ==> && |r.value.pool| == Min(|pop.pool|, target)
                           && Sorted(r.value.pool, fit) && Truncation(r.value.pool, pop.pool, fit)
                           && r.value.overallFitness == pop.overallFitness
    ensures r.Success? && |pop.pool| <= target ==> r.value == SortByFitness(pop, fit)
  {
    if target < 0 then Failure(OutOfRange)
    else
      var sorted := SortByFitness(pop, fit);
      if |pop.pool| <= target then
        SortedPrefixTruncates(sorted.pool, fit, |pop.pool|);
        assert sorted.pool[..|pop.pool|] == sorted.pool;
        Success(sorted)
      else Success(SortedPrefix(pop, fit, target))
  }

  function Min(a: int, b: int): int
  {
    if a <= b then a else b
  }

  /**
   * SelectionOfTheBest.select: the first `count` of the sorted pool become the pool
   * (clear, then addAll); get(i) past the end fails when the pool is smaller than
   * `count`, and a count of zero or less leaves the pool empty.
   */
  function SelectBest<T>(pop: Population<T>, fit: T -> int, count: int): (r: Result<Population<T>>)
    ensures r.Failure? <==> count > |pop.pool|
    ensures r.Failure? ==> r.error == OutOfRange
    ensures r.Success? ==> && |r.value.pool| == (if count < 0 then 0 else count)
                           && Sorted(r.value.pool, fit) && Truncation(r.value.pool, pop.pool, fit)
                           && r.value.overallFitness == pop.overallFitness
  {
    if count > |pop.pool| then Failure(OutOfRange)
    else Success(SortedPrefix(pop, fit, if count < 0 then 0 else count))
  }

  /**
   * When the pool is larger than a non-negative target, the three selections keep the
   * same individuals in the same order.
   */
  lemma TruncationsAgree<T>(pop: Population<T>, fit: T -> int, target: int)
    requires 0 <= target < |pop.pool|
    ensures SimpleSelect(pop, fit, target) == BestSelect(pop, fit, target) == SelectBest(pop, fit, target)
  {
  }
}

=== FILE: evolutionary_cycle.dfy ===
/**
 * EvolutionaryCycle: the generational loop. The initial population is built by repeated
 * construction calls and benchmarked; the loop works on a copy of it. Each pass selects
 * parents, recombines them into children (or leaves the children empty), mutates the
 * children, adds them to the population, benchmarks it and prunes it with the
 * environment selection. The loop's test reports progress, increments a 32-bit counter
 * and stops once the counter exceeds maxIterations.
 *
 * The configured operators are parameters. Each receives the generation number, which
 * stands for the random draws it consumes in that generation.
 */
module EvolutionaryCycle {
  import opened Wrappers
  import opened Populations
  import opened SchedulingPeriod
  import opened Collaborators
  import opened Individuals
  import Mutation

  /** The operators and switches the cycle is configured with. */
  datatype Operators<!T> = Operators(
    mate: (Population<T>, nat) -> Result<Population<T>>,
    recombine: (Population<T>, nat) -> Result<Population<T>>,
    mutate: (Population<T>, nat) -> Result<Population<T>>,
    select: (Population<T>, nat) -> Result<Population<T>>,
    useRecombination: bool,
    useMutation: bool)

  // ---------------------------------------------------------------------------------
  // The termination test.

  predicate Int32(x: int)
  {
    IntMin <= x <= IntMax
  }

  /** Java's ++ on an int: 2^31 - 1 wraps around to -2^31. */
  function Inc32(x: int): (r: int)
    requires Int32(x)
    ensures Int32(r)
    ensures x < IntMax ==> r == x + 1
    ensures x == IntMax ==> r == IntMin
  {
    if x == IntMax then IntMin else x + 1
  }

  /**
   * isTerminationCondition: reports progress with the counter as it is, then increments
   * it; true once the incremented counter exceeds maxIterations. Returns the verdict, the
   * new counter and the value reported.
   */
  function IsTerminationCondition(iteration: int, maxIterations: int): (r: (bool, int, int))
    requires Int32(iteration)
    ensures r.2 == iteration && Int32(r.1)
    ensures iteration < IntMax ==> (r.0 <==> iteration >= maxIterations) && r.1 == iteration + 1
  {
    var next := Inc32(iteration);
    (next > maxIterations, next, iteration)
  }

  /**
   * With maxIterations at the largest int the test never holds: the counter wraps around
   * before it can exceed it.
   */
  lemma NeverTerminatesAtIntMax(iteration: int)
    requires Int32(iteration)
    ensures !IsTerminationCondition(iteration, IntMax).0
  {
  }

  // ---------------------------------------------------------------------------------
  // One pass of the loop.

  /**
   * What one pass produced: the parents, the recombined children, the children after
   * mutation, the population after adding and benchmarking, and after selection.
   */
  datatype Pass<T> = Pass(parents: Population<T>, recombined: Population<T>, children: Population<T>,
                          merged: Population<T>, next: Population<T>)

  /** The recombination stage: the operator's children, or the empty population when it is off. */
  function RecombineStage<T>(ops: Operators<T>, parents: Population<T>, g: nat): Result<Population<T>>
  {
    if ops.useRecombination then ops.recombine(parents, g) else Success(NewPopulation())
  }

  /** The mutation stage: the operator's result, or the children unchanged when it is off. */
  function MutateStage<T>(ops: Operators<T>, children: Population<T>, g: nat): Result<Population<T>>
  {
    if ops.useMutation then ops.mutate(children, g) else Success(children)
  }

  /**
   * Every stage of a pass succeeds: the mating selection, the recombination and mutation
   * that are on, the feasibility checks of addIndividualsToPool, and the environment
   * selection of the benchmarked result.
   */
  predicate StagesSucceed<T>(pop: Population<T>, ops: Operators<T>, fit: T -> int, feasible: T -> Result<bool>, g: nat)
  {
    && ops.mate(pop, g).Success?
    && RecombineStage(ops, ops.mate(pop, g).value, g).Success?
    && MutateStage(ops, RecombineStage(ops, ops.mate(pop, g).value, g).value, g).Success?
    && var children := MutateStage(ops, RecombineStage(ops, ops.mate(pop, g).value, g).value, g).value;
       && NoneThrows(children.pool, feasible)
       && ops.select(Benchmark(Population(pop.pool + Feasibles(children.pool, feasible), pop.overallFitness), fit), g).Success?
  }

  /**
   * The loop body: mating selection; recombination of the parents or an empty children
   * population; mutation of the children; addIndividualsToPool; benchmark; environment
   * selection. The parents themselves are never added.
   */
  function Step<T>(pop: Population<T>, ops: Operators<T>, fit: T -> int, feasible: T -> Result<bool>, g: nat)
    : (r: Result<Pass<T>>)
    ensures r.Success? <==> StagesSucceed(pop, ops, fit, feasible, g)
    ensures r.Success? ==> ops.mate(pop, g) == Success(r.value.parents)
    ensures r.Success? ==> if ops.useRecombination then ops.recombine(r.value.parents, g) == Success(r.value.recombined)
                           else r.value.recombined == NewPopulation()
    ensures r.Success? ==> if ops.useMutation then ops.mutate(r.value.recombined, g) == Success(r.value.children)
                           else r.value.children == r.value.recombined
    ensures r.Success? && !ops.useRecombination ==>
              (if ops.useMutation then ops.mutate(NewPopulation(), g) == Success(r.value.children)
               else r.value.children == NewPopulation())
    ensures r.Success? ==> && r.value.merged.pool == pop.pool + Feasibles(r.value.children.pool, feasible)
                           && r.value.merged.overallFitness == Some(SumFitness(r.value.merged.pool, fit))
                           && ops.select(r.value.merged, g) == Success(r.value.next)
    ensures !ops.useRecombination && !ops.useMutation && ops.mate(pop, g).Success? ==>
              r == (match ops.select(Benchmark(pop, fit), g)
                    case Success(next) => Success(Pass(ops.mate(pop, g).value, NewPopulation(), NewPopulation(), Benchmark(pop, fit), next))
                    case Failure(e) => Failure(e))
  {
    match ops.mate(pop, g)
    case Failure(e) => Failure(e)
    case Success(parents) =>
      match RecombineStage(ops, parents, g)
      case Failure(e) => Failure(e)
      case Success(recombined) =>
        match MutateStage(ops, recombined, g)
        case Failure(e) => Failure(e)
        case Success(children) =>
          match AddIndividualsToPool(pop, children.pool, feasible)
          case Failure(e) => Failure(e)
          case Success(added) =>
            var merged := Benchmark(added, fit);
            match ops.select(merged, g)
            case Failure(e) => Failure(e)
            case Success(next) => Success(Pass(parents, recombined, children, merged, next))
  }

  // ---------------------------------------------------------------------------------
  // The loop.

  /** The end of the loop: the last population, the values reported, the passes run. */
  datatype Trace<T> = Trace(last: Population<T>, reported: seq<int>, passes: nat)

  /** The values 0, 1, ..., n - 1. */
  function Upto(n: nat): (r: seq<int>)
    ensures |r| == n && forall k :: 0 <= k < n ==> r[k] == k
  {
    seq(n, k requires 0 <= k < n => k)
  }

  /**
   * The while loop from counter `iteration` on. The counter never wraps here, since
   * maxIterations is below the largest int.
   */
  function Run<T>(pop: Population<T>, ops: Operators<T>, fit: T -> int, feasible: T -> Result<bool>,
                  iteration: nat, maxIterations: int): (r: Result<Trace<T>>)
    requires maxIterations < IntMax && (iteration == 0 || iteration <= maxIterations)
    decreases maxIterations - iteration
    ensures r.Success? ==> && r.value.passes == (if maxIterations > iteration then maxIterations - iteration else 0)
                           && |r.value.reported| == r.value.passes + 1
                           && forall k :: 0 <= k < |r.value.reported| ==> r.value.reported[k] == iteration + k
  {
    var (done, next, reported) := IsTerminationCondition(iteration, maxIterations);
    if done then Success(Trace(pop, [reported], 0))
    else
      match Step(pop, ops, fit, feasible, iteration)
      case Failure(e) => Failure(e)
      case Success(pass) =>
        match Run(pass.next, ops, fit, feasible, next, maxIterations)
        case Failure(e) => Failure(e)
        case Success(rest) =>
          assert forall k :: 1 <= k < 1 + |rest.reported| ==> ([reported] + rest.reported)[k] == rest.reported[k - 1];
          Success(Trace(rest.last, [reported] + rest.reported, rest.passes + 1))
  }

  /**
   * From counter 0 the body runs maxIterations times (none for a negative bound), and
   * progress is reported with 0, 1, ..., maxIterations.
   */
  lemma RunCounts<T>(pop: Population<T>, ops: Operators<T>, fit: T -> int, feasible: T -> Result<bool>, maxIterations: int)
    requires maxIterations < IntMax
    requires Run(pop, ops, fit, feasible, 0, maxIterations).Success?
    ensures var t := Run(pop, ops, fit, feasible, 0, maxIterations).value;
            && t.passes == (if maxIterations > 0 then maxIterations else 0)
            && t.reported == Upto(if maxIterations > 0 then maxIterations + 1 else 1)
  {
  }

  // ---------------------------------------------------------------------------------
  // Initialisation and the whole run.

  /** The first n constructed individuals all exist and are feasible. */
  predicate AllBuilt<T>(construct: nat -> Result<T>, feasible: T -> Result<bool>, from: nat, n: int)
  {
    forall i :: from <= i < n ==> construct(i).Success? && feasible(construct(i).value) == Success(true)
  }

  /**
   * generateInitializationPopulation from the i-th construction call on: each constructed
   * individual goes through addIndividualToPool, nothing is caught.
   */
  function Initialize<T>(pop: Population<T>, construct: nat -> Result<T>, feasible: T -> Result<bool>, i: nat, count: int)
    : (r: Result<Population<T>>)
    decreases if count > i then count - i else 0
    ensures r.Success? <==> AllBuilt(construct, feasible, i, count)
    ensures r.Success? ==> && |r.value.pool| == |pop.pool| + (if count > i then count - i else 0)
                           && r.value.pool[..|pop.pool|] == pop.pool
                           && (forall k :: i <= k < count ==> r.value.pool[|pop.pool| + k - i] == construct(k).value)
                           && r.value.overallFitness == pop.overallFitness
  {
    if i >= count then
      assert pop.pool[..|pop.pool|] == pop.pool;
      Success(pop)
    else
      match construct(i)
      case Failure(e) => Failure(e)
      case Success(x) =>
        match AddIndividualToPool(pop, x, feasible)
        case Failure(e) => Failure(e)
        case Success(grown) =>
          var r := Initialize(grown, construct, feasible, i + 1, count);
          if r.Success? then
            assert r.value.pool[..|pop.pool|] == grown.pool[..|pop.pool|] by {
              assert r.value.pool[..|grown.pool|] == grown.pool;
            }
            r
          else r
  }

  /** What evolutionize leaves: the benchmarked initial population and the loop's end. */
  datatype Evolution<T> = Evolution(init: Population<T>, trace: Trace<T>)

  /**
   * evolutionize: `count` construction calls build the initial population, which is
   * benchmarked and kept; the loop starts from its copy. With maxIterations at the
   * largest int the loop never ends by its test: a failure of the first pass still ends
   * the run with that failure, otherwise the run does not terminate.
   */
  function Evolutionize<T>(ops: Operators<T>, construct: nat -> Result<T>, count: int, copy: T -> T,
                           fit: T -> int, feasible: T -> Result<bool>, maxIterations: int): (r: Result<Evolution<T>>)
    requires Int32(maxIterations)
    ensures maxIterations == IntMax ==> r.Failure?
    ensures r.Success? ==> && AllBuilt(construct, feasible, 0, count)
                           && |r.value.init.pool| == (if count > 0 then count else 0)
                           && (forall k :: 0 <= k < count ==> r.value.init.pool[k] == construct(k).value)
                           && r.value.init.overallFitness == Some(SumFitness(r.value.init.pool, fit))
                           && r.value.trace.passes == (if maxIterations > 0 then maxIterations else 0)
    ensures !AllBuilt(construct, feasible, 0, count) ==> r.Failure?
    ensures maxIterations == IntMax && AllBuilt(construct, feasible, 0, count) ==>
              var start := CopyPopulation(Benchmark(Initialize(NewPopulation(), construct, feasible, 0, count).value, fit), copy);
              var first := Step(start, ops, fit, feasible, 0);
              && (first.Failure? ==> r == Failure(first.error))
              && (first.Success? ==> r == Failure(NoTermination))
  {
    match Initialize(NewPopulation(), construct, feasible, 0, count)
    case Failure(e) => Failure(e)
    case Success(built) =>
      var init := Benchmark(built, fit);
      var start := CopyPopulation(init, copy);
      if maxIterations == IntMax then
        match Step(start, ops, fit, feasible, 0)
        case Failure(e) => Failure(e)
        case Success(_) => Failure(NoTermination)
      else
        match Run(start, ops, fit, feasible, 0, maxIterations)
        case Failure(e) => Failure(e)
        case Success(trace) => Success(Evolution(init, trace))
  }

  // ---------------------------------------------------------------------------------
  // Mutation without recombination.

  /**
   * SwappingNursesMutation applied to population p in generation g, whose draws are
   * `drawsOf(g)`. An empty population makes it throw; a successful mutation keeps the
   * overall fitness and relates every individual to its mutated version by the first two draws.
   */
  function MutatePopulation(env: Env, drawsOf: nat -> seq<int>, p: Population<Individual>, g: nat)
    : (r: Result<Population<Individual>>)
    ensures |p.pool| == 0 ==> r == Failure(OutOfRange)
    ensures r.Success? ==>
              && r.value.overallFitness == p.overallFitness
              && |drawsOf(g)| >= 2
              && Mutation.AllMutated(r.value.pool, p.pool, env, drawsOf(g)[0], drawsOf(g)[1], drawsOf(g)[2..])
  {
    match Mutation.Mutate(p.pool, env, drawsOf(g))
    case Failure(e) => Failure(e)
    case Success(s) => Success(p.(pool := s))
  }

  /** SwappingNursesMutation as a cycle operator: MutatePopulation in every generation. */
  function SwappingNurses(env: Env, drawsOf: nat -> seq<int>): (r: (Population<Individual>, nat) -> Result<Population<Individual>>)
    ensures forall p: Population<Individual>, g: nat :: |p.pool| == 0 ==> r(p, g) == Failure(OutOfRange)
    ensures forall p: Population<Individual>, g: nat :: r(p, g).Success? ==>
              && r(p, g).value.overallFitness == p.overallFitness
              && |drawsOf(g)| >= 2
              && Mutation.AllMutated(r(p, g).value.pool, p.pool, env, drawsOf(g)[0], drawsOf(g)[1], drawsOf(g)[2..])
  {
    (p: Population<Individual>, g: nat) => MutatePopulation(env, drawsOf, p, g)
  }

  /**
   * With recombination off the children stay empty, so SwappingNursesMutation reads the
   * first individual of an empty list: every pass fails.
   */
  lemma MutationWithoutRecombinationFails(pop: Population<Individual>, ops: Operators<Individual>, env: Env,
                                          drawsOf: nat -> seq<int>, fit: Individual -> int,
                                          feasible: Individual -> Result<bool>, g: nat)
    requires !ops.useRecombination && ops.useMutation && ops.mutate == SwappingNurses(env, drawsOf)
    requires ops.mate(pop, g).Success?
    ensures Step(pop, ops, fit, feasible, g) == Failure(OutOfRange)
  {
    assert Mutation.Mutate(NewPopulation<Individual>().pool, env, drawsOf(g)) == Failure(OutOfRange);
  }
}

=== FILE: feasibility.dfy ===
/**
 * The hard-constraint check of Individual.isFeasible, one day at a time. Per day the
 * loop gathers, per shift type, the distinct employees planned on it and the demanded
 * count from the scheduling period; then every gathered shift type must have exactly
 * the demanded number of employees, and every slot's employee must hold the skills.
 * Shift types that appear on no slot of the day are never checked.
 *
 * A null period, or a null demanded count for a shift type that appears, makes the
 * Java code throw NullPointerException; here that is Failure(NullDereference).
 */
module Feasibility {
  import opened Wrappers
  import opened Entities
  import opened Entries
  import opened SchedulingPeriod
  import opened DayRosters
  import opened TimeUnits
  import opened Collaborators

  /** plannedEmployees: shift type -> the distinct employees planned on it, in iteration order. */
  type Planned = seq<Entry<ShiftType, seq<Employee>>>

  /** preferredCounts: shift type -> the demanded count, None standing for null. */
  type Counts = seq<Entry<ShiftType, Option<int>>>

  /** One slot of the gathering loop: the employee joins its shift type's list unless already in it. */
  function AddPlanned(planned: Planned, st: ShiftType, e: Employee): (r: Planned)
    ensures Get(r, st) == Some(match Get(planned, st)
                               case Some(list) => if e in list then list else list + [e]
                               case None => [e])
    ensures forall st' :: st' != st ==> Get(r, st') == Get(planned, st')
    ensures Keys(r) == Keys(planned) + {st}
    ensures DistinctKeys(planned) ==> DistinctKeys(r)
  {
    match Get(planned, st)
    case Some(list) => if e in list then planned else Put(planned, st, list + [e])
    case None => Put(planned, st, [e])
  }

  /** plannedEmployees after the first n slots: one entry per shift type seen so far. */
  function PlanUpTo(slots: seq<Slot>, n: nat): (r: Planned)
    requires n <= |slots|
    ensures DistinctKeys(r)
    ensures Keys(r) == KeysUpTo(slots, n)
  {
    if n == 0 then []
    else
      KeysStep(slots, n);
      AddPlanned(PlanUpTo(slots, n - 1), slots[n - 1].key, slots[n - 1].value)
  }

  /** The shift types of the first n slots. */
  function KeysUpTo(slots: seq<Slot>, n: nat): set<ShiftType>
    requires n <= |slots|
  {
    set i | 0 <= i < n :: slots[i].key
  }

  /** The shift types of the first n slots: those of the first n - 1 and the last one's. */
  lemma KeysStep(slots: seq<Slot>, n: nat)
    requires 0 < n <= |slots|
    ensures KeysUpTo(slots, n) == KeysUpTo(slots, n - 1) + {slots[n - 1].key}
  {
    forall st | st in KeysUpTo(slots, n) ensures st in KeysUpTo(slots, n - 1) + {slots[n - 1].key} {
      var i :| 0 <= i < n && slots[i].key == st;
      if i < n - 1 {
        assert st in KeysUpTo(slots, n - 1);
      }
    }
  }

  /**
   * preferredCounts after the first n slots: each shift type's count is fetched once,
   * and every entry holds the period's count of its shift type for the day's date.
   */
  function CountsUpTo(env: Env, p: Period, date: Date, slots: seq<Slot>, n: nat): (r: Counts)
    requires n <= |slots|
    ensures DistinctKeys(r)
    ensures forall m :: 0 <= m < |r| ==> r[m].value == env.preferredCount(p, r[m].key, date)
  {
    if n == 0 then []
    else
      var counts := CountsUpTo(env, p, date, slots, n - 1);
      var st := slots[n - 1].key;
      if Get(counts, st).Some? then counts else Put(counts, st, env.preferredCount(p, st, date))
  }

  /** The size check over the gathered shift types, from entry k on, in iteration order. */
  function CheckPlanned(planned: Planned, counts: Counts, k: nat): (r: Result<bool>)
    requires k <= |planned|
    ensures r.Failure? ==> r.error == NullDereference
    ensures r == Success(true) ==> SizesMatch(planned, counts, k)
    decreases |planned| - k
  {
    if k == |planned| then Success(true)
    else
      var count := Get(counts, planned[k].key);
      if count.None? then Success(false)
      else if count.value.None? then Failure(NullDereference)
      else if |planned[k].value| != count.value.value then Success(false)
      else CheckPlanned(planned, counts, k + 1)
  }

  /**
   * The check of one day roster. Without a period it passes an empty day and throws on
   * any other; a day that passes has a skilled employee in every slot; the only
   * exception is NullPointerException.
   */
  function CheckDay(env: Env, period: Option<Period>, day: DayRoster): (r: Result<bool>)
    ensures r.Failure? ==> r.error == NullDereference
    ensures period.None? ==> (r == Success(true) <==> |day.slots| == 0) && (r.Failure? <==> |day.slots| > 0)
    ensures r == Success(true) ==> forall i :: 0 <= i < |day.slots| ==> env.hasRequiredSkills(day.slots[i].value, day.slots[i].key)
  {
    match period
    case None =>
      if |day.slots| == 0 then Success(IsDemandedShiftAssignedToNurse(day, env.hasRequiredSkills))
      else Failure(NullDereference)
    case Some(p) =>
      var planned := PlanUpTo(day.slots, |day.slots|);
      var counts := CountsUpTo(env, p, day.date, day.slots, |day.slots|);
      match CheckPlanned(planned, counts, 0)
      case Failure(err) => Failure(err)
      case Success(sizesOk) =>
        if !sizesOk then Success(false)
        else Success(IsDemandedShiftAssignedToNurse(day, env.hasRequiredSkills))
  }

  /**
   * The loop over the day rosters from day i on: the first day that fails or throws
   * decides. It passes exactly when every day passes.
   */
  function CheckDays(env: Env, period: Option<Period>, days: seq<DayRoster>, i: nat): (r: Result<bool>)
    requires i <= |days|
    ensures r == Success(true) <==> forall d :: i <= d < |days| ==> CheckDay(env, period, days[d]) == Success(true)
  {
    var check := (day: DayRoster) => CheckDay(env, period, day);
    CheckEachMeaning(check, days, i);
    CheckEach(check, days, i)
  }

  /** A loop of checks from item i on: the first item that fails or throws decides. */
  function CheckEach<D>(check: D -> Result<bool>, xs: seq<D>, i: nat): Result<bool>
    requires i <= |xs|
    decreases |xs| - i
  {
    if i == |xs| then Success(true)
    else match check(xs[i])
      case Failure(err) => Failure(err)
      case Success(ok) => if !ok then Success(false) else CheckEach(check, xs, i + 1)
  }

  // ---------------------------------------------------------------------------------
  // Reference meaning.

  /** The distinct employees planned on shift type st among the first n slots. */
  ghost function HoldersUpTo(slots: seq<Slot>, n: nat, st: ShiftType): set<Employee>
    requires n <= |slots|
  {
    set i | 0 <= i < n && slots[i].key == st :: slots[i].value
  }

  /** Some slot among the first n is for shift type st. */
  ghost predicate Appears(slots: seq<Slot>, n: nat, st: ShiftType)
    requires n <= |slots|
  {
    exists i :: 0 <= i < n && slots[i].key == st
  }

  /**
   * The day satisfies the hard constraints: every shift type on some slot has exactly
   * its demanded number of distinct employees, and every slot's employee is skilled.
   */
  ghost predicate DayFeasible(env: Env, p: Period, day: DayRoster)
  {
    && (forall i :: 0 <= i < |day.slots| ==>
          env.preferredCount(p, day.slots[i].key, day.date) == Some(|HoldersUpTo(day.slots, |day.slots|, day.slots[i].key)|))
    && (forall i :: 0 <= i < |day.slots| ==> env.hasRequiredSkills(day.slots[i].value, day.slots[i].key))
  }

  /** Every shift type on some slot of the day has a (non-null) demanded count. */
  ghost predicate DayDefined(env: Env, p: Period, day: DayRoster)
  {
    forall i :: 0 <= i < |day.slots| ==> env.preferredCount(p, day.slots[i].key, day.date).Some?
  }

  /** What plannedEmployees holds after n slots. */
  ghost predicate PlanDescribes(slots: seq<Slot>, n: nat, planned: Planned)
    requires n <= |slots|
  {
    && DistinctKeys(planned)
    && (forall st :: Get(planned, st).Some? <==> Appears(slots, n, st))
    && (forall st :: Get(planned, st).Some? ==> NoDuplicates(Get(planned, st).value))
    && (forall st, x :: Get(planned, st).Some? ==> (x in Get(planned, st).value <==> x in HoldersUpTo(slots, n, st)))
  }

  lemma {:induction false} PlanUpToDescribes(slots: seq<Slot>, n: nat)
    requires n <= |slots|
    ensures PlanDescribes(slots, n, PlanUpTo(slots, n))
  {
    if n > 0 {
      PlanUpToDescribes(slots, n - 1);
      AddPlannedDescribes(slots, n, PlanUpTo(slots, n - 1));
    }
  }

  lemma AppearsStep(slots: seq<Slot>, n: nat)
    requires 0 < n <= |slots|
    ensures forall st :: Appears(slots, n, st) <==> Appears(slots, n - 1, st) || st == slots[n - 1].key
  {
    assert Appears(slots, n, slots[n - 1].key);
    forall st | Appears(slots, n, st) && st != slots[n - 1].key ensures Appears(slots, n - 1, st) {
      var i :| 0 <= i < n && slots[i].key == st;
    }
    forall st | Appears(slots, n - 1, st) ensures Appears(slots, n, st) {
      var i :| 0 <= i < n - 1 && slots[i].key == st;
    }
  }

  /** Slot n - 1 of the loop keeps the description of plannedEmployees. */
  lemma AddPlannedDescribes(slots: seq<Slot>, n: nat, prev: Planned)
    requires 0 < n <= |slots| && PlanDescribes(slots, n - 1, prev)
    ensures PlanDescribes(slots, n, AddPlanned(prev, slots[n - 1].key, slots[n - 1].value))
  {
    AppearsStep(slots, n);
    AddPlannedNoDuplicates(slots, n, prev);
    AddPlannedHolders(slots, n, prev);
  }

  lemma AddPlannedNoDuplicates(slots: seq<Slot>, n: nat, prev: Planned)
    requires 0 < n <= |slots| && PlanDescribes(slots, n - 1, prev)
    ensures var next := AddPlanned(prev, slots[n - 1].key, slots[n - 1].value);
            forall st :: Get(next, st).Some? ==> NoDuplicates(Get(next, st).value)
  {
    var st := slots[n - 1].key;
    var e := slots[n - 1].value;
    match Get(prev, st)
    case Some(list) =>
      if e !in list {
        AddNewHolder(slots, n, prev, list);
      }
    case None =>
      assert NoDuplicates([e]);
  }

  lemma AddPlannedHolders(slots: seq<Slot>, n: nat, prev: Planned)
    requires 0 < n <= |slots| && PlanDescribes(slots, n - 1, prev)
    ensures var next := AddPlanned(prev, slots[n - 1].key, slots[n - 1].value);
            forall st, x :: Get(next, st).Some? ==> (x in Get(next, st).value <==> x in HoldersUpTo(slots, n, st))
  {
    HoldersStep(slots, n);
  }

  lemma AddNewHolder(slots: seq<Slot>, n: nat, prev: Planned, list: seq<Employee>)
    requires 0 < n <= |slots| && PlanDescribes(slots, n - 1, prev)
    requires Get(prev, slots[n - 1].key) == Some(list) && slots[n - 1].value !in list
    ensures NoDuplicates(list + [slots[n - 1].value])
  {
  }

  lemma HoldersStep(slots: seq<Slot>, n: nat)
    requires 0 < n <= |slots|
    ensures HoldersUpTo(slots, n, slots[n - 1].key) == HoldersUpTo(slots, n - 1, slots[n - 1].key) + {slots[n - 1].value}
    ensures forall st :: st != slots[n - 1].key ==> HoldersUpTo(slots, n, st) == HoldersUpTo(slots, n - 1, st)
  {
  }

  /** What preferredCounts holds after n slots. */
  ghost predicate CountsDescribe(env: Env, p: Period, date: Date, slots: seq<Slot>, n: nat, counts: Counts)
    requires n <= |slots|
  {
    forall st :: Get(counts, st) == if Appears(slots, n, st) then Some(env.preferredCount(p, st, date)) else None
  }

  lemma {:induction false} CountsUpToDescribe(env: Env, p: Period, date: Date, slots: seq<Slot>, n: nat)
    requires n <= |slots|
    ensures CountsDescribe(env, p, date, slots, n, CountsUpTo(env, p, date, slots, n))
  {
    if n > 0 {
      var prev := CountsUpTo(env, p, date, slots, n - 1);
      assert CountsDescribe(env, p, date, slots, n - 1, prev) by {
        CountsUpToDescribe(env, p, date, slots, n - 1);
      }
      CountsStep(env, p, date, slots, n, prev, CountsUpTo(env, p, date, slots, n));
    }
  }

  /** Slot n - 1 of the loop keeps the description of preferredCounts. */
  lemma CountsStep(env: Env, p: Period, date: Date, slots: seq<Slot>, n: nat, prev: Counts, next: Counts)
    requires 0 < n <= |slots| && CountsDescribe(env, p, date, slots, n - 1, prev)
    requires var st := slots[n - 1].key;
      next == if Get(prev, st).Some? then prev else Put(prev, st, env.preferredCount(p, st, date))
    ensures CountsDescribe(env, p, date, slots, n, next)
  {
    AppearsStep(slots, n);
  }

  /** Every entry from k on has exactly its demanded count. */
  ghost predicate SizesMatch(planned: Planned, counts: Counts, k: nat)
    requires k <= |planned|
  {
    forall m :: k <= m < |planned| ==> Get(counts, planned[m].key) == Some(Some(|planned[m].value|))
  }

  /** Every entry from k on has a non-null demanded count. */
  ghost predicate CountsPresent(planned: Planned, counts: Counts, k: nat)
    requires k <= |planned|
  {
    forall m :: k <= m < |planned| ==> Get(counts, planned[m].key).Some? && Get(counts, planned[m].key).value.Some?
  }

  lemma {:induction false} CheckPlannedMeaning(planned: Planned, counts: Counts, k: nat)
    requires k <= |planned|
    ensures CheckPlanned(planned, counts, k) == Success(true) <==> SizesMatch(planned, counts, k)
    ensures CheckPlanned(planned, counts, k).Failure? ==> CheckPlanned(planned, counts, k).error == NullDereference
    ensures CountsPresent(planned, counts, k) ==> CheckPlanned(planned, counts, k).Success?
    decreases |planned| - k
  {
    if k < |planned| {
      CheckPlannedMeaning(planned, counts, k + 1);
    }
  }

  /** The number of distinct employees gathered for a shift type is the number of distinct holders. */
  lemma GatheredCount(slots: seq<Slot>, planned: Planned, m: nat)
    requires PlanDescribes(slots, |slots|, planned) && m < |planned|
    ensures Appears(slots, |slots|, planned[m].key)
    ensures |planned[m].value| == |HoldersUpTo(slots, |slots|, planned[m].key)|
  {
    GetDistinct(planned, m);
    var st := planned[m].key;
    var list := planned[m].value;
    assert Get(planned, st) == Some(list);
    assert (set x | x in list) == HoldersUpTo(slots, |slots|, st);
    DistinctCardinality(list);
  }

  /** A sequence without duplicates has as many elements as its set of elements. */
  lemma {:induction false} DistinctCardinality<T>(xs: seq<T>)
    requires NoDuplicates(xs)
    ensures |set x | x in xs| == |xs|
  {
    if |xs| > 0 {
      var init := xs[..|xs| - 1];
      assert NoDuplicates(init);
      DistinctCardinality(init);
      assert (set x | x in xs) == (set x | x in init) + {xs[|xs| - 1]};
      assert xs[|xs| - 1] !in init;
    }
  }

  /** A shift type on some slot is the key of some gathered entry. */
  lemma GatheredEntry(slots: seq<Slot>, planned: Planned, i: nat) returns (m: nat)
    requires PlanDescribes(slots, |slots|, planned) && i < |slots|
    ensures m < |planned| && planned[m].key == slots[i].key
  {
    assert Appears(slots, |slots|, slots[i].key);
    var st := slots[i].key;
    var list := Get(planned, st).value;
    var j :| 0 <= j < |planned| && planned[j] == Entry(st, list);
    m := j;
  }

  /**
   * With a period, the day passes iff it is feasible in the reference sense; it can
   * only throw for a null count, and it cannot throw when every count is defined.
   */
  lemma CheckDayMeaning(env: Env, p: Period, day: DayRoster)
    ensures CheckDay(env, Some(p), day) == Success(true) <==> DayFeasible(env, p, day)
    ensures CheckDay(env, Some(p), day).Failure? ==> CheckDay(env, Some(p), day).error == NullDereference
    ensures DayDefined(env, p, day) ==> CheckDay(env, Some(p), day).Success?
  {
    CheckDayPasses(env, p, day);
    CheckDayThrows(env, p, day);
  }

  /** With a period, the day passes iff it is feasible in the reference sense. */
  lemma CheckDayPasses(env: Env, p: Period, day: DayRoster)
    ensures CheckDay(env, Some(p), day) == Success(true) <==> DayFeasible(env, p, day)
  {
    var slots := day.slots;
    var planned := PlanUpTo(slots, |slots|);
    var counts := CountsUpTo(env, p, day.date, slots, |slots|);
    PlanUpToDescribes(slots, |slots|);
    CountsUpToDescribe(env, p, day.date, slots, |slots|);
    CheckPlannedMeaning(planned, counts, 0);
    SizesMeaning(env, p, day, planned, counts);
  }

  /** With a period, the day only throws for a null count, and not when every count is defined. */
  lemma CheckDayThrows(env: Env, p: Period, day: DayRoster)
    ensures CheckDay(env, Some(p), day).Failure? ==> CheckDay(env, Some(p), day).error == NullDereference
    ensures DayDefined(env, p, day) ==> CheckDay(env, Some(p), day).Success?
  {
    var slots := day.slots;
    var planned := PlanUpTo(slots, |slots|);
    var counts := CountsUpTo(env, p, day.date, slots, |slots|);
    CheckPlannedMeaning(planned, counts, 0);
    if DayDefined(env, p, day) {
      PlanUpToDescribes(slots, |slots|);
      CountsUpToDescribe(env, p, day.date, slots, |slots|);
      DefinedCountsPresent(env, p, day, planned, counts);
    }
  }

  /** When every count of the day is defined, every gathered entry finds a non-null count. */
  lemma DefinedCountsPresent(env: Env, p: Period, day: DayRoster, planned: Planned, counts: Counts)
    requires PlanDescribes(day.slots, |day.slots|, planned)
    requires CountsDescribe(env, p, day.date, day.slots, |day.slots|, counts)
    requires DayDefined(env, p, day)
    ensures CountsPresent(planned, counts, 0)
  {
    var slots := day.slots;
    forall m | 0 <= m < |planned|
      ensures Get(counts, planned[m].key).Some? && Get(counts, planned[m].key).value.Some?
    {
      GatheredCount(slots, planned, m);
      var i :| 0 <= i < |slots| && slots[i].key == planned[m].key;
    }
  }

  /** The size check over the gathered entries is the count condition over the slots. */
  lemma SizesMeaning(env: Env, p: Period, day: DayRoster, planned: Planned, counts: Counts)
    requires PlanDescribes(day.slots, |day.slots|, planned)
    requires CountsDescribe(env, p, day.date, day.slots, |day.slots|, counts)
    ensures SizesMatch(planned, counts, 0) <==>
      forall i :: 0 <= i < |day.slots| ==>
        env.preferredCount(p, day.slots[i].key, day.date) == Some(|HoldersUpTo(day.slots, |day.slots|, day.slots[i].key)|)
  {
    var slots := day.slots;
    if SizesMatch(planned, counts, 0) {
      forall i | 0 <= i < |slots|
        ensures env.preferredCount(p, slots[i].key, day.date) == Some(|HoldersUpTo(slots, |slots|, slots[i].key)|)
      {
        var m := GatheredEntry(slots, planned, i);
        GatheredCount(slots, planned, m);
      }
    }
    if forall i :: 0 <= i < |slots| ==>
        env.preferredCount(p, slots[i].key, day.date) == Some(|HoldersUpTo(slots, |slots|, slots[i].key)|)
    {
      forall m | 0 <= m < |planned| ensures Get(counts, planned[m].key) == Some(Some(|planned[m].value|)) {
        GatheredCount(slots, planned, m);
        var i :| 0 <= i < |slots| && slots[i].key == planned[m].key;
      }
    }
  }

  /** Every day from i on is feasible. */
  ghost predicate DaysFeasible(env: Env, p: Period, days: seq<DayRoster>, i: nat)
    requires i <= |days|
  {
    forall d :: i <= d < |days| ==> DayFeasible(env, p, days[d])
  }

  /**
   * The loop of checks passes iff every item passes; what it throws is what some item
   * throws; it does not throw when no item does.
   */
  lemma {:induction false} CheckEachMeaning<D>(check: D -> Result<bool>, xs: seq<D>, i: nat)
    requires i <= |xs|
    ensures CheckEach(check, xs, i) == Success(true) <==> forall d :: i <= d < |xs| ==> check(xs[d]) == Success(true)
    ensures CheckEach(check, xs, i).Failure? ==>
              exists d :: i <= d < |xs| && check(xs[d]) == Failure(CheckEach(check, xs, i).error)
    ensures (forall d :: i <= d < |xs| ==> check(xs[d]).Success?) ==> CheckEach(check, xs, i).Success?
    decreases |xs| - i
  {
    if i < |xs| {
      CheckEachMeaning(check, xs, i + 1);
    }
  }

  /**
   * The roster check: with a period it passes iff every day is feasible; without one it
   * passes iff no day has a slot. It only ever throws NullPointerException, the exception
   * of some day's check, and with a period whose counts are all defined it does not throw.
   */
  lemma CheckDaysMeaning(env: Env, period: Option<Period>, days: seq<DayRoster>, i: nat)
    requires i <= |days|
    ensures period.Some? ==> (CheckDays(env, period, days, i) == Success(true) <==> DaysFeasible(env, period.value, days, i))
    ensures period.None? ==> (CheckDays(env, period, days, i) == Success(true) <==> forall d :: i <= d < |days| ==> |days[d].slots| == 0)
    ensures CheckDays(env, period, days, i).Failure? ==> CheckDays(env, period, days, i).error == NullDereference
    ensures CheckDays(env, period, days, i).Failure? ==>
              exists d :: i <= d < |days| && CheckDay(env, period, days[d]) == CheckDays(env, period, days, i)
    ensures (period.Some? && forall d :: i <= d < |days| ==> DayDefined(env, period.value, days[d]))
        ==> CheckDays(env, period, days, i).Success?
  {
    var check := (day: DayRoster) => CheckDay(env, period, day);
    CheckEachMeaning(check, days, i);
    if period.Some? {
      forall d | i <= d < |days|
        ensures check(days[d]) == Success(true) <==> DayFeasible(env, period.value, days[d])
        ensures check(days[d]).Failure? ==> check(days[d]).error == NullDereference
        ensures DayDefined(env, period.value, days[d]) ==> check(days[d]).Success?
      {
        CheckDayMeaning(env, period.value, days[d]);
      }
    } else {
      forall d | i <= d < |days|
        ensures check(days[d]) == Success(true) <==> |days[d].slots| == 0
        ensures check(days[d]).Failure? ==> check(days[d]).error == NullDereference
      {
        if |days[d].slots| == 0 {
          assert IsDemandedShiftAssignedToNurse(days[d], env.hasRequiredSkills);
        }
      }
    }
  }
}

=== FILE: fitness.dfy ===
/**
 * The default fitness calculator: the sum, over the period's employees, of the
 * deviations from the contract's soft constraints on the number of assignments, on
 * consecutive working and free days, and on working weekends. Lower is better.
 *
 * The statistics are read through the individual's memoized getters, so the calculator
 * fills the individual's caches as it goes; it returns the individual it leaves behind.
 * The deviations are kept exactly as computed: the consecutive working-day penalties
 * use the contract's assignment-count attributes as targets, and the maximum penalties
 * for consecutive days fire when the maximum exceeds the MINIMUM target.
 */
module Fitness {
  import opened Wrappers
  import opened Entities
  import opened SchedulingPeriod
  import opened Collaborators
  import opened Runs
  import opened Weekends
  import opened DayRosters
  import opened Individuals

  // ---------------------------------------------------------------------------------
  // The per-employee deviations.

  /** The assignment-count deviation: the shortfall below the minimum and the excess above the maximum, each weighted. */
  function NumAssignmentsDeviation(n: int, k: Contract): (r: int)
    ensures k.minNumAssignments.weight >= 0 && k.maxNumAssignments.weight >= 0 ==> r >= 0
    ensures k.minNumAssignments.value <= n <= k.maxNumAssignments.value ==> r == 0
    ensures k.minNumAssignments.weight > 0 && k.maxNumAssignments.weight > 0 ==>
              (r == 0 <==> k.minNumAssignments.value <= n <= k.maxNumAssignments.value)
  {
    Shortfall(n, k.minNumAssignments) + Excess(n, k.maxNumAssignments)
  }

  /** How far `actual` falls below the attribute's value, times its weight. */
  function Shortfall(actual: int, a: Attribute): (r: int)
    ensures a.weight >= 0 ==> r >= 0
    ensures actual >= a.value ==> r == 0
    ensures a.weight > 0 ==> (r == 0 <==> actual >= a.value)
  {
    if actual < a.value then (a.value - actual) * a.weight else 0
  }

  /** How far `actual` exceeds the attribute's value, times its weight. */
  function Excess(actual: int, a: Attribute): (r: int)
    ensures a.weight >= 0 ==> r >= 0
    ensures actual <= a.value ==> r == 0
    ensures a.weight > 0 ==> (r == 0 <==> actual <= a.value)
  {
    if actual > a.value then (actual - a.value) * a.weight else 0
  }

  /** The flag's weight when `actual` differs from the flag's value. */
  function Mismatch(actual: bool, f: Flag): (r: int)
    ensures f.weight >= 0 ==> r >= 0
    ensures actual == f.value ==> r == 0
    ensures f.weight > 0 ==> (r == 0 <==> actual == f.value)
  {
    if f.value != actual then f.weight else 0
  }

  /**
   * The consecutive-days deviation. Work streaks are measured against the contract's
   * minimum and maximum NUMBER OF ASSIGNMENTS; the maximum penalties are charged when the
   * maximum streak exceeds the minimum target, by the amount it exceeds the maximum target.
   */
  function ConsecutiveDeviation(c: ConsecutiveDays, k: Contract): (r: int)
    ensures k.minNumAssignments.value <= c.minWork && c.maxWork <= k.minNumAssignments.value
            && k.minConsecutiveFreeDays.value <= c.minFree && c.maxFree <= k.minConsecutiveFreeDays.value
            ==> r == 0
    ensures (&& k.minNumAssignments.weight >= 0 && k.maxNumAssignments.weight >= 0
             && k.minConsecutiveFreeDays.weight >= 0 && k.maxConsecutiveFreeDays.weight >= 0
             && !(k.minNumAssignments.value < c.maxWork < k.maxNumAssignments.value)
             && !(k.minConsecutiveFreeDays.value < c.maxFree < k.maxConsecutiveFreeDays.value))
            ==> r >= 0
  {
    var minWork := k.minNumAssignments;
    var maxWork := k.maxNumAssignments;
    var minFree := k.minConsecutiveFreeDays;
    var maxFree := k.maxConsecutiveFreeDays;
    (if c.minWork < minWork.value then (minWork.value - c.minWork) * minWork.weight else 0)
    + (if c.maxWork > minWork.value then (c.maxWork - maxWork.value) * maxWork.weight else 0)
    + (if c.minFree < minFree.value then (minFree.value - c.minFree) * minFree.weight else 0)
    + (if c.maxFree > minFree.value then (c.maxFree - maxFree.value) * maxFree.weight else 0)
  }

  /** The contract used by ConsecutiveQuirk: targets 2..5 for both counts, unit weights. */
  const QuirkContract := Contract(0, Attribute(2, 1), Attribute(5, 1), Attribute(0, 1), Attribute(0, 1),
                                  Attribute(0, 1), Attribute(0, 1), Attribute(0, 1), Attribute(0, 1), Attribute(0, 1),
                                  Flag(false, 1), Flag(false, 1), Flag(false, 1))

  /**
   * A longest work streak strictly between the two targets is charged a NEGATIVE
   * penalty: with targets 2 and 5, a longest streak of 3 lowers the deviation by 2.
   */
  lemma ConsecutiveQuirk()
    ensures ConsecutiveDeviation(ConsecutiveDays(2, 3, 0, 0), QuirkContract) == -2
  {
  }

  /**
   * The weekend deviation: the distance of the number of worked weekend days from the
   * contract's maximum number of working weekends (in either direction), the shortfall
   * and excess of the consecutive weekend streaks, and one weight per weekend flag that
   * differs from the contract's.
   */
  function WeekendDeviation(w: WeekendInfo, k: Contract): (r: int)
    ensures (&& k.maxWorkingWeekendsInFourWeeks.weight >= 0 && k.minConsecutiveWorkingWeekends.weight >= 0
             && k.maxConsecutiveWorkingWeekends.weight >= 0 && k.completeWeekends.weight >= 0
             && k.identicalShiftTypesDuringWeekend.weight >= 0 && k.noNightShiftBeforeFreeWeekend.weight >= 0)
            ==> r >= 0
    ensures WeekendSatisfied(w, k) ==> r == 0
    ensures (&& k.maxWorkingWeekendsInFourWeeks.weight > 0 && k.minConsecutiveWorkingWeekends.weight > 0
             && k.maxConsecutiveWorkingWeekends.weight > 0 && k.completeWeekends.weight > 0
             && k.identicalShiftTypesDuringWeekend.weight > 0 && k.noNightShiftBeforeFreeWeekend.weight > 0)
            ==> (r == 0 <==> WeekendSatisfied(w, k))
  {
    var total := k.maxWorkingWeekendsInFourWeeks;
    Shortfall(w.total, total) + Excess(w.total, total)
    + Shortfall(w.consecutiveMin, k.minConsecutiveWorkingWeekends)
    + Excess(w.consecutiveMax, k.maxConsecutiveWorkingWeekends)
    + Mismatch(w.isComplete, k.completeWeekends)
    + Mismatch(w.isIdenticalShiftType, k.identicalShiftTypesDuringWeekend)
    + Mismatch(w.isNoNightShiftsBeforeWeekend, k.noNightShiftBeforeFreeWeekend)
  }

  /** Every weekend soft constraint holds: the total is exactly the target, the streaks are within bounds, the flags agree. */
  predicate WeekendSatisfied(w: WeekendInfo, k: Contract)
  {
    && w.total == k.maxWorkingWeekendsInFourWeeks.value
    && w.consecutiveMin >= k.minConsecutiveWorkingWeekends.value
    && w.consecutiveMax <= k.maxConsecutiveWorkingWeekends.value
    && w.isComplete == k.completeWeekends.value
    && w.isIdenticalShiftType == k.identicalShiftTypesDuringWeekend.value
    && w.isNoNightShiftsBeforeWeekend == k.noNightShiftBeforeFreeWeekend.value
  }

  // ---------------------------------------------------------------------------------
  // The three passes, as the calculator makes them through the getters.

  /** The assignment-count term of an employee, on the values the getters report. */
  function NumTerm(ind: Individual, e: Employee): int
  {
    NumAssignmentsDeviation(NumAssignmentsOf(ind, e), e.contract)
  }

  function ConsecutiveTerm(ind: Individual, e: Employee): int
  {
    ConsecutiveDeviation(ConsecutiveOf(ind, e), e.contract)
  }

  function WeekendTerm(ind: Individual, env: Env, e: Employee): int
  {
    WeekendDeviation(WeekendsOf(ind, env, e), e.contract)
  }

  /** The assignment-count terms of the employees, on the values the getters report. */
  function NumSum(ind: Individual, es: seq<Employee>): int
  {
    if |es| == 0 then 0 else NumTerm(ind, es[0]) + NumSum(ind, es[1..])
  }

  /** The sum depends only on what the getters report. */
  lemma {:induction false} NumSumObserved(ind: Individual, ind': Individual, env: Env, es: seq<Employee>)
    requires forall e' :: Observed(ind', env, e') == Observed(ind, env, e')
    ensures NumSum(ind', es) == NumSum(ind, es)
  {
    if |es| > 0 {
      assert Observed(ind', env, es[0]) == Observed(ind, env, es[0]);
      NumSumObserved(ind, ind', env, es[1..]);
    }
  }

  /** getDeviationNumAssignments. */
  function NumAssignmentsPass(ind: Individual, env: Env, es: seq<Employee>): (r: (int, Individual))
    ensures r.0 == NumSum(ind, es)
    ensures Undisturbed(ind, r.1, env)
    decreases |es|
  {
    if |es| == 0 then (0, ind)
    else
      var step := GetNumAssignments(ind, es[0]);
      NumAssignmentsUndisturbed(ind, env, es[0]);
      var rest := NumAssignmentsPass(step.1, env, es[1..]);
      NumSumObserved(ind, step.1, env, es[1..]);
      UndisturbedTrans(ind, step.1, rest.1, env);
      (NumAssignmentsDeviation(step.0, es[0].contract) + rest.0, rest.1)
  }

  /** The four getNumConsecutiveDays calls for one employee and the deviation charged from them. */
  function ConsecutiveCalls(ind: Individual, env: Env, e: Employee): (r: (int, Individual))
    ensures r.0 == ConsecutiveTerm(ind, e)
    ensures Undisturbed(ind, r.1, env)
  {
    var minWork := GetNumConsecutiveDays(ind, e, false, false);
    ConsecutiveUndisturbed(ind, env, e, false, false);
    var maxWork := GetNumConsecutiveDays(minWork.1, e, true, false);
    ConsecutiveUndisturbed(minWork.1, env, e, true, false);
    var minFree := GetNumConsecutiveDays(maxWork.1, e, false, true);
    ConsecutiveUndisturbed(maxWork.1, env, e, false, true);
    var maxFree := GetNumConsecutiveDays(minFree.1, e, true, true);
    ConsecutiveUndisturbed(minFree.1, env, e, true, true);
    assert Observed(minWork.1, env, e) == Observed(ind, env, e);
    assert Observed(maxWork.1, env, e) == Observed(ind, env, e);
    assert Observed(minFree.1, env, e) == Observed(ind, env, e);
    UndisturbedTrans(ind, minWork.1, maxWork.1, env);
    UndisturbedTrans(ind, maxWork.1, minFree.1, env);
    UndisturbedTrans(ind, minFree.1, maxFree.1, env);
    (ConsecutiveDeviation(ConsecutiveDays(minWork.0, maxWork.0, minFree.0, maxFree.0), e.contract), maxFree.1)
  }

  function ConsecutiveSum(ind: Individual, es: seq<Employee>): int
  {
    if |es| == 0 then 0 else ConsecutiveTerm(ind, es[0]) + ConsecutiveSum(ind, es[1..])
  }

  lemma {:induction false} ConsecutiveSumObserved(ind: Individual, ind': Individual, env: Env, es: seq<Employee>)
    requires forall e' :: Observed(ind', env, e') == Observed(ind, env, e')
    ensures ConsecutiveSum(ind', es) == ConsecutiveSum(ind, es)
  {
    if |es| > 0 {
      assert Observed(ind', env, es[0]) == Observed(ind, env, es[0]);
      ConsecutiveSumObserved(ind, ind', env, es[1..]);
    }
  }

  /** getDeviationNumConsecutiveDays. */
  function ConsecutivePass(ind: Individual, env: Env, es: seq<Employee>): (r: (int, Individual))
    ensures r.0 == ConsecutiveSum(ind, es)
    ensures Undisturbed(ind, r.1, env)
    decreases |es|
  {
    if |es| == 0 then (0, ind)
    else
      var step := ConsecutiveCalls(ind, env, es[0]);
      var rest := ConsecutivePass(step.1, env, es[1..]);
      ConsecutiveSumObserved(ind, step.1, env, es[1..]);
      UndisturbedTrans(ind, step.1, rest.1, env);
      (step.0 + rest.0, rest.1)
  }

  /** One getWeekendInformation call: the value the getters report, the individual undisturbed. */
  function WeekendCall(ind: Individual, env: Env, e: Employee, o: WeekendOption): (r: (WeekendValue, Individual))
    ensures r.0 == Pick(WeekendsOf(ind, env, e), o)
    ensures Undisturbed(ind, r.1, env)
    ensures WeekendsOf(r.1, env, e) == WeekendsOf(ind, env, e)
  {
    WeekendUndisturbed(ind, env, e, o);
    var r := GetWeekendInformation(ind, env, e, o);
    assert Observed(r.1, env, e) == Observed(ind, env, e);
    r
  }

  /** The three integer weekend calls (total, consecutive_min, consecutive_max) for one employee. */
  function WeekendCountCalls(ind: Individual, env: Env, e: Employee): (r: (int, int, int, Individual))
    ensures r.0 == WeekendsOf(ind, env, e).total
    ensures r.1 == WeekendsOf(ind, env, e).consecutiveMin
    ensures r.2 == WeekendsOf(ind, env, e).consecutiveMax
    ensures Undisturbed(ind, r.3, env)
  {
    var total := WeekendCall(ind, env, e, Total);
    var minRun := WeekendCall(total.1, env, e, ConsecutiveMin);
    var maxRun := WeekendCall(minRun.1, env, e, ConsecutiveMax);
    UndisturbedTrans(ind, total.1, minRun.1, env);
    UndisturbedTrans(ind, minRun.1, maxRun.1, env);
    (total.0.n, minRun.0.n, maxRun.0.n, maxRun.1)
  }

  /** The three boolean weekend calls (is_complete, is_identical_shift_type, is_no_night_shifts_before_weekend). */
  function WeekendFlagCalls(ind: Individual, env: Env, e: Employee): (r: (bool, bool, bool, Individual))
    ensures r.0 == WeekendsOf(ind, env, e).isComplete
    ensures r.1 == WeekendsOf(ind, env, e).isIdenticalShiftType
    ensures r.2 == WeekendsOf(ind, env, e).isNoNightShiftsBeforeWeekend
    ensures Undisturbed(ind, r.3, env)
  {
    var complete := WeekendCall(ind, env, e, IsComplete);
    var identical := WeekendCall(complete.1, env, e, IsIdenticalShiftType);
    var noNight := WeekendCall(identical.1, env, e, IsNoNightShiftsBeforeWeekend);
    var w := WeekendsOf(ind, env, e);
    assert complete.0 == BoolValue(w.isComplete);
    assert identical.0 == BoolValue(w.isIdenticalShiftType);
    assert noNight.0 == BoolValue(w.isNoNightShiftsBeforeWeekend);
    UndisturbedTrans(ind, complete.1, identical.1, env);
    UndisturbedTrans(ind, identical.1, noNight.1, env);
    (complete.0.b, identical.0.b, noNight.0.b, noNight.1)
  }

  /** The six getWeekendInformation calls for one employee and the deviation charged from them. */
  function WeekendCalls(ind: Individual, env: Env, e: Employee): (r: (int, Individual))
    ensures r.0 == WeekendTerm(ind, env, e)
    ensures Undisturbed(ind, r.1, env)
  {
    var counts := WeekendCountCalls(ind, env, e);
    var flags := WeekendFlagCalls(counts.3, env, e);
    assert Observed(counts.3, env, e) == Observed(ind, env, e);
    UndisturbedTrans(ind, counts.3, flags.3, env);
    var w := WeekendInfo(counts.0, counts.1, counts.2, flags.0, flags.1, flags.2);
    assert w == WeekendsOf(ind, env, e);
    (WeekendDeviation(w, e.contract), flags.3)
  }

  function WeekendSum(ind: Individual, env: Env, es: seq<Employee>): int
  {
    if |es| == 0 then 0 else WeekendTerm(ind, env, es[0]) + WeekendSum(ind, env, es[1..])
  }

  lemma {:induction false} WeekendSumObserved(ind: Individual, ind': Individual, env: Env, es: seq<Employee>)
    requires forall e' :: Observed(ind', env, e') == Observed(ind, env, e')
    ensures WeekendSum(ind', env, es) == WeekendSum(ind, env, es)
  {
    if |es| > 0 {
      assert Observed(ind', env, es[0]) == Observed(ind, env, es[0]);
      WeekendSumObserved(ind, ind', env, es[1..]);
    }
  }

  /** getDeviationWorkingWeekends. */
  function WeekendPass(ind: Individual, env: Env, es: seq<Employee>): (r: (int, Individual))
    ensures r.0 == WeekendSum(ind, env, es)
    ensures Undisturbed(ind, r.1, env)
    decreases |es|
  {
    if |es| == 0 then (0, ind)
    else
      var step := WeekendCalls(ind, env, es[0]);
      var rest := WeekendPass(step.1, env, es[1..]);
      WeekendSumObserved(ind, step.1, env, es[1..]);
      UndisturbedTrans(ind, step.1, rest.1, env);
      (step.0 + rest.0, rest.1)
  }

  // ---------------------------------------------------------------------------------
  // The whole calculation.

  /** calculate: the three deviation passes over the period's employees, in order, summed. */
  function DefaultCalculate(env: Env, ind: Individual, p: Period): (r: (int, Individual))
    ensures r.0 == NumSum(ind, p.employees) + ConsecutiveSum(ind, p.employees) + WeekendSum(ind, env, p.employees)
    ensures Undisturbed(ind, r.1, env)
  {
    var num := NumAssignmentsPass(ind, env, p.employees);
    var consecutive := ConsecutivePass(num.1, env, p.employees);
    var weekends := WeekendPass(consecutive.1, env, p.employees);
    ConsecutiveSumObserved(ind, num.1, env, p.employees);
    WeekendSumObserved(ind, consecutive.1, env, p.employees);
    UndisturbedTrans(ind, num.1, consecutive.1, env);
    UndisturbedTrans(ind, consecutive.1, weekends.1, env);
    (num.0 + consecutive.0 + weekends.0, weekends.1)
  }

  /**
   * The default calculator as getFitness sees it. On an individual whose caches are
   * fresh it yields the fitness computed directly from the roster, and it never
   * disturbs the individual.
   */
  function DefaultCalculator(env: Env): (r: (Individual, Period) -> (int, Individual))
    ensures forall ind: Individual, p: Period :: Fresh(ind, env) ==> r(ind, p).0 == RosterFitness(env, ind.roster, p.employees)
    ensures forall ind: Individual, p: Period :: Undisturbed(ind, r(ind, p).1, env)
  {
    FreshCalculations(env);
    (ind: Individual, p: Period) => DefaultCalculate(env, ind, p)
  }

  /** On fresh individuals the three passes compute the roster's fitness. */
  lemma FreshCalculations(env: Env)
    ensures forall ind, p :: Fresh(ind, env) ==> DefaultCalculate(env, ind, p).0 == RosterFitness(env, ind.roster, p.employees)
  {
    forall ind, p | Fresh(ind, env)
      ensures DefaultCalculate(env, ind, p).0 == RosterFitness(env, ind.roster, p.employees)
    {
      FreshCalculation(env, ind, p);
    }
  }

  /** On a fresh individual the three passes compute the roster's fitness. */
  lemma FreshCalculation(env: Env, ind: Individual, p: Period)
    requires Fresh(ind, env)
    ensures DefaultCalculate(env, ind, p).0 == RosterFitness(env, ind.roster, p.employees)
  {
    FreshSums(ind, env, p.employees);
  }

  /** The deviation of one employee computed directly from the roster, with no cache involved. */
  function RosterDeviation(env: Env, roster: seq<DayRoster>, e: Employee): int
  {
    NumAssignmentsDeviation(CountAssignments(roster, e), e.contract)
    + ConsecutiveDeviation(CalculateConsecutiveDays(PlannedFlags(roster, e)), e.contract)
    + WeekendDeviation(CalculateWeekends(AssignmentsFor(roster, e), e, env.isWeekendFor, env.isNight), e.contract)
  }

  /** The fitness of a roster computed directly, employee by employee. */
  function RosterFitness(env: Env, roster: seq<DayRoster>, es: seq<Employee>): int
  {
    if |es| == 0 then 0 else RosterDeviation(env, roster, es[0]) + RosterFitness(env, roster, es[1..])
  }

  /** On a fresh individual the three passes add up to the fitness of its roster. */
  lemma {:induction false} FreshSums(ind: Individual, env: Env, es: seq<Employee>)
    requires Fresh(ind, env)
    ensures NumSum(ind, es) + ConsecutiveSum(ind, es) + WeekendSum(ind, env, es) == RosterFitness(env, ind.roster, es)
  {
    if |es| > 0 {
      FreshObserved(ind, env, es[0]);
      FreshSums(ind, env, es[1..]);
    }
  }

  /**
   * getFitness with the default calculator on a fresh individual without a cached
   * fitness: it yields the fitness of the roster, caches it, and leaves the individual
   * fresh with its roster and period unchanged. The fitness is therefore the same
   * whatever the caches held before, as long as they were fresh.
   */
  lemma DefaultGetFitness(ind: Individual, env: Env)
    requires Fresh(ind, env) && ind.fitness.None? && ind.period.Some?
    ensures var r := GetFitness(ind, DefaultCalculator(env));
            && r.Success?
            && r.value.0 == RosterFitness(env, ind.roster, ind.period.value.employees)
            && r.value.1.roster == ind.roster && r.value.1.period == ind.period
            && r.value.1.fitness == Some(r.value.0)
            && Fresh(r.value.1, env)
  {
    var p := ind.period.value;
    var c := DefaultCalculate(env, ind, p);
    assert DefaultCalculator(env)(ind, p) == c;
    FreshSums(ind, env, p.employees);
    assert c.1.(fitness := Some(c.0)).roster == ind.roster;
    FitnessCacheKeepsFresh(c.1, env, c.0);
  }

  /** Caching a fitness value touches none of the statistic caches. */
  lemma FitnessCacheKeepsFresh(ind: Individual, env: Env, v: int)
    requires Fresh(ind, env)
    ensures Fresh(ind.(fitness := Some(v)), env)
  {
  }
}

=== FILE: individual.dfy ===
/**
 * A candidate roster (Individual): its day rosters, its scheduling period, the memoized
 * fitness and the per-employee statistic caches. The caches are association lists from
 * employee to what one scan produced; the four run caches are always filled together by
 * one calculateConsecutiveDays call, and the six weekend caches by one calculateWeekends
 * call, so each group is held as one record.
 *
 * Getters that fill a cache return the value together with the updated individual.
 */
module Individuals {
  import opened Wrappers
  import opened Entities
  import opened Entries
  import opened SchedulingPeriod
  import opened DayRosters
  import opened Collaborators
  import opened Runs
  import opened Weekends
  import opened Feasibility

  datatype Individual = Individual(
    roster: seq<DayRoster>,
    period: Option<Period>,
    fitness: Option<int>,
    assignments: seq<Entry<Employee, seq<Assignment>>>,
    numAssignments: seq<Entry<Employee, int>>,
    consecutive: seq<Entry<Employee, ConsecutiveDays>>,
    weekends: seq<Entry<Employee, WeekendInfo>>)

  /** A new individual: no day rosters, no period, nothing cached. */
  const NewIndividual := Individual([], None, None, [], [], [], [])

  /** setSchedulingPeriod. */
  function SetSchedulingPeriod(ind: Individual, p: Period): (r: Individual)
    ensures r.period == Some(p)
    ensures r.(period := ind.period) == ind
  {
    ind.(period := Some(p))
  }

  /**
   * isFeasible: with a period, true iff every day satisfies the hard constraints (every
   * shift type that appears has exactly its demanded number of distinct employees, every
   * slot's employee is skilled); without a period, true iff no day has a slot. It throws
   * only NullPointerException (null period or null count), never when all counts exist.
   */
  function IsFeasible(ind: Individual, env: Env): (r: Result<bool>)
    ensures ind.period.Some? ==> (r == Success(true) <==> DaysFeasible(env, ind.period.value, ind.roster, 0))
    ensures ind.period.None? ==> (r == Success(true) <==> forall d :: 0 <= d < |ind.roster| ==> |ind.roster[d].slots| == 0)
    ensures r.Failure? ==> r.error == NullDereference
    ensures (ind.period.Some? && forall d :: 0 <= d < |ind.roster| ==> DayDefined(env, ind.period.value, ind.roster[d]))
        ==> r.Success?
  {
    CheckDaysMeaning(env, ind.period, ind.roster, 0);
    CheckDays(env, ind.period, ind.roster, 0)
  }

  /**
   * getFitness: the cached value when there is one (the calculator is not consulted);
   * otherwise the calculator's value, which is then cached. `calculate` is the
   * configured fitness calculator; it receives the individual and may fill its statistic
   * caches, so it returns the individual it leaves behind. A null period makes the
   * calculator throw.
   */
  function GetFitness(ind: Individual, calculate: (Individual, Period) -> (int, Individual)): (r: Result<(int, Individual)>)
    ensures ind.fitness.Some? ==> r == Success((ind.fitness.value, ind))
    ensures r.Failure? <==> ind.fitness.None? && ind.period.None?
    ensures r.Failure? ==> r.error == NullDereference
    ensures r.Success? ==> r.value.1.fitness == Some(r.value.0)
    ensures r.Success? && ind.fitness.None? ==>
              r.value.0 == calculate(ind, ind.period.value).0
              && r.value.1 == calculate(ind, ind.period.value).1.(fitness := Some(r.value.0))
  {
    if ind.fitness.Some? then Success((ind.fitness.value, ind))
    else if ind.period.None? then Failure(NullDereference)
    else
      var (v, ind') := calculate(ind, ind.period.value);
      Success((v, ind'.(fitness := Some(v))))
  }

  /** The fitness is computed at most once: a second call returns the first call's value and changes nothing. */
  lemma GetFitnessMemo(ind: Individual, calculate: (Individual, Period) -> (int, Individual))
    requires GetFitness(ind, calculate).Success?
    ensures var (v, ind') := GetFitness(ind, calculate).value;
            GetFitness(ind', calculate) == Success((v, ind'))
  {
  }

  /** Individual.copy: the same period and cached fitness, each day roster copied, every statistic cache empty. */
  function Copy(ind: Individual): (r: Individual)
    ensures |r.roster| == |ind.roster|
    ensures forall i :: 0 <= i < |ind.roster| ==>
              r.roster[i].date == ind.roster[i].date && Keys(r.roster[i].slots) == Keys(ind.roster[i].slots)
              && (DistinctKeys(ind.roster[i].slots) ==> r.roster[i] == ind.roster[i])
    ensures r.period == ind.period && r.fitness == ind.fitness
    ensures r.assignments == [] && r.numAssignments == [] && r.consecutive == [] && r.weekends == []
  {
    Individual(seq(|ind.roster|, i requires 0 <= i < |ind.roster| => DayRosters.Copy(ind.roster[i])),
               ind.period, ind.fitness, [], [], [], [])
  }

  /** addDayRoster: appends the day; no cache, not even the fitness, is cleared. */
  function AddDayRoster(ind: Individual, day: DayRoster): (r: Individual)
    ensures r.roster == ind.roster + [day]
    ensures r.(roster := ind.roster) == ind
  {
    ind.(roster := ind.roster + [day])
  }

  // ---------------------------------------------------------------------------------
  // Statistics of a roster.

  /** Per day, whether the employee is planned on it. */
  function PlannedFlags(roster: seq<DayRoster>, e: Employee): (f: seq<bool>)
    ensures |f| == |roster| && forall i :: 0 <= i < |roster| ==> f[i] == Holds(roster[i], e)
  {
    seq(|roster|, i requires 0 <= i < |roster| => IsEmployeePlanned(roster[i], e))
  }

  /** The days on which the employee is planned. */
  ghost function PlannedDays(roster: seq<DayRoster>, e: Employee): set<nat>
  {
    set i: nat | i < |roster| && Holds(roster[i], e)
  }

  /** The for-each of getNumAssignments: the number of days the employee is planned on. */
  function CountAssignments(roster: seq<DayRoster>, e: Employee): (n: int)
    ensures n == |PlannedDays(roster, e)|
    ensures 0 <= n <= |roster|
  {
    var f := PlannedFlags(roster, e);
    CountIsCardinality(f, |f|);
    assert TruePositions(f, |f|) == PlannedDays(roster, e);
    CountTrue(f, |f|)
  }

  /** getAssignments' map: each day roster, in order, with whether the employee is planned on it. */
  function AssignmentsFor(roster: seq<DayRoster>, e: Employee): (a: seq<Assignment>)
    ensures |a| == |roster|
    ensures forall i :: 0 <= i < |roster| ==> a[i] == Entry(roster[i], Holds(roster[i], e))
  {
    seq(|roster|, i requires 0 <= i < |roster| => Entry(roster[i], IsEmployeePlanned(roster[i], e)))
  }

  /** The worked values of an assignment map, in order. */
  function Flags(a: seq<Assignment>): (f: seq<bool>)
    ensures |f| == |a| && forall i :: 0 <= i < |a| ==> f[i] == a[i].value
  {
    seq(|a|, i requires 0 <= i < |a| => a[i].value)
  }

  // ---------------------------------------------------------------------------------
  // The memoized getters.

  /** What getNumAssignments returns: the cached count, or the count over the roster. */
  function NumAssignmentsOf(ind: Individual, e: Employee): int
  {
    match Get(ind.numAssignments, e)
    case Some(n) => n
    case None => CountAssignments(ind.roster, e)
  }

  /** What getAssignments returns: the cached map, or the one built from the roster. */
  function AssignmentsOf(ind: Individual, e: Employee): seq<Assignment>
  {
    match Get(ind.assignments, e)
    case Some(a) => a
    case None => AssignmentsFor(ind.roster, e)
  }

  /** The four run results getNumConsecutiveDays reads: cached, or scanned over getAssignments' map. */
  function ConsecutiveOf(ind: Individual, e: Employee): ConsecutiveDays
  {
    match Get(ind.consecutive, e)
    case Some(c) => c
    case None => CalculateConsecutiveDays(Flags(AssignmentsOf(ind, e)))
  }

  /** The six weekend results getWeekendInformation reads: cached, or scanned over getAssignments' map. */
  function WeekendsOf(ind: Individual, env: Env, e: Employee): WeekendInfo
  {
    match Get(ind.weekends, e)
    case Some(w) => w
    case None => CalculateWeekends(AssignmentsOf(ind, e), e, env.isWeekendFor, env.isNight)
  }

  /** Everything a getter call for employee e would return. */
  function Observed(ind: Individual, env: Env, e: Employee): (int, seq<Assignment>, ConsecutiveDays, WeekendInfo)
  {
    (NumAssignmentsOf(ind, e), AssignmentsOf(ind, e), ConsecutiveOf(ind, e), WeekendsOf(ind, env, e))
  }

  /** Every cached value is the one the current roster gives. */
  ghost predicate Fresh(ind: Individual, env: Env)
  {
    && (forall e :: Get(ind.numAssignments, e).Some? ==> Get(ind.numAssignments, e).value == CountAssignments(ind.roster, e))
    && (forall e :: Get(ind.assignments, e).Some? ==> Get(ind.assignments, e).value == AssignmentsFor(ind.roster, e))
    && (forall e :: Get(ind.consecutive, e).Some? ==>
          Get(ind.consecutive, e).value == CalculateConsecutiveDays(PlannedFlags(ind.roster, e)))
    && (forall e :: Get(ind.weekends, e).Some? ==>
          Get(ind.weekends, e).value == CalculateWeekends(AssignmentsFor(ind.roster, e), e, env.isWeekendFor, env.isNight))
  }

  /** Only the caches differ: roster, period and fitness are kept. */
  predicate SameContent(ind: Individual, ind': Individual)
  {
    ind'.roster == ind.roster && ind'.period == ind.period && ind'.fitness == ind.fitness
  }

  /** A fresh individual's getters report the statistics of its roster. */
  lemma FreshObserved(ind: Individual, env: Env, e: Employee)
    requires Fresh(ind, env)
    ensures NumAssignmentsOf(ind, e) == |PlannedDays(ind.roster, e)|
    ensures AssignmentsOf(ind, e) == AssignmentsFor(ind.roster, e)
    ensures ConsecutiveOf(ind, e) == CalculateConsecutiveDays(PlannedFlags(ind.roster, e))
    ensures WeekendsOf(ind, env, e) == CalculateWeekends(AssignmentsFor(ind.roster, e), e, env.isWeekendFor, env.isNight)
  {
    assert Flags(AssignmentsFor(ind.roster, e)) == PlannedFlags(ind.roster, e);
  }

  /** getNumAssignments: the cached count, or the count over the roster, which is then cached. */
  function GetNumAssignments(ind: Individual, e: Employee): (r: (int, Individual))
    ensures r.0 == NumAssignmentsOf(ind, e)
    ensures Get(r.1.numAssignments, e) == Some(r.0)
    ensures forall e' :: e' != e ==> Get(r.1.numAssignments, e') == Get(ind.numAssignments, e')
    ensures r.1 == ind.(numAssignments := r.1.numAssignments)
  {
    match Get(ind.numAssignments, e)
    case Some(n) => (n, ind)
    case None =>
      var n := CountAssignments(ind.roster, e);
      (n, ind.(numAssignments := Put(ind.numAssignments, e, n)))
  }

  /** getAssignments: the cached map, or the map built from the roster, which is then cached. */
  function GetAssignments(ind: Individual, e: Employee): (r: (seq<Assignment>, Individual))
    ensures r.0 == AssignmentsOf(ind, e)
    ensures Get(r.1.assignments, e) == Some(r.0)
    ensures forall e' :: e' != e ==> Get(r.1.assignments, e') == Get(ind.assignments, e')
    ensures r.1 == ind.(assignments := r.1.assignments)
  {
    match Get(ind.assignments, e)
    case Some(a) => (a, ind)
    case None =>
      var a := AssignmentsFor(ind.roster, e);
      (a, ind.(assignments := Put(ind.assignments, e, a)))
  }

  /** The cache getNumConsecutiveDays reads for a (max, free) request. */
  function Select(c: ConsecutiveDays, max: bool, free: bool): int
  {
    if !free && !max then c.minWork
    else if !free && max then c.maxWork
    else if free && !max then c.minFree
    else c.maxFree
  }

  /**
   * getNumConsecutiveDays: when the runs are not cached, calculateConsecutiveDays scans
   * getAssignments' map (caching it too) and fills all four run caches, and the call
   * repeats, now reading the cache.
   */
  function GetNumConsecutiveDays(ind: Individual, e: Employee, max: bool, free: bool): (r: (int, Individual))
    ensures r.0 == Select(ConsecutiveOf(ind, e), max, free)
    ensures Get(r.1.consecutive, e) == Some(ConsecutiveOf(ind, e))
    ensures forall e' :: e' != e ==> Get(r.1.consecutive, e') == Get(ind.consecutive, e')
    ensures Get(ind.consecutive, e).Some? ==> r.1 == ind
    ensures Get(r.1.assignments, e) == Get(ind.assignments, e) || Get(r.1.assignments, e) == Some(AssignmentsOf(ind, e))
    ensures forall e' :: e' != e ==> Get(r.1.assignments, e') == Get(ind.assignments, e')
    ensures r.1 == ind.(assignments := r.1.assignments, consecutive := r.1.consecutive)
  {
    match Get(ind.consecutive, e)
    case Some(c) => (Select(c, max, free), ind)
    case None =>
      var (a, ind1) := GetAssignments(ind, e);
      var c := CalculateConsecutiveDays(Flags(a));
      (Select(c, max, free), ind1.(consecutive := Put(ind1.consecutive, e, c)))
  }

  /** The keys of getWeekendInformation's option table. */
  datatype WeekendOption =
    | Total | ConsecutiveMin | ConsecutiveMax | IsComplete | IsIdenticalShiftType | IsNoNightShiftsBeforeWeekend

  /** A weekend result: an Integer or a Boolean. */
  datatype WeekendValue = IntValue(n: int) | BoolValue(b: bool)

  /** The option's key string. */
  function OptionName(o: WeekendOption): string
  {
    match o
    case Total => "total"
    case ConsecutiveMin => "consecutive_min"
    case ConsecutiveMax => "consecutive_max"
    case IsComplete => "is_complete"
    case IsIdenticalShiftType => "is_identical_shift_type"
    case IsNoNightShiftsBeforeWeekend => "is_no_night_shifts_before_weekend"
  }

  /** The option table lookup: the option a key names, if any. */
  function OptionNamed(s: string): (r: Option<WeekendOption>)
    ensures r.Some? ==> OptionName(r.value) == s
  {
    if s == "total" then Some(Total)
    else if s == "consecutive_min" then Some(ConsecutiveMin)
    else if s == "consecutive_max" then Some(ConsecutiveMax)
    else if s == "is_complete" then Some(IsComplete)
    else if s == "is_identical_shift_type" then Some(IsIdenticalShiftType)
    else if s == "is_no_night_shifts_before_weekend" then Some(IsNoNightShiftsBeforeWeekend)
    else None
  }

  /** Every option is found under its own key, so the table has exactly these six keys. */
  lemma OptionNamesRoundTrip(o: WeekendOption)
    ensures OptionNamed(OptionName(o)) == Some(o)
  {
  }

  /** The entry of one weekend record an option selects. */
  function Pick(w: WeekendInfo, o: WeekendOption): WeekendValue
  {
    match o
    case Total => IntValue(w.total)
    case ConsecutiveMin => IntValue(w.consecutiveMin)
    case ConsecutiveMax => IntValue(w.consecutiveMax)
    case IsComplete => BoolValue(w.isComplete)
    case IsIdenticalShiftType => BoolValue(w.isIdenticalShiftType)
    case IsNoNightShiftsBeforeWeekend => BoolValue(w.isNoNightShiftsBeforeWeekend)
  }

  /**
   * getWeekendInformation: when the weekends are not cached, calculateWeekends scans
   * getAssignments' map (caching it too) and fills all six weekend caches, and the call
   * repeats, now reading the cache.
   */
  function GetWeekendInformation(ind: Individual, env: Env, e: Employee, o: WeekendOption): (r: (WeekendValue, Individual))
    ensures r.0 == Pick(WeekendsOf(ind, env, e), o)
    ensures Get(r.1.weekends, e) == Some(WeekendsOf(ind, env, e))
    ensures forall e' :: e' != e ==> Get(r.1.weekends, e') == Get(ind.weekends, e')
    ensures Get(ind.weekends, e).Some? ==> r.1 == ind
    ensures Get(r.1.assignments, e) == Get(ind.assignments, e) || Get(r.1.assignments, e) == Some(AssignmentsOf(ind, e))
    ensures forall e' :: e' != e ==> Get(r.1.assignments, e') == Get(ind.assignments, e')
    ensures r.1 == ind.(assignments := r.1.assignments, weekends := r.1.weekends)
  {
    match Get(ind.weekends, e)
    case Some(w) => (Pick(w, o), ind)
    case None =>
      var (a, ind1) := GetAssignments(ind, e);
      var w := CalculateWeekends(a, e, env.isWeekendFor, env.isNight);
      (Pick(w, o), ind1.(weekends := Put(ind1.weekends, e, w)))
  }

  // ---------------------------------------------------------------------------------
  // What the caches guarantee.

  /** Whatever the caches hold, no getter changes what any getter reports afterwards. */
  lemma GettersKeepObserved(ind: Individual, env: Env, e: Employee, max: bool, free: bool, o: WeekendOption)
    ensures forall e' :: Observed(GetNumAssignments(ind, e).1, env, e') == Observed(ind, env, e')
    ensures forall e' :: Observed(GetAssignments(ind, e).1, env, e') == Observed(ind, env, e')
    ensures forall e' :: Observed(GetNumConsecutiveDays(ind, e, max, free).1, env, e') == Observed(ind, env, e')
    ensures forall e' :: Observed(GetWeekendInformation(ind, env, e, o).1, env, e') == Observed(ind, env, e')
  {
    forall e' ensures Observed(GetAssignments(ind, e).1, env, e') == Observed(ind, env, e') {
      AssignmentsKeepObserved(ind, env, e, e');
    }
    forall e' ensures Observed(GetNumConsecutiveDays(ind, e, max, free).1, env, e') == Observed(ind, env, e') {
      AssignmentsKeepObserved(ind, env, e, e');
      AssignmentsKeepObserved(ind, env, e, e);
      ConsecutiveKeepsObserved(ind, env, e, max, free, e');
    }
    forall e' ensures Observed(GetWeekendInformation(ind, env, e, o).1, env, e') == Observed(ind, env, e') {
      AssignmentsKeepObserved(ind, env, e, e');
      AssignmentsKeepObserved(ind, env, e, e);
      WeekendsKeepObserved(ind, env, e, o, e');
    }
  }

  lemma AssignmentsKeepObserved(ind: Individual, env: Env, e: Employee, e': Employee)
    ensures Observed(GetAssignments(ind, e).1, env, e') == Observed(ind, env, e')
  {
    var a1 := GetAssignments(ind, e).1;
    assert AssignmentsOf(a1, e') == AssignmentsOf(ind, e');
  }

  lemma ConsecutiveKeepsObserved(ind: Individual, env: Env, e: Employee, max: bool, free: bool, e': Employee)
    requires Observed(GetAssignments(ind, e).1, env, e') == Observed(ind, env, e')
    requires Observed(GetAssignments(ind, e).1, env, e) == Observed(ind, env, e)
    ensures Observed(GetNumConsecutiveDays(ind, e, max, free).1, env, e') == Observed(ind, env, e')
  {
  }

  lemma WeekendsKeepObserved(ind: Individual, env: Env, e: Employee, o: WeekendOption, e': Employee)
    requires Observed(GetAssignments(ind, e).1, env, e') == Observed(ind, env, e')
    requires Observed(GetAssignments(ind, e).1, env, e) == Observed(ind, env, e)
    ensures Observed(GetWeekendInformation(ind, env, e, o).1, env, e') == Observed(ind, env, e')
  {
  }

  /** The getters keep an individual fresh. */
  lemma GettersKeepFresh(ind: Individual, env: Env, e: Employee, max: bool, free: bool, o: WeekendOption)
    requires Fresh(ind, env)
    ensures Fresh(GetNumAssignments(ind, e).1, env)
    ensures Fresh(GetAssignments(ind, e).1, env)
    ensures Fresh(GetNumConsecutiveDays(ind, e, max, free).1, env)
    ensures Fresh(GetWeekendInformation(ind, env, e, o).1, env)
  {
    FreshObserved(ind, env, e);
    NumKeepsFresh(ind, env, e);
    AssignmentsKeepFresh(ind, env, e);
    ConsecutiveKeepsFresh(ind, env, e, max, free);
    WeekendsKeepFresh(ind, env, e, o);
  }

  lemma NumKeepsFresh(ind: Individual, env: Env, e: Employee)
    requires Fresh(ind, env)
    ensures Fresh(GetNumAssignments(ind, e).1, env)
  {
  }

  lemma AssignmentsKeepFresh(ind: Individual, env: Env, e: Employee)
    requires Fresh(ind, env)
    ensures Fresh(GetAssignments(ind, e).1, env)
  {
  }

  lemma ConsecutiveKeepsFresh(ind: Individual, env: Env, e: Employee, max: bool, free: bool)
    requires Fresh(ind, env)
    ensures Fresh(GetNumConsecutiveDays(ind, e, max, free).1, env)
  {
    if Get(ind.consecutive, e).None? {
      var (a, ind1) := GetAssignments(ind, e);
      AssignmentsKeepFresh(ind, env, e);
      FreshObserved(ind1, env, e);
      CacheConsecutive(ind1, env, e, CalculateConsecutiveDays(Flags(a)));
    }
  }

  /** Caching the runs the roster gives keeps an individual fresh. */
  lemma CacheConsecutive(ind: Individual, env: Env, e: Employee, c: ConsecutiveDays)
    requires Fresh(ind, env) && c == CalculateConsecutiveDays(PlannedFlags(ind.roster, e))
    ensures Fresh(ind.(consecutive := Put(ind.consecutive, e, c)), env)
  {
    var ind' := ind.(consecutive := Put(ind.consecutive, e, c));
    forall e' | Get(ind'.consecutive, e').Some?
      ensures Get(ind'.consecutive, e').value == CalculateConsecutiveDays(PlannedFlags(ind'.roster, e'))
    {
      if e' != e {
        assert Get(ind'.consecutive, e') == Get(ind.consecutive, e');
      }
    }
  }

  lemma WeekendsKeepFresh(ind: Individual, env: Env, e: Employee, o: WeekendOption)
    requires Fresh(ind, env)
    ensures Fresh(GetWeekendInformation(ind, env, e, o).1, env)
  {
    if Get(ind.weekends, e).None? {
      var (a, ind1) := GetAssignments(ind, e);
      AssignmentsKeepFresh(ind, env, e);
      FreshObserved(ind1, env, e);
      CacheWeekends(ind1, env, e, CalculateWeekends(a, e, env.isWeekendFor, env.isNight));
    }
  }

  /** Caching the weekend results the roster gives keeps an individual fresh. */
  lemma CacheWeekends(ind: Individual, env: Env, e: Employee, w: WeekendInfo)
    requires Fresh(ind, env) && w == CalculateWeekends(AssignmentsFor(ind.roster, e), e, env.isWeekendFor, env.isNight)
    ensures Fresh(ind.(weekends := Put(ind.weekends, e, w)), env)
  {
  }

  /** The individual is only touched in its caches, and every getter still reports what it did. */
  ghost predicate Undisturbed(ind: Individual, ind': Individual, env: Env)
  {
    && SameContent(ind, ind')
    && (forall e' :: Observed(ind', env, e') == Observed(ind, env, e'))
    && (Fresh(ind, env) ==> Fresh(ind', env))
  }

  /** No getter disturbs the individual. */
  lemma GettersUndisturbed(ind: Individual, env: Env, e: Employee, max: bool, free: bool, o: WeekendOption)
    ensures Undisturbed(ind, GetNumAssignments(ind, e).1, env)
    ensures Undisturbed(ind, GetAssignments(ind, e).1, env)
    ensures Undisturbed(ind, GetNumConsecutiveDays(ind, e, max, free).1, env)
    ensures Undisturbed(ind, GetWeekendInformation(ind, env, e, o).1, env)
  {
    GettersKeepObserved(ind, env, e, max, free, o);
    if Fresh(ind, env) {
      GettersKeepFresh(ind, env, e, max, free, o);
    }
  }

  lemma NumAssignmentsUndisturbed(ind: Individual, env: Env, e: Employee)
    ensures Undisturbed(ind, GetNumAssignments(ind, e).1, env)
  {
    GettersUndisturbed(ind, env, e, false, false, Total);
  }

  lemma ConsecutiveUndisturbed(ind: Individual, env: Env, e: Employee, max: bool, free: bool)
    ensures Undisturbed(ind, GetNumConsecutiveDays(ind, e, max, free).1, env)
  {
    GettersUndisturbed(ind, env, e, max, free, Total);
  }

  lemma WeekendUndisturbed(ind: Individual, env: Env, e: Employee, o: WeekendOption)
    ensures Undisturbed(ind, GetWeekendInformation(ind, env, e, o).1, env)
  {
    GettersUndisturbed(ind, env, e, false, false, o);
  }

  lemma UndisturbedTrans(a: Individual, b: Individual, c: Individual, env: Env)
    requires Undisturbed(a, b, env) && Undisturbed(b, c, env)
    ensures Undisturbed(a, c, env)
  {
  }

  /** Asking twice gives the same answer, and the second call changes nothing. */
  lemma GettersIdempotent(ind: Individual, env: Env, e: Employee, max: bool, free: bool, o: WeekendOption)
    ensures var (v, ind') := GetNumAssignments(ind, e); GetNumAssignments(ind', e) == (v, ind')
    ensures var (v, ind') := GetAssignments(ind, e); GetAssignments(ind', e) == (v, ind')
    ensures var (v, ind') := GetNumConsecutiveDays(ind, e, max, free); GetNumConsecutiveDays(ind', e, max, free) == (v, ind')
    ensures var (v, ind') := GetWeekendInformation(ind, env, e, o); GetWeekendInformation(ind', env, e, o) == (v, ind')
  {
  }

  /**
   * On a fresh individual the run getter reports the streaks of the employee's planned
   * days: the smallest and largest flushed work (or free) streak.
   */
  lemma FreshConsecutive(ind: Individual, env: Env, e: Employee, max: bool, free: bool)
    requires Fresh(ind, env)
    ensures var v := GetNumConsecutiveDays(ind, e, max, free).0;
            var f := PlannedFlags(ind.roster, e);
            (max ==> IsMaxFlushed(f, !free, |f|, v)) && (!max ==> IsMinFlushed(f, !free, |f|, v))
  {
    FreshObserved(ind, env, e);
  }

  /** On a fresh individual the weekend getter reports the summary of the employee's weekend days. */
  lemma FreshWeekends(ind: Individual, env: Env, e: Employee)
    requires Fresh(ind, env)
    ensures Summarizes(WeekendDaysOf(AssignmentsFor(ind.roster, e), e, env.isWeekendFor), env.isNight, WeekendsOf(ind, env, e))
  {
    FreshObserved(ind, env, e);
  }

  /** Copying drops every statistic cache, so a copy is always fresh. */
  lemma CopyIsFresh(ind: Individual, env: Env)
    ensures Fresh(Copy(ind), env)
  {
  }

  /** Adding a day on which the employee is planned: one more assignment. */
  lemma {:induction false} CountAppend(roster: seq<DayRoster>, day: DayRoster, e: Employee)
    ensures CountAssignments(roster + [day], e) == CountAssignments(roster, e) + (if Holds(day, e) then 1 else 0)
  {
    PlannedDaysAppend(roster, day, e);
    assert |roster| !in PlannedDays(roster, e);
  }

  lemma PlannedDaysAppend(roster: seq<DayRoster>, day: DayRoster, e: Employee)
    ensures PlannedDays(roster + [day], e) == PlannedDays(roster, e) + (if Holds(day, e) then {|roster|} else {})
  {
    var r := roster + [day];
    forall i: nat | i < |roster| ensures r[i] == roster[i] {
    }
  }

  /**
   * addDayRoster clears no cache: once an employee's count is cached, adding a day on
   * which the employee is planned leaves getNumAssignments reporting one assignment too few.
   */
  lemma StaleCountAfterAdd(ind: Individual, day: DayRoster, e: Employee)
    requires Get(ind.numAssignments, e) == Some(CountAssignments(ind.roster, e))
    requires Holds(day, e)
    ensures NumAssignmentsOf(AddDayRoster(ind, day), e) == CountAssignments(AddDayRoster(ind, day).roster, e) - 1
  {
    CountAppend(ind.roster, day, e);
  }

  /** With nothing cached, adding a day keeps every getter truthful. */
  lemma AddWithoutCachesIsFresh(ind: Individual, env: Env, day: DayRoster)
    requires ind.assignments == [] && ind.numAssignments == [] && ind.consecutive == [] && ind.weekends == []
    ensures Fresh(AddDayRoster(ind, day), env)
  {
  }
}

=== FILE: mating_selection.dfy ===
/**
 * The mating selections that pick parents without prefix sums: the first half of the
 * pool, the good/bad pairing over the sorted pool, and the two tournaments. The
 * tournament over distinct indices keeps the challenger with the LOWER fitness (the
 * engine minimises a penalty); the older tournament keeps the HIGHER one.
 *
 * Random indices come from a stream of draws in [0, pool size); nextInt(0) throws.
 */
module MatingSelection {
  import opened Wrappers
  import opened Populations
  import opened RandomDraws

  // ---------------------------------------------------------------------------------
  // First half.

  /**
   * SimpleMatingSelectionOperator.select: the pool positions i with i < size * 0.5, that
   * is the first half of the pool rounded up, in pool order.
   */
  function SimpleSelect<T>(pool: seq<T>): (r: seq<T>)
    ensures |pool| <= 2 * |r| <= |pool| + 1
    ensures forall i :: 0 <= i < |r| ==> r[i] == pool[i]
  {
    pool[..(|pool| + 1) / 2]
  }

  /** Distinct pool positions give distinct selected individuals. */
  lemma SimpleSelectDistinct<T>(pool: seq<T>)
    requires forall i, j :: 0 <= i < j < |pool| ==> pool[i] != pool[j]
    ensures var r := SimpleSelect(pool);
            forall i, j :: 0 <= i < j < |r| ==> r[i] != r[j]
  {
  }

  // ---------------------------------------------------------------------------------
  // Good/bad pairing.

  /** The first k best/worst pairs of s: s[0], s[n-1], s[1], s[n-2], ... */
  function GoodBadOrder<T>(s: seq<T>, k: nat): (r: seq<T>)
    requires k <= |s|
    ensures |r| == 2 * k
    ensures forall i :: 0 <= i < k ==> r[2 * i] == s[i] && r[2 * i + 1] == s[|s| - 1 - i]
  {
    if k == 0 then [] else GoodBadOrder(s, k - 1) + [s[k - 1], s[|s| - k]]
  }

  /** Over a sorted pool, each pair puts the better (lower) fitness first, as long as the pairs do not cross. */
  lemma GoodBeforeBad<T>(s: seq<T>, fit: T -> int, k: nat, i: nat)
    requires k <= |s| && Sorted(s, fit) && i < k && 2 * i + 1 <= |s|
    ensures var r := GoodBadOrder(s, k);
            fit(r[2 * i]) <= fit(r[2 * i + 1])
  {
    var r := GoodBadOrder(s, k);
    assert r[2 * i] == s[i] && r[2 * i + 1] == s[|s| - 1 - i];
  }

  /** Pairs drawn from feasible individuals are feasible. */
  lemma GoodBadOrderFeasible<T>(s: seq<T>, k: nat, feasible: T -> Result<bool>)
    requires k <= |s| && AllFeasible(s, feasible)
    ensures AllFeasible(GoodBadOrder(s, k), feasible)
  {
    var r := GoodBadOrder(s, k);
    forall i | 0 <= i < |r| ensures feasible(r[i]) == Success(true) {
      if i % 2 == 0 {
        assert r[2 * (i / 2)] == s[i / 2];
      } else {
        assert r[2 * (i / 2) + 1] == s[|s| - 1 - i / 2];
      }
    }
  }

  /** The number of pairs the loop `i < numberOfParents / 2` asks for. */
  function PairCount(numberOfParents: int): nat
  {
    if numberOfParents <= 0 then 0 else numberOfParents / 2
  }

  /**
   * GoodBadMatingSelection.select: sorts the population in place, then adds the i-th best
   * and i-th worst for i < numberOfParents / 2, each through addIndividualToPool (nothing
   * caught). More pairs than individuals run off the pool. The result pairs the
   * selection with the sorted input population.
   */
  function GoodBadSelect<T>(pop: Population<T>, fit: T -> int, feasible: T -> Result<bool>, numberOfParents: int)
    : (r: Result<(Population<T>, Population<T>)>)
    ensures r.Success? <==> && PairCount(numberOfParents) <= |pop.pool|
                            && AllFeasible(GoodBadOrder(SortByFitness(pop, fit).pool, PairCount(numberOfParents)), feasible)
    ensures r.Success? ==> && r.value.1 == SortByFitness(pop, fit)
                           && r.value.0 == Population(GoodBadOrder(r.value.1.pool, PairCount(numberOfParents)), None)
    ensures r.Failure? && AllFeasible(pop.pool, feasible) ==> r.error == OutOfRange
  {
    var sorted := SortByFitness(pop, fit);
    var n := |sorted.pool|;
    var k := PairCount(numberOfParents);
    var picked := GoodBadOrder(sorted.pool, if k <= n then k else n);
    var added := AddEach(NewPopulation(), picked, feasible);
    PicksFeasible(pop, fit, feasible, if k <= n then k else n);
    if added.Failure? then Failure(added.error)
    else if k > n then Failure(OutOfRange)
    else Success((added.value, sorted))
  }

  /** When the whole pool is feasible, so are the pairs picked from the sorted pool. */
  lemma PicksFeasible<T>(pop: Population<T>, fit: T -> int, feasible: T -> Result<bool>, k: nat)
    requires k <= |pop.pool|
    ensures AllFeasible(pop.pool, feasible) ==> AllFeasible(GoodBadOrder(SortByFitness(pop, fit).pool, k), feasible)
  {
    if AllFeasible(pop.pool, feasible) {
      SortedFeasible(pop, fit, feasible);
      GoodBadOrderFeasible(SortByFitness(pop, fit).pool, k, feasible);
    }
  }

  /** Sorting keeps every individual, so it keeps them all feasible. */
  lemma SortedFeasible<T>(pop: Population<T>, fit: T -> int, feasible: T -> Result<bool>)
    requires AllFeasible(pop.pool, feasible)
    ensures AllFeasible(SortByFitness(pop, fit).pool, feasible)
  {
    var s := SortByFitness(pop, fit).pool;
    forall i | 0 <= i < |s| ensures feasible(s[i]) == Success(true) {
      assert s[i] in multiset(pop.pool);
    }
  }

  // ---------------------------------------------------------------------------------
  // Index bookkeeping of the tournaments.

  /** No index occurs twice. */
  predicate NoDuplicates(s: seq<nat>)
  {
    forall i, j :: 0 <= i < j < |s| ==> s[i] != s[j]
  }

  /** Every index is a pool position. */
  predicate Below(s: seq<nat>, n: nat)
  {
    forall i :: 0 <= i < |s| ==> s[i] < n
  }

  /** ArrayHelper.removeValue: the list without the value. */
  function RemoveValue(s: seq<nat>, v: nat): (r: seq<nat>)
    ensures forall x :: x in r <==> x in s && x != v
    ensures NoDuplicates(s) ==> NoDuplicates(r)
    ensures |r| <= |s|
    ensures v !in s ==> r == s
    ensures NoDuplicates(s) && v in s ==> |r| == |s| - 1
  {
    if |s| == 0 then []
    else
      var rest := RemoveValue(s[1..], v);
      assert forall x :: x in s[1..] ==> x in s;
      if s[0] == v then rest
      else
        assert NoDuplicates(s) ==> s[0] !in s[1..];
        [s[0]] + rest
  }

  /** Distinct indices below n are at most n of them. */
  lemma {:induction false} DistinctBelow(s: seq<nat>, n: nat)
    requires NoDuplicates(s) && Below(s, n)
    ensures |s| <= n
    decreases n
  {
    if |s| > 0 {
      assert s[0] < n;
      var t := RemoveValue(s, n - 1);
      forall i | 0 <= i < |t| ensures t[i] < n - 1 {
        assert t[i] in s && t[i] != n - 1;
        var j :| 0 <= j < |s| && s[j] == t[i];
      }
      DistinctBelow(t, n - 1);
    }
  }

  /**
   * The do-while of the distinct-index tournament: indices drawn from position `at` until
   * one is not used yet; it returns that index and the position after its draw.
   */
  function DrawUnused(n: nat, used: seq<nat>, draws: seq<int>, at: nat): (r: Result<(nat, nat)>)
    requires at <= |draws| && DrawsBelow(draws, n)
    ensures n == 0 ==> r == Failure(IllegalArgument)
    ensures r.Failure? ==> r.error in {IllegalArgument, DrawsExhausted}
    ensures r.Success? ==> && at < r.value.1 <= |draws|
                           && r.value.0 == draws[r.value.1 - 1] && r.value.0 < n && r.value.0 !in used
                           && forall k :: at <= k < r.value.1 - 1 ==> draws[k] in used
    decreases |draws| - at
  {
    if n == 0 then Failure(IllegalArgument)
    else if at == |draws| then Failure(DrawsExhausted)
    else if draws[at] in used then DrawUnused(n, used, draws, at + 1)
    else Success((draws[at], at + 1))
  }

  // ---------------------------------------------------------------------------------
  // Running winners of a slot (both tournaments).

  /** a beats b: strictly lower fitness when `lower`, strictly higher otherwise. */
  predicate Beats(a: int, b: int, lower: bool)
  {
    if lower then a < b else a > b
  }

  /**
   * The winner after each duel of a slot that starts from pool position `index` and meets
   * the challengers in order: a challenger takes over only when it beats the current
   * winner, and the current winner is what the duel adds.
   */
  function Champions<T>(pool: seq<T>, fit: T -> int, index: int, challengers: seq<int>, lower: bool): (r: seq<int>)
    requires 0 <= index < |pool| && DrawsBelow(challengers, |pool|)
    ensures |r| == |challengers|
    decreases |challengers|
  {
    if |challengers| == 0 then []
    else
      var c := challengers[0];
      var w := if Beats(fit(pool[c]), fit(pool[index]), lower) then c else index;
      [w] + Champions(pool, fit, w, challengers[1..], lower)
  }

  /** Every winner is a pool position: the start or one of the challengers. */
  lemma {:induction false} ChampionsBelow<T>(pool: seq<T>, fit: T -> int, index: int, challengers: seq<int>, lower: bool)
    requires 0 <= index < |pool| && DrawsBelow(challengers, |pool|)
    ensures DrawsBelow(Champions(pool, fit, index, challengers, lower), |pool|)
    decreases |challengers|
  {
    if |challengers| > 0 {
      var c := challengers[0];
      var w := if Beats(fit(pool[c]), fit(pool[index]), lower) then c else index;
      ChampionsBelow(pool, fit, w, challengers[1..], lower);
      assert Champions(pool, fit, index, challengers, lower) == [w] + Champions(pool, fit, w, challengers[1..], lower);
    }
  }

  /** Position p is the first of the contenders whose fitness no contender beats. */
  predicate FirstBest<T>(pool: seq<T>, fit: T -> int, contenders: seq<int>, p: int, lower: bool)
    requires DrawsBelow(contenders, |pool|)
  {
    && 0 <= p < |contenders|
    && (forall q :: 0 <= q < |contenders| ==> !Beats(fit(pool[contenders[q]]), fit(pool[contenders[p]]), lower))
    && (forall q :: 0 <= q < p ==> Beats(fit(pool[contenders[p]]), fit(pool[contenders[q]]), lower))
  }

  /** Duel k > 0 keeps the previous winner unless challenger k beats it. */
  lemma {:induction false} ChampionsStep<T>(pool: seq<T>, fit: T -> int, index: int, challengers: seq<int>, lower: bool, k: nat)
    requires 0 <= index < |pool| && DrawsBelow(challengers, |pool|) && 0 < k < |challengers|
    ensures var w := Champions(pool, fit, index, challengers, lower);
            && 0 <= w[k - 1] < |pool|
            && w[k] == if Beats(fit(pool[challengers[k]]), fit(pool[w[k - 1]]), lower) then challengers[k] else w[k - 1]
    decreases k
  {
    ChampionsBelow(pool, fit, index, challengers, lower);
    var c := challengers[0];
    var first := if Beats(fit(pool[c]), fit(pool[index]), lower) then c else index;
    var tail := challengers[1..];
    assert Champions(pool, fit, index, challengers, lower) == [first] + Champions(pool, fit, first, tail, lower);
    if k > 1 {
      ChampionsStep(pool, fit, first, tail, lower, k - 1);
    }
  }

  /** One more contender either beats the first best, and is then the first best, or leaves it in place. */
  lemma FirstBestSnoc<T>(pool: seq<T>, fit: T -> int, contenders: seq<int>, p: int, c: int, lower: bool)
    requires DrawsBelow(contenders, |pool|) && 0 <= c < |pool| && FirstBest(pool, fit, contenders, p, lower)
    ensures var wins := Beats(fit(pool[c]), fit(pool[contenders[p]]), lower);
            && DrawsBelow(contenders + [c], |pool|)
            && FirstBest(pool, fit, contenders + [c], if wins then |contenders| else p, lower)
  {
    var all := contenders + [c];
    assert all[|contenders|] == c;
    forall q | 0 <= q < |contenders| ensures all[q] == contenders[q] {
    }
  }

  /**
   * The winner after duel k is the first of the slot's start and challengers 0..k whose
   * fitness none of them beats: a challenger replaces the winner only when strictly better.
   */
  lemma {:induction false} ChampionIsFirstBest<T>(pool: seq<T>, fit: T -> int, index: int, challengers: seq<int>, lower: bool, k: nat)
    requires 0 <= index < |pool| && DrawsBelow(challengers, |pool|) && k < |challengers|
    ensures DrawsBelow([index] + challengers[..k + 1], |pool|)
    ensures var contenders := [index] + challengers[..k + 1];
            exists p :: FirstBest(pool, fit, contenders, p, lower) && contenders[p] == Champions(pool, fit, index, challengers, lower)[k]
    decreases k
  {
    var w := Champions(pool, fit, index, challengers, lower);
    var earlier := [index] + challengers[..k];
    assert [index] + challengers[..k + 1] == earlier + [challengers[k]];
    var p: int;
    if k == 0 {
      p := 0;
    } else {
      ChampionIsFirstBest(pool, fit, index, challengers, lower, k - 1);
      p :| FirstBest(pool, fit, earlier, p, lower) && earlier[p] == w[k - 1];
      ChampionsStep(pool, fit, index, challengers, lower, k);
    }
    FirstBestSnoc(pool, fit, earlier, p, challengers[k], lower);
    var wins := Beats(fit(pool[challengers[k]]), fit(pool[earlier[p]]), lower);
    assert (earlier + [challengers[k]])[if wins then |earlier| else p] == w[k];
  }

  /** The added members are the pool members at the winner positions, in order. */
  predicate Fielded<T(==)>(added: seq<T>, pool: seq<T>, winners: seq<int>)
  {
    |added| == |winners| && forall i :: 0 <= i < |winners| ==> 0 <= winners[i] < |pool| && added[i] == pool[winners[i]]
  }

  /** Fielded additions concatenate. */
  lemma FieldedAppend<T>(a1: seq<T>, w1: seq<int>, a2: seq<T>, w2: seq<int>, pool: seq<T>)
    requires Fielded(a1, pool, w1) && Fielded(a2, pool, w2)
    ensures Fielded(a1 + a2, pool, w1 + w2)
  {
    forall i | 0 <= i < |w1| + |w2| ensures 0 <= (w1 + w2)[i] < |pool| && (a1 + a2)[i] == pool[(w1 + w2)[i]] {
      if i >= |w1| {
        assert (w1 + w2)[i] == w2[i - |w1|] && (a1 + a2)[i] == a2[i - |w1|];
      }
    }
  }

  /** b copies of w added up: where slot b starts when every slot is w long. */
  function Times(b: nat, w: nat): nat
  {
    if b == 0 then 0 else Times(b - 1, w) + w
  }

  /** Repeated addition is multiplication. */
  lemma {:induction false} TimesIsProduct(b: nat, w: nat)
    ensures Times(b, w) == b * w
  {
    if b > 0 {
      TimesIsProduct(b - 1, w);
      SlotOffset(b, w);
    }
  }

  /** Slot b ends inside the first `slots` slots. */
  lemma {:induction false} SlotInside(b: nat, slots: nat, width: nat)
    requires b < slots
    ensures Times(b, width) + width <= Times(slots, width)
    decreases slots
  {
    if b + 1 < slots {
      SlotInside(b, slots - 1, width);
    }
  }

  /**
   * The winners of `slots` slots laid out one after another in `picks`: each slot is its
   * start followed by its `duels` challengers (picks too short for a slot give none).
   */
  function SlotsChampions<T>(pool: seq<T>, fit: T -> int, picks: seq<int>, slots: nat, duels: nat, lower: bool): (r: seq<int>)
    requires DrawsBelow(picks, |pool|)
    ensures |picks| == Times(slots, duels + 1) ==> |r| == Times(slots, duels)
    decreases slots
  {
    if slots == 0 || |picks| < duels + 1 then []
    else
      Champions(pool, fit, picks[0], picks[1..duels + 1], lower)
        + SlotsChampions(pool, fit, picks[duels + 1..], slots - 1, duels, lower)
  }

  /** A slot's start and challengers in front of the later slots' picks. */
  lemma SlotsFieldedCons<T>(pool: seq<T>, fit: T -> int, lower: bool, slots: nat, duels: nat, start: int,
                            challengers: seq<int>, later: seq<int>, a1: seq<T>, a2: seq<T>)
    requires slots > 0 && |challengers| == duels && |later| == Times(slots - 1, duels + 1)
    requires 0 <= start < |pool| && DrawsBelow(challengers, |pool|) && DrawsBelow(later, |pool|)
    requires Fielded(a1, pool, Champions(pool, fit, start, challengers, lower))
    requires Fielded(a2, pool, SlotsChampions(pool, fit, later, slots - 1, duels, lower))
    ensures |[start] + challengers + later| == Times(slots, duels + 1) && DrawsBelow([start] + challengers + later, |pool|)
    ensures Fielded(a1 + a2, pool, SlotsChampions(pool, fit, [start] + challengers + later, slots, duels, lower))
  {
    var picks := [start] + challengers + later;
    assert picks[0] == start && picks[1..duels + 1] == challengers && picks[duels + 1..] == later;
    FieldedAppend(a1, Champions(pool, fit, start, challengers, lower), a2, SlotsChampions(pool, fit, later, slots - 1, duels, lower), pool);
  }

  /**
   * Member i of slot b, which starts at pick o and at member m of the winners, is the
   * winner after duel i of that slot.
   */
  lemma {:induction false} SlotsChampionsFrom<T>(pool: seq<T>, fit: T -> int, picks: seq<int>, slots: nat, duels: nat, lower: bool,
                                                 b: nat, m: nat, o: nat, i: nat)
    requires |picks| == Times(slots, duels + 1) && DrawsBelow(picks, |pool|) && b < slots && i < duels
    requires m == Times(b, duels) && o == Times(b, duels + 1) && m + duels <= Times(slots, duels) && o + duels + 1 <= |picks|
    ensures SlotsChampions(pool, fit, picks, slots, duels, lower)[m + i] == Champions(pool, fit, picks[o], picks[o + 1..o + duels + 1], lower)[i]
    decreases b
  {
    var later := picks[duels + 1..];
    var first := Champions(pool, fit, picks[0], picks[1..duels + 1], lower);
    var rest := SlotsChampions(pool, fit, later, slots - 1, duels, lower);
    assert SlotsChampions(pool, fit, picks, slots, duels, lower) == first + rest;
    if b == 0 {
      FirstSlot(pool, fit, picks, lower, duels, first, rest, o, m, i);
    } else {
      var m', o' := m - duels, o - duels - 1;
      SlotsChampionsFrom(pool, fit, later, slots - 1, duels, lower, b - 1, m', o', i);
      LaterSlot(pool, fit, picks, later, lower, duels, first, rest, o, o', m, m', i);
    }
  }

  /** In the first slot, member i of the winners is the first slot's winner after duel i. */
  lemma FirstSlot<T>(pool: seq<T>, fit: T -> int, picks: seq<int>, lower: bool, duels: nat,
                     first: seq<int>, rest: seq<int>, o: nat, m: nat, i: nat)
    requires o == 0 && m == 0 && i < duels && duels + 1 <= |picks| && DrawsBelow(picks, |pool|)
    requires first == Champions(pool, fit, picks[0], picks[1..duels + 1], lower)
    ensures (first + rest)[m + i] == Champions(pool, fit, picks[o], picks[o + 1..o + duels + 1], lower)[i]
  {
    assert picks[o + 1..o + duels + 1] == picks[1..duels + 1];
  }

  /** In a later slot, member m + i of the winners is member m' + i of the later slots' winners. */
  lemma LaterSlot<T>(pool: seq<T>, fit: T -> int, picks: seq<int>, later: seq<int>, lower: bool, duels: nat,
                     first: seq<int>, rest: seq<int>, o: nat, o': nat, m: nat, m': nat, i: nat)
    requires |first| == duels && m == m' + duels && i < duels && m' + i < |rest|
    requires o == o' + duels + 1 && o + duels + 1 <= |picks| && later == picks[duels + 1..] && DrawsBelow(picks, |pool|)
    requires DrawsBelow(later, |pool|) && o' + duels + 1 <= |later|
    requires rest[m' + i] == Champions(pool, fit, later[o'], later[o' + 1..o' + duels + 1], lower)[i]
    ensures (first + rest)[m + i] == Champions(pool, fit, picks[o], picks[o + 1..o + duels + 1], lower)[i]
  {
    assert (first + rest)[m + i] == rest[m' + i];
    assert later[o'] == picks[o];
    assert later[o' + 1..o' + duels + 1] == picks[o + 1..o + duels + 1];
  }

  /** Member i of slot b is the winner after duel i of that slot (Times(b, w) is b * w, TimesIsProduct). */
  lemma SlotsChampionsAt<T>(pool: seq<T>, fit: T -> int, picks: seq<int>, slots: nat, duels: nat, lower: bool, b: nat, i: nat)
    requires |picks| == Times(slots, duels + 1) && DrawsBelow(picks, |pool|) && b < slots && i < duels
    ensures |SlotsChampions(pool, fit, picks, slots, duels, lower)| == Times(slots, duels)
    ensures Times(b, duels) + i < Times(slots, duels) && Times(b, duels + 1) + duels + 1 <= |picks|
    ensures var o := Times(b, duels + 1);
            SlotsChampions(pool, fit, picks, slots, duels, lower)[Times(b, duels) + i]
              == Champions(pool, fit, picks[o], picks[o + 1..o + duels + 1], lower)[i]
  {
    SlotInside(b, slots, duels);
    SlotInside(b, slots, duels + 1);
    SlotsChampionsFrom(pool, fit, picks, slots, duels, lower, b, Times(b, duels), Times(b, duels + 1), i);
  }

  /**
   * Member i of slot b of a fielded selection (member m + i, the slot's picks starting at
   * o) is the pool member at the first of the slot's start and its challengers 0..i whose
   * fitness none of them beats.
   */
  lemma SlotMemberIsFirstBest<T>(added: seq<T>, pool: seq<T>, fit: T -> int, picks: seq<int>, slots: nat, duels: nat,
                                 lower: bool, b: nat, i: nat, m: nat, o: nat)
    requires |picks| == Times(slots, duels + 1) && DrawsBelow(picks, |pool|) && b < slots && i < duels
    requires m == Times(b, duels) && o == Times(b, duels + 1)
    requires Fielded(added, pool, SlotsChampions(pool, fit, picks, slots, duels, lower))
    ensures m + i < |added| && o + i + 2 <= |picks| && DrawsBelow(picks[o..o + i + 2], |pool|)
    ensures var contenders := picks[o..o + i + 2];
            exists p :: FirstBest(pool, fit, contenders, p, lower) && added[m + i] == pool[contenders[p]]
  {
    SlotsChampionsAt(pool, fit, picks, slots, duels, lower, b, i);
    MemberOfSlot(added, pool, fit, picks, lower, duels, SlotsChampions(pool, fit, picks, slots, duels, lower), m, o, i);
  }

  /** The member at winner m + i, for the slot whose picks start at o. */
  lemma MemberOfSlot<T>(added: seq<T>, pool: seq<T>, fit: T -> int, picks: seq<int>, lower: bool, duels: nat,
                        winners: seq<int>, m: nat, o: nat, i: nat)
    requires Fielded(added, pool, winners) && m + i < |winners| && i < duels
    requires o + duels + 1 <= |picks| && DrawsBelow(picks, |pool|)
    requires winners[m + i] == Champions(pool, fit, picks[o], picks[o + 1..o + duels + 1], lower)[i]
    ensures DrawsBelow(picks[o..o + i + 2], |pool|)
    ensures var contenders := picks[o..o + i + 2];
            exists p :: FirstBest(pool, fit, contenders, p, lower) && added[m + i] == pool[contenders[p]]
  {
    var challengers := picks[o + 1..o + duels + 1];
    ChampionIsFirstBest(pool, fit, picks[o], challengers, lower, i);
    var contenders := picks[o..o + i + 2];
    assert [picks[o]] + challengers[..i + 1] == contenders;
    var p :| FirstBest(pool, fit, contenders, p, lower) && contenders[p] == Champions(pool, fit, picks[o], challengers, lower)[i];
    assert added[m + i] == pool[contenders[p]];
  }

  // ---------------------------------------------------------------------------------
  // Tournament over distinct indices (lower fitness wins).

  /**
   * The state of TournamentSelectionOperator.select: used indices, selection, stream
   * position, and the indices accepted from the stream so far (each slot's start, then its
   * challengers), which the operator does not keep but its contract speaks about.
   */
  datatype TourState<T> = TourState(used: seq<nat>, selection: Population<T>, at: nat, picks: seq<int>)

  /**
   * The bookkeeping the loops keep: distinct used indices, all pool positions, a valid
   * position, and accepted indices that are draws and pool positions.
   */
  predicate TourValid<T>(st: TourState<T>, n: nat, draws: seq<int>)
  {
    && NoDuplicates(st.used) && Below(st.used, n) && st.at <= |draws|
    && DrawsBelow(st.picks, n) && (forall k :: 0 <= k < |st.picks| ==> st.picks[k] in draws)
  }

  /** Each challenger differs from the winner it meets (the slot's start for the first duel). */
  predicate Contested(index: int, challengers: seq<int>, winners: seq<int>)
    requires |winners| == |challengers|
  {
    forall k :: 0 <= k < |challengers| ==> challengers[k] != (if k == 0 then index else winners[k - 1])
  }

  /** Every selected individual is a pool member, with fitness non-increasing and at most `bound`. */
  predicate Descending<T>(s: seq<T>, fit: T -> int, bound: int)
  {
    (forall i :: 0 <= i < |s| ==> fit(s[i]) <= bound) && Ordered(s, fit, true)
  }

  /** The fitness values never increase (descending) or never decrease along s. */
  predicate Ordered<T>(s: seq<T>, fit: T -> int, descending: bool)
  {
    forall i, j :: 0 <= i < j < |s| ==> if descending then fit(s[j]) <= fit(s[i]) else fit(s[i]) <= fit(s[j])
  }

  /** s cut into consecutive slots of `width` members, each slot Ordered. */
  predicate SlotsOrdered<T>(s: seq<T>, fit: T -> int, width: nat, descending: bool)
    decreases |s|
  {
    if |s| <= width || width == 0 then Ordered(s, fit, descending)
    else Ordered(s[..width], fit, descending) && SlotsOrdered(s[width..], fit, width, descending)
  }

  /** Within slot b, position x comes before position y in the slot's order. */
  lemma {:induction false} SlotsOrderedAt<T>(s: seq<T>, fit: T -> int, width: nat, descending: bool, b: nat, x: nat, y: nat)
    requires SlotsOrdered(s, fit, width, descending) && x < y < width && b * width + y < |s|
    ensures if descending then fit(s[b * width + y]) <= fit(s[b * width + x])
            else fit(s[b * width + x]) <= fit(s[b * width + y])
    decreases b
  {
    if b == 0 {
      SlotsOrderedFirst(s, fit, width, descending, x, y);
    } else {
      var o := (b - 1) * width;
      SlotOffset(b, width);
      var rest := s[width..];
      SlotsOrderedAt(rest, fit, width, descending, b - 1, x, y);
      assert rest[o + x] == s[b * width + x] && rest[o + y] == s[b * width + y];
    }
  }

  /** The first slot is ordered. */
  lemma SlotsOrderedFirst<T>(s: seq<T>, fit: T -> int, width: nat, descending: bool, x: nat, y: nat)
    requires SlotsOrdered(s, fit, width, descending) && x < y < width && y < |s|
    ensures if descending then fit(s[y]) <= fit(s[x]) else fit(s[x]) <= fit(s[y])
  {
    var slot := if |s| <= width then s else s[..width];
    assert Ordered(slot, fit, descending);
    assert slot[x] == s[x] && slot[y] == s[y];
  }

  /** Slot b starts one width after slot b - 1. */
  lemma SlotOffset(b: nat, width: nat)
    requires b > 0
    ensures b * width == (b - 1) * width + width && (b - 1) * width >= 0
  {
  }

  /** One ordered slot in front of ordered slots. */
  lemma SlotsOrderedCons<T>(head: seq<T>, tail: seq<T>, fit: T -> int, width: nat, descending: bool)
    requires |head| == width && Ordered(head, fit, descending) && SlotsOrdered(tail, fit, width, descending)
    ensures SlotsOrdered(head + tail, fit, width, descending)
  {
    if width == 0 {
      assert head + tail == tail;
    } else if |tail| == 0 {
      assert head + tail == head;
    } else {
      assert (head + tail)[..width] == head && (head + tail)[width..] == tail;
    }
  }

  /** A slot appended after `before` in the middle state, then the later slots after it. */
  lemma SlotAppended<T>(before: seq<T>, mid: seq<T>, after: seq<T>, pool: seq<T>, fit: T -> int, width: nat, descending: bool)
    requires |mid| == |before| + width && mid[..|before|] == before
    requires |after| >= |mid| && after[..|mid|] == mid
    requires Ordered(mid[|before|..], fit, descending) && SlotsOrdered(after[|mid|..], fit, width, descending)
    requires forall i :: |before| <= i < |mid| ==> mid[i] in pool
    requires forall i :: |mid| <= i < |after| ==> after[i] in pool
    ensures after[..|before|] == before
    ensures SlotsOrdered(after[|before|..], fit, width, descending)
    ensures forall i :: |before| <= i < |after| ==> after[i] in pool
  {
    assert after[..|before|] == after[..|mid|][..|before|];
    assert after[|before|..] == mid[|before|..] + after[|mid|..];
    SlotsOrderedCons(mid[|before|..], after[|mid|..], fit, width, descending);
    forall i | |before| <= i < |mid| ensures after[i] in pool {
      assert after[i] == mid[i];
    }
  }

  /**
   * One duel of the distinct-index tournament: a challenger drawn from the unused
   * indices replaces the index (and its place in the used list) when its fitness is
   * strictly lower; the winner is then added to the selection.
   */
  function LowDuel<T>(pool: seq<T>, fit: T -> int, feasible: T -> Result<bool>, index: nat,
                      st: TourState<T>, draws: seq<int>): (r: Result<(nat, TourState<T>)>)
    requires TourValid(st, |pool|, draws) && DrawsBelow(draws, |pool|) && index < |pool| && index in st.used
    ensures r.Success? ==> && TourValid(r.value.1, |pool|, draws)
                           && r.value.0 < |pool| && r.value.0 in r.value.1.used
                           && fit(pool[r.value.0]) <= fit(pool[index])
                           && r.value.1.selection == Population(st.selection.pool + [pool[r.value.0]], st.selection.overallFitness)
                           && |r.value.1.used| == |st.used| < |pool|
    ensures r.Success? ==> && st.at < r.value.1.at
                           && r.value.1.picks == st.picks + [draws[r.value.1.at - 1]]
                           && var u := draws[r.value.1.at - 1];
                              u !in st.used && r.value.0 == (if fit(pool[u]) < fit(pool[index]) then u else index)
  {
    match DrawUnused(|pool|, st.used, draws, st.at)
    case Failure(e) => Failure(e)
    case Success(drawn) =>
      var u := drawn.0;
      DistinctBelow(st.used + [u], |pool|);
      var winner := if fit(pool[u]) < fit(pool[index]) then u else index;
      var used := if winner == u then Replace(st.used, index, u, |pool|) else st.used;
      match AddIndividualToPool(st.selection, pool[winner], feasible)
      case Failure(e) => Failure(e)
      case Success(sel) => Success((winner, TourState(used, sel, drawn.1, st.picks + [u])))
  }

  /**
   * The inner loop of one slot: `count` duels from the current index on, each adding its
   * winner, so the added members never get worse.
   */
  function LowDuels<T>(pool: seq<T>, fit: T -> int, feasible: T -> Result<bool>, index: nat, count: nat,
                       st: TourState<T>, draws: seq<int>): (r: Result<TourState<T>>)
    requires TourValid(st, |pool|, draws) && DrawsBelow(draws, |pool|) && index < |pool| && index in st.used
    ensures r.Success? ==> && TourValid(r.value, |pool|, draws)
                           && |r.value.selection.pool| == |st.selection.pool| + count
                           && r.value.selection.pool[..|st.selection.pool|] == st.selection.pool
                           && r.value.selection.overallFitness == st.selection.overallFitness
                           && Descending(r.value.selection.pool[|st.selection.pool|..], fit, fit(pool[index]))
                           && (forall i :: |st.selection.pool| <= i < |r.value.selection.pool| ==> r.value.selection.pool[i] in pool)
                           && |r.value.used| == |st.used| && (count > 0 ==> |st.used| < |pool|)
    decreases count
  {
    if count == 0 then
      assert st.selection.pool[|st.selection.pool|..] == [];
      Success(st)
    else
      match LowDuel(pool, fit, feasible, index, st, draws)
      case Failure(e) => Failure(e)
      case Success(step) =>
        var r := LowDuels(pool, fit, feasible, step.0, count - 1, step.1, draws);
        if r.Success? then
          DuelAppended(st.selection.pool, pool[step.0], step.1.selection.pool, r.value.selection.pool, pool, fit, fit(pool[index]));
          r
        else
          r
  }

  /** The used list after a challenger u has beaten index: index dropped, u appended. */
  function Replace(used: seq<nat>, index: nat, u: nat, n: nat): (r: seq<nat>)
    requires NoDuplicates(used) && Below(used, n) && u < n && u !in used
    ensures NoDuplicates(r) && Below(r, n) && u in r
    ensures forall x :: x in r <==> x == u || (x in used && x != index)
    ensures index in used ==> |r| == |used|
  {
    var kept := RemoveValue(used, index);
    assert u !in kept;
    forall i | 0 <= i < |kept| ensures kept[i] < n {
      assert kept[i] in used;
    }
    kept + [u]
  }

  /** One duel's winner w in front of the later duels' additions gives the slot's additions. */
  lemma DuelAppended<T>(before: seq<T>, w: T, mid: seq<T>, after: seq<T>, pool: seq<T>, fit: T -> int, bound: int)
    requires mid == before + [w] && |after| >= |mid| && after[..|mid|] == mid
    requires fit(w) <= bound && w in pool
    requires Descending(after[|mid|..], fit, fit(w))
    requires forall i :: |mid| <= i < |after| ==> after[i] in pool
    ensures after[..|before|] == before
    ensures Descending(after[|before|..], fit, bound)
    ensures forall i :: |before| <= i < |after| ==> after[i] in pool
  {
    assert after[..|before|] == after[..|mid|][..|before|];
    var added := after[|before|..];
    assert added == [w] + after[|before| + 1..];
  }

  /**
   * One duel's challenger u and winner w in front of the later duels' challengers and
   * winners give the slot's challengers and winners.
   */
  lemma DuelFielded<T>(pool: seq<T>, fit: T -> int, index: int, u: int, w: int, before: seq<int>, mid: seq<int>, after: seq<int>,
                       selBefore: seq<T>, selMid: seq<T>, selAfter: seq<T>)
    requires 0 <= index < |pool| && 0 <= u < |pool| && w == (if fit(pool[u]) < fit(pool[index]) then u else index)
    requires mid == before + [u] && |after| >= |mid| && after[..|mid|] == mid && DrawsBelow(after, |pool|)
    requires selMid == selBefore + [pool[w]] && |selAfter| >= |selMid| && selAfter[..|selMid|] == selMid
    requires Fielded(selAfter[|selMid|..], pool, Champions(pool, fit, w, after[|mid|..], true))
    ensures |after| >= |before| && after[..|before|] == before
    ensures Fielded(selAfter[|selBefore|..], pool, Champions(pool, fit, index, after[|before|..], true))
  {
    assert after[..|before|] == after[..|mid|][..|before|];
    var challengers := after[|before|..];
    assert challengers[0] == u && challengers[1..] == after[|mid|..];
    var later := Champions(pool, fit, w, after[|mid|..], true);
    assert Champions(pool, fit, index, challengers, true) == [w] + later;
    assert selAfter[|selBefore|..] == [pool[w]] + selAfter[|selMid|..];
    FieldedAppend([pool[w]], [w], selAfter[|selMid|..], later, pool);
  }

  /** A challenger u other than the index it meets, in front of later contested duels. */
  lemma DuelContested<T>(pool: seq<T>, fit: T -> int, index: int, u: int, w: int, before: seq<int>, mid: seq<int>, after: seq<int>)
    requires 0 <= index < |pool| && 0 <= u < |pool| && u != index && w == (if fit(pool[u]) < fit(pool[index]) then u else index)
    requires mid == before + [u] && |after| >= |mid| && after[..|mid|] == mid && DrawsBelow(after, |pool|)
    requires Contested(w, after[|mid|..], Champions(pool, fit, w, after[|mid|..], true))
    ensures Contested(index, after[|before|..], Champions(pool, fit, index, after[|before|..], true))
  {
    var challengers, rest := after[|before|..], after[|mid|..];
    assert challengers[0] == u && challengers[1..] == rest;
    var winners, later := Champions(pool, fit, index, challengers, true), Champions(pool, fit, w, rest, true);
    assert winners == [w] + later;
    forall k | 0 <= k < |challengers| ensures challengers[k] != (if k == 0 then index else winners[k - 1]) {
      if k > 0 {
        assert challengers[k] == rest[k - 1] && winners[k - 1] == (if k == 1 then w else later[k - 2]);
      }
    }
  }

  /** A slot's picks and members after the earlier ones, then the later slots' picks and members. */
  lemma LowSlotFielded<T>(pool: seq<T>, fit: T -> int, slots: nat, duels: nat, start: int,
                          p0: seq<int>, p1: seq<int>, p2: seq<int>, s0: seq<T>, s1: seq<T>, s2: seq<T>)
    requires slots > 0 && 0 <= start < |pool| && DrawsBelow(p1, |pool|) && DrawsBelow(p2, |pool|)
    requires |p1| == |p0| + 1 + duels && p1[..|p0| + 1] == p0 + [start]
    requires |p2| == |p1| + Times(slots - 1, duels + 1) && p2[..|p1|] == p1
    requires |s1| >= |s0| && s1[..|s0|] == s0 && |s2| >= |s1| && s2[..|s1|] == s1
    requires Fielded(s1[|s0|..], pool, Champions(pool, fit, start, p1[|p0| + 1..], true))
    requires Fielded(s2[|s1|..], pool, SlotsChampions(pool, fit, p2[|p1|..], slots - 1, duels, true))
    ensures |p2| == |p0| + Times(slots, duels + 1) && p2[..|p0|] == p0
    ensures Fielded(s2[|s0|..], pool, SlotsChampions(pool, fit, p2[|p0|..], slots, duels, true))
  {
    var challengers, later := p1[|p0| + 1..], p2[|p1|..];
    assert p2[..|p0|] == p1[..|p0| + 1][..|p0|];
    assert p2[|p0|..] == [start] + challengers + later;
    assert s2[|s0|..] == s1[|s0|..] + s2[|s1|..];
    SlotsFieldedCons(pool, fit, true, slots, duels, start, challengers, later, s1[|s0|..], s2[|s1|..]);
  }

  /** The slots of the distinct-index tournament, `slots` of them from state st on. */
  function LowSlots<T>(pool: seq<T>, fit: T -> int, feasible: T -> Result<bool>, slots: nat, duels: nat,
                       st: TourState<T>, draws: seq<int>): (r: Result<TourState<T>>)
    requires TourValid(st, |pool|, draws) && DrawsBelow(draws, |pool|)
    ensures |pool| == 0 && slots > 0 ==> r == Failure(IllegalArgument)
    ensures r.Success? ==> && TourValid(r.value, |pool|, draws)
                           && |r.value.selection.pool| == |st.selection.pool| + Times(slots, duels)
                           && r.value.selection.overallFitness == st.selection.overallFitness
                           && r.value.selection.pool[..|st.selection.pool|] == st.selection.pool
                           && (forall i :: |st.selection.pool| <= i < |r.value.selection.pool| ==> r.value.selection.pool[i] in pool)
                           && SlotsOrdered(r.value.selection.pool[|st.selection.pool|..], fit, duels, true)
                           && |r.value.used| == |st.used| + slots
                           && (slots > 0 && duels > 0 ==> |st.used| + slots < |pool|)
    decreases slots
  {
    if slots == 0 then
      assert st.selection.pool[..|st.selection.pool|] == st.selection.pool;
      assert st.selection.pool[|st.selection.pool|..] == [];
      Success(st)
    else
      match DrawUnused(|pool|, st.used, draws, st.at)
      case Failure(e) => Failure(e)
      case Success(drawn) =>
        var start := TourState(st.used + [drawn.0], st.selection, drawn.1, st.picks + [drawn.0]);
        match LowDuels(pool, fit, feasible, drawn.0, duels, start, draws)
        case Failure(e) => Failure(e)
        case Success(after) =>
          var r := LowSlots(pool, fit, feasible, slots - 1, duels, after, draws);
          SlotOffset(slots, duels);
          if r.Success? then
            var before, mid := st.selection.pool, after.selection.pool;
            assert Ordered(mid[|before|..], fit, true) by {
              assert Descending(mid[|start.selection.pool|..], fit, fit(pool[drawn.0]));
            }
            SlotAppended(before, mid, r.value.selection.pool, pool, fit, duels, true);
            r
          else
            r
  }

  /**
   * TournamentSelectionOperator.select: numberOfParents slots, each starting from a
   * freshly drawn unused index and fighting numberOfDirectDuels - 2 duels; one pool member
   * is added per duel, so the selection has numberOfParents * (numberOfDirectDuels - 2)
   * members when both are positive. The pool itself is only read.
   */
  function TournamentMatingSelect<T>(pool: seq<T>, fit: T -> int, feasible: T -> Result<bool>,
                                     numberOfParents: int, numberOfDirectDuels: int, draws: seq<int>)
    : (r: Result<Population<T>>)
    requires DrawsBelow(draws, |pool|)
    ensures |pool| == 0 && numberOfParents > 0 ==> r == Failure(IllegalArgument)
    ensures r.Success? ==> && |r.value.pool| == Times(Positive(numberOfParents), Positive(numberOfDirectDuels - 2))
                           && r.value.overallFitness.None?
                           && (forall i :: 0 <= i < |r.value.pool| ==> r.value.pool[i] in pool)
                           && SlotsOrdered(r.value.pool, fit, Positive(numberOfDirectDuels - 2), true)
    ensures r.Success? ==> && Positive(numberOfParents) <= |pool|
                           && (numberOfParents > 0 && numberOfDirectDuels > 2 ==> numberOfParents < |pool|)
  {
    match LowSlots(pool, fit, feasible, Positive(numberOfParents), Positive(numberOfDirectDuels - 2),
                   TourState([], NewPopulation(), 0, []), draws)
    case Failure(e) => Failure(e)
    case Success(st) =>
      assert st.selection.pool[0..] == st.selection.pool;
      DistinctBelow(st.used, |pool|);
      Success(st.selection)
  }

  /** A successful run of duels is one duel, then the remaining duels from its result. */
  lemma LowDuelsFirst<T>(pool: seq<T>, fit: T -> int, feasible: T -> Result<bool>, index: nat, count: nat,
                         st: TourState<T>, draws: seq<int>, r: TourState<T>)
    returns (winner: nat, next: TourState<T>)
    requires TourValid(st, |pool|, draws) && DrawsBelow(draws, |pool|) && index < |pool| && index in st.used
    requires count > 0 && LowDuels(pool, fit, feasible, index, count, st, draws) == Success(r)
    ensures LowDuel(pool, fit, feasible, index, st, draws) == Success((winner, next))
    ensures LowDuels(pool, fit, feasible, winner, count - 1, next, draws) == Success(r)
  {
    var step := LowDuel(pool, fit, feasible, index, st, draws).value;
    winner, next := step.0, step.1;
  }

  /** What one successful duel leaves behind: its challenger u, the winner and the grown selection. */
  lemma LowDuelFacts<T>(pool: seq<T>, fit: T -> int, feasible: T -> Result<bool>, index: nat,
                        st: TourState<T>, draws: seq<int>, winner: nat, next: TourState<T>)
    returns (u: int)
    requires TourValid(st, |pool|, draws) && DrawsBelow(draws, |pool|) && index < |pool| && index in st.used
    requires LowDuel(pool, fit, feasible, index, st, draws) == Success((winner, next))
    ensures TourValid(next, |pool|, draws) && winner < |pool| && winner in next.used
    ensures next.picks == st.picks + [u] && 0 <= u < |pool| && u != index
    ensures winner == (if fit(pool[u]) < fit(pool[index]) then u else index)
    ensures next.selection.pool == st.selection.pool + [pool[winner]]
  {
    u := draws[next.at - 1];
  }

  /** A successful run of slots is an unused start, its duels, then the remaining slots. */
  lemma LowSlotsFirst<T>(pool: seq<T>, fit: T -> int, feasible: T -> Result<bool>, slots: nat, duels: nat,
                         st: TourState<T>, draws: seq<int>, r: TourState<T>)
    requires TourValid(st, |pool|, draws) && DrawsBelow(draws, |pool|)
    requires slots > 0 && LowSlots(pool, fit, feasible, slots, duels, st, draws) == Success(r)
    ensures DrawUnused(|pool|, st.used, draws, st.at).Success?
    ensures var drawn := DrawUnused(|pool|, st.used, draws, st.at).value;
            var start := TourState(st.used + [drawn.0], st.selection, drawn.1, st.picks + [drawn.0]);
            && TourValid(start, |pool|, draws) && drawn.0 < |pool| && drawn.0 in start.used
            && LowDuels(pool, fit, feasible, drawn.0, duels, start, draws).Success?
            && LowSlots(pool, fit, feasible, slots - 1, duels, LowDuels(pool, fit, feasible, drawn.0, duels, start, draws).value, draws) == Success(r)
  {
  }

  /**
   * The duels of one slot run the reference tournament: the accepted challengers follow
   * the earlier picks, each added member is the running winner (lower fitness wins) over
   * the slot's start and the challengers so far, and no challenger is the index it meets.
   */
  lemma {:induction false} LowDuelsChampions<T>(pool: seq<T>, fit: T -> int, feasible: T -> Result<bool>, index: nat, count: nat,
                                                st: TourState<T>, draws: seq<int>, r: TourState<T>)
    requires TourValid(st, |pool|, draws) && DrawsBelow(draws, |pool|) && index < |pool| && index in st.used
    requires LowDuels(pool, fit, feasible, index, count, st, draws) == Success(r)
    ensures |r.picks| == |st.picks| + count && r.picks[..|st.picks|] == st.picks
    ensures var challengers := r.picks[|st.picks|..];
            var winners := Champions(pool, fit, index, challengers, true);
            && Fielded(r.selection.pool[|st.selection.pool|..], pool, winners)
            && Contested(index, challengers, winners)
    decreases count
  {
    if count == 0 {
      assert r == st;
      assert st.selection.pool[|st.selection.pool|..] == [];
      assert st.picks[..|st.picks|] == st.picks && st.picks[|st.picks|..] == [];
    } else {
      var winner, next := LowDuelsFirst(pool, fit, feasible, index, count, st, draws, r);
      assert TourValid(next, |pool|, draws);
      assert winner < |pool| && winner in next.used;
      assert LowDuels(pool, fit, feasible, winner, count - 1, next, draws) == Success(r);
      LowDuelsChampions(pool, fit, feasible, winner, count - 1, next, draws, r);
      LowDuelStep(pool, fit, feasible, index, st, draws, winner, next, r);
    }
  }

  /** One duel in front of the later duels of the slot, which already run the reference tournament. */
  lemma LowDuelStep<T>(pool: seq<T>, fit: T -> int, feasible: T -> Result<bool>, index: nat,
                       st: TourState<T>, draws: seq<int>, winner: nat, next: TourState<T>, r: TourState<T>)
    requires TourValid(st, |pool|, draws) && DrawsBelow(draws, |pool|) && index < |pool| && index in st.used
    requires LowDuel(pool, fit, feasible, index, st, draws) == Success((winner, next))
    requires |r.picks| >= |next.picks| && r.picks[..|next.picks|] == next.picks && DrawsBelow(r.picks, |pool|)
    requires |r.selection.pool| >= |next.selection.pool| && r.selection.pool[..|next.selection.pool|] == next.selection.pool
    requires var challengers := r.picks[|next.picks|..];
             var winners := Champions(pool, fit, winner, challengers, true);
             && Fielded(r.selection.pool[|next.selection.pool|..], pool, winners)
             && Contested(winner, challengers, winners)
    ensures |r.picks| >= |st.picks| && r.picks[..|st.picks|] == st.picks
    ensures var challengers := r.picks[|st.picks|..];
            var winners := Champions(pool, fit, index, challengers, true);
            && Fielded(r.selection.pool[|st.selection.pool|..], pool, winners)
            && Contested(index, challengers, winners)
  {
    var u := LowDuelFacts(pool, fit, feasible, index, st, draws, winner, next);
    DuelFielded(pool, fit, index, u, winner, st.picks, next.picks, r.picks,
                st.selection.pool, next.selection.pool, r.selection.pool);
    DuelContested(pool, fit, index, u, winner, st.picks, next.picks, r.picks);
  }

  /**
   * The slots run the reference tournament slot by slot over the indices accepted from the
   * stream: each slot's start, then its challengers.
   */
  lemma {:induction false} LowSlotsChampions<T>(pool: seq<T>, fit: T -> int, feasible: T -> Result<bool>, slots: nat, duels: nat,
                                                st: TourState<T>, draws: seq<int>, r: TourState<T>)
    requires TourValid(st, |pool|, draws) && DrawsBelow(draws, |pool|)
    requires LowSlots(pool, fit, feasible, slots, duels, st, draws) == Success(r)
    ensures |r.picks| == |st.picks| + Times(slots, duels + 1) && r.picks[..|st.picks|] == st.picks
    ensures Fielded(r.selection.pool[|st.selection.pool|..], pool, SlotsChampions(pool, fit, r.picks[|st.picks|..], slots, duels, true))
    decreases slots
  {
    if slots == 0 {
      assert r == st;
      assert st.selection.pool[|st.selection.pool|..] == [];
      assert st.picks[..|st.picks|] == st.picks;
    } else {
      LowSlotsFirst(pool, fit, feasible, slots, duels, st, draws, r);
      var drawn := DrawUnused(|pool|, st.used, draws, st.at).value;
      var start := TourState(st.used + [drawn.0], st.selection, drawn.1, st.picks + [drawn.0]);
      var after := LowDuels(pool, fit, feasible, drawn.0, duels, start, draws).value;
      LowDuelsChampions(pool, fit, feasible, drawn.0, duels, start, draws, after);
      LowSlotsChampions(pool, fit, feasible, slots - 1, duels, after, draws, r);
      SlotOffset(slots, duels);
      LowSlotFielded(pool, fit, slots, duels, drawn.0, st.picks, after.picks, r.picks,
                     st.selection.pool, after.selection.pool, r.selection.pool);
    }
  }

  /**
   * TournamentMatingSelect's selection is the reference tournament's: there are accepted
   * draws, one start and max(0, numberOfDirectDuels - 2) challengers per parent slot, whose
   * running winners (lower fitness wins) are exactly the selected individuals, in order.
   */
  lemma TournamentMatingSelectChampions<T>(pool: seq<T>, fit: T -> int, feasible: T -> Result<bool>,
                                           numberOfParents: int, numberOfDirectDuels: int, draws: seq<int>)
    requires DrawsBelow(draws, |pool|)
    ensures var r := TournamentMatingSelect(pool, fit, feasible, numberOfParents, numberOfDirectDuels, draws);
            r.Success? ==> exists picks: seq<int> ::
              && |picks| == Times(Positive(numberOfParents), Positive(numberOfDirectDuels - 2) + 1)
              && DrawsBelow(picks, |pool|) && (forall k :: 0 <= k < |picks| ==> picks[k] in draws)
              && Fielded(r.value.pool, pool, SlotsChampions(pool, fit, picks, Positive(numberOfParents), Positive(numberOfDirectDuels - 2), true))
  {
    var st := TourState([], NewPopulation(), 0, []);
    var r := LowSlots(pool, fit, feasible, Positive(numberOfParents), Positive(numberOfDirectDuels - 2), st, draws);
    if r.Success? {
      LowSlotsChampions(pool, fit, feasible, Positive(numberOfParents), Positive(numberOfDirectDuels - 2), st, draws, r.value);
      assert r.value.selection.pool[0..] == r.value.selection.pool;
      assert r.value.picks[0..] == r.value.picks;
    }
  }

  /** A count of loop iterations `for (j = 0; j < x; j++)`: x when positive, else none. */
  function Positive(x: int): nat
  {
    if x > 0 then x else 0
  }

  // ---------------------------------------------------------------------------------
  // Tournament with repetitions (higher fitness wins).

  /**
   * The inner loop of one slot of TournamentSelection.select: `count` duels against a
   * drawn challenger; a strictly higher fitness replaces the index, and after every duel
   * the current winner is added. It returns the added members and the stream position.
   */
  function HighDuels<T>(pool: seq<T>, fit: T -> int, index: nat, count: nat, draws: seq<int>, at: nat)
    : (r: Result<(seq<T>, nat)>)
    requires index < |pool| && DrawsBelow(draws, |pool|) && at <= |draws|
    ensures r.Success? ==> && |r.value.0| == count && at <= r.value.1 <= |draws|
                           && (forall i :: 0 <= i < count ==> r.value.0[i] in pool && fit(pool[index]) <= fit(r.value.0[i]))
                           && forall i, j :: 0 <= i < j < count ==> fit(r.value.0[i]) <= fit(r.value.0[j])
    ensures r.Failure? ==> r.error == DrawsExhausted
    decreases count
  {
    if count == 0 then Success(([], at))
    else if at == |draws| then Failure(DrawsExhausted)
    else
      var u := draws[at];
      var winner := if fit(pool[u]) > fit(pool[index]) then u else index;
      match HighDuels(pool, fit, winner, count - 1, draws, at + 1)
      case Failure(e) => Failure(e)
      case Success(rest) => Success(([pool[winner]] + rest.0, rest.1))
  }

  /** The slots of TournamentSelection.select, `slots` of them from stream position `at` on. */
  function HighSlots<T>(pool: seq<T>, fit: T -> int, slots: nat, duels: nat, draws: seq<int>, at: nat)
    : (r: Result<seq<T>>)
    requires DrawsBelow(draws, |pool|) && at <= |draws|
    ensures |pool| == 0 && slots > 0 ==> r == Failure(IllegalArgument)
    ensures r.Failure? ==> r.error in {IllegalArgument, DrawsExhausted}
    ensures r.Success? ==> && |r.value| == Times(slots, duels)
                           && (forall i :: 0 <= i < |r.value| ==> r.value[i] in pool)
                           && SlotsOrdered(r.value, fit, duels, false)
    decreases slots
  {
    if slots == 0 then Success([])
    else if |pool| == 0 then Failure(IllegalArgument)
    else if at == |draws| then Failure(DrawsExhausted)
    else
      match HighDuels(pool, fit, draws[at], duels, draws, at + 1)
      case Failure(e) => Failure(e)
      case Success(slot) =>
        match HighSlots(pool, fit, slots - 1, duels, draws, slot.1)
        case Failure(e) => Failure(e)
        case Success(rest) =>
          SlotOffset(slots, duels);
          assert Ordered(slot.0, fit, false);
          SlotsOrderedCons(slot.0, rest, fit, duels, false);
          Success(slot.0 + rest)
  }

  /**
   * TournamentSelection.select: numberOfParents slots of numberOfDirectDuels - 2 duels
   * each, one pool member added per duel; within a slot the added fitness values never
   * decrease and are at least the slot's first pick (HighDuels).
   */
  function TournamentSelect<T>(pool: seq<T>, fit: T -> int, numberOfParents: int, numberOfDirectDuels: int, draws: seq<int>)
    : (r: Result<seq<T>>)
    requires DrawsBelow(draws, |pool|)
    ensures |pool| == 0 && numberOfParents > 0 ==> r == Failure(IllegalArgument)
    ensures r.Success? ==> && |r.value| == Times(Positive(numberOfParents), Positive(numberOfDirectDuels - 2))
                           && (forall i :: 0 <= i < |r.value| ==> r.value[i] in pool)
                           && SlotsOrdered(r.value, fit, Positive(numberOfDirectDuels - 2), false)
  {
    HighSlots(pool, fit, Positive(numberOfParents), Positive(numberOfDirectDuels - 2), draws, 0)
  }

  /** The duels of one slot succeed exactly when the stream holds `count` more draws. */
  lemma {:induction false} HighDuelsSucceed<T>(pool: seq<T>, fit: T -> int, index: nat, count: nat, draws: seq<int>, at: nat)
    requires index < |pool| && DrawsBelow(draws, |pool|) && at <= |draws|
    ensures var r := HighDuels(pool, fit, index, count, draws, at);
            (r.Success? <==> at + count <= |draws|) && (r.Success? ==> r.value.1 == at + count)
    decreases count
  {
    if count > 0 && at < |draws| {
      var u := draws[at];
      var winner := if fit(pool[u]) > fit(pool[index]) then u else index;
      HighDuelsSucceed(pool, fit, winner, count - 1, draws, at + 1);
    }
  }

  /**
   * The duels of one slot run the reference tournament (higher fitness wins) over the next
   * `count` draws: each added member is the running winner over the start and the
   * challengers so far.
   */
  lemma {:induction false} HighDuelsChampions<T>(pool: seq<T>, fit: T -> int, index: nat, count: nat, draws: seq<int>, at: nat,
                                                 added: seq<T>, end: nat)
    requires index < |pool| && DrawsBelow(draws, |pool|) && at <= |draws|
    requires HighDuels(pool, fit, index, count, draws, at) == Success((added, end))
    ensures end == at + count <= |draws|
    ensures Fielded(added, pool, Champions(pool, fit, index, draws[at..at + count], false))
    decreases count
  {
    HighDuelsSucceed(pool, fit, index, count, draws, at);
    if count == 0 {
      assert draws[at..at] == [];
    } else {
      var u := draws[at];
      var winner := if fit(pool[u]) > fit(pool[index]) then u else index;
      var rest := HighDuels(pool, fit, winner, count - 1, draws, at + 1).value;
      assert added == [pool[winner]] + rest.0 && end == rest.1;
      HighDuelsChampions(pool, fit, winner, count - 1, draws, at + 1, rest.0, rest.1);
      HighDuelStep(pool, fit, index, winner, count, draws, at, rest.0);
    }
  }

  /** The first duel's winner in front of the later duels' members gives the slot's members. */
  lemma HighDuelStep<T>(pool: seq<T>, fit: T -> int, index: nat, winner: int, count: nat, draws: seq<int>, at: nat, later: seq<T>)
    requires index < |pool| && DrawsBelow(draws, |pool|) && 0 < count && at + count <= |draws|
    requires winner == if fit(pool[draws[at]]) > fit(pool[index]) then draws[at] else index
    requires Fielded(later, pool, Champions(pool, fit, winner, draws[at + 1..at + count], false))
    ensures Fielded([pool[winner]] + later, pool, Champions(pool, fit, index, draws[at..at + count], false))
  {
    var challengers := draws[at..at + count];
    assert challengers[0] == draws[at] && challengers[1..] == draws[at + 1..at + count];
    FieldedAppend([pool[winner]], [winner], later, Champions(pool, fit, winner, draws[at + 1..at + count], false), pool);
  }

  /**
   * The slots succeed exactly when there are none, or the pool is non-empty and the stream
   * holds one start and `duels` challengers for each of them.
   */
  lemma {:induction false} HighSlotsSucceed<T>(pool: seq<T>, fit: T -> int, slots: nat, duels: nat, draws: seq<int>, at: nat)
    requires DrawsBelow(draws, |pool|) && at <= |draws|
    ensures var r := HighSlots(pool, fit, slots, duels, draws, at);
            r.Success? <==> slots == 0 || (|pool| > 0 && at + Times(slots, duels + 1) <= |draws|)
    decreases slots
  {
    if slots > 0 {
      assert Times(slots, duels + 1) == Times(slots - 1, duels + 1) + duels + 1;
      if |pool| > 0 && at < |draws| {
        var end := at + 1 + duels;
        HighDuelsSucceed(pool, fit, draws[at], duels, draws, at + 1);
        if end <= |draws| {
          HighSlotsSucceed(pool, fit, slots - 1, duels, draws, end);
        }
      }
    }
  }

  /**
   * The slots run the reference tournament slot by slot over consecutive draws, one start
   * and `duels` challengers each.
   */
  lemma {:induction false} HighSlotsChampions<T>(pool: seq<T>, fit: T -> int, slots: nat, duels: nat, draws: seq<int>, at: nat,
                                                 selected: seq<T>)
    requires DrawsBelow(draws, |pool|) && at <= |draws|
    requires HighSlots(pool, fit, slots, duels, draws, at) == Success(selected)
    ensures Fielded(selected, pool, SlotsChampions(pool, fit, draws[at..], slots, duels, false))
    decreases slots
  {
    if slots > 0 {
      var start, end, first, later := HighSlotsFirst(pool, fit, slots, duels, draws, at, selected);
      HighSlotsChampions(pool, fit, slots - 1, duels, draws, end, later);
      HighSlotStep(pool, fit, slots, duels, draws, at, start, end, first, later);
    }
  }

  /** A successful run of slots is one slot's duels from a drawn start, then the remaining slots. */
  lemma HighSlotsFirst<T>(pool: seq<T>, fit: T -> int, slots: nat, duels: nat, draws: seq<int>, at: nat, selected: seq<T>)
    returns (start: nat, end: nat, first: seq<T>, later: seq<T>)
    requires DrawsBelow(draws, |pool|) && at <= |draws|
    requires 0 < slots && HighSlots(pool, fit, slots, duels, draws, at) == Success(selected)
    ensures at < |draws| && start == draws[at] < |pool| && end == at + 1 + duels <= |draws|
    ensures HighDuels(pool, fit, start, duels, draws, at + 1) == Success((first, end))
    ensures HighSlots(pool, fit, slots - 1, duels, draws, end) == Success(later)
    ensures selected == first + later
  {
    start := draws[at];
    var slot := HighDuels(pool, fit, start, duels, draws, at + 1).value;
    HighDuelsSucceed(pool, fit, start, duels, draws, at + 1);
    first, end := slot.0, slot.1;
    later := HighSlots(pool, fit, slots - 1, duels, draws, end).value;
  }

  /** One slot's duels in front of the later slots' members, over the draws from `at` on. */
  lemma HighSlotStep<T>(pool: seq<T>, fit: T -> int, slots: nat, duels: nat, draws: seq<int>, at: nat, start: nat, end: nat,
                        first: seq<T>, later: seq<T>)
    requires DrawsBelow(draws, |pool|) && 0 < slots && at < |draws| && start == draws[at] < |pool|
    requires HighDuels(pool, fit, start, duels, draws, at + 1) == Success((first, end))
    requires end <= |draws| && Fielded(later, pool, SlotsChampions(pool, fit, draws[end..], slots - 1, duels, false))
    ensures Fielded(first + later, pool, SlotsChampions(pool, fit, draws[at..], slots, duels, false))
  {
    HighDuelsChampions(pool, fit, start, duels, draws, at + 1, first, end);
    var picks := draws[at..];
    assert picks[0] == start && picks[1..duels + 1] == draws[at + 1..end] && picks[duels + 1..] == draws[end..];
    FieldedAppend(first, Champions(pool, fit, start, draws[at + 1..end], false),
                  later, SlotsChampions(pool, fit, draws[end..], slots - 1, duels, false), pool);
  }

  /**
   * TournamentSelect succeeds exactly when it has no slot, or the pool is non-empty and
   * the stream holds numberOfParents * (max(0, numberOfDirectDuels - 2) + 1) draws.
   */
  lemma TournamentSelectSucceeds<T>(pool: seq<T>, fit: T -> int, numberOfParents: int, numberOfDirectDuels: int, draws: seq<int>)
    requires DrawsBelow(draws, |pool|)
    ensures var slots, duels := Positive(numberOfParents), Positive(numberOfDirectDuels - 2);
            var selects := TournamentSelect(pool, fit, numberOfParents, numberOfDirectDuels, draws).Success?;
            selects <==> slots == 0 || (|pool| > 0 && Times(slots, duels + 1) <= |draws|)
  {
    HighSlotsSucceed(pool, fit, Positive(numberOfParents), Positive(numberOfDirectDuels - 2), draws, 0);
  }

  /**
   * TournamentSelect's selection is the reference tournament's (higher fitness wins) read
   * from the front of the stream: one start and max(0, numberOfDirectDuels - 2) challengers per
   * parent slot, numberOfParents * (max(0, numberOfDirectDuels - 2) + 1) draws in all.
   */
  lemma TournamentSelectChampions<T>(pool: seq<T>, fit: T -> int, numberOfParents: int, numberOfDirectDuels: int, draws: seq<int>,
                                     selected: seq<T>)
    requires DrawsBelow(draws, |pool|)
    requires TournamentSelect(pool, fit, numberOfParents, numberOfDirectDuels, draws) == Success(selected)
    ensures var slots, duels := Positive(numberOfParents), Positive(numberOfDirectDuels - 2);
            && Times(slots, duels + 1) <= |draws|
            && Fielded(selected, pool, SlotsChampions(pool, fit, draws, slots, duels, false))
  {
    var slots, duels := Positive(numberOfParents), Positive(numberOfDirectDuels - 2);
    HighSlotsSucceed(pool, fit, slots, duels, draws, 0);
    HighSlotsChampions(pool, fit, slots, duels, draws, 0, selected);
    assert draws[0..] == draws;
  }
}

=== FILE: mutation.dfy ===
/**
 * SwappingNursesMutation: on two random days (drawn once for the whole selection) the
 * nurses at a random slot (drawn per individual) are exchanged through Map.replace with
 * the shift type of the first slot that holds the first nurse; when the individual is no
 * longer feasible, both replacements are undone.
 *
 * Draws come from the stream `draws`: draws[0] and draws[1] are the two days, draws[2 + i]
 * is individual i's slot.
 */
module Mutation {
  import opened Wrappers
  import opened Entities
  import opened Entries
  import opened DayRosters
  import opened Collaborators
  import opened Individuals
  import opened RandomDraws

  // ---------------------------------------------------------------------------------
  // Map.replace on one slot.

  /**
   * replace(st, e) on the map of slot rs: the employee is written only when the slot's
   * shift type is st (a null st matches no slot); the shift type never changes.
   */
  function Replace(day: DayRoster, rs: nat, st: Option<ShiftType>, e: Employee): (r: DayRoster)
    requires rs < |day.slots|
    ensures r.date == day.date && |r.slots| == |day.slots|
    ensures forall j :: 0 <= j < |day.slots| && j != rs ==> r.slots[j] == day.slots[j]
    ensures r.slots[rs].key == day.slots[rs].key
    ensures st != Some(day.slots[rs].key) ==> r == day
  {
    if st == Some(day.slots[rs].key) then DayRoster(day.date, day.slots[rs := Entry(day.slots[rs].key, e)])
    else day
  }

  /** Replacing with the value already there changes nothing. */
  lemma {:induction false} ReplaceSame(day: DayRoster, rs: nat, st: Option<ShiftType>)
    requires rs < |day.slots|
    ensures Replace(day, rs, st, day.slots[rs].value) == day
  {
    if st == Some(day.slots[rs].key) {
      assert day.slots[rs := Entry(day.slots[rs].key, day.slots[rs].value)] == day.slots;
    }
  }

  /** Two replacements of the same slot: the second one wins. */
  lemma ReplaceTwice(day: DayRoster, rs: nat, st: Option<ShiftType>, e: Employee, e': Employee)
    requires rs < |day.slots|
    ensures Replace(Replace(day, rs, st, e), rs, st, e') == Replace(day, rs, st, e')
  {
  }

  /** The days the mutation touches are valid indices, and slot rs exists on both. */
  predicate SwapIndices(roster: seq<DayRoster>, d1: nat, d2: nat, rs: nat)
  {
    d1 < |roster| && d2 < |roster| && rs < |roster[d1].slots| && rs < |roster[d2].slots|
  }

  /** Slot rs of day d1 is replaced with x, then slot rs of day d2 with y. */
  function SwapSlots(roster: seq<DayRoster>, d1: nat, d2: nat, rs: nat, st: Option<ShiftType>, x: Employee, y: Employee)
    : (r: seq<DayRoster>)
    requires SwapIndices(roster, d1, d2, rs)
    ensures |r| == |roster| && SwapIndices(r, d1, d2, rs)
    ensures forall d :: 0 <= d < |roster| && d != d1 && d != d2 ==> r[d] == roster[d]
    ensures forall d :: 0 <= d < |roster| ==> r[d].date == roster[d].date && |r[d].slots| == |roster[d].slots|
  {
    var first := roster[d1 := Replace(roster[d1], rs, st, x)];
    first[d2 := Replace(first[d2], rs, st, y)]
  }

  /**
   * Undoing the exchange with the two original nurses restores the roster exactly,
   * whether or not the replacements matched, and also when both days are the same.
   */
  lemma {:induction false} SwapBackRestores(roster: seq<DayRoster>, d1: nat, d2: nat, rs: nat, st: Option<ShiftType>)
    requires SwapIndices(roster, d1, d2, rs)
    ensures var nurse1 := roster[d1].slots[rs].value;
            var nurse2 := roster[d2].slots[rs].value;
            SwapSlots(SwapSlots(roster, d1, d2, rs, st, nurse2, nurse1), d1, d2, rs, st, nurse1, nurse2) == roster
  {
    var nurse1 := roster[d1].slots[rs].value;
    var nurse2 := roster[d2].slots[rs].value;
    var swapped := SwapSlots(roster, d1, d2, rs, st, nurse2, nurse1);
    var back := SwapSlots(swapped, d1, d2, rs, st, nurse1, nurse2);
    if d1 == d2 {
      ReplaceTwice(roster[d1], rs, st, nurse2, nurse1);
      ReplaceSame(roster[d1], rs, st);
      ReplaceTwice(roster[d1], rs, st, nurse1, nurse2);
      assert back[d1] == roster[d1];
    } else {
      ReplaceTwice(roster[d1], rs, st, nurse2, nurse1);
      ReplaceSame(roster[d1], rs, st);
      ReplaceTwice(roster[d2], rs, st, nurse1, nurse2);
      ReplaceSame(roster[d2], rs, st);
      assert back[d1] == roster[d1] && back[d2] == roster[d2];
    }
    assert forall d :: 0 <= d < |roster| ==> back[d] == roster[d];
  }

  /**
   * When slot rs carries the same shift type on both days and is the first slot of day d1
   * holding its nurse, the two nurses are exchanged.
   */
  lemma SwapExchanges(roster: seq<DayRoster>, d1: nat, d2: nat, rs: nat)
    requires SwapIndices(roster, d1, d2, rs)
    ensures var nurse1 := roster[d1].slots[rs].value;
            var nurse2 := roster[d2].slots[rs].value;
            var r := SwapSlots(roster, d1, d2, rs, ShiftTypeOf(roster[d1], nurse1), nurse2, nurse1);
            d1 != d2 && roster[d2].slots[rs].key == roster[d1].slots[rs].key
            && ShiftTypeOf(roster[d1], nurse1) == Some(roster[d1].slots[rs].key)
            ==> r[d1].slots[rs] == Entry(roster[d1].slots[rs].key, nurse2)
                && r[d2].slots[rs] == Entry(roster[d2].slots[rs].key, nurse1)
  {
  }

  // ---------------------------------------------------------------------------------
  // One individual.

  /**
   * What the mutation may do to an individual: only its day rosters change, and of those
   * only days d1 and d2, with the same dates and slot counts; an individual feasible
   * before is feasible after.
   */
  predicate Mutated(after: Individual, before: Individual, env: Env, d1: int, d2: int)
  {
    && after.(roster := before.roster) == before
    && |after.roster| == |before.roster|
    && (forall d :: 0 <= d < |before.roster| && d != d1 && d != d2 ==> after.roster[d] == before.roster[d])
    && (forall d :: 0 <= d < |before.roster| ==> after.roster[d].date == before.roster[d].date)
    && (IsFeasible(before, env) == Success(true) ==> IsFeasible(after, env) == Success(true))
  }

  /** The draws index existing days and slots, and nextInt(numberOfShifts - 1) has a valid bound. */
  predicate Drawable(ind: Individual, d1: int, d2: int, rs: int)
  {
    && 0 <= d1 < |ind.roster| && 0 <= d2 < |ind.roster| && |ind.roster[d1].slots| - 1 > 0
    && 0 <= rs < |ind.roster[d1].slots| && rs < |ind.roster[d2].slots|
  }

  /**
   * Two different days whose slot rs has the same shift type, slot rs being the first
   * slot of day d1 that holds its nurse: the case in which replace(st, ...) hits both slots.
   */
  predicate Aligned(ind: Individual, d1: int, d2: int, rs: int)
  {
    && Drawable(ind, d1, d2, rs) && d1 != d2
    && ind.roster[d2].slots[rs].key == ind.roster[d1].slots[rs].key
    && ShiftTypeOf(ind.roster[d1], ind.roster[d1].slots[rs].value) == Some(ind.roster[d1].slots[rs].key)
  }

  /** Slot rs of days d1 and d2 hold each other's former nurse under their shift types. */
  predicate Exchanged(after: Individual, before: Individual, d1: nat, d2: nat, rs: nat)
    requires SwapIndices(before.roster, d1, d2, rs)
  {
    && SwapIndices(after.roster, d1, d2, rs)
    && after.roster[d1].slots[rs] == Entry(before.roster[d1].slots[rs].key, before.roster[d2].slots[rs].value)
    && after.roster[d2].slots[rs] == Entry(before.roster[d2].slots[rs].key, before.roster[d1].slots[rs].value)
  }

  /** The individual with both replacements made: the candidate the loop body tests. */
  function Swapped(ind: Individual, d1: int, d2: int, rs: int): (r: Individual)
    requires Drawable(ind, d1, d2, rs)
    ensures r.(roster := ind.roster) == ind && |r.roster| == |ind.roster|
    ensures forall d :: 0 <= d < |ind.roster| && d != d1 && d != d2 ==> r.roster[d] == ind.roster[d]
    ensures Aligned(ind, d1, d2, rs) ==> Exchanged(r, ind, d1, d2, rs)
  {
    var nurse1 := ind.roster[d1].slots[rs].value;
    var nurse2 := ind.roster[d2].slots[rs].value;
    SwapExchanges(ind.roster, d1, d2, rs);
    ind.(roster := SwapSlots(ind.roster, d1, d2, rs, ShiftTypeOf(ind.roster[d1], nurse1), nurse2, nurse1))
  }

  /**
   * The outcome of the loop body on valid draws: the swapped individual when it is
   * feasible, the individual as it was when it is not.
   */
  predicate KeptIffFeasible(after: Individual, before: Individual, env: Env, d1: int, d2: int, rs: int)
  {
    && Drawable(before, d1, d2, rs)
    && (IsFeasible(Swapped(before, d1, d2, rs), env) == Success(true) ==> after == Swapped(before, d1, d2, rs))
    && (IsFeasible(Swapped(before, d1, d2, rs), env) == Success(false) ==> after == before)
  }

  /** The loop body for one individual, with the two day draws and its slot draw. */
  function MutateOne(ind: Individual, env: Env, d1: int, d2: int, rs: int): (r: Result<Individual>)
    ensures 0 <= d1 < |ind.roster| && |ind.roster[d1].slots| - 1 <= 0 ==> r == Failure(IllegalArgument)
    ensures !Drawable(ind, d1, d2, rs) ==> r.Failure? && r.error in {OutOfRange, IllegalArgument}
    ensures Drawable(ind, d1, d2, rs) ==> r.Success? || r == Failure(NullDereference)
    ensures Drawable(ind, d1, d2, rs) && IsFeasible(Swapped(ind, d1, d2, rs), env) == Success(true) ==>
              r == Success(Swapped(ind, d1, d2, rs))
    ensures Drawable(ind, d1, d2, rs) && IsFeasible(Swapped(ind, d1, d2, rs), env) == Success(false) ==>
              r == Success(ind)
    ensures Drawable(ind, d1, d2, rs) && IsFeasible(Swapped(ind, d1, d2, rs), env).Failure? ==>
              r == Failure(IsFeasible(Swapped(ind, d1, d2, rs), env).error)
    ensures r.Success? ==> Mutated(r.value, ind, env, d1, d2) && KeptIffFeasible(r.value, ind, env, d1, d2, rs)
    ensures r.Success? && Aligned(ind, d1, d2, rs) ==> r.value == ind || Exchanged(r.value, ind, d1, d2, rs)
  {
    if !(0 <= d1 < |ind.roster|) then Failure(OutOfRange)
    else if |ind.roster[d1].slots| - 1 <= 0 then Failure(IllegalArgument)
    else if !(0 <= rs < |ind.roster[d1].slots|) || !(0 <= d2 < |ind.roster|) || rs >= |ind.roster[d2].slots| then
      Failure(OutOfRange)
    else
      var nurse1 := ind.roster[d1].slots[rs].value;
      var nurse2 := ind.roster[d2].slots[rs].value;
      var st := ShiftTypeOf(ind.roster[d1], nurse1);
      var swapped := Swapped(ind, d1, d2, rs);
      match IsFeasible(swapped, env)
      case Failure(e) => Failure(e)
      case Success(ok) =>
        if ok then Success(swapped)
        else
          SwapBackRestores(ind.roster, d1, d2, rs, st);
          Success(swapped.(roster := SwapSlots(swapped.roster, d1, d2, rs, st, nurse1, nurse2)))
  }

  // ---------------------------------------------------------------------------------
  // The selection.

  /** rel holds pair by pair from the front, each pair with the matching extra value. */
  predicate Pairwise<T, U>(rel: (T, T, U) -> bool, after: seq<T>, before: seq<T>, extra: seq<U>)
    decreases |before|
  {
    && |after| == |before|
    && (|before| > 0 ==>
          |extra| > 0 && rel(after[0], before[0], extra[0]) && Pairwise(rel, after[1..], before[1..], extra[1..]))
  }

  /** Pairwise relates the elements at every index. */
  lemma {:induction false} PairwiseAt<T, U>(rel: (T, T, U) -> bool, after: seq<T>, before: seq<T>, extra: seq<U>, k: nat)
    requires Pairwise(rel, after, before, extra) && k < |before|
    ensures k < |extra| && rel(after[k], before[k], extra[k])
    decreases k
  {
    if k > 0 {
      PairwiseAt(rel, after[1..], before[1..], extra[1..], k - 1);
    }
  }

  /** One related pair in front of related sequences. */
  lemma PairwiseCons<T, U>(rel: (T, T, U) -> bool, a: T, b: T, u: U, after: seq<T>, before: seq<T>, extra: seq<U>)
    requires rel(a, b, u) && Pairwise(rel, after, before, extra)
    ensures Pairwise(rel, [a] + after, [b] + before, [u] + extra)
  {
    assert ([a] + after)[1..] == after && ([b] + before)[1..] == before && ([u] + extra)[1..] == extra;
  }

  /** PairwiseCons on the suffixes from index i of two sequences. */
  lemma PairwiseConsAt<T, U>(rel: (T, T, U) -> bool, a: T, after: seq<T>, before: seq<T>, extra: seq<U>, i: nat)
    requires i < |before| && i < |extra|
    requires rel(a, before[i], extra[i]) && Pairwise(rel, after, before[i + 1..], extra[i + 1..])
    ensures Pairwise(rel, [a] + after, before[i..], extra[i..])
  {
    PairwiseCons(rel, a, before[i], extra[i], after, before[i + 1..], extra[i + 1..]);
    assert before[i..] == [before[i]] + before[i + 1..];
    assert extra[i..] == [extra[i]] + extra[i + 1..];
  }

  /**
   * What the loop body does to one individual with slot draw rs: the draws index its
   * roster, the period and every other field stay, and once the swap's feasibility is
   * decided the individual afterwards is either the swap or the individual as it was.
   */
  function MutationStep(env: Env, d1: int, d2: int): (rel: (Individual, Individual, int) -> bool)
    ensures forall after: Individual, before: Individual, rs: int :: rel(after, before, rs) ==>
              && Drawable(before, d1, d2, rs)
              && after.period == before.period && after.fitness == before.fitness
              && |after.roster| == |before.roster|
  {
    (after: Individual, before: Individual, rs: int) =>
      Mutated(after, before, env, d1, d2) && KeptIffFeasible(after, before, env, d1, d2, rs)
  }

  /**
   * MutationStep relates exactly the outcomes of the loop body: every individual the
   * body returns is related to the one it started from, and once the swap's
   * feasibility is decided, the one individual related to ind is the body's result.
   */
  lemma MutationStepOfMutateOne(ind: Individual, env: Env, d1: int, d2: int, rs: int, after: Individual)
    ensures MutateOne(ind, env, d1, d2, rs) == Success(after) ==> MutationStep(env, d1, d2)(after, ind, rs)
    ensures MutationStep(env, d1, d2)(after, ind, rs) && IsFeasible(Swapped(ind, d1, d2, rs), env).Success? ==>
              MutateOne(ind, env, d1, d2, rs) == Success(after)
  {
  }

  /** Element-wise Mutated and KeptIffFeasible; individual k is paired with slot draw slotDraws[k]. */
  predicate AllMutated(after: seq<Individual>, before: seq<Individual>, env: Env, d1: int, d2: int, slotDraws: seq<int>)
  {
    Pairwise(MutationStep(env, d1, d2), after, before, slotDraws)
  }

  /** AllMutated relates the individuals at every index, with that index's slot draw. */
  lemma AllMutatedAt(after: seq<Individual>, before: seq<Individual>, env: Env, d1: int, d2: int,
                     slotDraws: seq<int>, k: nat)
    requires AllMutated(after, before, env, d1, d2, slotDraws) && k < |before|
    ensures k < |slotDraws|
    ensures Mutated(after[k], before[k], env, d1, d2) && KeptIffFeasible(after[k], before[k], env, d1, d2, slotDraws[k])
  {
    PairwiseAt(MutationStep(env, d1, d2), after, before, slotDraws, k);
  }

  /** Every individual from i on has its slot draw, and all its draws index its roster. */
  predicate AllDrawable(selection: seq<Individual>, d1: int, d2: int, slotDraws: seq<int>, i: nat)
  {
    && (i < |selection| ==> |selection| <= |slotDraws|)
    && forall k :: i <= k < |selection| && k < |slotDraws| ==> Drawable(selection[k], d1, d2, slotDraws[k])
  }

  /** Every day from `from` on is the same in both individuals. */
  predicate DaysKeptFrom(after: Individual, before: Individual, from: int)
  {
    |after.roster| == |before.roster|
    && forall d :: from <= d < |before.roster| && 0 <= d ==> after.roster[d] == before.roster[d]
  }

  lemma AllDrawableNext(selection: seq<Individual>, d1: int, d2: int, slotDraws: seq<int>, i: nat)
    requires i < |selection|
    ensures AllDrawable(selection, d1, d2, slotDraws, i) <==>
              i < |slotDraws| && Drawable(selection[i], d1, d2, slotDraws[i]) && AllDrawable(selection, d1, d2, slotDraws, i + 1)
  {
  }

  lemma AllMutatedCons(rest: seq<Individual>, selection: seq<Individual>, env: Env, d1: int, d2: int,
                       slotDraws: seq<int>, mutated: Individual, i: nat)
    requires i < |selection| && i < |slotDraws|
    requires MutationStep(env, d1, d2)(mutated, selection[i], slotDraws[i])
    requires AllMutated(rest, selection[i + 1..], env, d1, d2, slotDraws[i + 1..])
    ensures AllMutated([mutated] + rest, selection[i..], env, d1, d2, slotDraws[i..])
  {
    PairwiseConsAt(MutationStep(env, d1, d2), mutated, rest, selection, slotDraws, i);
  }

  /** The loop over the selection from index i on; individual k takes slot draw slotDraws[k]. */
  function MutateFrom(selection: seq<Individual>, env: Env, d1: int, d2: int, slotDraws: seq<int>, i: nat)
    : (r: Result<seq<Individual>>)
    requires i <= |selection|
    decreases |selection| - i
    ensures r.Success? ==> AllMutated(r.value, selection[i..], env, d1, d2, if i <= |slotDraws| then slotDraws[i..] else [])
    ensures r.Failure? ==> r.error in {OutOfRange, IllegalArgument, NullDereference, DrawsExhausted}
    ensures AllDrawable(selection, d1, d2, slotDraws, i) ==> r.Success? || r == Failure(NullDereference)
  {
    if i == |selection| then Success([])
    else if i >= |slotDraws| then
      AllDrawableNext(selection, d1, d2, slotDraws, i);
      Failure(DrawsExhausted)
    else
      AllDrawableNext(selection, d1, d2, slotDraws, i);
      match MutateOne(selection[i], env, d1, d2, slotDraws[i])
      case Failure(e) => Failure(e)
      case Success(mutated) =>
        match MutateFrom(selection, env, d1, d2, slotDraws, i + 1)
        case Failure(e) => Failure(e)
        case Success(rest) =>
          assert (if i + 1 <= |slotDraws| then slotDraws[i + 1..] else []) == slotDraws[i + 1..];
          AllMutatedCons(rest, selection, env, d1, d2, slotDraws, mutated, i);
          assert (if i <= |slotDraws| then slotDraws[i..] else []) == slotDraws[i..];
          Success([mutated] + rest)
  }

  /**
   * mutate: the number of days comes from the first individual (none: index out of
   * range); the two day draws use the bound numberOfDays - 1, which must be positive.
   * The result has the selection's length; each individual is its swapped version when
   * that is feasible and is left as it was otherwise.
   */
  function Mutate(selection: seq<Individual>, env: Env, draws: seq<int>): (r: Result<seq<Individual>>)
    ensures |selection| == 0 ==> r == Failure(OutOfRange)
    ensures |selection| > 0 && |selection[0].roster| - 1 <= 0 ==> r == Failure(IllegalArgument)
    ensures r.Success? ==> |draws| >= 2 && AllMutated(r.value, selection, env, draws[0], draws[1], draws[2..])
    ensures (|selection| > 0 && |selection[0].roster| - 1 > 0 && |draws| >= 2
             && AllDrawable(selection, draws[0], draws[1], draws[2..], 0)) ==> r.Success? || r == Failure(NullDereference)
    ensures r.Failure? ==> r.error in {OutOfRange, IllegalArgument, NullDereference, DrawsExhausted}
  {
    if |selection| == 0 then Failure(OutOfRange)
    else if |selection[0].roster| - 1 <= 0 then Failure(IllegalArgument)
    else if |draws| < 2 then Failure(DrawsExhausted)
    else
      assert selection[0..] == selection;
      MutateFrom(selection, env, draws[0], draws[1], draws[2..], 0)
  }

  /**
   * The day draws are shared and bounded by numberOfDays - 1 of the first individual, so
   * with valid draws no individual is changed on that day or later: the last day is never
   * mutated.
   */
  lemma MutationSkipsLastDay(selection: seq<Individual>, env: Env, draws: seq<int>)
    requires |selection| > 0 && |draws| >= 2
    requires Mutate(selection, env, draws).Success?
    requires DrawsBelow(draws[..2], |selection[0].roster| - 1)
    ensures forall k :: 0 <= k < |selection| ==>
              DaysKeptFrom(Mutate(selection, env, draws).value[k], selection[k], |selection[0].roster| - 1)
  {
    var after := Mutate(selection, env, draws).value;
    var n := |selection[0].roster|;
    assert 0 <= draws[0] < n - 1 && 0 <= draws[1] < n - 1 by {
      assert draws[..2][0] == draws[0] && draws[..2][1] == draws[1];
    }
    forall k | 0 <= k < |selection|
      ensures DaysKeptFrom(after[k], selection[k], n - 1)
    {
      AllMutatedAt(after, selection, env, draws[0], draws[1], draws[2..], k);
    }
  }

  /**
   * Per individual: with its slot draw the swap is kept when the swapped individual is
   * feasible and undone when it is not.
   */
  lemma MutateKeepsFeasibleSwaps(selection: seq<Individual>, env: Env, draws: seq<int>, k: nat)
    requires Mutate(selection, env, draws).Success? && k < |selection|
    ensures 2 + k < |draws| && Drawable(selection[k], draws[0], draws[1], draws[2 + k])
    ensures var s := Swapped(selection[k], draws[0], draws[1], draws[2 + k]);
            && (IsFeasible(s, env) == Success(true) ==> Mutate(selection, env, draws).value[k] == s)
            && (IsFeasible(s, env) == Success(false) ==> Mutate(selection, env, draws).value[k] == selection[k])
  {
    AllMutatedAt(Mutate(selection, env, draws).value, selection, env, draws[0], draws[1], draws[2..], k);
    assert draws[2..][k] == draws[2 + k];
  }
}

=== FILE: numbering.dfy ===
/**
 * The four time-unit numberings of Burke et al. (2001), "Fitness Evaluation for Nurse
 * Scheduling Problems": every (date, shift type) time unit gets a day number, a night
 * number (only for night shifts), a weekend number (only on weekend dates) and a running
 * assignment number. A numbering maps time units, identified by their index in the
 * time-unit registry, to a value or to "undefined" (None), in insertion order.
 */
module Numbering {
  import opened Wrappers
  import opened Entities
  import opened Entries
  import opened SchedulingPeriod
  import opened TimeUnits
  import opened Collaborators

  type Mapping = seq<Entry<nat, Option<int>>>

  datatype Numberings = Numberings(
    registry: seq<TimeUnit>,
    days: Mapping,
    nights: Mapping,
    weekends: Mapping,
    numberOfAssignments: Mapping)

  /** The running values of setupNumberings. */
  datatype Counters = Counters(dayValue: int, nightValue: int, weekendValue: int, assignmentsValue: int)

  /**
   * The inner loop: one time unit per shift type of a single date. Afterwards every
   * shift type has a unit for the date, the registry has only grown at its end, the
   * assignment value has advanced once per shift type and the night value once per
   * night shift type; the day and weekend values are untouched.
   */
  function SetupShiftTypes(isNight: ShiftType -> bool, date: Date, weekend: bool, sts: seq<ShiftType>,
                           n: Numberings, c: Counters): (r: (Numberings, Counters))
    ensures n.registry <= r.0.registry
    ensures forall s :: 0 <= s < |sts| ==> Registered(r.0.registry, date, sts[s])
    decreases |sts|
  {
    if |sts| == 0 then (n, c)
    else
      var st := sts[0];
      var m := Number(n, c, date, st, isNight(st), weekend);
      var r := SetupShiftTypes(isNight, date, weekend, sts[1..], m, Advance(c, isNight(st)));
      RegisteredStays(m.registry, r.0.registry, date, st);
      RegisteredCons(r.0.registry, date, sts);
      r
  }

  /** After each shift type the assignment value advances, and the night value on night shifts. */
  function Advance(c: Counters, night: bool): Counters
  {
    c.(nightValue := if night then c.nightValue + 1 else c.nightValue, assignmentsValue := c.assignmentsValue + 1)
  }

  /** Unit u carries the day, night, weekend and assignment values of counters c. */
  predicate NumberedAt(n: Numberings, u: nat, c: Counters, night: bool, weekend: bool)
  {
    && Get(n.days, u) == Some(Some(c.dayValue))
    && Get(n.nights, u) == Some(if night then Some(c.nightValue) else None)
    && Get(n.weekends, u) == Some(if weekend then Some(c.weekendValue) else None)
    && Get(n.numberOfAssignments, u) == Some(Some(c.assignmentsValue))
  }

  /** Unit u holds the same four values in n and in m. */
  predicate SameValues(n: Numberings, m: Numberings, u: nat)
  {
    && Get(n.days, u) == Get(m.days, u) && Get(n.nights, u) == Get(m.nights, u)
    && Get(n.weekends, u) == Get(m.weekends, u) && Get(n.numberOfAssignments, u) == Get(m.numberOfAssignments, u)
  }

  /**
   * The body of the inner loop: look up (or register) the unit and put its four values.
   * The unit for (date, st) is the first registered one; it gets the values of c, and
   * every other unit keeps its values.
   */
  function Number(n: Numberings, c: Counters, date: Date, st: ShiftType, night: bool, weekend: bool): (r: Numberings)
    ensures n.registry <= r.registry && |r.registry| <= |n.registry| + 1
    ensures Registered(r.registry, date, st)
    ensures NumberedAt(r, Find(r.registry, date, st).value, c, night, weekend)
    ensures forall u :: u != Find(r.registry, date, st).value ==> SameValues(r, n, u)
  {
    var (u, reg) := GetTimeUnit(n.registry, date, st);
    var f := Find(reg, date, st);
    assert f == Some(u);
    Numberings(
      reg,
      Put(n.days, u, Some(c.dayValue)),
      Put(n.nights, u, if night then Some(c.nightValue) else None),
      Put(n.weekends, u, if weekend then Some(c.weekendValue) else None),
      Put(n.numberOfAssignments, u, Some(c.assignmentsValue)))
  }

  /** Some unit of the registry is for (date, st). */
  predicate Registered(registry: seq<TimeUnit>, date: Date, st: ShiftType)
  {
    Find(registry, date, st).Some?
  }

  /** A unit registered in a registry stays registered when the registry grows at its end. */
  lemma RegisteredStays(a: seq<TimeUnit>, b: seq<TimeUnit>, date: Date, st: ShiftType)
    requires a <= b && Registered(a, date, st)
    ensures Registered(b, date, st)
  {
    var i := Find(a, date, st).value;
    assert b[i] == a[i];
  }

  /** Every shift type of a non-empty list is registered when the first one and those of the rest are. */
  lemma RegisteredCons(registry: seq<TimeUnit>, date: Date, sts: seq<ShiftType>)
    requires |sts| > 0 && Registered(registry, date, sts[0])
    requires forall s :: 0 <= s < |sts[1..]| ==> Registered(registry, date, sts[1..][s])
    ensures forall s :: 0 <= s < |sts| ==> Registered(registry, date, sts[s])
  {
    forall s | 1 <= s < |sts| ensures Registered(registry, date, sts[s]) {
      assert sts[s] == sts[1..][s - 1];
    }
  }

  /** Counters r are c with the night value advanced by nights and the assignment value by steps. */
  predicate AdvancedBy(r: Counters, c: Counters, nights: int, steps: int)
  {
    && r.dayValue == c.dayValue && r.nightValue == c.nightValue + nights
    && r.weekendValue == c.weekendValue && r.assignmentsValue == c.assignmentsValue + steps
  }

  /**
   * The inner loop leaves the day and weekend values alone, advances the assignment
   * value once per shift type and the night value once per night shift type.
   */
  lemma {:induction false} ShiftTypesCounters(isNight: ShiftType -> bool, date: Date, weekend: bool,
                                              sts: seq<ShiftType>, n: Numberings, c: Counters)
    ensures AdvancedBy(SetupShiftTypes(isNight, date, weekend, sts, n, c).1, c, NightsBefore(isNight, sts, |sts|), |sts|)
    decreases |sts|
  {
    if |sts| > 0 {
      var a := Advance(c, isNight(sts[0]));
      ShiftTypesFirst(isNight, date, weekend, sts, n, c);
      var m :| SetupShiftTypes(isNight, date, weekend, sts, n, c).1 == SetupShiftTypes(isNight, date, weekend, sts[1..], m, a).1;
      ShiftTypesCounters(isNight, date, weekend, sts[1..], m, a);
      NightsCons(isNight, sts, |sts|);
    }
  }

  /**
   * The counters after a non-empty list are those after the rest, started from the
   * first one's counters and from some numberings.
   */
  lemma ShiftTypesFirst(isNight: ShiftType -> bool, date: Date, weekend: bool, sts: seq<ShiftType>,
                        n: Numberings, c: Counters)
    requires |sts| > 0
    ensures exists m :: SetupShiftTypes(isNight, date, weekend, sts, n, c).1
                     == SetupShiftTypes(isNight, date, weekend, sts[1..], m, Advance(c, isNight(sts[0]))).1
  {
    var m := Number(n, c, date, sts[0], isNight(sts[0]), weekend);
    assert SetupShiftTypes(isNight, date, weekend, sts, n, c).1
        == SetupShiftTypes(isNight, date, weekend, sts[1..], m, Advance(c, isNight(sts[0]))).1;
  }

  /** The night shift types of a non-empty list: the first one, then those of the rest. */
  lemma {:induction false} NightsCons(isNight: ShiftType -> bool, sts: seq<ShiftType>, s: nat)
    requires 0 < s <= |sts|
    ensures NightsBefore(isNight, sts, s) == (if isNight(sts[0]) then 1 else 0) + NightsBefore(isNight, sts[1..], s - 1)
  {
    if s > 1 {
      NightsCons(isNight, sts, s - 1);
      assert sts[1..][s - 2] == sts[s - 1];
    }
  }

  /**
   * The outer loop over the dates of the period; the day and weekend values advance per
   * date. Afterwards every (date, shift type) pair has a registered unit, and the
   * registry has only grown at its end.
   */
  function SetupDates(env: Env, dates: seq<Date>, sts: seq<ShiftType>, n: Numberings, c: Counters): (r: Numberings)
    ensures n.registry <= r.registry
    ensures forall d, s :: 0 <= d < |dates| && 0 <= s < |sts| ==> Registered(r.registry, dates[d], sts[s])
    decreases |dates|
  {
    if |dates| == 0 then n
    else
      var weekend := env.isWeekend(dates[0]);
      var m := SetupShiftTypes(env.isNight, dates[0], weekend, sts, n, c);
      var r := SetupDates(env, dates[1..], sts, m.0, NextDate(m.1, weekend));
      DatesCons(m.0.registry, r.registry, dates, sts);
      r
  }

  /** Every date of a non-empty list has all its units registered when the first one had them earlier and the rest have them. */
  lemma DatesCons(a: seq<TimeUnit>, b: seq<TimeUnit>, dates: seq<Date>, sts: seq<ShiftType>)
    requires |dates| > 0 && a <= b
    requires forall s :: 0 <= s < |sts| ==> Registered(a, dates[0], sts[s])
    requires forall d, s :: 0 <= d < |dates[1..]| && 0 <= s < |sts| ==> Registered(b, dates[1..][d], sts[s])
    ensures forall d, s :: 0 <= d < |dates| && 0 <= s < |sts| ==> Registered(b, dates[d], sts[s])
  {
    forall d, s | 0 <= d < |dates| && 0 <= s < |sts| ensures Registered(b, dates[d], sts[s]) {
      if d == 0 {
        RegisteredStays(a, b, dates[0], sts[s]);
      } else {
        assert dates[d] == dates[1..][d - 1];
      }
    }
  }

  /** After each date the day value advances, and the weekend value on weekend dates. */
  function NextDate(c: Counters, weekend: bool): Counters
  {
    c.(dayValue := c.dayValue + 1, weekendValue := if weekend then c.weekendValue + 1 else c.weekendValue)
  }

  /**
   * setupNumberings: all four numberings for the period's dates and shift types, starting
   * from the given registry and mappings (the static state) with all counters at zero.
   * Every time unit of the period ends up registered, and earlier units keep their place.
   */
  function SetupNumberings(env: Env, period: Period, n: Numberings): (r: Numberings)
    ensures n.registry <= r.registry
    ensures forall d, s :: 0 <= d < |env.listOfDates(period)| && 0 <= s < |period.shiftTypes| ==>
              Registered(r.registry, env.listOfDates(period)[d], period.shiftTypes[s])
  {
    SetupDates(env, env.listOfDates(period), period.shiftTypes, n, Counters(0, 0, 0, 0))
  }

  // ---------------------------------------------------------------------------------
  // Reference values

  /** The number of night shift types among the first `s` of `sts`. */
  function NightsBefore(isNight: ShiftType -> bool, sts: seq<ShiftType>, s: nat): nat
    requires s <= |sts|
  {
    if s == 0 then 0 else NightsBefore(isNight, sts, s - 1) + (if isNight(sts[s - 1]) then 1 else 0)
  }

  /** The number of weekend dates among the first `d` of `dates`. */
  function WeekendsBefore(isWeekend: Date -> bool, dates: seq<Date>, d: nat): nat
    requires d <= |dates|
  {
    if d == 0 then 0 else WeekendsBefore(isWeekend, dates, d - 1) + (if isWeekend(dates[d - 1]) then 1 else 0)
  }

  /** d * size, by repeated addition (keeps the proofs below linear). */
  function Times(d: nat, size: nat): nat
  {
    if d == 0 then 0 else Times(d - 1, size) + size
  }

  lemma {:induction false} TimesIsProduct(d: nat, size: nat)
    ensures Times(d, size) == d * size
    decreases d
  {
    if d > 0 {
      TimesIsProduct(d - 1, size);
    }
  }

  /** The counters of setupNumberings just before it numbers (date d, shift type s). */
  function CountersAt(env: Env, dates: seq<Date>, sts: seq<ShiftType>, d: nat, s: nat): Counters
    requires d <= |dates| && s <= |sts|
  {
    Counters(d, Times(d, NightsBefore(env.isNight, sts, |sts|)) + NightsBefore(env.isNight, sts, s),
             WeekendsBefore(env.isWeekend, dates, d), Times(d, |sts|) + s)
  }

  /** The night number of unit (d, s): the night units before it, for night shift types only. */
  function NightNumber(isNight: ShiftType -> bool, sts: seq<ShiftType>, d: nat, s: nat): Option<int>
    requires s < |sts|
  {
    if isNight(sts[s]) then Some(Times(d, NightsBefore(isNight, sts, |sts|)) + NightsBefore(isNight, sts, s)) else None
  }

  /** A night unit's number: d full days of night units, then the night units before s on day d. */
  lemma NightNumberValue(isNight: ShiftType -> bool, sts: seq<ShiftType>, d: nat, s: nat)
    requires s < |sts|
    ensures NightNumber(isNight, sts, d, s)
         == if isNight(sts[s]) then Some(d * NightsBefore(isNight, sts, |sts|) + NightsBefore(isNight, sts, s)) else None
  {
    TimesIsProduct(d, NightsBefore(isNight, sts, |sts|));
  }

  /** (d, s) is a loop position: before shift type s of date d, or the end of the loops. */
  predicate Position(dates: seq<Date>, sts: seq<ShiftType>, d: nat, s: nat)
  {
    (d < |dates| && s <= |sts|) || (d == |dates| && s == 0)
  }

  /** Unit (d', s') comes before position (d, s) in loop order. */
  predicate Before(d': nat, s': nat, d: nat, s: nat)
  {
    d' < d || (d' == d && s' < s)
  }

  /** The numberings with one more row, for a unit not registered before. */
  function Appended(n: Numberings, c: Counters, date: Date, st: ShiftType, night: bool, weekend: bool): Numberings
  {
    var k := |n.registry|;
    Numberings(
      n.registry + [TimeUnit(date, st, [])],
      n.days + [Entry(k, Some(c.dayValue))],
      n.nights + [Entry(k, if night then Some(c.nightValue) else None)],
      n.weekends + [Entry(k, if weekend then Some(c.weekendValue) else None)],
      n.numberOfAssignments + [Entry(k, Some(c.assignmentsValue))])
  }

  /** The reference: what a fresh numbering holds at loop position (d, s), one appended row per unit. */
  function RefAt(env: Env, dates: seq<Date>, sts: seq<ShiftType>, d: nat, s: nat): Numberings
    requires |sts| > 0 && Position(dates, sts, d, s)
    decreases d, s
  {
    if s > 0 then
      Appended(RefAt(env, dates, sts, d, s - 1), CountersAt(env, dates, sts, d, s - 1), dates[d], sts[s - 1],
               env.isNight(sts[s - 1]), env.isWeekend(dates[d]))
    else if d > 0 then RefAt(env, dates, sts, d - 1, |sts|)
    else Numberings([], [], [], [], [])
  }

  /** The key of every entry is its position. */
  predicate Indexed(m: Mapping)
  {
    forall i :: 0 <= i < |m| ==> m[i].key == i
  }

  /** Five sequences of one length, the mappings keyed by position. */
  predicate Shaped(n: Numberings, count: nat)
  {
    && |n.registry| == count && |n.days| == count && |n.nights| == count
    && |n.weekends| == count && |n.numberOfAssignments| == count
    && Indexed(n.days) && Indexed(n.nights) && Indexed(n.weekends) && Indexed(n.numberOfAssignments)
  }

  lemma AppendedShaped(n: Numberings, count: nat, c: Counters, date: Date, st: ShiftType, night: bool, weekend: bool)
    requires Shaped(n, count)
    ensures Shaped(Appended(n, c, date, st, night, weekend), count + 1)
  {
    var n' := Appended(n, c, date, st, night, weekend);
    assert forall i :: 0 <= i < count ==> n'.days[i] == n.days[i] && n'.nights[i] == n.nights[i];
    assert forall i :: 0 <= i < count ==> n'.weekends[i] == n.weekends[i] && n'.numberOfAssignments[i] == n.numberOfAssignments[i];
  }

  /** After the units before (d, s), Times(d, S) + s rows are numbered, each keyed by its position. */
  lemma {:induction false} RefShape(env: Env, dates: seq<Date>, sts: seq<ShiftType>, d: nat, s: nat)
    requires |sts| > 0 && Position(dates, sts, d, s)
    ensures Shaped(RefAt(env, dates, sts, d, s), Times(d, |sts|) + s)
    decreases d, s
  {
    if s > 0 {
      RefShape(env, dates, sts, d, s - 1);
      AppendedShaped(RefAt(env, dates, sts, d, s - 1), Times(d, |sts|) + s - 1, CountersAt(env, dates, sts, d, s - 1),
                     dates[d], sts[s - 1], env.isNight(sts[s - 1]), env.isWeekend(dates[d]));
    } else if d > 0 {
      RefShape(env, dates, sts, d - 1, |sts|);
    }
  }

  /**
   * Row Times(d, S) + s of a numbering holds the values Burke et al. prescribe for unit (d, s):
   * the unit itself, its day d, its night and weekend values where defined, and its
   * running assignment number.
   */
  predicate RowAt(env: Env, dates: seq<Date>, sts: seq<ShiftType>, n: Numberings, d: nat, s: nat)
    requires d < |dates| && s < |sts|
  {
    var k := Times(d, |sts|) + s;
    var c := CountersAt(env, dates, sts, d, s);
    && k < |n.registry| && k < |n.days| && k < |n.nights| && k < |n.weekends| && k < |n.numberOfAssignments|
    && n.registry[k] == TimeUnit(dates[d], sts[s], [])
    && n.days[k] == Entry(k, Some(d))
    && n.nights[k] == Entry(k, if env.isNight(sts[s]) then Some(c.nightValue) else None)
    && n.weekends[k] == Entry(k, if env.isWeekend(dates[d]) then Some(c.weekendValue) else None)
    && n.numberOfAssignments[k] == Entry(k, Some(k))
  }

  /** Every unit numbered before position (d, s) has its prescribed row. */
  lemma {:induction false} RefRow(env: Env, dates: seq<Date>, sts: seq<ShiftType>, d: nat, s: nat, d': nat, s': nat)
    requires |sts| > 0 && Position(dates, sts, d, s)
    requires d' < |dates| && s' < |sts| && Before(d', s', d, s)
    ensures RowAt(env, dates, sts, RefAt(env, dates, sts, d, s), d', s')
    decreases d, s
  {
    if s > 0 {
      var n := RefAt(env, dates, sts, d, s - 1);
      var c := CountersAt(env, dates, sts, d, s - 1);
      if d' == d && s' == s - 1 {
        RefShape(env, dates, sts, d, s - 1);
        AppendedNewRow(env, dates, sts, n, d, s - 1);
      } else {
        RefRow(env, dates, sts, d, s - 1, d', s');
        AppendedKeepsRow(env, dates, sts, n, c, dates[d], sts[s - 1], env.isNight(sts[s - 1]), env.isWeekend(dates[d]), d', s');
      }
    } else {
      RefRow(env, dates, sts, d - 1, |sts|, d', s');
    }
  }

  /** Appending the row of unit (d, s) at position Times(d, S) + s gives it its prescribed row. */
  lemma AppendedNewRow(env: Env, dates: seq<Date>, sts: seq<ShiftType>, n: Numberings, d: nat, s: nat)
    requires d < |dates| && s < |sts| && Shaped(n, Times(d, |sts|) + s)
    ensures RowAt(env, dates, sts, Appended(n, CountersAt(env, dates, sts, d, s), dates[d], sts[s],
                                             env.isNight(sts[s]), env.isWeekend(dates[d])), d, s)
  {
  }

  /** Appending a row keeps every earlier prescribed row. */
  lemma AppendedKeepsRow(env: Env, dates: seq<Date>, sts: seq<ShiftType>, n: Numberings, c: Counters,
                         date: Date, st: ShiftType, night: bool, weekend: bool, d: nat, s: nat)
    requires d < |dates| && s < |sts| && RowAt(env, dates, sts, n, d, s)
    ensures RowAt(env, dates, sts, Appended(n, c, date, st, night, weekend), d, s)
  {
  }

  /** No registered unit has this date and shift type. */
  predicate Unregistered(registry: seq<TimeUnit>, date: Date, st: ShiftType)
  {
    forall i :: 0 <= i < |registry| ==> !Matches(registry[i], date, st)
  }

  /** With distinct dates and shift types, no unit at or after position (d, s) is registered yet. */
  lemma {:induction false} RefUnregistered(env: Env, dates: seq<Date>, sts: seq<ShiftType>, d: nat, s: nat, d2: nat, s2: nat)
    requires NoDuplicates(dates) && NoDuplicates(sts)
    requires |sts| > 0 && Position(dates, sts, d, s)
    requires d2 < |dates| && s2 < |sts| && !Before(d2, s2, d, s)
    ensures Unregistered(RefAt(env, dates, sts, d, s).registry, dates[d2], sts[s2])
    decreases d, s
  {
    if s > 0 {
      RefUnregistered(env, dates, sts, d, s - 1, d2, s2);
      assert !Matches(TimeUnit(dates[d], sts[s - 1], []), dates[d2], sts[s2]) by {
        if d2 == d {
          assert s - 1 < s2;
        }
      }
    } else if d > 0 {
      RefUnregistered(env, dates, sts, d - 1, |sts|, d2, s2);
    }
  }

  lemma PutFresh(m: Mapping, v: Option<int>)
    requires Indexed(m)
    ensures Put(m, |m|, v) == m + [Entry(|m|, v)]
  {
  }

  /** Numbering a unit that is not registered yet appends one row to the registry and to every mapping. */
  lemma NumberAppends(n: Numberings, c: Counters, date: Date, st: ShiftType, night: bool, weekend: bool)
    requires Unregistered(n.registry, date, st) && Shaped(n, |n.registry|)
    ensures Number(n, c, date, st, night, weekend) == Appended(n, c, date, st, night, weekend)
  {
    PutFresh(n.days, Some(c.dayValue));
    PutFresh(n.nights, if night then Some(c.nightValue) else None);
    PutFresh(n.weekends, if weekend then Some(c.weekendValue) else None);
    PutFresh(n.numberOfAssignments, Some(c.assignmentsValue));
  }

  /** One step of the inner loop: numbering unit (d, s) appends its reference row. */
  lemma InnerStep(env: Env, dates: seq<Date>, sts: seq<ShiftType>, d: nat, s: nat)
    requires NoDuplicates(dates) && NoDuplicates(sts)
    requires d < |dates| && s < |sts|
    ensures Number(RefAt(env, dates, sts, d, s), CountersAt(env, dates, sts, d, s), dates[d], sts[s],
                   env.isNight(sts[s]), env.isWeekend(dates[d]))
         == RefAt(env, dates, sts, d, s + 1)
  {
    RefShape(env, dates, sts, d, s);
    RefUnregistered(env, dates, sts, d, s, d, s);
    NumberAppends(RefAt(env, dates, sts, d, s), CountersAt(env, dates, sts, d, s), dates[d], sts[s],
                  env.isNight(sts[s]), env.isWeekend(dates[d]));
  }

  /** One iteration of the inner loop, unrolled. */
  lemma ShiftTypesUnfold(isNight: ShiftType -> bool, date: Date, weekend: bool, sts: seq<ShiftType>, s0: nat,
                         n: Numberings, c: Counters)
    requires s0 < |sts|
    ensures SetupShiftTypes(isNight, date, weekend, sts[s0..], n, c)
         == SetupShiftTypes(isNight, date, weekend, sts[s0 + 1..], Number(n, c, date, sts[s0], isNight(sts[s0]), weekend),
                            Advance(c, isNight(sts[s0])))
  {
    assert sts[s0..][0] == sts[s0] && sts[s0..][1..] == sts[s0 + 1..];
  }

  /** Numbering shift type s0 of date d moves the inner loop from one reference position to the next. */
  lemma InnerAdvance(env: Env, dates: seq<Date>, sts: seq<ShiftType>, d: nat, s0: nat)
    requires NoDuplicates(dates) && NoDuplicates(sts)
    requires d < |dates| && s0 < |sts|
    ensures SetupShiftTypes(env.isNight, dates[d], env.isWeekend(dates[d]), sts[s0..],
                            RefAt(env, dates, sts, d, s0), CountersAt(env, dates, sts, d, s0))
         == SetupShiftTypes(env.isNight, dates[d], env.isWeekend(dates[d]), sts[s0 + 1..],
                            RefAt(env, dates, sts, d, s0 + 1), CountersAt(env, dates, sts, d, s0 + 1))
  {
    InnerStep(env, dates, sts, d, s0);
    ShiftTypesUnfold(env.isNight, dates[d], env.isWeekend(dates[d]), sts, s0,
                     RefAt(env, dates, sts, d, s0), CountersAt(env, dates, sts, d, s0));
    AdvanceAt(env, dates, sts, d, s0);
  }

  lemma AdvanceAt(env: Env, dates: seq<Date>, sts: seq<ShiftType>, d: nat, s: nat)
    requires d < |dates| && s < |sts|
    ensures Advance(CountersAt(env, dates, sts, d, s), env.isNight(sts[s])) == CountersAt(env, dates, sts, d, s + 1)
  {
  }

  /** The inner loop for date d, from shift type s0 on, appends the reference rows of the date. */
  lemma {:induction false} InnerRows(env: Env, dates: seq<Date>, sts: seq<ShiftType>, d: nat, s0: nat)
    requires NoDuplicates(dates) && NoDuplicates(sts)
    requires d < |dates| && s0 <= |sts| && |sts| > 0
    ensures SetupShiftTypes(env.isNight, dates[d], env.isWeekend(dates[d]), sts[s0..],
                            RefAt(env, dates, sts, d, s0), CountersAt(env, dates, sts, d, s0))
         == (RefAt(env, dates, sts, d, |sts|), CountersAt(env, dates, sts, d, |sts|))
    decreases |sts| - s0
  {
    if s0 < |sts| {
      InnerAdvance(env, dates, sts, d, s0);
      InnerRows(env, dates, sts, d, s0 + 1);
    } else {
      assert sts[s0..] == [];
    }
  }

  /** One iteration of the outer loop, unrolled. */
  lemma DatesUnfold(env: Env, dates: seq<Date>, sts: seq<ShiftType>, d: nat, n: Numberings, c: Counters,
                    r: (Numberings, Counters))
    requires d < |dates| && r == SetupShiftTypes(env.isNight, dates[d], env.isWeekend(dates[d]), sts, n, c)
    ensures SetupDates(env, dates[d..], sts, n, c) == SetupDates(env, dates[d + 1..], sts, r.0, NextDate(r.1, env.isWeekend(dates[d])))
  {
    assert dates[d..][0] == dates[d] && dates[d..][1..] == dates[d + 1..];
  }

  lemma NextDateAt(env: Env, dates: seq<Date>, sts: seq<ShiftType>, d: nat)
    requires d < |dates|
    ensures NextDate(CountersAt(env, dates, sts, d, |sts|), env.isWeekend(dates[d])) == CountersAt(env, dates, sts, d + 1, 0)
  {
  }

  /** Numbering all shift types of date d moves the outer loop to the next date. */
  lemma OuterAdvance(env: Env, dates: seq<Date>, sts: seq<ShiftType>, d: nat)
    requires NoDuplicates(dates) && NoDuplicates(sts)
    requires d < |dates| && |sts| > 0
    ensures SetupDates(env, dates[d..], sts, RefAt(env, dates, sts, d, 0), CountersAt(env, dates, sts, d, 0))
         == SetupDates(env, dates[d + 1..], sts, RefAt(env, dates, sts, d + 1, 0), CountersAt(env, dates, sts, d + 1, 0))
  {
    assert sts[0..] == sts;
    InnerRows(env, dates, sts, d, 0);
    DatesUnfold(env, dates, sts, d, RefAt(env, dates, sts, d, 0), CountersAt(env, dates, sts, d, 0),
                (RefAt(env, dates, sts, d, |sts|), CountersAt(env, dates, sts, d, |sts|)));
    NextDateAt(env, dates, sts, d);
  }

  /** The outer loop from date d on completes the reference numbering of every date. */
  lemma {:induction false} OuterRows(env: Env, dates: seq<Date>, sts: seq<ShiftType>, d: nat)
    requires NoDuplicates(dates) && NoDuplicates(sts)
    requires d <= |dates| && |sts| > 0
    ensures SetupDates(env, dates[d..], sts, RefAt(env, dates, sts, d, 0), CountersAt(env, dates, sts, d, 0))
         == RefAt(env, dates, sts, |dates|, 0)
    decreases |dates| - d
  {
    if d < |dates| {
      OuterAdvance(env, dates, sts, d);
      OuterRows(env, dates, sts, d + 1);
    } else {
      assert dates[d..] == [];
    }
  }

  /** The whole setup from scratch builds the reference numbering. */
  lemma FreshRows(env: Env, period: Period)
    requires NoDuplicates(env.listOfDates(period)) && NoDuplicates(period.shiftTypes) && |period.shiftTypes| > 0
    ensures SetupNumberings(env, period, Numberings([], [], [], [], []))
         == RefAt(env, env.listOfDates(period), period.shiftTypes, |env.listOfDates(period)|, 0)
  {
    var dates := env.listOfDates(period);
    assert dates[0..] == dates;
    OuterRows(env, dates, period.shiftTypes, 0);
  }

  lemma KeysAreIndices(m: Mapping)
    requires Indexed(m)
    ensures DistinctKeys(m)
  {
  }

  lemma GetAt(m: Mapping, k: nat, v: Option<int>)
    requires Indexed(m) && k < |m| && m[k] == Entry(k, v)
    ensures Get(m, k) == Some(v)
  {
    KeysAreIndices(m);
    GetDistinct(m, k);
  }

  /** In a numbering keyed by position, the prescribed row of unit (d, s) at row k is what Map.get finds. */
  lemma LookupRow(env: Env, dates: seq<Date>, sts: seq<ShiftType>, n: Numberings, count: nat, d: nat, s: nat, k: nat)
    requires d < |dates| && s < |sts| && k == Times(d, |sts|) + s
    requires Shaped(n, count) && RowAt(env, dates, sts, n, d, s)
    ensures k < |n.registry| && n.registry[k] == TimeUnit(dates[d], sts[s], [])
    ensures Get(n.numberOfAssignments, k) == Some(Some(k))
    ensures Get(n.days, k) == Some(Some(d))
    ensures Get(n.nights, k) == Some(if env.isNight(sts[s]) then Some(CountersAt(env, dates, sts, d, s).nightValue) else None)
    ensures Get(n.weekends, k) == Some(if env.isWeekend(dates[d]) then Some(WeekendsBefore(env.isWeekend, dates, d)) else None)
  {
    var c := CountersAt(env, dates, sts, d, s);
    GetAt(n.numberOfAssignments, k, Some(k));
    GetAt(n.days, k, Some(d));
    LookupOptional(n.nights, k, env.isNight(sts[s]), c.nightValue);
    LookupOptional(n.weekends, k, env.isWeekend(dates[d]), c.weekendValue);
  }

  lemma LookupOptional(m: Mapping, k: nat, defined: bool, v: int)
    requires Indexed(m) && k < |m| && m[k] == Entry(k, if defined then Some(v) else None)
    ensures Get(m, k) == Some(if defined then Some(v) else None)
  {
    GetAt(m, k, if defined then Some(v) else None);
  }

  /** Unit (d, s) of a numbering, read through Map.get, as position k prescribes it. */
  predicate RowRead(env: Env, dates: seq<Date>, sts: seq<ShiftType>, d: nat, s: nat, k: nat, n: Numberings)
    requires d < |dates| && s < |sts|
  {
    && k < |n.registry| && n.registry[k] == TimeUnit(dates[d], sts[s], [])
    && Get(n.numberOfAssignments, k) == Some(Some(k))
    && Get(n.days, k) == Some(Some(d))
    && Get(n.nights, k) == Some(NightNumber(env.isNight, sts, d, s))
    && Get(n.weekends, k) == Some(if env.isWeekend(dates[d]) then Some(WeekendsBefore(env.isWeekend, dates, d)) else None)
  }

  /** The finished reference numbering holds the prescribed row of every unit, with the products written out. */
  lemma FinalRow(env: Env, dates: seq<Date>, sts: seq<ShiftType>, d: nat, s: nat, n: Numberings)
    requires d < |dates| && s < |sts| && n == RefAt(env, dates, sts, |dates|, 0)
    ensures |n.registry| == |dates| * |sts| && RowRead(env, dates, sts, d, s, d * |sts| + s, n)
  {
    RefShape(env, dates, sts, |dates|, 0);
    RefRow(env, dates, sts, |dates|, 0, d, s);
    RowNumbers(env, dates, sts, d, s, Times(d, |sts|) + s, n);
    TimesIsProduct(d, |sts|);
    TimesIsProduct(|dates|, |sts|);
  }

  /** A numbering of the full shape holding the prescribed row of (d, s), read through Map.get. */
  lemma RowNumbers(env: Env, dates: seq<Date>, sts: seq<ShiftType>, d: nat, s: nat, k: nat, n: Numberings)
    requires d < |dates| && s < |sts| && k == Times(d, |sts|) + s
    requires Shaped(n, Times(|dates|, |sts|)) && RowAt(env, dates, sts, n, d, s)
    ensures |n.registry| == Times(|dates|, |sts|) && RowRead(env, dates, sts, d, s, k, n)
  {
    LookupRow(env, dates, sts, n, Times(|dates|, |sts|), d, s, k);
  }

  /**
   * Numbering from scratch (empty registry and mappings) over distinct dates and distinct
   * shift types: time unit (date d, shift type s) is registered at k = d*S + s, where S is
   * the number of shift types. Its assignment number is k, its day number is d, its night
   * number is the count of night units before it (defined only for night shift types), and
   * its weekend number is the count of weekend dates before d (defined only on weekend dates).
   */
  lemma FreshNumberings(env: Env, period: Period, d: nat, s: nat)
    requires NoDuplicates(env.listOfDates(period)) && NoDuplicates(period.shiftTypes)
    requires d < |env.listOfDates(period)| && s < |period.shiftTypes|
    ensures var dates := env.listOfDates(period);
      var sts := period.shiftTypes;
      var r := SetupNumberings(env, period, Numberings([], [], [], [], []));
      var k := d * |sts| + s;
      && |r.registry| == |dates| * |sts|
      && k < |r.registry|
      && r.registry[k] == TimeUnit(dates[d], sts[s], [])
      && Get(r.numberOfAssignments, k) == Some(Some(k))
      && Get(r.days, k) == Some(Some(d))
      && Get(r.nights, k) == Some(NightNumber(env.isNight, sts, d, s))
      && Get(r.weekends, k) == Some(if env.isWeekend(dates[d]) then Some(WeekendsBefore(env.isWeekend, dates, d)) else None)
  {
    var dates := env.listOfDates(period);
    var sts := period.shiftTypes;
    FreshRows(env, period);
    FinalRow(env, dates, sts, d, s, SetupNumberings(env, period, Numberings([], [], [], [], [])));
  }

  /** All shift types of one date share its day number and its weekend number. */
  lemma SameDateSameValues(env: Env, period: Period, d: nat, s1: nat, s2: nat)
    requires NoDuplicates(env.listOfDates(period)) && NoDuplicates(period.shiftTypes)
    requires d < |env.listOfDates(period)| && s1 < |period.shiftTypes| && s2 < |period.shiftTypes|
    ensures var r := SetupNumberings(env, period, Numberings([], [], [], [], []));
      var S := |period.shiftTypes|;
      && Get(r.days, d * S + s1) == Get(r.days, d * S + s2)
      && Get(r.weekends, d * S + s1) == Get(r.weekends, d * S + s2)
  {
    FreshNumberings(env, period, d, s1);
    FreshNumberings(env, period, d, s2);
  }
}

=== FILE: population.dfy ===
/**
 * A population: a pool of individuals and its memoized overall fitness. The pool is
 * generic in the individual type; `fit` gives an individual's fitness (what its
 * memoized getFitness returns) and `feasible` its isFeasible outcome.
 *
 * sortByFitness is Collections.sort with a comparator on the fitness, a stable sort; it
 * is modelled as a stable insertion sort, and the contract says what stability means:
 * for every fitness value, the individuals of that fitness keep their relative order.
 */
module Populations {
  import opened Wrappers

  datatype Population<T> = Population(pool: seq<T>, overallFitness: Option<int>)

  /** A new population: empty pool, overall fitness not yet computed. */
  function NewPopulation<T>(): (r: Population<T>)
    ensures r.pool == [] && r.overallFitness.None?
  {
    Population([], None)
  }

  /** Population.copy: each individual copied, the overall fitness left to be recomputed. */
  function CopyPopulation<T>(pop: Population<T>, copy: T -> T): (r: Population<T>)
    ensures |r.pool| == |pop.pool|
    ensures forall i :: 0 <= i < |pop.pool| ==> r.pool[i] == copy(pop.pool[i])
    ensures r.overallFitness.None?
  {
    Population(seq(|pop.pool|, i requires 0 <= i < |pop.pool| => copy(pop.pool[i])), None)
  }

  // ---------------------------------------------------------------------------------
  // Adding individuals.

  /**
   * addIndividualToPool: appends a feasible individual; an infeasible one is refused
   * with IndividualNotFeasibleException, and an exception of isFeasible itself passes
   * through. The overall fitness is NOT reset.
   */
  function AddIndividualToPool<T>(pop: Population<T>, x: T, feasible: T -> Result<bool>): (r: Result<Population<T>>)
    ensures r.Success? <==> feasible(x) == Success(true)
    ensures r.Success? ==> r.value == Population(pop.pool + [x], pop.overallFitness)
    ensures feasible(x) == Success(false) ==> r == Failure(NotFeasible)
    ensures feasible(x).Failure? ==> r == Failure(feasible(x).error)
  {
    match feasible(x)
    case Failure(e) => Failure(e)
    case Success(ok) => if !ok then Failure(NotFeasible) else Success(Population(pop.pool + [x], pop.overallFitness))
  }

  /** The feasible individuals of xs, in order. */
  function Feasibles<T>(xs: seq<T>, feasible: T -> Result<bool>): (ys: seq<T>)
    ensures |ys| <= |xs|
  {
    if |xs| == 0 then []
    else (if feasible(xs[0]) == Success(true) then [xs[0]] else []) + Feasibles(xs[1..], feasible)
  }

  /** An individual is kept iff it is one of xs and feasible. */
  lemma {:induction false} FeasiblesMembers<T>(xs: seq<T>, feasible: T -> Result<bool>, y: T)
    ensures y in Feasibles(xs, feasible) <==> y in xs && feasible(y) == Success(true)
  {
    if |xs| > 0 {
      FeasiblesMembers(xs[1..], feasible, y);
      assert xs == [xs[0]] + xs[1..];
    }
  }

  /** isFeasible throws nothing but IndividualNotFeasibleException (the one exception caught) on xs. */
  predicate NoneThrows<T>(xs: seq<T>, feasible: T -> Result<bool>)
  {
    forall i :: 0 <= i < |xs| ==> feasible(xs[i]).Success? || feasible(xs[i]).error == NotFeasible
  }

  /**
   * addIndividualsToPool: each individual in turn through addIndividualToPool; the
   * infeasible ones are skipped, any other exception ends the call.
   */
  function AddIndividualsToPool<T>(pop: Population<T>, xs: seq<T>, feasible: T -> Result<bool>): (r: Result<Population<T>>)
    ensures r.Success? <==> NoneThrows(xs, feasible)
    ensures r.Success? ==> r.value == Population(pop.pool + Feasibles(xs, feasible), pop.overallFitness)
    ensures r.Failure? ==> r.error != NotFeasible && exists i :: 0 <= i < |xs| && feasible(xs[i]) == Failure(r.error)
    decreases |xs|
  {
    if |xs| == 0 then Success(pop)
    else
      var added := AddIndividualToPool(pop, xs[0], feasible);
      if added.Failure? && added.error != NotFeasible then
        assert feasible(xs[0]).Failure?;
        Failure(added.error)
      else
        var next := if added.Success? then added.value else pop;
        var r := AddIndividualsToPool(next, xs[1..], feasible);
        NoneThrowsCons(xs, feasible);
        if r.Failure? then
          ThrowsLater(xs, feasible, r.error);
          r
        else
          r
  }

  /** isFeasible throws nothing else on a non-empty xs exactly when it does not on its head and its tail. */
  lemma NoneThrowsCons<T>(xs: seq<T>, feasible: T -> Result<bool>)
    requires |xs| > 0
    ensures NoneThrows(xs, feasible) <==>
              (feasible(xs[0]).Success? || feasible(xs[0]).error == NotFeasible) && NoneThrows(xs[1..], feasible)
  {
    assert forall i :: 1 <= i < |xs| ==> xs[1..][i - 1] == xs[i];
  }

  /** An exception thrown on the tail of xs is thrown on xs. */
  lemma ThrowsLater<T>(xs: seq<T>, feasible: T -> Result<bool>, e: Error)
    requires |xs| > 0 && exists i :: 0 <= i < |xs[1..]| && feasible(xs[1..][i]) == Failure(e)
    ensures exists i :: 0 <= i < |xs| && feasible(xs[i]) == Failure(e)
  {
    var i :| 0 <= i < |xs[1..]| && feasible(xs[1..][i]) == Failure(e);
    assert feasible(xs[i + 1]) == Failure(e);
  }

  /** Every one of xs passes isFeasible. */
  predicate AllFeasible<T>(xs: seq<T>, feasible: T -> Result<bool>)
  {
    forall i :: 0 <= i < |xs| ==> feasible(xs[i]) == Success(true)
  }

  /** The exception addIndividualToPool raises for an individual it refuses. */
  function Refusal<T>(x: T, feasible: T -> Result<bool>): Error
  {
    if feasible(x).Failure? then feasible(x).error else NotFeasible
  }

  /**
   * Individuals added one after the other through addIndividualToPool, with nothing
   * caught: the first one refused ends the loop with its exception.
   */
  function AddEach<T>(pop: Population<T>, xs: seq<T>, feasible: T -> Result<bool>): (r: Result<Population<T>>)
    ensures r.Success? <==> AllFeasible(xs, feasible)
    ensures r.Success? ==> r.value == Population(pop.pool + xs, pop.overallFitness)
    ensures r.Failure? ==> exists i :: && 0 <= i < |xs| && AllFeasible(xs[..i], feasible)
                                       && feasible(xs[i]) != Success(true) && r.error == Refusal(xs[i], feasible)
    decreases |xs|
  {
    if |xs| == 0 then Success(pop)
    else
      match AddIndividualToPool(pop, xs[0], feasible)
      case Failure(e) =>
        assert xs[..0] == [];
        Failure(e)
      case Success(next) =>
        var r := AddEach(next, xs[1..], feasible);
        assert AllFeasible(xs, feasible) <==> AllFeasible(xs[1..], feasible) by {
          assert forall i :: 1 <= i < |xs| ==> xs[1..][i - 1] == xs[i];
        }
        if r.Failure? then
          var i :| && 0 <= i < |xs[1..]| && AllFeasible(xs[1..][..i], feasible)
                   && feasible(xs[1..][i]) != Success(true) && r.error == Refusal(xs[1..][i], feasible);
          assert xs[..i + 1] == [xs[0]] + xs[1..][..i];
          assert AllFeasible(xs[..i + 1], feasible);
          r
        else
          assert pop.pool + [xs[0]] + xs[1..] == pop.pool + xs;
          r
  }

  // ---------------------------------------------------------------------------------
  // Overall fitness.

  /** The sum of the fitness values of a pool. */
  function SumFitness<T>(s: seq<T>, fit: T -> int): int
  {
    if |s| == 0 then 0 else fit(s[0]) + SumFitness(s[1..], fit)
  }

  /** benchmark: the overall fitness becomes the sum of the individuals' fitness values. */
  function Benchmark<T>(pop: Population<T>, fit: T -> int): (r: Population<T>)
    ensures r.pool == pop.pool
    ensures r.overallFitness == Some(SumFitness(pop.pool, fit))
  {
    pop.(overallFitness := Some(SumFitness(pop.pool, fit)))
  }

  /** getOverallFitness: the memoized value, benchmarking first when there is none. */
  function GetOverallFitness<T>(pop: Population<T>, fit: T -> int): (r: (int, Population<T>))
    ensures r.1.pool == pop.pool && r.1.overallFitness == Some(r.0)
    ensures pop.overallFitness.Some? ==> r == (pop.overallFitness.value, pop)
    ensures pop.overallFitness.None? ==> r.0 == SumFitness(pop.pool, fit)
  {
    match pop.overallFitness
    case Some(v) => (v, pop)
    case None =>
      var b := Benchmark(pop, fit);
      (b.overallFitness.value, b)
  }

  /**
   * The overall fitness is not reset when an individual joins: after a benchmark, adding
   * a feasible individual of nonzero fitness leaves getOverallFitness reporting the old
   * pool's sum, which is no longer the sum of the pool.
   */
  lemma OverallFitnessGoesStale<T>(pop: Population<T>, x: T, fit: T -> int, feasible: T -> Result<bool>)
    requires feasible(x) == Success(true) && fit(x) != 0
    ensures var grown := AddIndividualToPool(Benchmark(pop, fit), x, feasible).value;
            GetOverallFitness(grown, fit).0 == SumFitness(pop.pool, fit)
            && GetOverallFitness(grown, fit).0 != SumFitness(grown.pool, fit)
  {
    SumAppend(pop.pool, x, fit);
  }

  lemma {:induction false} SumAppend<T>(s: seq<T>, x: T, fit: T -> int)
    ensures SumFitness(s + [x], fit) == SumFitness(s, fit) + fit(x)
  {
    if |s| > 0 {
      assert (s + [x])[1..] == s[1..] + [x];
      SumAppend(s[1..], x, fit);
    }
  }

  // ---------------------------------------------------------------------------------
  // Sorting by fitness.

  /** Ascending by fitness: lower fitness (better) first. */
  predicate Sorted<T>(s: seq<T>, fit: T -> int)
  {
    forall i, j :: 0 <= i < j < |s| ==> fit(s[i]) <= fit(s[j])
  }

  /** The individuals of s whose fitness is k, in their order in s. */
  function WithFitness<T>(s: seq<T>, fit: T -> int, k: int): seq<T>
  {
    if |s| == 0 then [] else (if fit(s[0]) == k then [s[0]] else []) + WithFitness(s[1..], fit, k)
  }

  /** x placed after every element whose fitness is at most x's. */
  function Insert<T>(x: T, s: seq<T>, fit: T -> int): (r: seq<T>)
    ensures |r| == |s| + 1
    ensures multiset(r) == multiset(s) + multiset{x}
  {
    if |s| == 0 then [x]
    else if fit(x) < fit(s[0]) then [x] + s
    else
      assert s == [s[0]] + s[1..];
      [s[0]] + Insert(x, s[1..], fit)
  }

  /** The sort: every individual in turn, from the first, inserted into the sorted prefix. */
  function Sort<T>(s: seq<T>, fit: T -> int): (r: seq<T>)
    ensures |r| == |s|
    ensures multiset(r) == multiset(s)
  {
    if |s| == 0 then []
    else
      assert s == s[..|s| - 1] + [s[|s| - 1]];
      Insert(s[|s| - 1], Sort(s[..|s| - 1], fit), fit)
  }

  lemma {:induction false} InsertSorted<T>(x: T, s: seq<T>, fit: T -> int)
    requires Sorted(s, fit)
    ensures Sorted(Insert(x, s, fit), fit)
  {
    if |s| > 0 && fit(x) >= fit(s[0]) {
      InsertSorted(x, s[1..], fit);
      var t := Insert(x, s[1..], fit);
      forall y | y in t ensures fit(s[0]) <= fit(y) {
        assert y in multiset(t);
      }
    }
  }

  /** Nothing in a sorted sequence whose first fitness exceeds k has fitness k. */
  lemma {:induction false} NoneWithFitness<T>(s: seq<T>, fit: T -> int, k: int)
    requires Sorted(s, fit) && |s| > 0 && k < fit(s[0])
    ensures WithFitness(s, fit, k) == []
  {
    if |s| > 1 {
      NoneWithFitness(s[1..], fit, k);
    }
  }

  lemma {:induction false} InsertWithFitness<T>(x: T, s: seq<T>, fit: T -> int, k: int)
    requires Sorted(s, fit)
    ensures WithFitness(Insert(x, s, fit), fit, k) == WithFitness(s, fit, k) + (if fit(x) == k then [x] else [])
  {
    if |s| == 0 {
    } else if fit(x) < fit(s[0]) {
      if fit(x) == k {
        NoneWithFitness(s, fit, k);
      }
      WithFitnessCons(x, s, fit, k);
    } else {
      var rest := Insert(x, s[1..], fit);
      assert Insert(x, s, fit) == [s[0]] + rest;
      assert WithFitness(rest, fit, k) == WithFitness(s[1..], fit, k) + (if fit(x) == k then [x] else []) by {
        InsertWithFitness(x, s[1..], fit, k);
      }
      WithFitnessCons(s[0], rest, fit, k);
    }
  }

  /** The individuals of fitness k in a sequence with y in front. */
  lemma WithFitnessCons<T>(y: T, t: seq<T>, fit: T -> int, k: int)
    ensures WithFitness([y] + t, fit, k) == (if fit(y) == k then [y] else []) + WithFitness(t, fit, k)
  {
    assert ([y] + t)[1..] == t;
  }

  lemma {:induction false} WithFitnessAppend<T>(s: seq<T>, x: T, fit: T -> int, k: int)
    ensures WithFitness(s + [x], fit, k) == WithFitness(s, fit, k) + (if fit(x) == k then [x] else [])
  {
    if |s| > 0 {
      assert (s + [x])[1..] == s[1..] + [x];
      WithFitnessAppend(s[1..], x, fit, k);
    }
  }

  /**
   * The sort is a stable sort by fitness: ascending, and for every fitness value the
   * individuals of that fitness appear in the same order as before (so it is a
   * permutation).
   */
  lemma {:induction false} SortIsStable<T>(s: seq<T>, fit: T -> int)
    ensures Sorted(Sort(s, fit), fit)
    ensures forall k :: WithFitness(Sort(s, fit), fit, k) == WithFitness(s, fit, k)
  {
    if |s| > 0 {
      var init := s[..|s| - 1];
      var last := s[|s| - 1];
      assert s == init + [last];
      SortIsStable(init, fit);
      InsertSorted(last, Sort(init, fit), fit);
      forall k ensures WithFitness(Sort(s, fit), fit, k) == WithFitness(s, fit, k) {
        InsertWithFitness(last, Sort(init, fit), fit, k);
        WithFitnessAppend(init, last, fit, k);
      }
    }
  }

  /** The overall fitness of a pool does not depend on its order. */
  lemma {:induction false} SortKeepsSum<T>(s: seq<T>, fit: T -> int)
    ensures SumFitness(Sort(s, fit), fit) == SumFitness(s, fit)
  {
    if |s| > 0 {
      var init := s[..|s| - 1];
      assert s == init + [s[|s| - 1]];
      SortKeepsSum(init, fit);
      InsertSum(s[|s| - 1], Sort(init, fit), fit);
      SumAppend(init, s[|s| - 1], fit);
    }
  }

  lemma {:induction false} InsertSum<T>(x: T, s: seq<T>, fit: T -> int)
    ensures SumFitness(Insert(x, s, fit), fit) == fit(x) + SumFitness(s, fit)
  {
    if |s| > 0 && fit(x) >= fit(s[0]) {
      InsertSum(x, s[1..], fit);
      assert ([s[0]] + Insert(x, s[1..], fit))[1..] == Insert(x, s[1..], fit);
    } else if |s| > 0 {
      assert ([x] + s)[1..] == s;
    }
  }

  /** sortByFitness: the pool stably sorted, the overall fitness kept. */
  function SortByFitness<T>(pop: Population<T>, fit: T -> int): (r: Population<T>)
    ensures Sorted(r.pool, fit)
    ensures multiset(r.pool) == multiset(pop.pool)
    ensures forall k :: WithFitness(r.pool, fit, k) == WithFitness(pop.pool, fit, k)
    ensures r.overallFitness == pop.overallFitness
  {
    SortIsStable(pop.pool, fit);
    pop.(pool := Sort(pop.pool, fit))
  }

  // ---------------------------------------------------------------------------------
  // The best individual.

  /** Position i holds the first individual of least fitness. */
  ghost predicate FirstBest<T>(s: seq<T>, fit: T -> int, i: int)
  {
    && 0 <= i < |s|
    && (forall j :: 0 <= j < |s| ==> fit(s[i]) <= fit(s[j]))
    && (forall j :: 0 <= j < i ==> fit(s[j]) > fit(s[i]))
  }

  /** The first individual of fitness k leads the individuals of fitness k. */
  lemma {:induction false} FirstWithFitness<T>(s: seq<T>, fit: T -> int, i: nat)
    requires i < |s| && forall j :: 0 <= j < i ==> fit(s[j]) != fit(s[i])
    ensures |WithFitness(s, fit, fit(s[i]))| > 0 && WithFitness(s, fit, fit(s[i]))[0] == s[i]
  {
    if i > 0 {
      FirstWithFitness(s[1..], fit, i - 1);
    }
  }

  /**
   * getBestIndividual: sorts the pool (the population keeps the sorted pool) and returns
   * its first element. An empty pool throws. The individual returned is the one of least
   * fitness that comes first in the pool as it was.
   */
  function GetBestIndividual<T>(pop: Population<T>, fit: T -> int): (r: Result<(T, Population<T>)>)
    ensures r.Failure? <==> |pop.pool| == 0
    ensures r.Failure? ==> r.error == OutOfRange
    ensures r.Success? ==> r.value.1 == SortByFitness(pop, fit)
    ensures r.Success? ==> exists i :: FirstBest(pop.pool, fit, i) && pop.pool[i] == r.value.0
  {
    var sorted := SortByFitness(pop, fit);
    if |sorted.pool| == 0 then Failure(OutOfRange)
    else
      BestIsFirstBest(pop.pool, fit);
      Success((sorted.pool[0], sorted))
  }

  lemma BestIsFirstBest<T>(s: seq<T>, fit: T -> int)
    requires |s| > 0
    ensures exists i :: FirstBest(s, fit, i) && s[i] == Sort(s, fit)[0]
  {
    var r := Sort(s, fit);
    var best := r[0];
    assert best in s && forall j :: 0 <= j < |s| ==> fit(best) <= fit(s[j]) by {
      SortIsStable(s, fit);
      assert best in multiset(s);
      forall j | 0 <= j < |s| ensures fit(best) <= fit(s[j]) {
        assert s[j] in multiset(r);
      }
    }
    var i :| 0 <= i < |s| && s[i] == best;
    var i0 := FirstOf(s, fit, fit(best), i);
    assert FirstBest(s, fit, i0);
    assert s[i0] == best by {
      FirstWithFitness(s, fit, i0);
      FirstWithFitness(r, fit, 0);
      assert WithFitness(r, fit, fit(best)) == WithFitness(s, fit, fit(best)) by {
        SortIsStable(s, fit);
      }
    }
  }

  /** The first position holding fitness k, given one that does. */
  lemma {:induction false} FirstOf<T>(s: seq<T>, fit: T -> int, k: int, i: nat) returns (i0: nat)
    requires i < |s| && fit(s[i]) == k
    ensures i0 <= i && fit(s[i0]) == k && forall j :: 0 <= j < i0 ==> fit(s[j]) != k
  {
    if exists j :: 0 <= j < i && fit(s[j]) == k {
      var j :| 0 <= j < i && fit(s[j]) == k;
      i0 := FirstOf(s, fit, k, j);
    } else {
      i0 := i;
    }
  }
}

=== FILE: recombination.dfy ===
/**
 * The three recombination operators. A child is built from whole day rosters of its
 * parents; days are values here, so a day handed over rather than copied shows as
 * equality with the parent's day.
 *
 * Parents are individuals of the population itself, and the engine mutates some of them
 * in place; the model returns what each operator leaves behind instead.
 */
module Recombination {
  import opened Wrappers
  import opened Entries
  import opened DayRosters
  import opened Collaborators
  import opened Individuals
  import opened Populations
  import opened RandomDraws

  /** isFeasible, as the pools call it. */
  function Feasible(env: Env): Individual -> Result<bool>
  {
    ind => IsFeasible(ind, env)
  }

  /** addIndividualToPool of an individual, in terms of its isFeasible outcome. */
  function AddFeasible(pop: Population<Individual>, ind: Individual, env: Env): (r: Result<Population<Individual>>)
    ensures r.Success? <==> IsFeasible(ind, env) == Success(true)
    ensures r.Success? ==> r.value == Population(pop.pool + [ind], pop.overallFitness)
    ensures r.Failure? ==> r.error in {NotFeasible, NullDereference}
  {
    AddIndividualToPool(pop, ind, Feasible(env))
  }

  // ---------------------------------------------------------------------------------
  // Single-day swap.

  /** The draw nextInt(numberOfDays - 1) can return, whenever that bound is valid. */
  predicate SingleDayDrawValid(parents: seq<Individual>, draw: int)
  {
    |parents| > 0 && |parents[0].roster| - 1 > 0 ==> 0 <= draw < |parents[0].roster| - 1
  }

  /** `after` is `before` with day d replaced by `day`; nothing else changes. */
  predicate DayReplaced(after: Individual, before: Individual, d: nat, day: DayRoster)
  {
    && |after.roster| == |before.roster| && d < |before.roster|
    && after.roster[d] == day
    && (forall k :: 0 <= k < |before.roster| && k != d ==> after.roster[k] == before.roster[k])
    && after.(roster := before.roster) == before
  }

  /**
   * SingleDayRecombination.recombine: parents 0 and 1 exchange their day-r rosters in
   * place (r drawn below numberOfDays - 1, so the last day never moves), and the children
   * are those two parents. Returns the children and the parent list afterwards. The
   * cached fitness is not cleared, so it goes stale.
   */
  function SingleDay(parents: seq<Individual>, draw: int): (r: Result<(seq<Individual>, seq<Individual>)>)
    requires SingleDayDrawValid(parents, draw)
    ensures r.Failure? <==> |parents| < 2 || |parents[0].roster| < 2 || draw >= |parents[1].roster|
    ensures r.Failure? ==> r.error == if |parents| >= 2 && |parents[0].roster| < 2 then IllegalArgument else OutOfRange
    ensures r.Success? ==> && 0 <= draw < |parents[0].roster| - 1
                           && |r.value.1| == |parents| && r.value.0 == r.value.1[..2]
                           && DayReplaced(r.value.1[0], parents[0], draw, parents[1].roster[draw])
                           && DayReplaced(r.value.1[1], parents[1], draw, parents[0].roster[draw])
                           && forall k :: 2 <= k < |parents| ==> r.value.1[k] == parents[k]
  {
    if |parents| < 2 then Failure(OutOfRange)
    else
      var n := |parents[0].roster|;
      if n - 1 <= 0 then Failure(IllegalArgument)
      else
        var parent1 := parents[0];
        var parent2 := parents[1];
        if draw >= |parent2.roster| then Failure(OutOfRange)
        else
          var day1 := parent1.roster[draw];
          var day2 := parent2.roster[draw];
          var child1 := parent1.(roster := parent1.roster[draw := day2]);
          var child2 := parent2.(roster := parent2.roster[draw := day1]);
          var after := parents[0 := child1][1 := child2];
          Success(([child1, child2], after))
  }

  /** Recombining the children again with the same draw gives the two parents back. */
  lemma SingleDayTwice(parents: seq<Individual>, draw: int)
    requires SingleDayDrawValid(parents, draw) && SingleDay(parents, draw).Success?
    ensures var children := SingleDay(parents, draw).value.0;
            SingleDayDrawValid(children, draw) && SingleDay(children, draw).Success?
            && SingleDay(children, draw).value.0 == parents[..2]
  {
    var children := SingleDay(parents, draw).value.0;
    var again := SingleDay(children, draw).value.0;
    assert children[0].roster[draw := children[1].roster[draw]] == parents[0].roster;
    assert children[1].roster[draw := children[0].roster[draw]] == parents[1].roster;
    assert again[0] == parents[0] && again[1] == parents[1];
  }

  // ---------------------------------------------------------------------------------
  // Sequential halves.

  /**
   * The midpoint crossover the first loop writes: a copy of parent1 whose days from
   * numberOfDays / 2 on are parent2's day rosters.
   */
  function Crossover(parent1: Individual, parent2: Individual): (r: Individual)
    requires |parent2.roster| >= |parent1.roster|
    ensures |r.roster| == |parent1.roster|
    ensures forall d :: 0 <= d < |parent1.roster| / 2 ==> r.roster[d] == Individuals.Copy(parent1).roster[d]
    ensures forall d :: |parent1.roster| / 2 <= d < |parent1.roster| ==> r.roster[d] == parent2.roster[d]
    ensures r.(roster := Individuals.Copy(parent1).roster) == Individuals.Copy(parent1)
  {
    var child := Individuals.Copy(parent1);
    var half := |parent1.roster| / 2;
    child.(roster := seq(|child.roster|, d requires 0 <= d < |child.roster| =>
                           if d < half then child.roster[d] else parent2.roster[d]))
  }

  /**
   * SequentialRecombination.recombine: the children start as a copy of all parents;
   * child1 (the crossover of parents 0 and 1) is added, then child2 (a copy of parent 1).
   * The second loop also writes into child1, already in the pool, so what stays there is
   * the crossover of parent 0 with itself. Feasibility is checked on the crossover.
   */
  function Sequential(parents: Population<Individual>, env: Env): (r: Result<Population<Individual>>)
    ensures |parents.pool| < 2 ==> r == Failure(OutOfRange)
    ensures r.Success? <==> && |parents.pool| >= 2
                            && |parents.pool[1].roster| >= |parents.pool[0].roster|
                            && IsFeasible(Crossover(parents.pool[0], parents.pool[1]), env) == Success(true)
                            && IsFeasible(Individuals.Copy(parents.pool[1]), env) == Success(true)
    ensures r.Failure? ==> r.error in {OutOfRange, NotFeasible, NullDereference}
    ensures r.Success? ==> && r.value.pool == CopyPopulation(parents, Individuals.Copy).pool
                                              + [Crossover(parents.pool[0], parents.pool[0]), Individuals.Copy(parents.pool[1])]
                           && r.value.overallFitness.None?
  {
    if |parents.pool| == 0 then Failure(OutOfRange)
    else
      var n := |parents.pool[0].roster|;
      var half := n / 2;
      if |parents.pool| < 2 then Failure(OutOfRange)
      else
        var parent1 := parents.pool[0];
        var parent2 := parents.pool[1];
        if half < n && |parent2.roster| < n then Failure(OutOfRange)
        else
          AddBoth(CopyPopulation(parents, Individuals.Copy), Crossover(parent1, parent2),
                  Individuals.Copy(parent2), Crossover(parent1, parent1), Feasible(env))
  }

  /**
   * The two additions of sequential recombination: `first` (the crossover), then
   * `second` (the copy of parent2); afterwards the first one's slot holds `rewritten`,
   * the value the second loop leaves in the object the pool already refers to.
   */
  function AddBoth<T>(children: Population<T>, first: T, second: T, rewritten: T, feasible: T -> Result<bool>)
    : (r: Result<Population<T>>)
    ensures r.Success? <==> feasible(first) == Success(true) && feasible(second) == Success(true)
    ensures r.Failure? ==> r == Failure(if feasible(first) != Success(true) then Refusal(first, feasible)
                                        else Refusal(second, feasible))
    ensures r.Success? ==> r.value == Population(children.pool + [rewritten, second], children.overallFitness)
  {
    match AddIndividualToPool(children, first, feasible)
    case Failure(e) => Failure(e)
    case Success(withFirst) =>
      match AddIndividualToPool(withFirst, second, feasible)
      case Failure(e) => Failure(e)
      case Success(full) =>
        Success(full.(pool := full.pool[|children.pool| := rewritten]))
  }

  /**
   * The child1 the pool keeps has parent 0's day rosters on every day (when each of its
   * days has distinct shift types, as built days do): the crossover is lost.
   */
  lemma SequentialChildIsParent(parents: Population<Individual>, env: Env)
    requires Sequential(parents, env).Success?
    requires forall d :: 0 <= d < |parents.pool[0].roster| ==> DistinctKeys(parents.pool[0].roster[d].slots)
    ensures Sequential(parents, env).value.pool[|parents.pool|].roster == parents.pool[0].roster
  {
    var p := parents.pool[0];
    var child := Sequential(parents, env).value.pool[|parents.pool|];
    assert child == Crossover(p, p);
    forall d | 0 <= d < |p.roster| ensures child.roster[d] == p.roster[d] {
      if d < |p.roster| / 2 {
        assert Individuals.Copy(p).roster[d] == p.roster[d];
      }
    }
  }

  // ---------------------------------------------------------------------------------
  // Random per-day parentage.

  /**
   * The do-while choosing two parents: two getInt(size - 1) draws at a time until they
   * differ; it returns both and the position after them.
   */
  function DrawPair(size: int, draws: seq<int>, at: nat): (r: Result<(int, int, nat)>)
    requires at <= |draws|
    ensures size - 1 <= 0 ==> r == Failure(IllegalArgument)
    ensures r.Failure? ==> r.error in {IllegalArgument, DrawsExhausted}
    ensures r.Success? ==> && at + 2 <= r.value.2 <= |draws|
                           && r.value.0 == draws[r.value.2 - 2] && r.value.1 == draws[r.value.2 - 1]
                           && r.value.0 != r.value.1
    decreases |draws| - at
  {
    if size - 1 <= 0 then Failure(IllegalArgument)
    else if at + 2 > |draws| then Failure(DrawsExhausted)
    else if draws[at] == draws[at + 1] then DrawPair(size, draws, at + 2)
    else Success((draws[at], draws[at + 1], at + 2))
  }

  /**
   * With two parents getInt(1) only returns 0, so the retry loop never ends: every supply
   * of valid draws runs out.
   */
  lemma {:induction false} DrawPairOfTwo(draws: seq<int>, at: nat)
    requires at <= |draws| && DrawsBelow(draws, 1)
    ensures DrawPair(2, draws, at) == Failure(DrawsExhausted)
    decreases |draws| - at
  {
    if at + 2 <= |draws| {
      assert draws[at] == 0 == draws[at + 1];
      DrawPairOfTwo(draws, at + 2);
    }
  }

  /** Day d of the child comes whole from parent1 or from parent2, at the same position. */
  predicate FromEither(day: DayRoster, parent1: Individual, parent2: Individual, d: nat)
  {
    (d < |parent1.roster| && day == parent1.roster[d]) || (d < |parent2.roster| && day == parent2.roster[d])
  }

  /** The coin of day d: 0 takes parent1's day, anything else parent2's. */
  predicate Coin(day: DayRoster, coin: int, parent1: Individual, parent2: Individual, d: nat)
  {
    if coin == 0 then d < |parent1.roster| && day == parent1.roster[d]
    else d < |parent2.roster| && day == parent2.roster[d]
  }

  /**
   * The per-day coins from day d on: one getInt(0, 1) per day of parent1; 0 takes
   * parent1's day, anything else parent2's.
   */
  function CoinDays(parent1: Individual, parent2: Individual, draws: seq<int>, at: nat, d: nat)
    : (r: Result<(seq<DayRoster>, nat)>)
    requires at <= |draws| && d <= |parent1.roster|
    ensures r.Failure? ==> r.error in {OutOfRange, DrawsExhausted}
    ensures |parent2.roster| >= |parent1.roster| && r.Failure? ==> r.error == DrawsExhausted
    ensures |draws| - at >= |parent1.roster| - d && |parent2.roster| >= |parent1.roster| ==> r.Success?
    ensures r.Success? ==> && |r.value.0| == |parent1.roster| - d && r.value.1 == at + |r.value.0| <= |draws|
                           && forall k :: 0 <= k < |r.value.0| ==> Coin(r.value.0[k], draws[at + k], parent1, parent2, d + k)
    decreases |parent1.roster| - d
  {
    if d == |parent1.roster| then Success(([], at))
    else if at == |draws| then Failure(DrawsExhausted)
    else if draws[at] != 0 && d >= |parent2.roster| then Failure(OutOfRange)
    else
      var day := if draws[at] == 0 then parent1.roster[d] else parent2.roster[d];
      match CoinDays(parent1, parent2, draws, at + 1, d + 1)
      case Failure(e) => Failure(e)
      case Success(rest) =>
        var days := [day] + rest.0;
        assert Coin(days[0], draws[at], parent1, parent2, d);
        assert forall k :: 1 <= k < |days| ==> days[k] == rest.0[k - 1];
        Success((days, rest.1))
  }

  /** One day per day of a, each a's or b's day at that position. */
  predicate DaysFrom(days: seq<DayRoster>, a: Individual, b: Individual)
  {
    |days| == |a.roster| && forall d :: 0 <= d < |days| ==> FromEither(days[d], a, b, d)
  }

  /**
   * What random recombination makes of parents a and b: a copy of a whose day list,
   * after resetRosters, is followed by one day per day of a, each a's or b's day at that
   * position.
   */
  predicate Offspring(child: Individual, a: Individual, b: Individual, env: Env)
  {
    var base := env.resetRosters(Individuals.Copy(a).roster);
    && |child.roster| == |base| + |a.roster|
    && child.roster[..|base|] == base
    && DaysFrom(child.roster[|base|..], a, b)
    && child.(roster := Individuals.Copy(a).roster) == Individuals.Copy(a)
  }

  /**
   * A child of the pool: its two parent positions are distinct pool positions that were
   * drawn, it is their offspring, and it passed the feasibility check.
   */
  predicate Bred(child: Individual, pair: (int, int), pool: seq<Individual>, draws: seq<int>, env: Env)
  {
    && 0 <= pair.0 < |pool| && 0 <= pair.1 < |pool| && pair.0 != pair.1
    && pair.0 in draws && pair.1 in draws
    && Offspring(child, pool[pair.0], pool[pair.1], env)
    && IsFeasible(child, env) == Success(true)
  }

  /** The child of one pair: a copy of the first parent, reset, then the coin-chosen days added. */
  function RandomChild(parent1: Individual, parent2: Individual, env: Env, days: seq<DayRoster>): Individual
  {
    var base := Individuals.Copy(parent1);
    base.(roster := env.resetRosters(base.roster) + days)
  }

  /**
   * The body of the outer loop once the pair is drawn: the days by coin from `at` on,
   * the child through addIndividualToPool. Returns the children, the child and the next
   * position.
   */
  function BreedPair(parent1: Individual, parent2: Individual, env: Env, draws: seq<int>, at: nat,
                     children: Population<Individual>)
    : (r: Result<(Population<Individual>, Individual, nat)>)
    requires at <= |draws|
    ensures r.Failure? ==> r.error in {DrawsExhausted, OutOfRange, NotFeasible, NullDereference}
    ensures r.Success? ==> && at <= r.value.2 <= |draws|
                           && r.value.0 == Population(children.pool + [r.value.1], children.overallFitness)
                           && Offspring(r.value.1, parent1, parent2, env)
                           && IsFeasible(r.value.1, env) == Success(true)
  {
    match CoinChild(parent1, parent2, env, draws, at)
    case Failure(e) => Failure(e)
    case Success(coined) =>
      match AddFeasible(children, coined.0, env)
      case Failure(e) => Failure(e)
      case Success(more) => Success((more, coined.0, coined.1))
  }

  /** The days by coin from `at` on and the child they make. Returns the child and the next position. */
  function CoinChild(parent1: Individual, parent2: Individual, env: Env, draws: seq<int>, at: nat)
    : (r: Result<(Individual, nat)>)
    requires at <= |draws|
    ensures r.Failure? ==> r.error in {DrawsExhausted, OutOfRange}
    ensures r.Success? ==> at <= r.value.1 <= |draws| && Offspring(r.value.0, parent1, parent2, env)
  {
    match CoinDays(parent1, parent2, draws, at, 0)
    case Failure(e) => Failure(e)
    case Success(coined) =>
      OffspringOfCoins(parent1, parent2, env, draws, at, coined.0);
      Success((RandomChild(parent1, parent2, env, coined.0), coined.1))
  }

  /**
   * One iteration of the outer loop: a pair of parents, the days by coin, the child
   * through addIndividualToPool. Returns the children, the pair and the next position.
   */
  function BreedOne(pool: seq<Individual>, env: Env, draws: seq<int>, at: nat, children: Population<Individual>)
    : (r: Result<(Population<Individual>, (int, int), nat)>)
    requires at <= |draws|
    ensures r.Failure? ==> r.error in {IllegalArgument, DrawsExhausted, OutOfRange, NotFeasible, NullDereference}
    ensures |pool| - 1 <= 0 ==> r == Failure(IllegalArgument)
    ensures r.Success? ==> && at < r.value.2 <= |draws|
                           && |r.value.0.pool| == |children.pool| + 1
                           && r.value.0 == Population(children.pool + [r.value.0.pool[|children.pool|]], children.overallFitness)
                           && Bred(r.value.0.pool[|children.pool|], r.value.1, pool, draws, env)
  {
    match DrawPair(|pool|, draws, at)
    case Failure(e) => Failure(e)
    case Success(drawn) =>
      var (a, b, next) := drawn;
      if !(0 <= a < |pool|) || !(0 <= b < |pool|) then Failure(OutOfRange)
      else
        match BreedPair(pool[a], pool[b], env, draws, next, children)
        case Failure(e) => Failure(e)
        case Success(bred) =>
          assert draws[next - 2] in draws && draws[next - 1] in draws;
          assert bred.0.pool[|children.pool|] == bred.1;
          Success((bred.0, (a, b), bred.2))
  }

  /** kids[k] is bred from pairs[k], for every k. */
  predicate AllBred(kids: seq<Individual>, pairs: seq<(int, int)>, pool: seq<Individual>, draws: seq<int>, env: Env)
  {
    |kids| == |pairs| && forall k :: 0 <= k < |kids| ==> Bred(kids[k], pairs[k], pool, draws, env)
  }

  /** A bred child in front of bred children. */
  lemma AllBredCons(kid: Individual, pair: (int, int), kids: seq<Individual>, pairs: seq<(int, int)>,
                    pool: seq<Individual>, draws: seq<int>, env: Env)
    requires Bred(kid, pair, pool, draws, env) && AllBred(kids, pairs, pool, draws, env)
    ensures AllBred([kid] + kids, [pair] + pairs, pool, draws, env)
  {
    var ks := [kid] + kids;
    var ps := [pair] + pairs;
    forall k | 0 <= k < |ks| ensures Bred(ks[k], ps[k], pool, draws, env) {
      if k > 0 {
        assert ks[k] == kids[k - 1] && ps[k] == pairs[k - 1];
      }
    }
  }

  /** `count` more iterations of the outer loop. Returns the children and the pairs drawn. */
  function RandomChildren(pool: seq<Individual>, env: Env, draws: seq<int>, at: nat, count: nat,
                          children: Population<Individual>)
    : (r: Result<(Population<Individual>, seq<(int, int)>)>)
    requires at <= |draws|
    ensures r.Failure? ==> r.error in {IllegalArgument, DrawsExhausted, OutOfRange, NotFeasible, NullDereference}
    ensures count > 0 && |pool| - 1 <= 0 ==> r == Failure(IllegalArgument)
    ensures r.Success? ==> && |r.value.1| == count
                           && |r.value.0.pool| == |children.pool| + count
                           && r.value.0.pool[..|children.pool|] == children.pool
                           && r.value.0.overallFitness == children.overallFitness
                           && AllBred(r.value.0.pool[|children.pool|..], r.value.1, pool, draws, env)
    decreases count
  {
    if count == 0 then Success((children, []))
    else
      match BreedOne(pool, env, draws, at, children)
      case Failure(e) => Failure(e)
      case Success(one) =>
        var more := one.0;
        match RandomChildren(pool, env, draws, one.2, count - 1, more)
        case Failure(e) => Failure(e)
        case Success(rest) =>
          ExtendBred(children.pool, more.pool, rest.0.pool, one.1, rest.1, pool, draws, env);
          Success((rest.0, [one.1] + rest.1))
  }

  /** Children grown by one bred child and then by bred children are bred past the original prefix. */
  lemma ExtendBred(children: seq<Individual>, more: seq<Individual>, all: seq<Individual>, pair: (int, int),
                   pairs: seq<(int, int)>, pool: seq<Individual>, draws: seq<int>, env: Env)
    requires |more| == |children| + 1 && more == children + [more[|children|]] && Bred(more[|children|], pair, pool, draws, env)
    requires |more| <= |all| && all[..|more|] == more && AllBred(all[|more|..], pairs, pool, draws, env)
    ensures all[..|children|] == children && AllBred(all[|children|..], [pair] + pairs, pool, draws, env)
  {
    var n := |children|;
    assert more[..n] == children;
    GrownPrefix(children, more, all);
    AllBredCons(all[n], pair, all[n + 1..], pairs, pool, draws, env);
  }

  /** A pool grown by one and then extended keeps the original as its prefix. */
  lemma GrownPrefix<T>(children: seq<T>, more: seq<T>, all: seq<T>)
    requires |more| == |children| + 1 && more[..|children|] == children
    requires |more| <= |all| && all[..|more|] == more
    ensures all[..|children|] == children && all[|children|] == more[|children|]
    ensures all[|children|..] == [all[|children|]] + all[|children| + 1..]
  {
    var n := |children|;
    assert all[..n] == all[..n + 1][..n];
  }

  /** Days chosen by the coins make the child an offspring of the two parents. */
  lemma OffspringOfCoins(parent1: Individual, parent2: Individual, env: Env, draws: seq<int>, at: nat,
                         days: seq<DayRoster>)
    requires at <= |draws| && CoinDays(parent1, parent2, draws, at, 0) == Success((days, at + |days|))
    ensures Offspring(RandomChild(parent1, parent2, env, days), parent1, parent2, env)
  {
    var child := RandomChild(parent1, parent2, env, days);
    var base := env.resetRosters(Individuals.Copy(parent1).roster);
    assert child.roster[|base|..] == days;
  }

  /**
   * RandomRecombinationOperator.recombine: one child per parent, each from two distinct
   * parent positions and a coin per day. Returns the children and the pairs drawn.
   */
  function RandomRecombination(parents: Population<Individual>, env: Env, draws: seq<int>)
    : (r: Result<(Population<Individual>, seq<(int, int)>)>)
    ensures |parents.pool| == 0 ==> r == Success((NewPopulation(), []))
    ensures |parents.pool| == 1 ==> r == Failure(IllegalArgument)
    ensures r.Failure? ==> r.error in {IllegalArgument, DrawsExhausted, OutOfRange, NotFeasible, NullDereference}
    ensures r.Success? ==> && |r.value.0.pool| == |parents.pool|
                           && r.value.0.overallFitness.None?
                           && AllBred(r.value.0.pool, r.value.1, parents.pool, draws, env)
  {
    match RandomChildren(parents.pool, env, draws, 0, |parents.pool|, NewPopulation())
    case Failure(e) => Failure(e)
    case Success(bred) =>
      assert bred.0.pool[0..] == bred.0.pool;
      Success(bred)
  }

  /** With two parents and valid draws the operator never returns: the draws run out. */
  lemma RandomRecombinationOfTwo(parents: Population<Individual>, env: Env, draws: seq<int>)
    requires |parents.pool| == 2 && DrawsBelow(draws, 1)
    ensures RandomRecombination(parents, env, draws) == Failure(DrawsExhausted)
  {
    DrawPairOfTwo(draws, 0);
  }

  /** With valid draws (below size - 1) the last pool member is never a parent. */
  lemma RandomRecombinationSkipsLast(parents: Population<Individual>, env: Env, draws: seq<int>)
    requires DrawsBelow(draws, |parents.pool| - 1) && RandomRecombination(parents, env, draws).Success?
    ensures var pairs := RandomRecombination(parents, env, draws).value.1;
            forall k :: 0 <= k < |pairs| ==> pairs[k].0 < |parents.pool| - 1 && pairs[k].1 < |parents.pool| - 1
  {
    var pairs := RandomRecombination(parents, env, draws).value.1;
    forall k | 0 <= k < |pairs| ensures pairs[k].0 < |parents.pool| - 1 && pairs[k].1 < |parents.pool| - 1 {
      assert Bred(RandomRecombination(parents, env, draws).value.0.pool[k], pairs[k], parents.pool, draws, env);
    }
  }
}

=== FILE: runs.dfy ===
/**
 * The run-length scan behind Individual.calculateConsecutiveDays (and the consecutive
 * part of calculateWeekends): a walk over per-day flags that keeps, per streak kind,
 * the current streak counter and the smallest and largest value flushed so far.
 *
 * The counter is only incremented when yesterday belonged to the same kind, so a
 * streak of k days is flushed as k - 1, and it is flushed only by a day of the other
 * kind: a streak still open at the last day is never recorded.
 */
module Runs {

  /** The running state of one streak kind: counter, last minimum, last maximum, yesterday. */
  datatype Streak = Streak(current: int, lastMin: int, lastMax: int, yesterday: bool)

  const NoStreak := Streak(0, 0, 0, false)

  /**
   * One day of the scan for one kind; `on` says the day is of this kind. A day of the
   * other kind flushes the counter: the maximum takes it when larger, the minimum takes
   * it when the minimum is still 0 or the counter is positive and smaller.
   */
  function Advance(s: Streak, on: bool): (r: Streak)
    ensures r.yesterday == on && r.lastMax >= s.lastMax
    ensures on ==> r.lastMin == s.lastMin && r.lastMax == s.lastMax && r.current >= s.current
    ensures !on ==> r.current == 0 && r.lastMax >= s.current
    ensures !on && s.lastMin >= 0 && s.current > 0 ==> 0 < r.lastMin <= s.current
  {
    if on then
      Streak(if s.yesterday then s.current + 1 else s.current, s.lastMin, s.lastMax, true)
    else
      Streak(0,
             if s.lastMin == 0 || (s.current > 0 && s.current < s.lastMin) then s.current else s.lastMin,
             if s.current > s.lastMax then s.current else s.lastMax,
             false)
  }

  /**
   * The streak state after the first n flags, for the kind whose days carry flag `b`.
   * Every value in it lies between 0 and the number of days scanned, and `yesterday`
   * says whether the last day scanned was of the kind.
   */
  function ScanTo(flags: seq<bool>, b: bool, n: nat): (r: Streak)
    requires n <= |flags|
    ensures 0 <= r.current <= n && 0 <= r.lastMin <= n && 0 <= r.lastMax <= n
    ensures r.yesterday <==> n > 0 && flags[n - 1] == b
  {
    if n == 0 then NoStreak else Advance(ScanTo(flags, b, n - 1), flags[n - 1] == b)
  }

  // ---------------------------------------------------------------------------------
  // Reference meaning: streaks of the flag sequence.

  /** The number of consecutive `b` flags ending just before position i. */
  function RunBefore(flags: seq<bool>, b: bool, i: nat): (k: nat)
    requires i <= |flags|
    ensures k <= i
  {
    if i == 0 || flags[i - 1] != b then 0 else RunBefore(flags, b, i - 1) + 1
  }

  /** What a day of the other kind at position i records: the streak before it, less one. */
  function FlushValue(flags: seq<bool>, b: bool, i: nat): nat
    requires i <= |flags|
  {
    var k := RunBefore(flags, b, i);
    if k == 0 then 0 else k - 1
  }

  /** Position i (below n) is a day of the other kind, so it flushes the counter. */
  predicate Flushes(flags: seq<bool>, b: bool, n: nat, i: nat)
    requires n <= |flags|
  {
    i < n && flags[i] != b
  }

  /** m is the largest value flushed among the first n days, or 0 when none is positive. */
  ghost predicate IsMaxFlushed(flags: seq<bool>, b: bool, n: nat, m: int)
    requires n <= |flags|
  {
    && 0 <= m
    && (forall i :: Flushes(flags, b, n, i) ==> FlushValue(flags, b, i) <= m)
    && (m == 0 || exists i :: Flushes(flags, b, n, i) && FlushValue(flags, b, i) == m)
  }

  /** m is the smallest positive value flushed among the first n days, or 0 when there is none. */
  ghost predicate IsMinFlushed(flags: seq<bool>, b: bool, n: nat, m: int)
    requires n <= |flags|
  {
    && 0 <= m
    && (m == 0 <==> forall i :: Flushes(flags, b, n, i) ==> FlushValue(flags, b, i) == 0)
    && (m > 0 ==> exists i :: Flushes(flags, b, n, i) && FlushValue(flags, b, i) == m)
    && (m > 0 ==> forall i :: Flushes(flags, b, n, i) && FlushValue(flags, b, i) > 0 ==> m <= FlushValue(flags, b, i))
  }

  /** What the scan state after n days means in terms of the streaks of the flags. */
  ghost predicate Describes(flags: seq<bool>, b: bool, n: nat, s: Streak)
    requires n <= |flags|
  {
    && s.yesterday == (n > 0 && flags[n - 1] == b)
    && s.current == FlushValue(flags, b, n)
    && IsMaxFlushed(flags, b, n, s.lastMax)
    && IsMinFlushed(flags, b, n, s.lastMin)
  }

  lemma {:induction false} ScanDescribes(flags: seq<bool>, b: bool, n: nat)
    requires n <= |flags|
    ensures Describes(flags, b, n, ScanTo(flags, b, n))
  {
    if n > 0 {
      ScanDescribes(flags, b, n - 1);
      if flags[n - 1] == b {
        ExtendDescribes(flags, b, n, ScanTo(flags, b, n - 1));
      } else {
        FlushDescribes(flags, b, n, ScanTo(flags, b, n - 1));
      }
    }
  }

  /** A day of the kind extends the streak and flushes nothing. */
  lemma ExtendDescribes(flags: seq<bool>, b: bool, n: nat, s: Streak)
    requires 0 < n <= |flags| && flags[n - 1] == b && Describes(flags, b, n - 1, s)
    ensures Describes(flags, b, n, Advance(s, true))
  {
    assert forall i :: Flushes(flags, b, n, i) <==> Flushes(flags, b, n - 1, i);
  }

  /** A day of the other kind flushes the streak into the minimum and maximum. */
  lemma FlushDescribes(flags: seq<bool>, b: bool, n: nat, s: Streak)
    requires 0 < n <= |flags| && flags[n - 1] != b && Describes(flags, b, n - 1, s)
    ensures Describes(flags, b, n, Advance(s, false))
  {
    var t := Advance(s, false);
    assert Flushes(flags, b, n, n - 1) && FlushValue(flags, b, n - 1) == s.current;
    assert forall i :: Flushes(flags, b, n, i) <==> Flushes(flags, b, n - 1, i) || i == n - 1;
    if t.lastMin > 0 {
      if s.lastMin == 0 || (s.current > 0 && s.current < s.lastMin) {
        assert t.lastMin == s.current;
      } else {
        assert t.lastMin == s.lastMin;
      }
    }
  }

  /** Only the first n flags matter to the scan after n days. */
  lemma {:induction false} ScanPrefix(flags: seq<bool>, other: seq<bool>, b: bool, n: nat)
    requires n <= |flags| && n <= |other| && flags[..n] == other[..n]
    ensures ScanTo(flags, b, n) == ScanTo(other, b, n)
  {
    if n > 0 {
      assert flags[n - 1] == flags[..n][n - 1] == other[..n][n - 1] == other[n - 1];
      assert flags[..n - 1] == flags[..n][..n - 1];
      assert other[..n - 1] == other[..n][..n - 1];
      ScanPrefix(flags, other, b, n - 1);
    }
  }

  /** The four results of calculateConsecutiveDays for one employee. */
  datatype ConsecutiveDays = ConsecutiveDays(minWork: int, maxWork: int, minFree: int, maxFree: int)

  /**
   * calculateConsecutiveDays over the employee's per-day worked flags: both kinds
   * advance on every day; a worked day is of the work kind, a free day of the free kind.
   */
  function CalculateConsecutiveDays(worked: seq<bool>): (r: ConsecutiveDays)
    ensures IsMinFlushed(worked, true, |worked|, r.minWork) && IsMaxFlushed(worked, true, |worked|, r.maxWork)
    ensures IsMinFlushed(worked, false, |worked|, r.minFree) && IsMaxFlushed(worked, false, |worked|, r.maxFree)
    ensures 0 <= r.minWork <= r.maxWork && 0 <= r.minFree <= r.maxFree
    ensures (forall i :: 0 <= i < |worked| ==> worked[i]) ==> r.minWork == 0 && r.maxWork == 0
    ensures (forall i :: 0 <= i < |worked| ==> !worked[i]) ==> r.minFree == 0 && r.maxFree == 0
  {
    var work := ScanTo(worked, true, |worked|);
    var free := ScanTo(worked, false, |worked|);
    ScanDescribes(worked, true, |worked|);
    ScanDescribes(worked, false, |worked|);
    ConsecutiveDays(work.lastMin, work.lastMax, free.lastMin, free.lastMax)
  }

  /** A streak of k >= 1 days of kind b, starting at j and ended by position j + k, is flushed as k - 1. */
  lemma {:induction false} StreakContributes(flags: seq<bool>, b: bool, j: nat, k: nat)
    requires 1 <= k && j + k < |flags|
    requires j == 0 || flags[j - 1] != b
    requires forall i :: j <= i < j + k ==> flags[i] == b
    requires flags[j + k] != b
    ensures Flushes(flags, b, |flags|, j + k)
    ensures FlushValue(flags, b, j + k) == k - 1
  {
    RunLength(flags, b, j, k);
  }

  lemma {:induction false} RunLength(flags: seq<bool>, b: bool, j: nat, k: nat)
    requires j + k <= |flags|
    requires j == 0 || flags[j - 1] != b
    requires forall i :: j <= i < j + k ==> flags[i] == b
    ensures RunBefore(flags, b, j + k) == k
  {
    if k > 0 {
      RunLength(flags, b, j, k - 1);
    }
  }

  /** A work day added at the end changes no work result: the open streak is never recorded. */
  lemma TrailingWorkIgnored(worked: seq<bool>)
    ensures CalculateConsecutiveDays(worked + [true]).minWork == CalculateConsecutiveDays(worked).minWork
    ensures CalculateConsecutiveDays(worked + [true]).maxWork == CalculateConsecutiveDays(worked).maxWork
  {
    var longer := worked + [true];
    assert longer[..|worked|] == worked[..|worked|];
    ScanPrefix(longer, worked, true, |worked|);
  }

  /** A free day added at the end changes no free result. */
  lemma TrailingFreeIgnored(worked: seq<bool>)
    ensures CalculateConsecutiveDays(worked + [false]).minFree == CalculateConsecutiveDays(worked).minFree
    ensures CalculateConsecutiveDays(worked + [false]).maxFree == CalculateConsecutiveDays(worked).maxFree
  {
    var longer := worked + [false];
    assert longer[..|worked|] == worked[..|worked|];
    ScanPrefix(longer, worked, false, |worked|);
  }

  // ---------------------------------------------------------------------------------
  // Counting flags.

  /** The number of true flags among the first n, counted as the for-each does. */
  function CountTrue(flags: seq<bool>, n: nat): (c: nat)
    requires n <= |flags|
    ensures c <= n
  {
    if n == 0 then 0 else CountTrue(flags, n - 1) + (if flags[n - 1] then 1 else 0)
  }

  /** The positions among the first n whose flag is set. */
  ghost function TruePositions(flags: seq<bool>, n: nat): set<nat>
    requires n <= |flags|
  {
    set i: nat | i < n && flags[i]
  }

  /** The count is the number of positions holding a true flag. */
  lemma {:induction false} CountIsCardinality(flags: seq<bool>, n: nat)
    requires n <= |flags|
    ensures CountTrue(flags, n) == |TruePositions(flags, n)|
  {
    if n > 0 {
      CountIsCardinality(flags, n - 1);
      if flags[n - 1] {
        assert TruePositions(flags, n) == TruePositions(flags, n - 1) + {n - 1};
      } else {
        assert TruePositions(flags, n) == TruePositions(flags, n - 1);
      }
    }
  }
}

=== FILE: sampling.dfy ===
/**
 * The two mating selections over prefix sums of the pool's fitness values: stochastic
 * universal sampling (one pointer advanced in equal steps) and the fitness-proportional
 * selection as written, which scans from position 1 and adds pool[i] once per step of
 * the scan.
 *
 * The prefix sums are floats in the engine; here they are integers, which they equal as
 * long as the sums stay exactly representable. Java's int division truncates toward
 * zero, modelled by JavaDiv.
 */
module Sampling {
  import opened Wrappers
  import opened Populations
  import opened RandomDraws

  // ---------------------------------------------------------------------------------
  // Prefix sums.

  /** The fitness values of pool[0..j] summed. */
  function Cum<T>(pool: seq<T>, fit: T -> int, j: nat): int
    requires j < |pool|
  {
    SumFitness(pool[..j + 1], fit)
  }

  /** The array cumulatedFitness as the selections mean it: cell j holds Cum(pool, fit, j). */
  function PrefixSums<T>(pool: seq<T>, fit: T -> int): (r: seq<int>)
    ensures |r| == |pool| && forall j :: 0 <= j < |pool| ==> r[j] == Cum(pool, fit, j)
  {
    seq(|pool|, j requires 0 <= j < |pool| => Cum(pool, fit, j))
  }

  /** The last prefix sum is the fitness of the whole pool. */
  lemma LastPrefixIsTotal<T>(pool: seq<T>, fit: T -> int)
    requires |pool| > 0
    ensures PrefixSums(pool, fit)[|pool| - 1] == SumFitness(pool, fit)
  {
    assert pool[..|pool|] == pool;
  }

  /**
   * The prefix-sum loop shared by both selections: the first cell is filled before the
   * loop, so an empty pool runs off the list; each later cell adds one fitness value to
   * the cell before.
   */
  method Cumulate<T>(pool: seq<T>, fit: T -> int) returns (r: Result<seq<int>>)
    ensures r.Failure? <==> |pool| == 0
    ensures r.Failure? ==> r.error == OutOfRange
    ensures r.Success? ==> r.value == PrefixSums(pool, fit)
  {
    if |pool| == 0 {
      return Failure(OutOfRange);
    }
    assert pool[..1] == [pool[0]] && pool[..1][1..] == [];
    assert Cum(pool, fit, 0) == fit(pool[0]) + SumFitness([], fit);
    var cum := [fit(pool[0])];
    var i := 1;
    while i < |pool|
      invariant 1 <= i <= |pool| && |cum| == i
      invariant forall j :: 0 <= j < i ==> cum[j] == Cum(pool, fit, j)
    {
      SumAppend(pool[..i], pool[i], fit);
      assert pool[..i + 1] == pool[..i] + [pool[i]];
      cum := cum + [cum[i - 1] + fit(pool[i])];
      i := i + 1;
    }
    return Success(cum);
  }

  /** Java's int division, truncating toward zero. */
  function JavaDiv(a: int, b: int): (q: int)
    requires b != 0
    ensures a >= 0 && b > 0 ==> q == a / b
    ensures (a >= 0) == (b > 0) ==> q >= 0
  {
    if a >= 0 then (if b > 0 then a / b else -(a / -b))
    else (if b > 0 then -((-a) / b) else (-a) / (-b))
  }

  /** j is the first position from `start` on whose prefix sum reaches u. */
  predicate FirstReaching(cum: seq<int>, start: nat, j: nat, u: int)
  {
    && start <= j < |cum| && cum[j] >= u
    && forall m :: start <= m < j ==> cum[m] < u
  }

  /**
   * The scan `while (cumulatedFitness[j] < u) j++` from position j: the first position
   * whose prefix sum reaches u; running past the end throws.
   */
  function Reach(cum: seq<int>, u: int, j: nat): (r: Result<nat>)
    ensures r.Success? ==> FirstReaching(cum, j, r.value, u)
    ensures r.Failure? <==> forall k :: j <= k < |cum| ==> cum[k] < u
    ensures r.Failure? ==> r.error == OutOfRange
    decreases |cum| - j
  {
    if j >= |cum| then Failure(OutOfRange)
    else if cum[j] >= u then Success(j)
    else Reach(cum, u, j + 1)
  }

  // ---------------------------------------------------------------------------------
  // Stochastic universal sampling.

  /** The bound of the one draw: (int) (total + 1) / numberOfParents. */
  function SusBound<T>(pool: seq<T>, fit: T -> int, numberOfParents: int): int
    requires numberOfParents != 0
  {
    JavaDiv(SumFitness(pool, fit) + 1, numberOfParents)
  }

  /**
   * One advance of the pointer: (int) (u + total / numberOfParents), the float division
   * written as one truncating division.
   */
  function Step(u: int, total: int, numberOfParents: int): int
    requires numberOfParents != 0
  {
    JavaDiv(u * numberOfParents + total, numberOfParents)
  }

  /** The pointers start at the draw and each is one Step past the one before. */
  predicate Advances(pointers: seq<int>, draw: int, total: int, numberOfParents: int)
    requires numberOfParents != 0
  {
    && (|pointers| > 0 ==> pointers[0] == draw)
    && forall k :: 0 <= k < |pointers| - 1 ==> pointers[k + 1] == Step(pointers[k], total, numberOfParents)
  }

  /** With a non-negative total and draw, the pointer advances by exactly total / numberOfParents per step. */
  lemma {:induction false} PointerSteps(pointers: seq<int>, draw: int, total: int, numberOfParents: int, k: nat)
    requires numberOfParents > 0 && total >= 0 && draw >= 0
    requires Advances(pointers, draw, total, numberOfParents) && k < |pointers|
    ensures pointers[k] == draw + k * (total / numberOfParents)
  {
    if k > 0 {
      PointerSteps(pointers, draw, total, numberOfParents, k - 1);
      var u := pointers[k - 1];
      assert u >= 0;
      DivShift(u, total, numberOfParents);
      assert pointers[k] == Step(u, total, numberOfParents);
    }
  }

  /** Adding a multiple of the divisor shifts the quotient. */
  lemma DivShift(u: int, total: int, d: int)
    requires d > 0
    ensures (u * d + total) / d == u + total / d
  {
    var q := total / d;
    var r := total % d;
    assert total == q * d + r;
    assert u * d + total == (u + q) * d + r by {
      assert u * d + q * d == (u + q) * d;
    }
    DivUnique(u * d + total, d, u + q, r);
  }

  /** A quotient and remainder in range are the division's. */
  lemma DivUnique(x: int, d: int, q: int, r: int)
    requires d > 0 && 0 <= r < d && x == q * d + r
    ensures x / d == q
  {
    var q' := x / d;
    assert x == q' * d + x % d;
    if q' < q {
      MulLe(q' + 1, q, d);
    } else if q' > q {
      MulLe(q + 1, q', d);
    }
  }

  /** Multiplying by a positive number keeps the order. */
  lemma MulLe(a: int, b: int, d: int)
    requires a <= b && d > 0
    ensures a * d <= b * d
  {
    assert b * d - a * d == (b - a) * d;
  }

  /** The pointer sequence grows by one Step. */
  lemma AdvancesAppend(pointers: seq<int>, draw: int, total: int, numberOfParents: int)
    requires numberOfParents != 0 && |pointers| > 0 && Advances(pointers, draw, total, numberOfParents)
    ensures Advances(pointers + [Step(pointers[|pointers| - 1], total, numberOfParents)], draw, total, numberOfParents)
  {
  }

  /** A prefix of advancing pointers advances. */
  lemma AdvancesPrefix(pointers: seq<int>, draw: int, total: int, numberOfParents: int)
    requires numberOfParents != 0 && |pointers| > 0 && Advances(pointers, draw, total, numberOfParents)
    ensures Advances(pointers[..|pointers| - 1], draw, total, numberOfParents)
  {
  }

  /** The scan start of selection k: where the previous selection stopped. */
  function ScanStart(picks: seq<nat>, k: nat): nat
    requires k <= |picks|
  {
    if k == 0 then 0 else picks[k - 1]
  }

  /**
   * What stochastic universal sampling reports about its picks: selection k is the first
   * position from the previous one on whose prefix sum reaches pointer k.
   */
  predicate SusPicks(cum: seq<int>, picks: seq<nat>, pointers: seq<int>)
    requires |picks| == |pointers|
  {
    forall k {:trigger pointers[k]} :: 0 <= k < |picks| ==> FirstReaching(cum, ScanStart(picks, k), picks[k], pointers[k])
  }

  /** A position found by the scan from where the last selection stopped extends the picks. */
  lemma SusPicksAppend(cum: seq<int>, picks: seq<nat>, pointers: seq<int>, j: nat, u: int)
    requires |picks| == |pointers| && SusPicks(cum, picks, pointers)
    requires FirstReaching(cum, ScanStart(picks, |picks|), j, u)
    ensures SusPicks(cum, picks + [j], pointers + [u])
  {
    var p := picks + [j];
    var q := pointers + [u];
    forall k | 0 <= k < |p| ensures FirstReaching(cum, ScanStart(p, k), p[k], q[k]) {
      if k < |picks| {
        assert p[k] == picks[k] && q[k] == pointers[k] && ScanStart(p, k) == ScanStart(picks, k);
      } else {
        assert p[k] == j && q[k] == u && ScanStart(p, k) == ScanStart(picks, |picks|);
      }
    }
  }

  /** The selected positions stay inside the pool and never go back. */
  lemma SusPicksAscend(cum: seq<int>, picks: seq<nat>, pointers: seq<int>)
    requires |picks| == |pointers| && SusPicks(cum, picks, pointers)
    ensures forall k :: 0 <= k < |picks| ==> picks[k] < |cum|
    ensures forall k, l :: 0 <= k < l < |picks| ==> picks[k] <= picks[l]
  {
    forall k | 0 <= k < |picks| ensures picks[k] < |cum| {
      assert FirstReaching(cum, ScanStart(picks, k), picks[k], pointers[k]);
    }
    forall k, l | 0 <= k < l < |picks| ensures picks[k] <= picks[l] {
      var m := k;
      while m < l
        invariant k <= m <= l && picks[k] <= picks[m]
      {
        assert FirstReaching(cum, ScanStart(picks, m + 1), picks[m + 1], pointers[m + 1]);
        m := m + 1;
      }
    }
  }

  /** The draw is a value nextInt(bound) can return, whenever that bound is valid. */
  predicate SusDrawValid<T>(pool: seq<T>, fit: T -> int, numberOfParents: int, draw: int)
  {
    numberOfParents != 0 && SusBound(pool, fit, numberOfParents) > 0 ==> 0 <= draw < SusBound(pool, fit, numberOfParents)
  }

  /**
   * StochasticUniversalSampling.select: one draw below (total + 1) / numberOfParents, then
   * numberOfParents selections, each the first position from the previous one on whose
   * prefix sum reaches the pointer; the pointer then moves on by total / numberOfParents.
   * `picks` are the selected positions and `pointers` the pointer at each selection.
   */
  method StochasticUniversalSampling<T>(pool: seq<T>, fit: T -> int, numberOfParents: int, draw: int)
    returns (r: Result<seq<T>>, picks: seq<nat>, pointers: seq<int>)
    requires SusDrawValid(pool, fit, numberOfParents, draw)
    ensures |pool| == 0 ==> r == Failure(OutOfRange)
    ensures |pool| > 0 && numberOfParents == 0 ==> r == Failure(DivisionByZero)
    ensures |pool| > 0 && numberOfParents != 0 && SusBound(pool, fit, numberOfParents) <= 0 ==> r == Failure(IllegalArgument)
    ensures r.Failure? ==> r.error in {OutOfRange, DivisionByZero, IllegalArgument}
    ensures r.Success? ==> && numberOfParents != 0
                           && |r.value| == |picks| == |pointers| == (if numberOfParents > 0 then numberOfParents else 0)
                           && Advances(pointers, draw, SumFitness(pool, fit), numberOfParents)
                           && SusPicks(PrefixSums(pool, fit), picks, pointers)
                           && forall k :: 0 <= k < |picks| ==> picks[k] < |pool| && r.value[k] == pool[picks[k]]
  {
    picks, pointers := [], [];
    var cumulated := Cumulate(pool, fit);
    if cumulated.Failure? {
      return Failure(OutOfRange), picks, pointers;
    }
    var cum := cumulated.value;
    var n := |pool|;
    LastPrefixIsTotal(pool, fit);
    if numberOfParents == 0 {
      return Failure(DivisionByZero), picks, pointers;
    }
    var bound := JavaDiv(cum[n - 1] + 1, numberOfParents);
    if bound <= 0 {
      return Failure(IllegalArgument), picks, pointers;
    }
    var total := cum[n - 1];
    var u := draw;
    var j := 0;
    var selection := [];
    var i := 0;
    while i < numberOfParents
      invariant 0 <= i && (numberOfParents > 0 ==> i <= numberOfParents)
      invariant numberOfParents <= 0 ==> i == 0
      invariant |selection| == |picks| == |pointers| == i && j < n
      invariant j == ScanStart(picks, i)
      invariant Advances(pointers + [u], draw, total, numberOfParents)
      invariant SusPicks(cum, picks, pointers)
      invariant forall k :: 0 <= k < i ==> picks[k] < n && selection[k] == pool[picks[k]]
    {
      var reached := Reach(cum, u, j);
      if reached.Failure? {
        return Failure(OutOfRange), picks, pointers;
      }
      SusPicksAppend(cum, picks, pointers, reached.value, u);
      j := reached.value;
      AdvancesAppend(pointers + [u], draw, total, numberOfParents);
      pointers := pointers + [u];
      u := Step(u, total, numberOfParents);
      selection := selection + [pool[j]];
      picks := picks + [j];
      i := i + 1;
    }
    AdvancesPrefix(pointers + [u], draw, total, numberOfParents);
    assert (pointers + [u])[..|pointers|] == pointers;
    return Success(selection), picks, pointers;
  }

  // ---------------------------------------------------------------------------------
  // Fitness-proportional selection, as written.

  /**
   * One outer iteration i with draw u: the scan starts at position 1 and adds pool[i]
   * after every step, so pool[i] is added (end - 1) times; adding it throws when i is not
   * a pool position.
   */
  function ProportionalSlot<T>(pool: seq<T>, cum: seq<int>, i: nat, u: int): (r: Result<seq<T>>)
    requires |cum| == |pool|
    ensures r.Success? <==> Reach(cum, u, 1).Success? && (Reach(cum, u, 1).value == 1 || i < |pool|)
    ensures r.Failure? ==> r.error == OutOfRange
    ensures r.Success? ==> && |r.value| == Reach(cum, u, 1).value - 1
                           && forall k :: 0 <= k < |r.value| ==> r.value[k] == pool[i]
    ensures |pool| >= 2 && cum[1] >= u ==> r == Success([])
  {
    match Reach(cum, u, 1)
    case Failure(e) => Failure(e)
    case Success(end) =>
      if end == 1 then Success([])
      else if i >= |pool| then Failure(OutOfRange)
      else Success(seq(end - 1, _ => pool[i]))
  }

  /** The steps the scan from position 1 makes with draw u: the copies iteration i adds. */
  function ScanSteps(cum: seq<int>, u: int): nat
  {
    match Reach(cum, u, 1)
    case Success(end) => end - 1
    case Failure(_) => 0
  }

  /**
   * The reference selection: for each iteration k = i, ..., n - 1 in order, pool[k]
   * repeated as often as the scan with draw draws[k] steps.
   */
  function Copies<T>(pool: seq<T>, cum: seq<int>, draws: seq<int>, i: nat, n: int): seq<T>
    decreases if n > i then n - i else 0
  {
    if i >= n || i >= |draws| then []
    else (if i < |pool| then seq(ScanSteps(cum, draws[i]), _ => pool[i]) else [])
         + Copies(pool, cum, draws, i + 1, n)
  }

  /**
   * The outer loop from iteration i on: a new draw below (int) total + 1 per iteration
   * (a bound that is not positive throws), then the slot's additions.
   */
  function ProportionalFrom<T>(pool: seq<T>, cum: seq<int>, numberOfParents: int, draws: seq<int>, i: nat)
    : (r: Result<seq<T>>)
    requires |cum| == |pool| > 0
    ensures r.Success? ==> r.value == Copies(pool, cum, draws, i, numberOfParents)
    ensures r.Success? ==> forall x :: x in r.value ==> exists k :: i <= k < numberOfParents && k < |pool| && x == pool[k]
    ensures r.Failure? ==> r.error in {OutOfRange, IllegalArgument, DrawsExhausted}
    ensures i < numberOfParents && cum[|cum| - 1] + 1 <= 0 ==> r == Failure(IllegalArgument)
    decreases numberOfParents - i
  {
    if i >= numberOfParents then Success([])
    else if cum[|cum| - 1] + 1 <= 0 then Failure(IllegalArgument)
    else if i >= |draws| then Failure(DrawsExhausted)
    else
      match ProportionalSlot(pool, cum, i, draws[i])
      case Failure(e) => Failure(e)
      case Success(slot) =>
        match ProportionalFrom(pool, cum, numberOfParents, draws, i + 1)
        case Failure(e) => Failure(e)
        case Success(rest) =>
          assert forall x :: x in slot ==> x == pool[i];
          assert slot == (if i < |pool| then seq(ScanSteps(cum, draws[i]), _ => pool[i]) else []);
          Success(slot + rest)
  }

  /**
   * FitnessProportionalSelection.select: prefix sums (an empty pool runs off the list),
   * then numberOfParents iterations of ProportionalSlot with one draw each. Only pool[i]
   * for an iteration i < numberOfParents is ever added.
   */
  function FitnessProportional<T>(pool: seq<T>, fit: T -> int, numberOfParents: int, draws: seq<int>)
    : (r: Result<seq<T>>)
    ensures |pool| == 0 ==> r == Failure(OutOfRange)
    ensures |pool| > 0 && numberOfParents > 0 && SumFitness(pool, fit) + 1 <= 0 ==> r == Failure(IllegalArgument)
    ensures r.Success? ==> r.value == Copies(pool, PrefixSums(pool, fit), draws, 0, numberOfParents)
    ensures r.Success? ==> forall x :: x in r.value ==> exists k :: 0 <= k < numberOfParents && k < |pool| && x == pool[k]
    ensures r.Failure? ==> r.error in {OutOfRange, IllegalArgument, DrawsExhausted}
  {
    if |pool| == 0 then Failure(OutOfRange)
    else
      LastPrefixIsTotal(pool, fit);
      ProportionalFrom(pool, PrefixSums(pool, fit), numberOfParents, draws, 0)
  }

  /**
   * When no draw exceeds the prefix sum at position 1, the scans never step and the
   * selection is empty.
   */
  lemma {:induction false} ProportionalNoStep<T>(pool: seq<T>, cum: seq<int>, numberOfParents: int, draws: seq<int>, i: nat)
    requires |cum| == |pool| >= 2 && cum[|cum| - 1] + 1 > 0 && |draws| >= numberOfParents
    requires forall k :: 0 <= k < |draws| ==> draws[k] <= cum[1]
    ensures ProportionalFrom(pool, cum, numberOfParents, draws, i) == Success([])
    decreases numberOfParents - i
  {
    if i < numberOfParents {
      ProportionalNoStep(pool, cum, numberOfParents, draws, i + 1);
      assert ProportionalSlot(pool, cum, i, draws[i]) == Success([]);
      var none: seq<T> := [];
      assert none + none == none;
    }
  }
}

=== FILE: scheduling_period.dfy ===
/** The scheduling period: the problem instance with its id lookups. */
module SchedulingPeriod {
  import opened Wrappers
  import opened Entities

  datatype Period = Period(
    id: string,
    startDate: Date,
    endDate: Date,
    skills: seq<string>,
    shiftTypes: seq<ShiftType>,
    contracts: seq<Contract>,
    employees: seq<Employee>)

  /** The index of the first element satisfying `p`, if any. */
  function FirstIndex<T>(xs: seq<T>, p: T -> bool): (r: Option<nat>)
    ensures r.None? <==> forall i :: 0 <= i < |xs| ==> !p(xs[i])
    ensures r.Some? ==> r.value < |xs| && p(xs[r.value]) && forall i :: 0 <= i < r.value ==> !p(xs[i])
  {
    if |xs| == 0 then None
    else if p(xs[0]) then Some(0)
    else match FirstIndex(xs[1..], p)
      case None => None
      case Some(i) => Some(i + 1)
  }

  /** The first contract with the given id, or none. */
  function GetContractById(period: Period, id: int): (r: Option<Contract>)
    ensures r.None? <==> forall i :: 0 <= i < |period.contracts| ==> period.contracts[i].id != id
    ensures r.Some? ==> r.value.id == id
    ensures r.Some? ==> exists i :: 0 <= i < |period.contracts| && period.contracts[i] == r.value && forall j :: 0 <= j < i ==> period.contracts[j].id != id
  {
    match FirstIndex(period.contracts, (c: Contract) => c.id == id)
    case None => None
    case Some(i) => Some(period.contracts[i])
  }

  /** The first shift type whose id string equals `id`, or none. */
  function GetShiftTypeById(period: Period, id: string): (r: Option<ShiftType>)
    ensures r.None? <==> forall i :: 0 <= i < |period.shiftTypes| ==> period.shiftTypes[i].id != id
    ensures r.Some? ==> r.value.id == id
    ensures r.Some? ==> exists i :: 0 <= i < |period.shiftTypes| && period.shiftTypes[i] == r.value && forall j :: 0 <= j < i ==> period.shiftTypes[j].id != id
  {
    match FirstIndex(period.shiftTypes, (s: ShiftType) => s.id == id)
    case None => None
    case Some(i) => Some(period.shiftTypes[i])
  }

  /** The first employee with integer id `id`, or none. */
  function FindEmployee(employees: seq<Employee>, id: int): (r: Option<Employee>)
    ensures r.None? <==> forall i :: 0 <= i < |employees| ==> employees[i].id != id
    ensures r.Some? ==> r.value.id == id
    ensures r.Some? ==> exists i :: 0 <= i < |employees| && employees[i] == r.value && forall j :: 0 <= j < i ==> employees[j].id != id
  {
    match FirstIndex(employees, (e: Employee) => e.id == id)
    case None => None
    case Some(i) => Some(employees[i])
  }

  const IntMin: int := -0x8000_0000
  const IntMax: int := 0x7FFF_FFFF

  predicate IsDigit(c: char) { '0' <= c <= '9' }

  /** The value of a non-empty run of decimal digits. */
  function DigitsValue(s: string): (r: nat)
    requires forall i :: 0 <= i < |s| ==> IsDigit(s[i])
  {
    if |s| == 0 then 0
    else
      assert IsDigit(s[|s| - 1]);
      DigitsValue(s[..|s| - 1]) * 10 + (s[|s| - 1] as int - '0' as int)
  }

  /** The digits after an optional leading sign. */
  function Unsigned(s: string): (r: string)
    ensures |r| <= |s|
    ensures |s| > 0 && s[0] != '-' && s[0] != '+' ==> r == s
  {
    if |s| > 0 && (s[0] == '-' || s[0] == '+') then s[1..] else s
  }

  /** A decimal numeral: an optional sign followed by at least one ASCII digit. */
  predicate Numeral(s: string)
  {
    |Unsigned(s)| > 0 && forall i :: 0 <= i < |Unsigned(s)| ==> IsDigit(Unsigned(s)[i])
  }

  /** The mathematical value a numeral denotes. */
  function NumeralValue(s: string): int
    requires Numeral(s)
  {
    if s[0] == '-' then -(DigitsValue(Unsigned(s)) as int) else DigitsValue(Unsigned(s))
  }

  /**
   * Integer.parseInt on ASCII input: an optional sign followed by at least one digit,
   * within the 32-bit range; anything else is a NumberFormatException.
   */
  function ParseInt(s: string): (r: Result<int>)
    ensures r.Success? <==> Numeral(s) && IntMin <= NumeralValue(s) <= IntMax
    ensures r.Success? ==> r.value == NumeralValue(s)
    ensures |s| == 0 ==> r == Failure(ParseFailure)
    ensures r.Failure? ==> r.error == ParseFailure
  {
    if |s| == 0 then Failure(ParseFailure)
    else
      var negative := s[0] == '-';
      var digits := if s[0] == '-' || s[0] == '+' then s[1..] else s;
      if |digits| == 0 || exists i :: 0 <= i < |digits| && !IsDigit(digits[i]) then Failure(ParseFailure)
      else
        var v: int := if negative then -(DigitsValue(digits) as int) else DigitsValue(digits);
        if IntMin <= v <= IntMax then Success(v) else Failure(ParseFailure)
  }

  /** A sign (none, '+' or '-') in front of at most nine digits always parses, to the signed value. */
  lemma ParseIntDigits(sign: string, digits: string)
    requires |sign| <= 1 && forall i :: 0 <= i < |sign| ==> sign[i] == '-' || sign[i] == '+'
    requires 0 < |digits| <= 9 && forall i :: 0 <= i < |digits| ==> IsDigit(digits[i])
    ensures ParseInt(sign + digits) == Success(if sign == ['-'] then -(DigitsValue(digits) as int) else DigitsValue(digits))
  {
    SignedNumeral(sign, digits);
    NineDigitsBound(digits);
    ParsedNumeral(sign + digits);
  }

  /** A sign in front of digits is a numeral denoting the signed value of the digits. */
  lemma SignedNumeral(sign: string, digits: string)
    requires |sign| <= 1 && forall i :: 0 <= i < |sign| ==> sign[i] == '-' || sign[i] == '+'
    requires 0 < |digits| && forall i :: 0 <= i < |digits| ==> IsDigit(digits[i])
    ensures Numeral(sign + digits)
    ensures NumeralValue(sign + digits) == if sign == ['-'] then -(DigitsValue(digits) as int) else DigitsValue(digits)
  {
    var s := sign + digits;
    var negative := sign == ['-'];
    assert Unsigned(s) == digits && (negative <==> s[0] == '-') by {
      if |sign| == 0 {
        assert s == digits && IsDigit(digits[0]);
      } else {
        assert s[0] == sign[0] && s[1..] == digits;
      }
    }
  }

  /** A numeral inside the 32-bit range parses to its value. */
  lemma ParsedNumeral(s: string)
    requires Numeral(s) && IntMin <= NumeralValue(s) <= IntMax
    ensures ParseInt(s) == Success(NumeralValue(s))
  {
  }

  /** At most nine digits denote less than 10^9, well inside the 32-bit range. */
  lemma NineDigitsBound(digits: string)
    requires |digits| <= 9 && forall i :: 0 <= i < |digits| ==> IsDigit(digits[i])
    ensures DigitsValue(digits) < 1000000000
  {
    DigitsBound(digits);
    Pow10Monotone(|digits|, 9);
    assert Pow10(9) == 1000000000 by {
      assert Pow10(1) == 10 && Pow10(2) == 100 && Pow10(3) == 1000 && Pow10(4) == 10000;
      assert Pow10(5) == 100000 && Pow10(6) == 1000000 && Pow10(7) == 10000000 && Pow10(8) == 100000000;
    }
  }

  /** The decimal digits of n, most significant first, as Integer.toString writes them. */
  function Digits(n: nat): (r: string)
    ensures |r| > 0 && forall i :: 0 <= i < |r| ==> IsDigit(r[i])
    decreases n
  {
    var last := ['0' + (n % 10) as char];
    if n < 10 then last else Digits(n / 10) + last
  }

  /** Integer.toString: a minus sign for negative values, then the digits of the magnitude. */
  function Render(n: int): (r: string)
    ensures Numeral(r)
  {
    if n < 0 then
      var d := Digits(-n);
      assert Unsigned("-" + d) == d;
      "-" + d
    else
      var d := Digits(n);
      assert Unsigned(d) == d by { assert IsDigit(d[0]); }
      d
  }

  /** The digits of n denote n. */
  lemma {:induction false} DigitsValueOf(n: nat)
    ensures DigitsValue(Digits(n)) == n
    decreases n
  {
    var d := Digits(n);
    if n >= 10 {
      DigitsValueOf(n / 10);
      assert d[..|d| - 1] == Digits(n / 10);
    }
  }

  /** Parsing a rendered 32-bit integer gives it back. */
  lemma ParseRendered(n: int)
    requires IntMin <= n <= IntMax
    ensures ParseInt(Render(n)) == Success(n)
  {
    var d := Digits(if n < 0 then -n else n);
    DigitsValueOf(if n < 0 then -n else n);
    if n < 0 {
      assert Unsigned(Render(n)) == d;
    } else {
      assert Unsigned(Render(n)) == d by { assert IsDigit(d[0]); }
    }
  }

  lemma {:induction false} Pow10Monotone(m: nat, n: nat)
    requires m <= n
    ensures Pow10(m) <= Pow10(n)
    decreases n - m
  {
    if m < n {
      Pow10Monotone(m, n - 1);
    }
  }

  lemma {:induction false} DigitsBound(s: string)
    requires forall i :: 0 <= i < |s| ==> IsDigit(s[i])
    ensures DigitsValue(s) < Pow10(|s|)
    decreases |s|
  {
    if |s| > 0 {
      DigitsBound(s[..|s| - 1]);
    }
  }

  function Pow10(n: nat): nat { if n == 0 then 1 else 10 * Pow10(n - 1) }

  /**
   * The employee whose id equals the parsed `id`. The string is parsed inside the
   * loop, so an empty employee list yields none even for unparsable input.
   */
  function GetEmployeeById(period: Period, id: string): (r: Result<Option<Employee>>)
    ensures |period.employees| == 0 ==> r == Success(None)
    ensures |period.employees| > 0 && ParseInt(id).Failure? ==> r == Failure(ParseFailure)
    ensures |period.employees| > 0 && ParseInt(id).Success? ==> r == Success(FindEmployee(period.employees, ParseInt(id).value))
    ensures ParseInt(id).Success? ==> r.Success?
    ensures r.Success? && r.value.Some? ==>
              r.value.value in period.employees && Success(r.value.value.id) == ParseInt(id)
    ensures r.Success? && r.value.None? && ParseInt(id).Success? ==>
              forall i :: 0 <= i < |period.employees| ==> period.employees[i].id != ParseInt(id).value
  {
    if |period.employees| == 0 then Success(None)
    else match ParseInt(id)
      case Failure(e) => Failure(e)
      case Success(n) => Success(FindEmployee(period.employees, n))
  }

  /**
   * Looking up the decimal rendering of a 32-bit number is the lookup of that number:
   * the reading under which a call with an int id means a search by employee number.
   */
  lemma LookupByNumber(period: Period, n: int)
    requires IntMin <= n <= IntMax
    ensures GetEmployeeById(period, Render(n)) ==
              Success(if |period.employees| == 0 then None else FindEmployee(period.employees, n))
  {
    ParseRendered(n);
  }

  /** Appends an employee; the existing ones keep their positions. */
  function AddEmployee(period: Period, employee: Employee): (r: Period)
    ensures |r.employees| == |period.employees| + 1 && r.employees[|period.employees|] == employee
    ensures r.employees[..|period.employees|] == period.employees
    ensures r.(employees := period.employees) == period
  {
    period.(employees := period.employees + [employee])
  }

  /** Appends a shift type; the existing ones keep their positions. */
  function AddShiftType(period: Period, shiftType: ShiftType): (r: Period)
    ensures |r.shiftTypes| == |period.shiftTypes| + 1 && r.shiftTypes[|period.shiftTypes|] == shiftType
    ensures r.shiftTypes[..|period.shiftTypes|] == period.shiftTypes
    ensures r.(shiftTypes := period.shiftTypes) == period
  {
    period.(shiftTypes := period.shiftTypes + [shiftType])
  }

  /** An added employee is found by its id unless an earlier employee has the same id. */
  lemma AddedEmployeeFound(period: Period, employee: Employee)
    requires forall i :: 0 <= i < |period.employees| ==> period.employees[i].id != employee.id
    ensures FindEmployee(AddEmployee(period, employee).employees, employee.id) == Some(employee)
  {
    var es := AddEmployee(period, employee).employees;
    var r := FindEmployee(es, employee.id);
    assert es[|period.employees|].id == employee.id;
    var i :| 0 <= i < |es| && es[i] == r.value && r.value.id == employee.id;
    assert i == |period.employees|;
  }
}

=== FILE: time_unit.dfy ===
/**
 * Time units (one date and shift type, with the employees assigned to it) and the
 * static registry that interns them. A unit's identity is its index in the registry.
 */
module TimeUnits {
  import opened Wrappers
  import opened Entities

  datatype TimeUnit = TimeUnit(date: Date, shiftType: ShiftType, employees: seq<Employee>)

  predicate NoDuplicates<T(==)>(xs: seq<T>)
  {
    forall i, j :: 0 <= i < j < |xs| ==> xs[i] != xs[j]
  }

  /** addEmployee: appends the employee unless the list already contains it. */
  function AddEmployee(unit: TimeUnit, e: Employee): (r: TimeUnit)
    ensures r.date == unit.date && r.shiftType == unit.shiftType
    ensures e in r.employees
    ensures forall x :: x in r.employees <==> x in unit.employees || x == e
    ensures |unit.employees| <= |r.employees| <= |unit.employees| + 1
    ensures r.employees[..|unit.employees|] == unit.employees
    ensures NoDuplicates(unit.employees) ==> NoDuplicates(r.employees)
  {
    if e in unit.employees then unit else unit.(employees := unit.employees + [e])
  }

  /** Adding the same employee twice is the same as adding it once. */
  lemma AddEmployeeIdempotent(unit: TimeUnit, e: Employee)
    ensures AddEmployee(AddEmployee(unit, e), e) == AddEmployee(unit, e)
  {
  }

  predicate Matches(unit: TimeUnit, date: Date, st: ShiftType)
  {
    unit.shiftType == st && unit.date == date
  }

  /** The index of the first registered unit for (date, st), if any. */
  function Find(registry: seq<TimeUnit>, date: Date, st: ShiftType): (r: Option<nat>)
    ensures r.None? <==> forall i :: 0 <= i < |registry| ==> !Matches(registry[i], date, st)
    ensures r.Some? ==> r.value < |registry| && Matches(registry[r.value], date, st)
    ensures r.Some? ==> forall j :: 0 <= j < r.value ==> !Matches(registry[j], date, st)
    decreases |registry|
  {
    if |registry| == 0 then None
    else if Matches(registry[0], date, st) then Some(0)
    else
      var r := Find(registry[1..], date, st);
      assert forall i :: 1 <= i < |registry| ==> registry[i] == registry[1..][i - 1];
      if r.Some? then Some(r.value + 1) else None
  }

  /**
   * getTimeUnit: the first registered unit with this date and shift type; when there is
   * none, a new unit with no employees is appended and returned.
   */
  function GetTimeUnit(registry: seq<TimeUnit>, date: Date, st: ShiftType): (r: (nat, seq<TimeUnit>))
    ensures r.0 < |r.1| && Matches(r.1[r.0], date, st)
    ensures (exists i :: 0 <= i < |registry| && Matches(registry[i], date, st)) ==>
              r.1 == registry && forall j :: 0 <= j < r.0 ==> !Matches(registry[j], date, st)
    ensures (forall i :: 0 <= i < |registry| ==> !Matches(registry[i], date, st)) ==>
              r.1 == registry + [TimeUnit(date, st, [])] && r.0 == |registry|
  {
    match Find(registry, date, st)
    case Some(i) => (i, registry)
    case None => (|registry|, registry + [TimeUnit(date, st, [])])
  }

  /** Asking twice with equal arguments yields the same unit and leaves the registry alone. */
  lemma GetTimeUnitInterns(registry: seq<TimeUnit>, date: Date, st: ShiftType)
    ensures var (i, reg) := GetTimeUnit(registry, date, st);
            GetTimeUnit(reg, date, st) == (i, reg)
  {
  }

  /** No two registered units share their date and shift type. */
  predicate Interned(registry: seq<TimeUnit>)
  {
    forall i, j :: 0 <= i < j < |registry| ==> !Matches(registry[j], registry[i].date, registry[i].shiftType)
  }

  /** getTimeUnit keeps a registry interned. */
  lemma GetTimeUnitKeepsInterned(registry: seq<TimeUnit>, date: Date, st: ShiftType)
    requires Interned(registry)
    ensures Interned(GetTimeUnit(registry, date, st).1)
  {
  }
}

=== FILE: weekends.dfy ===
/**
 * The weekend scan of Individual.calculateWeekends: the walk over an employee's
 * assignment cache restricted to the weekend days of the employee's contract.
 * It counts worked weekend days, tracks weekend streaks as the run scan does, and
 * keeps three flags: every weekend day worked, every worked weekend day on the same
 * shift type as the first one, and no free weekend day after a night shift.
 *
 * The shift type compared against is set once, at the first worked weekend day whose
 * shift type is known, and never updated afterwards; the night test at a free weekend
 * day looks at that first shift type, not at the day before.
 */
module Weekends {
  import opened Wrappers
  import opened Entities
  import opened Entries
  import opened DayRosters
  import opened Runs

  /** One entry of an employee's assignment cache: a day roster and whether the employee works it. */
  type Assignment = Entry<DayRoster, bool>

  /** What one weekend day contributes: whether the employee works it, and on which shift type. */
  datatype WeekendDay = WeekendDay(worked: bool, shift: Option<ShiftType>)

  /** The running state of calculateWeekends. */
  datatype WeekendTally = WeekendTally(
    streak: Streak,
    totalWork: int,
    complete: bool,
    identical: bool,
    noNight: bool,
    lastShift: Option<ShiftType>)

  const NoWeekend := WeekendTally(NoStreak, 0, true, true, true, None)

  /**
   * One weekend day of the scan. A worked day adds one to the total and a free day
   * clears `complete`; the flags are only ever cleared, and the remembered shift type,
   * once set, stays.
   */
  function WeekendStep(t: WeekendTally, d: WeekendDay, isNight: ShiftType -> bool): (r: WeekendTally)
    ensures r.streak == Advance(t.streak, d.worked)
    ensures r.totalWork == t.totalWork + (if d.worked then 1 else 0)
    ensures r.complete <==> t.complete && d.worked
    ensures (r.identical ==> t.identical) && (r.noNight ==> t.noNight)
    ensures t.lastShift.Some? ==> r.lastShift == t.lastShift
  {
    if d.worked then
      WeekendTally(
        Advance(t.streak, true),
        t.totalWork + 1,
        t.complete,
        if t.lastShift.None? then t.identical else t.identical && t.lastShift == d.shift,
        t.noNight,
        if t.lastShift.None? then d.shift else t.lastShift)
    else
      WeekendTally(
        Advance(t.streak, false),
        t.totalWork,
        false,
        t.identical,
        t.noNight && !(t.lastShift.Some? && isNight(t.lastShift.value)),
        t.lastShift)
  }

  /** The scan over the first n cache entries; days off the contract's weekend are skipped. */
  function ScanEntries(entries: seq<Assignment>, e: Employee, isWeekendFor: (Date, Contract) -> bool,
                       isNight: ShiftType -> bool, n: nat): WeekendTally
    requires n <= |entries|
  {
    if n == 0 then NoWeekend
    else
      var t := ScanEntries(entries, e, isWeekendFor, isNight, n - 1);
      var entry := entries[n - 1];
      if !isWeekendFor(entry.key.date, e.contract) then t
      else WeekendStep(t, WeekendDay(entry.value, ShiftTypeOf(entry.key, e)), isNight)
  }

  /** The weekend days among the first n cache entries, in order. */
  function WeekendDaysUpTo(entries: seq<Assignment>, e: Employee, isWeekendFor: (Date, Contract) -> bool, n: nat)
    : (w: seq<WeekendDay>)
    requires n <= |entries|
    ensures |w| <= n
  {
    if n == 0 then []
    else
      var w := WeekendDaysUpTo(entries, e, isWeekendFor, n - 1);
      var entry := entries[n - 1];
      if isWeekendFor(entry.key.date, e.contract) then w + [WeekendDay(entry.value, ShiftTypeOf(entry.key, e))]
      else w
  }

  /**
   * The scan over the first n weekend days alone. The total is the number of worked
   * days, at most n; `complete` holds exactly when all n were worked; until a shift
   * type is remembered there is nothing to compare with, so both flags still hold.
   */
  function ScanDays(w: seq<WeekendDay>, isNight: ShiftType -> bool, n: nat): (r: WeekendTally)
    requires n <= |w|
    ensures 0 <= r.totalWork <= n
    ensures r.complete <==> r.totalWork == n
    ensures r.lastShift.None? ==> r.identical && r.noNight
  {
    if n == 0 then NoWeekend else WeekendStep(ScanDays(w, isNight, n - 1), w[n - 1], isNight)
  }

  lemma {:induction false} ScanDaysPrefix(w: seq<WeekendDay>, x: WeekendDay, isNight: ShiftType -> bool, n: nat)
    requires n <= |w|
    ensures ScanDays(w + [x], isNight, n) == ScanDays(w, isNight, n)
  {
    if n > 0 {
      assert (w + [x])[n - 1] == w[n - 1];
      ScanDaysPrefix(w, x, isNight, n - 1);
    }
  }

  /** Skipping the days off the weekend is the same as scanning the weekend days alone. */
  lemma {:induction false} EntriesAreWeekendDays(entries: seq<Assignment>, e: Employee,
                                                 isWeekendFor: (Date, Contract) -> bool, isNight: ShiftType -> bool, n: nat)
    requires n <= |entries|
    ensures var w := WeekendDaysUpTo(entries, e, isWeekendFor, n);
            ScanEntries(entries, e, isWeekendFor, isNight, n) == ScanDays(w, isNight, |w|)
  {
    if n > 0 {
      var w := WeekendDaysUpTo(entries, e, isWeekendFor, n - 1);
      assert ScanEntries(entries, e, isWeekendFor, isNight, n - 1) == ScanDays(w, isNight, |w|) by {
        EntriesAreWeekendDays(entries, e, isWeekendFor, isNight, n - 1);
      }
      var entry := entries[n - 1];
      if isWeekendFor(entry.key.date, e.contract) {
        var x := WeekendDay(entry.value, ShiftTypeOf(entry.key, e));
        assert ScanDays(w + [x], isNight, |w|) == ScanDays(w, isNight, |w|) by {
          ScanDaysPrefix(w, x, isNight, |w|);
        }
        assert (w + [x])[|w|] == x;
      }
    }
  }

  // ---------------------------------------------------------------------------------
  // Reference meaning over the weekend days.

  /** The worked flags of the weekend days. */
  function WorkedFlags(w: seq<WeekendDay>): (f: seq<bool>)
    ensures |f| == |w| && forall i :: 0 <= i < |w| ==> f[i] == w[i].worked
  {
    seq(|w|, i requires 0 <= i < |w| => w[i].worked)
  }

  /** Day i is the first worked weekend day (below n) whose shift type is known. */
  ghost predicate Anchor(w: seq<WeekendDay>, n: nat, i: int)
    requires n <= |w|
  {
    0 <= i < n && w[i].worked && w[i].shift.Some?
    && forall k :: 0 <= k < i ==> !(w[k].worked && w[k].shift.Some?)
  }

  /** Worked day j comes after the anchor i but on another shift type. */
  ghost predicate Breaks(w: seq<WeekendDay>, n: nat, i: int, j: int)
    requires n <= |w|
  {
    Anchor(w, n, i) && i < j < n && w[j].worked && w[j].shift != w[i].shift
  }

  /** Free day j comes after the anchor i, whose shift type is a night shift. */
  ghost predicate FreeAfterNight(w: seq<WeekendDay>, isNight: ShiftType -> bool, n: nat, i: int, j: int)
    requires n <= |w|
  {
    Anchor(w, n, i) && i < j < n && !w[j].worked && isNight(w[i].shift.value)
  }

  /** Some worked day below n breaks against the anchor. */
  ghost predicate HasBreak(w: seq<WeekendDay>, n: nat)
    requires n <= |w|
  {
    exists i, j :: Breaks(w, n, i, j)
  }

  /** Some free day below n follows a night anchor. */
  ghost predicate HasFreeAfterNight(w: seq<WeekendDay>, isNight: ShiftType -> bool, n: nat)
    requires n <= |w|
  {
    exists i, j :: FreeAfterNight(w, isNight, n, i, j)
  }

  lemma AnchorUnique(w: seq<WeekendDay>, n: nat, i: int, i': int)
    requires n <= |w| && Anchor(w, n, i) && Anchor(w, n, i')
    ensures i == i'
  {
  }

  /** The stored shift type is that of the anchor, and there is none exactly when there is no anchor. */
  ghost predicate LastShiftDescribed(w: seq<WeekendDay>, n: nat, last: Option<ShiftType>)
    requires n <= |w|
  {
    && (last.None? <==> forall i :: 0 <= i < n && w[i].worked ==> w[i].shift.None?)
    && (last.Some? ==> exists i :: Anchor(w, n, i) && w[i].shift == last)
  }

  lemma {:induction false} LastShiftOfDays(w: seq<WeekendDay>, isNight: ShiftType -> bool, n: nat)
    requires n <= |w|
    ensures LastShiftDescribed(w, n, ScanDays(w, isNight, n).lastShift)
  {
    if n > 0 {
      LastShiftOfDays(w, isNight, n - 1);
      var t := ScanDays(w, isNight, n - 1);
      if t.lastShift.None? && w[n - 1].worked && w[n - 1].shift.Some? {
        assert Anchor(w, n, n - 1);
      } else if t.lastShift.Some? {
        var i :| Anchor(w, n - 1, i) && w[i].shift == t.lastShift;
        assert Anchor(w, n, i);
      }
    }
  }

  /** An anchor below n - 1 stays the anchor below n, and the other way round. */
  lemma AnchorStep(w: seq<WeekendDay>, n: nat, i: int)
    requires 0 < n <= |w| && 0 <= i < n - 1
    ensures Anchor(w, n, i) <==> Anchor(w, n - 1, i)
  {
  }

  /** With the anchor's shift type stored, a later day compares against exactly that shift type. */
  lemma AnchorShift(w: seq<WeekendDay>, n: nat, last: Option<ShiftType>, i: int)
    requires 0 < n <= |w| && LastShiftDescribed(w, n - 1, last)
    requires 0 <= i < n - 1 && Anchor(w, n, i)
    ensures last.Some? && w[i].shift == last
  {
    AnchorStep(w, n, i);
    assert w[i].worked && w[i].shift.Some?;
    var a :| Anchor(w, n - 1, a) && w[a].shift == last;
    AnchorUnique(w, n - 1, i, a);
  }

  /** A break below n is a break below n - 1, or day n - 1 itself breaks against the stored shift type. */
  lemma BreaksStep(w: seq<WeekendDay>, n: nat, last: Option<ShiftType>)
    requires 0 < n <= |w| && LastShiftDescribed(w, n - 1, last)
    ensures HasBreak(w, n)
        <==> HasBreak(w, n - 1) || (w[n - 1].worked && last.Some? && w[n - 1].shift != last)
  {
    if HasBreak(w, n - 1) {
      var i, j :| Breaks(w, n - 1, i, j);
      AnchorStep(w, n, i);
      assert Breaks(w, n, i, j);
    }
    if w[n - 1].worked && last.Some? && w[n - 1].shift != last {
      var a :| Anchor(w, n - 1, a) && w[a].shift == last;
      AnchorStep(w, n, a);
      assert Breaks(w, n, a, n - 1);
    }
    if HasBreak(w, n) {
      var i, j :| Breaks(w, n, i, j);
      AnchorStep(w, n, i);
      if j == n - 1 {
        AnchorShift(w, n, last, i);
      } else {
        assert Breaks(w, n - 1, i, j);
      }
    }
  }

  /** A free day after a night anchor below n is one below n - 1, or day n - 1 itself is free after it. */
  lemma NightStep(w: seq<WeekendDay>, isNight: ShiftType -> bool, n: nat, last: Option<ShiftType>)
    requires 0 < n <= |w| && LastShiftDescribed(w, n - 1, last)
    ensures HasFreeAfterNight(w, isNight, n)
        <==> HasFreeAfterNight(w, isNight, n - 1) || (!w[n - 1].worked && last.Some? && isNight(last.value))
  {
    if HasFreeAfterNight(w, isNight, n - 1) {
      var i, j :| FreeAfterNight(w, isNight, n - 1, i, j);
      AnchorStep(w, n, i);
      assert FreeAfterNight(w, isNight, n, i, j);
    }
    if !w[n - 1].worked && last.Some? && isNight(last.value) {
      var a :| Anchor(w, n - 1, a) && w[a].shift == last;
      AnchorStep(w, n, a);
      assert FreeAfterNight(w, isNight, n, a, n - 1);
    }
    if HasFreeAfterNight(w, isNight, n) {
      var i, j :| FreeAfterNight(w, isNight, n, i, j);
      AnchorStep(w, n, i);
      if j == n - 1 {
        AnchorShift(w, n, last, i);
      } else {
        assert FreeAfterNight(w, isNight, n - 1, i, j);
      }
    }
  }

  lemma {:induction false} IdenticalOfDays(w: seq<WeekendDay>, isNight: ShiftType -> bool, n: nat)
    requires n <= |w|
    ensures ScanDays(w, isNight, n).identical <==> !HasBreak(w, n)
  {
    if n > 0 {
      IdenticalOfDays(w, isNight, n - 1);
      LastShiftOfDays(w, isNight, n - 1);
      BreaksStep(w, n, ScanDays(w, isNight, n - 1).lastShift);
    }
  }

  lemma {:induction false} NoNightOfDays(w: seq<WeekendDay>, isNight: ShiftType -> bool, n: nat)
    requires n <= |w|
    ensures ScanDays(w, isNight, n).noNight <==> !HasFreeAfterNight(w, isNight, n)
  {
    if n > 0 {
      NoNightOfDays(w, isNight, n - 1);
      LastShiftOfDays(w, isNight, n - 1);
      NightStep(w, isNight, n, ScanDays(w, isNight, n - 1).lastShift);
    }
  }

  lemma {:induction false} CountsOfDays(w: seq<WeekendDay>, isNight: ShiftType -> bool, n: nat)
    requires n <= |w|
    ensures ScanDays(w, isNight, n).streak == ScanTo(WorkedFlags(w), true, n)
    ensures ScanDays(w, isNight, n).totalWork == CountTrue(WorkedFlags(w), n)
    ensures ScanDays(w, isNight, n).complete <==> forall i :: 0 <= i < n ==> w[i].worked
  {
    if n > 0 {
      CountsOfDays(w, isNight, n - 1);
    }
  }

  /** No weekend day is worked. */
  predicate NoneWorked(w: seq<WeekendDay>)
  {
    forall i :: 0 <= i < |w| ==> !w[i].worked
  }

  /** The six results of calculateWeekends for one employee. */
  datatype WeekendInfo = WeekendInfo(
    total: int,
    consecutiveMin: int,
    consecutiveMax: int,
    isComplete: bool,
    isIdenticalShiftType: bool,
    isNoNightShiftsBeforeWeekend: bool)

  /**
   * What the six results mean over the weekend days w: the total is the number of
   * worked ones; the streak results are those of the run scan over their worked flags;
   * complete holds iff every one is worked; identical holds iff no worked day after the
   * anchor (the first worked day with a known shift type) has another shift type;
   * noNight holds iff no free day follows an anchor on a night shift.
   */
  ghost predicate Summarizes(w: seq<WeekendDay>, isNight: ShiftType -> bool, r: WeekendInfo)
  {
    && r.total == |TruePositions(WorkedFlags(w), |w|)|
    && IsMinFlushed(WorkedFlags(w), true, |w|, r.consecutiveMin)
    && IsMaxFlushed(WorkedFlags(w), true, |w|, r.consecutiveMax)
    && (r.isComplete <==> forall i :: 0 <= i < |w| ==> w[i].worked)
    && (r.isIdenticalShiftType <==> !HasBreak(w, |w|))
    && (r.isNoNightShiftsBeforeWeekend <==> !HasFreeAfterNight(w, isNight, |w|))
  }

  /** The weekend days of the whole assignment cache. */
  function WeekendDaysOf(entries: seq<Assignment>, e: Employee, isWeekendFor: (Date, Contract) -> bool): seq<WeekendDay>
  {
    WeekendDaysUpTo(entries, e, isWeekendFor, |entries|)
  }

  /**
   * calculateWeekends over the employee's assignment cache: the results summarize the
   * weekend days of the cache. The total is at most the number of weekend days, and with
   * no worked weekend day both shift-type flags hold.
   */
  function CalculateWeekends(entries: seq<Assignment>, e: Employee, isWeekendFor: (Date, Contract) -> bool,
                             isNight: ShiftType -> bool): (r: WeekendInfo)
    ensures Summarizes(WeekendDaysOf(entries, e, isWeekendFor), isNight, r)
    ensures 0 <= r.total <= |WeekendDaysOf(entries, e, isWeekendFor)|
    ensures NoneWorked(WeekendDaysOf(entries, e, isWeekendFor)) ==> r.isIdenticalShiftType && r.isNoNightShiftsBeforeWeekend
  {
    var w := WeekendDaysOf(entries, e, isWeekendFor);
    var t := ScanEntries(entries, e, isWeekendFor, isNight, |entries|);
    EntriesAreWeekendDays(entries, e, isWeekendFor, isNight, |entries|);
    CountsOfDays(w, isNight, |w|);
    CountIsCardinality(WorkedFlags(w), |w|);
    ScanDescribes(WorkedFlags(w), true, |w|);
    IdenticalOfDays(w, isNight, |w|);
    NoNightOfDays(w, isNight, |w|);
    WeekendInfo(t.totalWork, t.streak.lastMin, t.streak.lastMax, t.complete, t.identical, t.noNight)
  }
}

=== FILE: wrappers.dfy ===
/** Failure-compatible wrappers used throughout the roster model. */
module Wrappers {

  /** A value that may be absent; `None` plays the role of Java's `null`. */
  datatype Option<+T> = None | Some(value: T)

  /** The kinds of exception the roster engine can raise. */
  datatype Error =
    | NotFeasible      // IndividualNotFeasibleException
    | NullDereference  // NullPointerException
    | OutOfRange       // IndexOutOfBoundsException / ArrayIndexOutOfBoundsException
    | IllegalArgument  // Random.nextInt with a bound that is not positive
    | ParseFailure     // ParseException / NumberFormatException
    | DivisionByZero   // ArithmeticException of an integer division by zero
    | DrawsExhausted   // a retry loop needed more random draws than were supplied
    | NoTermination    // a loop whose exit condition can never become true

  /** The outcome of an operation that may throw. */
  datatype Result<+T> = Success(value: T) | Failure(error: Error)
}
